=== FILE: README.md ===
# TalentLink core, modelled in Dafny

TalentLink is a freelance marketplace. Clients post projects and jobs. Freelancers answer a
project with a proposal and a job with an application. Accepting either creates a contract.
Once both parties have signed it, the contract gets a workspace. In the workspace the parties
keep tasks, log and confirm payments, and mark the engagement complete.

This project models the Django backend that runs this flow and the React pages that feed it.
On the backend side the database is one immutable value, `Store.World`: one map per table plus
the notifications written so far. Each view and signal is a function from a world to a new
world and an HTTP status (`Wrappers.Status`; `Ok` stands for both 200 and 201). On the frontend
side each page's handlers are functions from the form state to the new state or to the payload
sent. The properties proved are the ones the code promises:

- who may act and who sees what;
- one contract per accepted offer, and one workspace per contract;
- each step happens once and repeating it is harmless;
- the figures the workspace and the profile pages report add up;
- what a page lets through agrees with what the server accepts, or where it does not, an input
  that shows the gap.

The modules follow the backend's apps and the frontend's pages:

- `Wrappers`, `Accounts`, `Text`, `Rounding`: shared types, string helpers and the rounding
  rules of Python's `round` and JavaScript's `Math.round`.
- `Permissions`: talentlink/permissions.py.
- `Listings`, `Offers`, `Notices`: projects, jobs, proposals, job applications and notifications.
- `ProposalViews`, `ApplicationViews`: proposals/views.py, jobs/views.py and the notification signals.
- `JobRules`: the job serializer's pricing and attachment rules and the job list filters.
- `ClientCounts`: the client counters kept by projects/signals.py and jobs/signals.py and
  rebuilt by backfill_client_counts.py.
- `Contracts`, `ContractViews`, `Ratings`: contracts/models.py, contracts/views.py and the rating
  signal of contracts/signals.py.
- `Workspaces`, `Tasks`, `Payments`, `WorkspaceViews`, `WorkspaceSummary`: workspaces/models.py,
  workspaces/views.py and workspaces/serializers.py.
- `WorkspaceSignals`: workspaces/signals.py and the `create_missing_workspaces` command.
- `Users`, `Skills`, `Portfolio`: sign-in, registration, profiles, the freelancer directory
  filters, custom skills and portfolio uploads of the users app.
- `SavedItems`, `Messaging`, `HelpCentre`: the saved_items, messaging and helpcentre apps.
- `Store`: the tables and the row inserts.
- `FormFields`, `Dates`, `Locations`, `Progress`, `Phone`: what the pages share: number inputs
  and file lists, the two date pickers, the location search, percentages and colour bands, and
  the phone rule.
- `SignUp`, `Onboarding`, `ProfileCompletion`, `ProfilePage`: signing up, the onboarding wizard,
  profile completion and the freelancer's profile page.
- `JobForms`, `ApplicationForm`: the job and project forms and the job application form.
- `WorkspaceBoard`, `WorkspacePage`: the workspace list and a workspace's page.

Four behaviours of the code a reader may not expect, modelled as written:

- `sign` activates a fully signed contract from any status, even a completed one.
- A user outside a queryset gets 404 before any 403 check runs.
- Completing a workspace completes its contract but never its project or job.
- The accept views create contracts without filling in the client and freelancer columns.

Some page checks differ from the progress bar or from the server next to them. The model states
each gap as a lemma with a concrete input:

- The onboarding title step measures the title as typed, the progress bar trims it
  (`Onboarding.PaddedTitlePassesOnlyTheStep`).
- The onboarding personal step lets an unreadable birthdate through, which the bar never counts
  (`Onboarding.UnreadableBirthdatePassesOnlyTheStep`).
- The sign-up page measures the password as typed, the server trims it first
  (`SignUp.PaddedPasswordPassesOnlyThePage`).
- The job application page takes a bid in steps of 0.01, the server only whole numbers
  (`ApplicationForm.FractionalBidPassesOnlyThePage`).
- The workspace page sends an amount of a thousandth, which the server's two-decimal field
  refuses, and never sends zero, which the server records (`WorkspacePage.PageLooserThanServer`,
  `WorkspacePage.PageStricterThanServer`).

## Model

| member | source | states |
|---|---|---|
| Permissions.IsOwner | backend/talentlink/permissions.py:12-18 | ownership is decided by the `client` attribute when the object has one, else by `user`; an anonymous requester owns nothing |
| Permissions.RolesExclusive | backend/talentlink/permissions.py:4-10 | no requester passes both the client and the freelancer check, and an anonymous one passes neither |
| Permissions.ClientAttributeWins | backend/talentlink/permissions.py:14-17 | an object whose `client` is someone else is not owned by the requester even when its `user` is the requester |
| Offers.SaveCascadesCompared | backend/proposals/models.py:112-127 | the proposal and job-application saves move their listing to in progress on the same status changes |
| ProposalViews.OtherRoleSeesNoProposal | backend/proposals/views.py:16-21 | a user whose role is neither client nor freelancer sees no proposal |
| ProposalViews.SaveProposal | backend/proposals/models.py:112-127 | saving a proposal stores it, moves its project to in progress only when it becomes accepted, and notifies the freelancer only of a change to accepted or rejected; the status tracker entry is cleared |
| ProposalViews.MovedProjects | backend/proposals/models.py:122-125 | only the proposal's own project can change, and only to in progress |
| ProposalViews.ProposalPostSave | backend/notifications/signals.py:77-99 | the freelancer hears of a status change to accepted or rejected once, and the tracker entry is removed |
| ProposalViews.ResaveIsQuiet | backend/notifications/signals.py:36-99 | saving a proposal again without changing it moves no project and notifies nobody |
| ProposalViews.Create | backend/proposals/views.py:23-40 | an unknown project is 404, an invalid form 400, a second proposal by the same user a server error; otherwise one pending proposal is stored and the project's client is notified, and the one-proposal-per-pair constraint is kept |
| ProposalViews.CreateTwiceFails | backend/proposals/views.py:23-40 | once a user's proposal on a project is stored, the same proposal again is a server error and changes nothing |
| ProposalViews.CreateProposalContract | backend/proposals/views.py:42-55 | a contract is inserted for the proposal exactly when none exists, with both parties notified |
| ProposalViews.AddContract | backend/notifications/signals.py:103-148 | inserting a proposal contract notifies its client and freelancer and creates no workspace |
| ProposalViews.UnsignedIsQuiet | backend/workspaces/signals.py:23-26 | the workspace signal does nothing for a contract that is not fully signed |
| ProposalViews.Accept | backend/proposals/views.py:42-55 | only the project's client may accept; the proposal becomes accepted, its project in progress, and one contract is created, or a server error reports the existing one |
| ProposalViews.HasContractKept | backend/proposals/views.py:42-55 | saving a proposal never removes the contract already linked to it |
| ProposalViews.Reject | backend/proposals/views.py:57-64 | only the project's client may reject; the proposal becomes rejected and no contract is created |
| ProposalViews.RejectTwiceIsQuiet | backend/proposals/views.py:57-64 | rejecting a proposal a second time answers success and changes nothing, notifying nobody |
| ProposalViews.AcceptTwiceFails | backend/proposals/views.py:42-55 | accepting the same proposal twice fails the second time on the contract constraint, and leaves exactly the one contract |
| ProposalViews.ResaveAcceptedIsNoop | backend/proposals/models.py:112-127 | re-saving an accepted proposal as accepted changes nothing |
| ApplicationViews.OtherRoleSeesNoApplication | backend/jobs/views.py:137-149 | a user whose role is neither client nor freelancer sees no application |
| ApplicationViews.SaveApplication | backend/jobs/models.py:109-118 | saving an application moves its job to in progress only when it becomes accepted |
| ApplicationViews.MovedJobs | backend/jobs/models.py:109-118 | only the application's own job can change, and only to in progress |
| ApplicationViews.RejectSiblings | backend/jobs/views.py:227-230 | every other pending application to the same job becomes rejected; all other rows are unchanged |
| ApplicationViews.GetOrCreateContract | backend/jobs/views.py:252-263 | afterwards the application has a contract; an existing one is reused and nothing is inserted |
| ApplicationViews.Accept | backend/jobs/views.py:220-265 | only the job's client may accept; the other pending applications are rejected, this one accepted, the freelancer told, and the application ends with exactly one contract |
| ApplicationViews.Reject | backend/jobs/views.py:267-292 | only the job's client may reject; the application becomes rejected and the freelancer is told |
| ApplicationViews.RejectAgainOnlyNotifies | backend/jobs/views.py:267-292 | rejecting an application a second time changes nothing but telling the freelancer again |
| ApplicationViews.Create | backend/jobs/views.py:151-218 | an unknown job is 404; a job that is not open, a repeated application or an invalid form is 400; otherwise one pending application is stored and the client told, and one application per pair is kept |
| ApplicationViews.StoredAttachments | backend/jobs/views.py:190-197 | at most three files are stored, the first ones uploaded |
| ApplicationViews.AcceptTwiceOneContract | backend/jobs/views.py:252-263 | accepting the same application twice leaves it with one contract |
| ApplicationViews.AcceptSettlesSiblings | backend/jobs/views.py:226-233 | after an accept no application to that job is still pending |
| Contracts.NewContract | backend/contracts/models.py:69-72 | a new contract is pending and unsigned |
| Contracts.ActivateIfSigned | backend/contracts/models.py:93-97 | only a fully signed pending contract becomes active; nothing else changes |
| Contracts.ActivateIdempotent | backend/contracts/models.py:93-97 | activating twice is activating once |
| Contracts.SignAs | backend/contracts/views.py:25-37 | the project's client signs the client side, else the proposal's freelancer the freelancer side, else 403; a fully signed contract becomes active |
| Contracts.SignReactivatesCompleted | backend/contracts/views.py:34-35 | `sign` re-activates a completed contract, which `activate_if_signed` would not |
| Contracts.SignOrderIrrelevant | backend/contracts/views.py:25-37 | the two parties may sign in either order with the same result, and the contract is then active |
| Contracts.SignIdempotent | backend/contracts/views.py:25-37 | signing twice is signing once |
| Contracts.AddReview | backend/contracts/models.py:124-131 | a rating outside 1..5 is refused, then a second review by the same reviewer of the same contract; otherwise the review is appended and one review per reviewer is kept |
| ContractViews.ProposalParties | backend/contracts/views.py:18-22 | the contract's parties are the proposal's project client and its freelancer, present exactly when the rows exist |
| ContractViews.JobContractsInvisible | backend/contracts/views.py:18-22 | a job-application contract is never reachable through these endpoints |
| ContractViews.Sign | backend/contracts/views.py:25-37 | a contract outside the queryset is 404; otherwise the user's side is signed, the contract activated once fully signed, and a workspace exists exactly when it is fully signed or already had one; no other contract changes |
| ContractViews.Complete | backend/contracts/views.py:39-44 | any party can complete any contract of theirs, whatever its status; nothing but that contract's status changes, so no workspace is created or removed |
| ContractViews.CompleteTwiceIsNoop | backend/contracts/views.py:39-44 | completing a contract a second time changes nothing, and the completed contract stays reachable by exactly the same users |
| ContractViews.BothSignaturesOpenWorkspace | backend/contracts/views.py:25-37 | after both parties sign, in either order, the contract is active and has exactly one workspace |
| WorkspaceSignals.NoPartiesNoNotes | backend/workspaces/signals.py:48-66 | a contract without recorded parties gets its workspace with no notification |
| WorkspaceSignals.CreateWorkspace | backend/workspaces/signals.py:33-66 | one workspace is added for the contract, the covered contracts grow by exactly it, and one workspace per contract is kept |
| WorkspaceSignals.OnContractSaved | backend/workspaces/signals.py:10-34 | a contract gets a workspace exactly when it is fully signed and active, and never a second one |
| WorkspaceSignals.SaveContract | backend/workspaces/signals.py:10-34 | saving a contract changes only that contract and, at most, adds its workspace |
| WorkspaceSignals.OnContractSavedIdempotent | backend/workspaces/signals.py:18-21 | running the signal twice has the effect of running it once |
| WorkspaceSignals.Missing | backend/workspaces/management/commands/create_missing_workspaces.py:22-28 | the command selects exactly the fully signed active contracts without a workspace |
| WorkspaceSignals.CreateMissingWorkspaces | backend/workspaces/management/commands/create_missing_workspaces.py:38-78 | every selected contract gets a workspace unless its insert fails; created plus errors is the number selected; one workspace per contract is kept and no existing workspace changes; the notifications added are exactly the notices of the contracts that got a workspace, one contract after another and each once, so every recorded party of such a contract is told once about it and nobody else is told |
| WorkspaceSignals.AnnounceStep | backend/workspaces/management/commands/create_missing_workspaces.py:44-72 | a workspace created for one more contract appends that contract's notices, one per recorded party, after those already sent |
| WorkspaceSignals.OnlyPartiesTold | backend/workspaces/management/commands/create_missing_workspaces.py:47-72 | each notification the command adds goes to a party of a contract it created a workspace for, titled "Workspace Created" |
| WorkspaceSignals.Handle | backend/workspaces/management/commands/create_missing_workspaces.py:41-78 | one iteration counts a failed insert as an error and otherwise creates the workspace |
| WorkspaceSignals.SplitCard | backend/workspaces/management/commands/create_missing_workspaces.py:83-85 | the contracts selected are exactly those created plus those that failed |
| Workspaces.NewWorkspace | backend/workspaces/models.py:9-26 | a new workspace is marked by nobody and not completed |
| Workspaces.StampCompletion | backend/workspaces/models.py:49-53 | the completion time is set the first time both parties have marked, and never replaced |
| WorkspaceViews.CheckAndComplete | backend/workspaces/models.py:49-58 | the first time a workspace is fully completed its completion time is recorded and its contract completed |
| WorkspaceViews.CompleteContract | backend/workspaces/models.py:55-58 | the contract becomes completed and no project or job changes |
| WorkspaceViews.CheckAndCompleteOnce | backend/workspaces/models.py:52 | once a workspace has a completion time, checking again changes nothing |
| WorkspaceViews.MarkComplete | backend/workspaces/views.py:37-97 | outside the queryset is 404, a repeated mark 400, a non-party 403; otherwise the user's side is marked, the other party told, and both told when the workspace is fully completed |
| WorkspaceViews.ApplyMark | backend/workspaces/views.py:44-67 | only the user's side is marked, client side first when the user is both |
| WorkspaceViews.NotifyMarked | backend/workspaces/views.py:69-92 | the other party is told, and both parties when the workspace is fully completed |
| WorkspaceViews.MarkTwiceRefused | backend/workspaces/views.py:44-57 | marking the same side twice is refused the second time and changes nothing |
| WorkspaceViews.SecondMarkCompletes | backend/workspaces/views.py:37-92 | after the client and the freelancer have each marked, the workspace is fully completed with a completion time and its contract completed |
| WorkspaceViews.CreateTask | backend/workspaces/serializers.py:486-509 | a non-party, a blank title, a title over 300 characters once trimmed, a status or priority that is not one of the model's choices, or a deadline that does not parse is refused (400) and nothing changes; otherwise the trimmed title is stored with the status sent or todo, the priority sent or medium and the deadline sent, created by the user and assigned to the contract's freelancer, who is told unless they created it |
| WorkspaceViews.CreateTaskKeepsSound | backend/workspaces/models.py:83 | creating a task keeps every stored task on a workspace with a contract, assigned to that contract's freelancer, with a trimmed title of 1 to 300 characters |
| WorkspaceViews.UpdateTaskStatus | backend/workspaces/views.py:187-231 | only the contract's freelancer may change a task (403), only to a known status (400); the task is saved by the model's save rule and completion is announced |
| WorkspaceViews.UpdateTaskStatusKeepsSound | backend/workspaces/views.py:187-231 | changing a task's status keeps every stored task sound in the same sense |
| WorkspaceViews.AddComment | backend/workspaces/views.py:234-273 | an empty comment is 400; otherwise it is stored and the other party told unless it is the commenter |
| WorkspaceViews.AddCommentKeepsSound | backend/workspaces/views.py:234-273 | adding a comment keeps every stored comment on a task its author may see |
| WorkspaceViews.CreatePayment | backend/workspaces/serializers.py:512-528 | only the contract's client may log a payment, and only of an amount that is sent, is a number, is at least zero with at most two decimals and is under 10^8 (400); it is stored pending and unconfirmed, to the contract's freelancer, who is told |
| WorkspaceViews.CreatePaymentKeepsSound | backend/workspaces/models.py:189-193 | logging a payment keeps every stored payment on a workspace with a contract, paid by its client to its freelancer, for an amount the decimal column takes |
| WorkspaceViews.ConfirmReceipt | backend/workspaces/views.py:319-352 | only the recipient may confirm (403), only once (400); the payment becomes confirmed and the payer told |
| WorkspaceViews.ConfirmReceiptKeepsSound | backend/workspaces/views.py:319-352 | confirming a payment keeps every stored payment sound in the same sense |
| WorkspaceViews.ConfirmOnce | backend/workspaces/views.py:332-336 | a second confirmation is refused and changes nothing |
| WorkspaceViews.CreateRequestAsWritten | backend/workspaces/views.py:370-389 | as written, a request with a valid amount from anyone but the contract's freelancer ends in a server error and nothing is stored; a missing workspace or an amount that is missing, not a number or refused by the decimal column is 400 |
| WorkspaceViews.CreateRequest | backend/workspaces/views.py:370-389 | a missing workspace or an amount that is missing, not a number or refused by the decimal column is 400, a user who is not the contract's freelancer 403, both storing nothing; otherwise the request is stored pending and the client told |
| WorkspaceViews.RequestRefusalLost | backend/workspaces/views.py:374-378 | a client asking for a valid payment on their own workspace gets a server error where the intended endpoint answers 403; neither stores anything |
| WorkspaceViews.CreateRequestKeepsSound | backend/workspaces/models.py:262-266 | both the corrected and the as-written request endpoint keep every stored request on a workspace with a contract, for an amount the decimal column takes |
| WorkspaceViews.Decide | backend/workspaces/views.py:391-463 | only the contract's client may decide (403), only a pending request (400); the request is approved or rejected and the freelancer told |
| WorkspaceViews.DecideOnce | backend/workspaces/views.py:404-408 | a decided request can be decided no more |
| Tasks.ParseStatus | backend/workspaces/views.py:203-207 | exactly the four stored spellings are read as statuses |
| Tasks.ParseStatusName | backend/workspaces/views.py:203-207 | every status reads back from its spelling |
| Tasks.ParsePriority | backend/workspaces/models.py:72-76 | exactly the three stored spellings are read as priorities |
| Tasks.ParsePriorityName | backend/workspaces/models.py:72-76 | every priority reads back from its spelling |
| Tasks.SaveTask | backend/workspaces/models.py:133-145 | a completed task keeps or gets a completion time, any other loses it; a late unfinished task becomes overdue; nothing else changes |
| Tasks.SaveTaskIdempotent | backend/workspaces/models.py:133-145 | saving twice at the same moment is saving once |
| Tasks.SaveKeepsCompletionTime | backend/workspaces/models.py:136-137 | the first completion time survives later saves |
| Tasks.SavedOverdueAgrees | backend/workspaces/serializers.py:430-434 | after a save, a task the serializer reports as overdue has the overdue status, and a completed one is never reported overdue |
| Payments.ConfirmPayment | backend/workspaces/models.py:231-239 | the first confirmation sets the flag, the status and the time; a later one changes nothing |
| Payments.ConfirmIdempotent | backend/workspaces/models.py:231-239 | confirming twice is confirming once |
| WorkspaceSummary.TypeOf | backend/workspaces/serializers.py:307-317 | a job-application contract is a job workspace, else a proposal contract a project workspace, else general |
| WorkspaceSummary.TotalAmount | backend/workspaces/serializers.py:355-362 | the amount is the proposal's bid when the proposal exists, else the application's bid, else zero |
| WorkspaceSummary.TypeAndAmountDisagree | backend/workspaces/serializers.py:307-362 | a contract with both links is typed by its application but priced by its proposal |
| WorkspaceSummary.PaidAppend | backend/workspaces/serializers.py:364-367 | the paid amount of two runs of payments is the sum of their paid amounts |
| WorkspaceSummary.PaidPermutation | backend/workspaces/serializers.py:364-367 | the paid amount does not depend on the order of the payments |
| WorkspaceSummary.PaidNonNegative | backend/workspaces/serializers.py:364-367 | with amounts of at least zero, the paid amount is at least zero |
| WorkspaceSummary.Remaining | backend/workspaces/serializers.py:369-373 | the remaining amount is never negative, never above the total, and zero exactly when the paid amount reaches the total |
| WorkspaceSummary.RemainingShrinks | backend/workspaces/serializers.py:369-373 | a further payment never raises the remaining amount |
| WorkspaceSummary.Percentage | backend/workspaces/views.py:129 | the percentage is zero without a positive total, between 0 and 100 while the paid amount is within the total, and exactly 100 when it equals the total |
| WorkspaceSummary.CountTasks | backend/workspaces/serializers.py:343-353 | the completed, pending and overdue counts add up to the total |
| WorkspaceSummary.StatusesPartition | backend/workspaces/serializers.py:343-353 | tasks counted under two disjoint sets of statuses are counted once under their union |
| WorkspaceSummary.Confirmed | backend/workspaces/views.py:111 | the chart reads only confirmed payments of the workspace, in order |
| WorkspaceSummary.PaidOfConfirmed | backend/workspaces/serializers.py:364-367 | only confirmed payments count towards the paid amount |
| WorkspaceSummary.Timeline | backend/workspaces/views.py:111-123 | one chart point per confirmed payment, each carrying the amount paid up to it; the last is the paid amount, and with non-negative amounts the curve never falls |
| WorkspaceSummary.ChartRises | backend/workspaces/views.py:114-117 | with non-negative amounts a later chart point has paid at least as much as an earlier one |
| WorkspaceSummary.PaymentStats | backend/workspaces/views.py:99-132 | a user who is not a party of the workspace gets 404; otherwise the figures are the serializer's total of the workspace's contract and the paid and remaining amounts of the workspace's own payments, the rounded percentage, and one timeline point per confirmed payment in creation order, the last equal to the paid amount |
| WorkspaceSummary.PaidIgnoresTies | backend/workspaces/views.py:111 | any two listings of the workspace's payments, such as two orders of payments created at the same time, give the same paid amount |
| WorkspaceSummary.SoundPaymentsRise | backend/workspaces/models.py:189-193 | when every stored payment has an amount the column takes, the amounts read are at least zero and so is the paid amount |
| Rounding.HalfEven | backend/workspaces/views.py:129 | Python's `round` goes to the nearest integer and sends ties to the even one |
| Rounding.HalfEvenUnique | backend/workspaces/views.py:129 | that rule singles out one integer |
| Rounding.Round2 | backend/workspaces/views.py:129 | `round(x, 2)` is within half a hundredth of `x` and has two decimals |
| Rounding.Round2Exact | backend/workspaces/views.py:129 | a value with two decimals is left as it is |
| Rounding.Round2Between | backend/workspaces/views.py:129 | rounding never crosses a two-decimal bound |
| Text.Trim | frontend/src/components/JobApplicationForm.jsx:32 | trimming removes exactly the leading and trailing whitespace |
| Text.TrimIdempotent | frontend/src/components/JobApplicationForm.jsx:32 | trimming twice is trimming once |
| Text.TrimEmptyIffAllSpace | frontend/src/components/JobApplicationForm.jsx:32 | a value trims to nothing exactly when it is all whitespace |
| Text.NatToString | backend/workspaces/serializers.py:330-331 | `Contract #<id>` writes the id in decimal digits |
| Text.NatToStringRoundTrip | backend/workspaces/serializers.py:330-331 | the digits read back as the id |
| Text.NatToStringInjective | backend/workspaces/serializers.py:330-331 | different contracts get different fallback titles |
| ClientCounts.Recount | backend/projects/signals.py:19-27 | the posted count is every posting of the client, the active count those open or in progress, the completed count the completed ones |
| ClientCounts.ActivePlusCompleted | backend/projects/signals.py:19-27 | active and completed postings together never outnumber the posted ones |
| ClientCounts.OnProjectChanged | backend/projects/signals.py:11-45 | only the project counters of the project's client change, to a fresh count; a client without a profile changes nothing |
| ClientCounts.OnJobChanged | backend/jobs/signals.py:11-45 | only the job counters of the job's client change, to a fresh count; a client without a profile changes nothing |
| ClientCounts.ProjectSaveKeepsConsistent | backend/projects/signals.py:36-39 | counters that agree with the tables still agree after a project is saved and its signal runs |
| ClientCounts.ProjectDeleteKeepsConsistent | backend/projects/signals.py:42-45 | counters that agree with the tables still agree after a project is deleted and its signal runs |
| ClientCounts.JobSaveKeepsConsistent | backend/jobs/signals.py:36-39 | counters that agree with the tables still agree after a job is saved and its signal runs |
| ClientCounts.JobDeleteKeepsConsistent | backend/jobs/signals.py:42-45 | counters that agree with the tables still agree after a job is deleted and its signal runs |
| ClientCounts.Backfill | backend/backfill_client_counts.py:13-37 | every client profile is updated once, the number updated is the number of profiles, and afterwards all six counters of every profile agree with the tables |
| ClientCounts.SignalsAgreeWithBackfill | backend/backfill_client_counts.py:13-37 | once the counters agree with the tables, a signal for any client rewrites the values already stored |
| ApplicationForm.AddFiles | frontend/src/components/JobApplicationForm.jsx:14-22 | a selection that would take the list past three files is refused whole with an error and the list kept; otherwise it is appended |
| ApplicationForm.NeverPastThree | frontend/src/components/JobApplicationForm.jsx:14-26 | starting from at most three files, adding and removing never leave more than three |
| ApplicationForm.Submit | frontend/src/components/JobApplicationForm.jsx:28-59 | a blank cover letter is refused first, then a missing or non-positive bid; otherwise the letter is sent as typed, the bid is positive, and the estimated time is sent exactly when it is not blank |
| ApplicationForm.FractionalBidPassesOnlyThePage | frontend/src/components/JobApplicationForm.jsx:37-47 | a bid of 12.5 passes the page, whose input steps by 0.01, but the server's integer field refuses it |
| ApplicationForm.EstimateIsOptional | frontend/src/components/JobApplicationForm.jsx:42-52 | the estimated time never decides whether the form is sent |
| FormFields.Without | frontend/src/components/JobApplicationForm.jsx:24-26 | removing by position drops exactly the entry at that position, and a position outside the list removes nothing |
| FormFields.Capped | frontend/src/pages/PostJob.jsx:25 | the files already held are kept first and the newly picked ones fill the room left up to the cap |
| FormFields.CappedStable | frontend/src/pages/EditJob.jsx:72 | picking nothing keeps a list that is within the cap |
| Dates.Pad | frontend/src/components/CalendarInput.jsx:5 | the padded number is all digits and reads back as the number; below 100 it has exactly two characters |
| Dates.DaysIn | frontend/src/components/CalendarInput.jsx:54 | every month has 28 to 31 days |
| Dates.DayZeroIsMonthEnd | frontend/src/components/CalendarInput.jsx:54 | `new Date(y, m + 1, 0)` is the last day of month `m`, so `getDate()` gives the month's length |
| Dates.Walk | frontend/src/components/CalendarInput.jsx:12 | normalising a day that falls outside its month always lands on a real date, and a day within the month is kept as it is |
| Dates.MakeDate | frontend/src/components/CalendarInput.jsx:12 | `new Date(y, mo, d)` always reports a real date |
| Dates.MakeDateExact | frontend/src/components/CalendarInput.jsx:12-13 | the constructed date reports the year, month and day it was given exactly when they name a real day of a year outside 0..99 |
| Dates.MatchYMDShape | frontend/src/components/CalendarInput.jsx:9 | the pattern matches exactly four digits, a hyphen, one or two digits, a hyphen and one or two digits |
| Dates.ParseYMD | frontend/src/components/CalendarInput.jsx:6-14 | a parsed date is a real day of a year from 100 to 9999 |
| Dates.ParseOfMatch | frontend/src/components/CalendarInput.jsx:11-13 | once the pattern matches, the value is kept exactly when it names a real day of a year from 100 on, and then it is that day |
| Dates.NoThirtiethOfFebruary | frontend/src/components/CalendarInput.jsx:12-13 | February the thirtieth of any four-digit year is refused, since the constructor rolls it into March |
| Dates.PickDay | frontend/src/components/CalendarInput.jsx:66-71 | an empty cell emits nothing and a day emits a value |
| Dates.PickDayRoundTrip | frontend/src/components/CalendarInput.jsx:66-71 | what the day picker emits for a four-digit year parses back as the day picked |
| Dates.ShortYearDoesNotRoundTrip | frontend/src/components/CalendarInput.jsx:68 | for a year below 1000 the emitted value has a short year and does not parse back |
| Dates.Padding | frontend/src/components/CalendarInput.jsx:62 | fewer than seven trailing cells are added, and they complete the last week |
| Dates.MonthGrid | frontend/src/components/CalendarInput.jsx:51-64 | the grid is the leading empty cells, the days of the month in order, then empty cells up to whole weeks |
| Dates.GridLayout | frontend/src/components/CalendarInput.jsx:56-63 | the grid is whole weeks with less than a week of padding; a cell holds a day exactly within the month's span, and that day sits in its weekday's column |
| Dates.EveryDayHasACell | frontend/src/components/CalendarInput.jsx:60 | each day of the month has its own cell |
| Dates.PrevMonth | frontend/src/components/CalendarInput.jsx:117 | the previous-month button moves the view back exactly one month, from January to December of the year before |
| Dates.NextMonth | frontend/src/components/CalendarInput.jsx:142 | the next-month button moves the view on exactly one month, from December to January of the next year |
| Dates.PrevNextInverse | frontend/src/components/CalendarInput.jsx:117-142 | the previous-month and next-month buttons undo each other |
| Dates.ParseYM | frontend/src/components/MonthYearInput.jsx:6-13 | a parsed month is between 1 and 12 |
| Dates.PickMonthRoundTrip | frontend/src/components/MonthYearInput.jsx:44-47 | what the month picker emits for a four-digit year parses back as the year and month picked |
| HelpCentre.AnyIn | backend/helpcentre/views.py:39 | the scan finds a word exactly when some listed word occurs in the question |
| HelpCentre.Ask | backend/helpcentre/views.py:23-151 | a missing or empty question is the only 400; an off-topic question gets the refusal exactly when it is sent; the model's text is returned only when the engine is installed, the key is set and the text is not empty |
| HelpCentre.OffTopicNeverReachesTheModel | backend/helpcentre/views.py:39-42 | an off-topic question gets the refusal whatever the configuration and whatever the model would answer |
| HelpCentre.KeywordPasses | backend/helpcentre/views.py:28-39 | a question containing any keyword, in any letter case, passes the gate |
| HelpCentre.ThisIsOnTopic | backend/helpcentre/views.py:34-39 | the keyword "hi" matches inside other words, so the question "this" passes the gate |
| JobForms.CheckPricing | frontend/src/pages/PostJob.jsx:37-54 | an hourly job needs both rates and a minimum below the maximum, a fixed job a positive amount; each refusal is reported exactly when its condition holds, and another job type is not checked |
| JobForms.PricingPayload | frontend/src/pages/PostJob.jsx:65-70 | an hourly job sends its two rates and any other job its fixed amount, as typed |
| JobForms.PayloadIgnoresOtherType | frontend/src/pages/PostJob.jsx:65-70 | whatever the hidden fields of the other pricing type hold, the form data is the same |
| JobForms.ClientChecksMatchServer | frontend/src/pages/PostJob.jsx:37-70 | a new hourly or fixed job with whole positive amounts that passes the page's checks passes the server's pricing validation too |
| JobForms.ZeroMinimumPassesOnlyTheHandler | frontend/src/pages/PostJob.jsx:37-47 | an hourly minimum of zero passes `handleSubmit`'s own check and the server refuses the job for want of an hourly rate; the input's `min="50"` stops it before `handleSubmit` runs |
| JobForms.OnStepWhole | frontend/src/pages/PostJob.jsx:199-202 | a value that passes an input's `min` and `step` of the same size is a positive whole number at least that size |
| JobForms.SubmittedJobPassesServer | frontend/src/pages/PostJob.jsx:109-230 | every new hourly or fixed job that gets past the inputs' `required`, `min` and `step` constraints and `handleSubmit`'s checks passes the server's pricing validation |
| JobForms.OnlyOwnerEdits | frontend/src/pages/EditJob.jsx:41-45 | only the client who posted the job may edit it; any other user, or nobody signed in, is sent away |
| JobForms.PickFiles | frontend/src/pages/EditProject.jsx:311-315 | the form never holds more than two files, and the files held before a pick stay in front |
| JobForms.PickKeepsHeld | frontend/src/pages/EditJob.jsx:69-73 | a file held before a pick is never the one the cap drops |
| JobForms.ValidateProject | frontend/src/pages/EditProject.jsx:321-343 | a blank title is reported first; the form passes exactly when title and description are filled, a skill is chosen, the pricing of its type is valid and at most two files are attached |
| JobForms.FileCheckNeverFires | frontend/src/pages/EditProject.jsx:311-341 | since the file list only changes by the pick and remove buttons, the two-file check never refuses the form |
| JobForms.ProjectBudget | frontend/src/pages/EditProject.jsx:365-374 | an hourly project sends its rate range as the budget, any other project its fixed payment as both ends |
| JobForms.ValidBudgetOrdered | frontend/src/pages/EditProject.jsx:321-374 | a project that passes the checks sends a budget whose ends are numbers with a positive maximum, a single point for a fixed price and a proper range for an hourly rate |
| JobForms.SkillIds | frontend/src/pages/EditProject.jsx:360-363 | exactly the ids of the selected skills are sent, those without an id skipped |
| JobForms.MatchingGroups | frontend/src/pages/EditProject.jsx:118-123 | each group kept is non-empty and holds only matching items, and every matching item is kept under its group's name |
| JobForms.FilterCategories | frontend/src/pages/EditProject.jsx:115-124 | a blank search term shows every group; otherwise each group shown is non-empty and holds only items containing the trimmed lower-case term |
| JobForms.SearchLosesNoMatch | frontend/src/pages/EditProject.jsx:115-124 | every item containing a non-blank term is still offered under its own group's name |
| JobRules.Validate | backend/jobs/serializers.py:41-76 | a negative amount is refused first; an hourly job passes only with a non-zero minimum below the maximum and a fixed job only with a positive amount, each read from the form, else from the stored job on an update; the accepted form carries the amounts the check read |
| JobRules.PartialUpdateIsFullForm | backend/jobs/serializers.py:42-72 | an update that leaves fields out is judged exactly like a full form carrying the stored values in their place |
| JobRules.FixedIgnoresHourly | backend/jobs/serializers.py:64-74 | a fixed-price job is judged on its amount alone, whatever non-negative hourly rates it carries |
| JobRules.StoredFiles | backend/jobs/serializers.py:82-83 | at most the first two uploaded files are stored, and all of them when there are no more than two |
| JobRules.CapIsPerRequest | backend/jobs/serializers.py:99-100 | the two-file cap holds per request, so a create followed by an update can leave four attachments |
| JobRules.TruncateBid | backend/jobs/serializers.py:148-151 | `int()` of a number truncates toward zero: the whole part of a positive number, the part above it of a negative one |
| JobRules.ReadBid | backend/jobs/models.py:93 | the integer field takes a bid exactly when it is a whole number of at least zero, and reads it as that number |
| JobRules.ValidatedBidKept | backend/jobs/serializers.py:148-151 | on every bid the field lets through, the `int()` in `validate` changes nothing |
| JobRules.Pieces | backend/jobs/views.py:56 | the pieces kept are non-empty and already stripped |
| JobRules.CommaList | backend/jobs/views.py:54-58 | a blank parameter applies no filter; otherwise the filter is at least one non-empty stripped piece without a comma |
| JobRules.CommaListRoundTrip | backend/jobs/views.py:54-58 | a list of clean values joined with commas is read back as exactly that list |
| JobRules.ListJobs | backend/jobs/views.py:36-108 | a job is listed exactly when it is public, has the requested status if one is given, and lies in every comma list that applies |
| JobRules.BlankQueryListsPublic | backend/jobs/views.py:36-108 | blank parameters, or ones of only commas and spaces, list every public job and nothing else |
| JobRules.Destroy | backend/jobs/views.py:125-129 | a job outside the public queryset, unknown or private, is 404 and a user who is not its client 403, both leaving the jobs as they were; otherwise exactly that job is deleted |
| JobRules.PrivateJobStays | backend/jobs/views.py:36-37 | a private job cannot be deleted through the endpoint, even by its client |
| JobRules.DestroyOnce | backend/jobs/views.py:125-129 | a deletion removes exactly the one job, keeps the others, and a second deletion of it is 404 |
| JobRules.OnlyClientDestroys | backend/jobs/views.py:127-128 | no one but its client can remove a job |
| Locations.MatchesContain | frontend/src/components/LocationSelectLite.jsx:8-13 | every hit is a location of the list whose lower-case form contains the query |
| Locations.Collect | frontend/src/components/LocationSelectLite.jsx:7-16 | the scan keeps the hits in list order and stops right after the one that takes their number past three times the limit |
| Locations.Insert | frontend/src/components/LocationSelectLite.jsx:17 | inserting adds exactly the one hit, in front of the first hit that scores at least as much |
| Locations.InsertSorted | frontend/src/components/LocationSelectLite.jsx:17 | inserting into a list sorted by score keeps it sorted |
| Locations.Sort | frontend/src/components/LocationSelectLite.jsx:17 | the sort returns the same hits, ascending by score |
| Locations.SortStable | frontend/src/components/LocationSelectLite.jsx:17 | hits with equal scores keep their list order |
| Locations.FilterLocations | frontend/src/components/LocationSelectLite.jsx:4-19 | a blank query finds nothing; otherwise the locations returned are the `limit` lowest-scoring hits the scan collected, or all of them when fewer, lowest score first, each containing the query |
| Locations.Rank | frontend/src/components/LocationSelectLite.jsx:7-18 | the shown hits are sorted and number `limit`, or all the collected hits when fewer; together with the hits left out they make up the collected hits, and none left out scores below one shown |
| Locations.Pool | frontend/src/components/LocationSelectLite.jsx:7-16 | the collected hits are the first matches, as many as there are up to three times the limit plus one |
| Locations.CutIsLowest | frontend/src/components/LocationSelectLite.jsx:17-18 | the first hits of the sorted collection are a lowest-scoring part of it |
| Locations.CutKeepsBest | frontend/src/components/LocationSelectLite.jsx:18 | no hit left out by the cut scores below a hit shown |
| Locations.ScoreOrder | frontend/src/components/LocationSelectLite.jsx:12 | an earlier match ranks ahead unless the names differ in length by 200 or more, and at the same position the shorter name ranks ahead |
| Locations.LongNameRanksLower | frontend/src/components/LocationSelectLite.jsx:12 | a 250-character name matching at its start ranks below a three-character name matching at its second character |
| Messaging.Visible | backend/messaging/views.py:16-18 | a user sees exactly the messages they sent or received |
| Messaging.Conversations | backend/messaging/views.py:27-40 | the people listed are exactly the other parties of the user's messages, each once |
| Messaging.PartnersSymmetric | backend/messaging/views.py:27-40 | conversations are mutual: one user lists another exactly when the other lists them |
| Messaging.SelfPartnerIffSelfMessage | backend/messaging/views.py:33-37 | a user is among their own conversations exactly when they once messaged themselves |
| Messaging.Between | backend/messaging/views.py:45-47 | the thread holds exactly the messages going either way between the two users |
| Messaging.InsertByTime | backend/messaging/views.py:48 | inserting into a chronological list keeps it chronological |
| Messaging.InsertByTimeAdds | backend/messaging/views.py:48 | inserting adds exactly the one message |
| Messaging.SortByTime | backend/messaging/views.py:48 | ordering by creation time yields a chronological list |
| Messaging.SortByTimePermutes | backend/messaging/views.py:48 | ordering keeps exactly the same messages |
| Messaging.SortedIsKept | backend/messaging/views.py:48 | ordering a list that is already chronological changes nothing |
| Messaging.WithUser | backend/messaging/views.py:42-50 | the thread is chronological and holds exactly the messages between the two users; without a `user_id` it is empty |
| Messaging.WithUserSymmetric | backend/messaging/views.py:42-50 | both sides of a conversation see the same thread |
| Messaging.ThreadIsVisible | backend/messaging/views.py:45 | every message of a thread is in the queryset of both its users |
| Messaging.MessageNote | backend/notifications/signals.py:11-33 | a new message notifies its recipient once, of the message kind, unless they sent it to themselves; an update notifies nobody |
| Messaging.Create | backend/messaging/views.py:20-25 | an unknown recipient or blank content is 400 and changes nothing; otherwise one message is appended as sent by the requesting user with the stripped content, and the recipient is notified |
| Messaging.SentIsDelivered | backend/messaging/views.py:16-48 | a sent message is visible to both users and in their thread, and each lists the other among their conversations |
| Onboarding.CountTrue | frontend/src/pages/OnboardingWizard.jsx:212 | the count of complete sections reaches the number of sections exactly when all are complete, and is zero exactly when none is |
| Onboarding.ProgressOf | frontend/src/pages/OnboardingWizard.jsx:113-215 | the bar reads 0 to 100; it reads 100 exactly when all nine sections are complete and 0 exactly when none is |
| Onboarding.EightOfNine | frontend/src/pages/OnboardingWizard.jsx:212-214 | eight complete sections out of nine read as 89 |
| Onboarding.CheckCategory | frontend/src/pages/OnboardingWizard.jsx:222-226 | the category step passes exactly when the category section is complete |
| Onboarding.CheckSkills | frontend/src/pages/OnboardingWizard.jsx:227-230 | the skills step passes exactly when there are one to twenty skills |
| Onboarding.CheckTitle | frontend/src/pages/OnboardingWizard.jsx:231-236 | the title step passes exactly when the title is not blank, is at least five characters as typed, and the rate is a number in (0, 50000] |
| Onboarding.CheckLanguages | frontend/src/pages/OnboardingWizard.jsx:237-250 | the languages step passes exactly when some language is named |
| Onboarding.CheckBio | frontend/src/pages/OnboardingWizard.jsx:252-254 | the bio step passes exactly when the bio has at most 2000 characters |
| Onboarding.CheckPersonal | frontend/src/pages/OnboardingWizard.jsx:255-265 | the personal step passes exactly when the phone is valid, a birthdate is given and, when readable, gives an age from 16 to 100, and a location is given |
| Onboarding.CheckFiles | frontend/src/pages/OnboardingWizard.jsx:266-271 | the portfolio step passes exactly when there are at most five files and none is over 10 MB |
| Onboarding.Validate | frontend/src/pages/OnboardingWizard.jsx:219-275 | the steps without a check, and the first and fifth, always pass; a passed title step has a long enough title and a valid rate, a passed personal step a valid phone and a location |
| Onboarding.StepAgreesWithSection | frontend/src/pages/OnboardingWizard.jsx:222-250 | the category and skills steps pass exactly when their sections are complete, and so does the languages step once it has been shown |
| Onboarding.TitleSectionPassesStep | frontend/src/pages/OnboardingWizard.jsx:144-153 | a complete title section always passes the title step |
| Onboarding.BioSectionPassesStep | frontend/src/pages/OnboardingWizard.jsx:174-180 | a complete bio section always passes the bio step |
| Onboarding.PersonalStepAgrees | frontend/src/pages/OnboardingWizard.jsx:255-265 | with a readable birthdate the personal step passes exactly when the personal section is complete |
| Onboarding.PaddedTitlePassesOnlyTheStep | frontend/src/pages/OnboardingWizard.jsx:232-233 | the step measures the title as typed while the bar trims it, so "ab" followed by three spaces passes the step yet leaves its section incomplete |
| Onboarding.UnreadableBirthdatePassesOnlyTheStep | frontend/src/pages/OnboardingWizard.jsx:258-263 | an unreadable birthdate never completes the personal section, yet the step lets it through whenever phone and location are fine |
| Onboarding.Step | frontend/src/pages/OnboardingWizard.jsx:277-282 | `next` moves on one step exactly when the check passed and a step remains, `back` moves back one step but not below the first, `skip` moves on only from a skippable step; otherwise the step stays |
| Onboarding.RequiredStepsNeedTheCheck | frontend/src/pages/OnboardingWizard.jsx:277-282 | getting past a required step takes a `next` whose check passed while on that step |
| Onboarding.AddLanguage | frontend/src/pages/OnboardingWizard.jsx:305 | adding appends one blank language and keeps the others |
| Onboarding.RemoveLanguage | frontend/src/pages/OnboardingWizard.jsx:307 | with more than one language the one at the position goes; the last language never goes |
| Onboarding.LanguagesNeverEmpty | frontend/src/pages/OnboardingWizard.jsx:305-307 | starting from one language, no sequence of adds and removes empties the list |
| Onboarding.BeforeIrreflexive | frontend/src/pages/OnboardingWizard.jsx:289 | no date string comes before itself |
| Onboarding.BeforeTransitive | frontend/src/pages/OnboardingWizard.jsx:289 | the string order used for dates is transitive |
| Onboarding.AddExperience | frontend/src/pages/OnboardingWizard.jsx:285-292 | a blank title, then a blank company, then a past role ending before it starts, is refused, each exactly when its condition holds; otherwise the entry is appended as typed with the current time as id and the draft cleared |
| Onboarding.AddKeepsSound | frontend/src/pages/OnboardingWizard.jsx:285-292 | adding keeps every stored experience sound: titled, with a company, and with dates in order |
| Onboarding.RemoveKeepsSound | frontend/src/pages/OnboardingWizard.jsx:293 | removing experiences keeps every stored one sound |
| Onboarding.AddEducation | frontend/src/pages/OnboardingWizard.jsx:296-302 | a blank degree, then a blank institution, is refused exactly when it is blank; otherwise the entry is appended as typed and the draft cleared |
| Onboarding.EntryCompletesSection | frontend/src/pages/OnboardingWizard.jsx:155-161 | one accepted education entry completes the experience and education section |
| Onboarding.Small | frontend/src/pages/OnboardingWizard.jsx:327-330 | the files kept are all at most 10 MB, and all are kept exactly when none is larger |
| Onboarding.AddPortfolioFiles | frontend/src/pages/OnboardingWizard.jsx:323-332 | a selection larger than the room left under five files is refused whole; otherwise the files over 10 MB are dropped with an error, exactly when there is one, and the rest appended |
| Onboarding.PortfolioStaysValid | frontend/src/pages/OnboardingWizard.jsx:323-333 | files that pass the portfolio step still pass it after any pick and any removal |
| Phone.CleanedHasNoSeparators | frontend/src/pages/OnboardingWizard.jsx:187 | no whitespace, bracket or hyphen is left in the cleaned number |
| Phone.CleanedKeepsPlainNumber | frontend/src/pages/OnboardingWizard.jsx:187 | a number without separators is checked exactly as typed |
| Phone.CleanedConcat | frontend/src/pages/OnboardingWizard.jsx:187 | cleaning works character by character |
| Phone.CleanedIgnoresSeparators | frontend/src/pages/OnboardingWizard.jsx:257 | adding a separator anywhere in a number never changes whether it is accepted |
| Phone.PhoneLength | frontend/src/pages/OnboardingWizard.jsx:188 | an accepted number has ten to sixteen characters once cleaned |
| Progress.BandOf | frontend/src/api/profileCompletionUtils.js:138-142 | 80 and above is green, below 50 red, and the rest yellow |
| Progress.BandMonotone | frontend/src/pages/Workspace.jsx:51-55 | a higher percentage never shows a worse colour |
| Progress.Percent | frontend/src/pages/Workspace.jsx:57-60 | an empty whole reads 0; otherwise the result is the share in percent rounded to the nearest integer |
| Progress.JsRoundMonotone | frontend/src/pages/Workspace.jsx:59 | rounding never decreases as its argument grows |
| Progress.PercentBounds | frontend/src/pages/Workspace.jsx:62-65 | a part within a positive whole reads 0 to 100, and more of it never reads less |
| Progress.PercentWithin | frontend/src/pages/Workspace.jsx:57-60 | a part within the whole reads 0 to 100, an empty whole included |
| Progress.PercentFull | frontend/src/api/profileCompletionUtils.js:104 | 100 is shown exactly when the part is at least 99.5% of the whole |
| Progress.PercentEmpty | frontend/src/api/profileCompletionUtils.js:104 | 0 is shown exactly when the part is under 0.5% of the whole |
| Progress.PercentNotCapped | frontend/src/pages/Workspace.jsx:62-65 | nothing caps the value: a part well beyond the whole reads above 100 |
| Rounding.JsRound | frontend/src/pages/Workspace.jsx:59 | `Math.round` is within half of its argument, ties going up |
| Rounding.JsRoundUnique | frontend/src/pages/Workspace.jsx:59 | that bound singles out one integer |
| ProfileCompletion.Checks | frontend/src/api/profileCompletionUtils.js:21-100 | there are thirteen checks with the fixed keys, the first four basic and the next four professional |
| ProfileCompletion.Done | frontend/src/api/profileCompletionUtils.js:103 | the count reaches the number of checks exactly when all pass, and is zero exactly when none does |
| ProfileCompletion.MissingNames | frontend/src/api/profileCompletionUtils.js:107-109 | a caption is listed exactly when a check with that caption fails |
| ProfileCompletion.DoneAndMissing | frontend/src/api/profileCompletionUtils.js:102-109 | every check is either counted as complete or listed as missing |
| ProfileCompletion.Calculate | frontend/src/api/profileCompletionUtils.js:8-133 | a missing profile gives the empty result with a total of 11; otherwise the total is 13, completed plus missing make 13, the percentage is 0 to 100, and the `checks` member is built from the thirteen checks |
| ProfileCompletion.CheckMap | frontend/src/api/profileCompletionUtils.js:128-131 | the object has a member for exactly the keys of the checks |
| ProfileCompletion.CheckMapOfDistinct | frontend/src/api/profileCompletionUtils.js:128-131 | with distinct keys each member holds the outcome of its own check |
| ProfileCompletion.CalculateChecks | frontend/src/api/profileCompletionUtils.js:122-132 | the `checks` member holds exactly the thirteen keys, each with its check's outcome |
| ProfileCompletion.FullAndEmpty | frontend/src/api/profileCompletionUtils.js:102-109 | the percentage reads 100 exactly when every check passes, which is exactly when nothing is missing, and 0 exactly when none passes |
| ProfileCompletion.FullPassesSections | frontend/src/api/profileCompletionUtils.js:112-120 | a complete profile passes every section flag |
| ProfileCompletion.DoneMonotone | frontend/src/api/profileCompletionUtils.js:103 | passing more checks never counts fewer |
| ProfileCompletion.MoreFilledNeverLower | frontend/src/api/profileCompletionUtils.js:102-104 | filling in more of the profile never lowers the percentage nor loses the green colour |
| ProfileCompletion.MissingProfileTotal | frontend/src/api/profileCompletionUtils.js:9-11 | a missing profile reports a total of 11, while a present one always has 13 checks |
| ProfileCompletion.MessageOf | frontend/src/api/profileCompletionUtils.js:147-152 | the complete message shows exactly at 100 and the prompt to start exactly below 50 |
| ProfileCompletion.MessageMatchesColour | frontend/src/api/profileCompletionUtils.js:138-152 | the message and the colour agree: complete and almost-there on green, good progress on yellow, the prompt on red |
| WorkspaceBoard.Shown | frontend/src/pages/Workspace.jsx:45-49 | the active tab shows the workspaces with an active contract, the completed tab the fully completed ones, any other tab all of them |
| WorkspaceBoard.AllTabShowsEverything | frontend/src/pages/Workspace.jsx:45-49 | any tab other than active and completed shows every workspace in order |
| WorkspaceBoard.TabsWithinAll | frontend/src/pages/Workspace.jsx:45-49 | the two narrower tabs never show a workspace the all tab does not |
| WorkspaceBoard.TaskPercent | frontend/src/pages/Workspace.jsx:57-60 | with no more completed tasks than tasks the bar reads 0 to 100 |
| WorkspaceBoard.PaymentPercent | frontend/src/pages/Workspace.jsx:62-65 | with a paid amount within the total the bar reads 0 to 100 |
| WorkspaceBoard.TaskBarFull | frontend/src/pages/Workspace.jsx:57-60 | below 200 tasks the task bar is full exactly when every task is done |
| WorkspaceBoard.TaskBarRoundsUp | frontend/src/pages/Workspace.jsx:59 | 199 tasks done of 200 already read as 100 |
| WorkspaceBoard.PaymentBarNotCapped | frontend/src/pages/Workspace.jsx:62-65 | payments beyond the agreed amount read past 100 and colour the bar green |
| WorkspaceBoard.MorePaidNeverLower | frontend/src/pages/Workspace.jsx:51-65 | paying more never lowers the payment bar nor loses its green colour |
| WorkspaceBoard.TaskBarEmpty | frontend/src/pages/Workspace.jsx:57-60 | a board with no tasks reads 0, and so does one with tasks but none done |
| Portfolio.AcceptedBounds | backend/users/views.py:364-383 | as many small files are stored as there are, up to the room left, each drawn from the request and at most 10 MB |
| Portfolio.AllSmallFilesFit | backend/users/views.py:364-383 | when the small files of a request fit, every one of them is stored |
| Portfolio.NeverPastCap | backend/users/views.py:353-383 | the endpoint never takes a portfolio past five files and adds nothing over 10 MB |
| Portfolio.UploadPortfolio | backend/users/views.py:338-405 | no freelancer profile is 404 and a full portfolio 400, both storing nothing; otherwise the files stored are the accepted ones, each other file is reported skipped, and the request fails with 400 exactly when files were sent and none was stored |
| ProfilePage.AddExperience | frontend/src/pages/FreelancerProfile.jsx:353-375 | a blank title or company changes nothing; otherwise the entry, trimmed, goes at the end and the draft is cleared |
| ProfilePage.StoredExperienceClean | frontend/src/pages/FreelancerProfile.jsx:353-375 | a stored entry's title and company are not blank and are already trimmed |
| ProfilePage.AddEducation | frontend/src/pages/FreelancerProfile.jsx:464-483 | a blank degree or institution changes nothing; otherwise the entry, trimmed, goes at the end and the draft is cleared |
| ProfilePage.SecondAddIgnored | frontend/src/pages/FreelancerProfile.jsx:464-483 | pressing "Add" again on the cleared draft changes nothing |
| ProfilePage.RemoveById | frontend/src/pages/FreelancerProfile.jsx:404-410 | the entries left are exactly the entries whose id differs |
| ProfilePage.RemoveCount | frontend/src/pages/FreelancerProfile.jsx:510-514 | removing deletes one entry per occurrence of the id |
| ProfilePage.RemoveTwice | frontend/src/pages/FreelancerProfile.jsx:404-410 | after a removal no entry carries the id, so a second removal changes nothing |
| ProfilePage.RemoveOneExperience | frontend/src/pages/FreelancerProfile.jsx:404-410 | with distinct ids, removing a present id deletes exactly one entry |
| ProfilePage.UploadMore | frontend/src/pages/FreelancerProfile.jsx:73-87 | no selection leaves the list; otherwise the uploaded files come first, then the files shown before, five at most |
| ProfilePage.UploadDropsFromTheEnd | frontend/src/pages/FreelancerProfile.jsx:81 | the newest upload is on top and the files kept from before are the first ones shown, so the oldest go |
| SignUp.Username | frontend/src/pages/SignUp.jsx:24-28 | the username has no `@`; it is the whole email when there is none, else the email up to its first `@` |
| SignUp.UsernameIsPrefix | frontend/src/pages/SignUp.jsx:26 | the username is a prefix of the email, followed by `@` whenever it is shorter |
| SignUp.CheckPasswords | frontend/src/pages/SignUp.jsx:36-45 | differing passwords are a mismatch; equal ones under eight characters too short; only equal ones of eight or more pass |
| SignUp.MismatchReportedFirst | frontend/src/pages/SignUp.jsx:36-45 | two short passwords that differ are reported as a mismatch |
| SignUp.PageChecksMeetServer | frontend/src/pages/SignUp.jsx:36-58 | passwords that pass the page and carry no surrounding whitespace meet none of the server's password errors |
| SignUp.PaddedPasswordPassesOnlyThePage | frontend/src/pages/SignUp.jsx:41-58 | eight characters with a space at each end pass the page, but the server trims them to six and refuses them |
| SignUp.Route | frontend/src/pages/SignUp.jsx:72-77 | with a non-empty reported role the member goes to onboarding exactly when that role is freelancer; without one, exactly when the form's role is freelancer |
| SignUp.ReportedRoleWins | frontend/src/pages/SignUp.jsx:72 | a non-empty reported role decides whatever the form's role, so a reported client goes to the dashboard; a missing or empty one leaves the decision to the form |
| SavedItems.IsSaved | backend/saved_items/views.py:53-61 | `check` answers yes exactly when a row holds the user and the posting |
| SavedItems.Listing | backend/saved_items/views.py:18-21 | the list holds exactly the user's own rows |
| SavedItems.Save | backend/saved_items/serializers.py:9-30 | a missing posting id is 400; two rows for the pair, or a new pair naming no posting, a server error; otherwise the pair is saved afterwards, a row already there is returned and a new one inserted under the next key |
| SavedItems.Unsave | backend/saved_items/views.py:34-51 | no row for the pair is 404; otherwise the one row of the pair is deleted and nothing else |
| SavedItems.SaveKeepsUnique | backend/saved_items/models.py:22-23 | saving never stores a pair twice |
| SavedItems.SaveIdempotent | backend/saved_items/serializers.py:25-28 | saving twice is saving once |
| SavedItems.CheckAfterSaveAndUnsave | backend/saved_items/views.py:34-61 | after a successful save `check` answers yes, after a successful unsave no |
| SavedItems.OthersUnaffected | backend/saved_items/views.py:18-61 | saving and unsaving never change what another user has saved or lists |
| Ratings.Average | backend/contracts/signals.py:20-32 | the written value has two decimals; it is 0 when no verified platform review is about the user, and otherwise within half a hundredth of the mean of their ratings |
| Ratings.TallyAppend | backend/contracts/signals.py:21-25 | the reviews counted in two parts of the table are those counted in the whole, and their ratings add up |
| Ratings.TallyPermutation | backend/contracts/signals.py:21-25 | the count and the sum do not depend on the order of the rows |
| Ratings.AveragePermutation | backend/contracts/signals.py:21-32 | the average does not depend on the order of the rows |
| Ratings.AverageInRange | backend/contracts/signals.py:20-32 | with ratings in 1..5, a user with a counted review gets an average from 1 to 5 even after rounding |
| Ratings.OnReviewChanged | backend/contracts/signals.py:6-33 | the reviewee's stored average becomes the recomputed one and no other user's changes |
| Ratings.SaveKeepsConsistent | backend/contracts/signals.py:6-33 | after a review is created and the signal runs, every stored average agrees with the table |
| Ratings.DeleteKeepsConsistent | backend/contracts/signals.py:7-33 | after a review is deleted and the signal runs, every stored average agrees with the table |
| Ratings.UpdateKeepsConsistent | backend/contracts/signals.py:6-33 | after a review is edited without changing its reviewee and the signal runs, every stored average agrees with the table |
| Ratings.TestimonialChangesNothing | backend/contracts/signals.py:20-25 | an unverified review or an external testimonial leaves every stored average as it was |
| Skills.CandidateInjective | backend/users/views.py:500-504 | different rounds of the loop try different slugs |
| Skills.FirstFreeUnique | backend/users/views.py:500-504 | the first free slug is unique |
| Skills.UniqueSlug | backend/users/views.py:500-504 | the loop ends with an unused slug, and every slug it tried before was in use |
| Skills.FirstNamed | backend/users/views.py:489 | the skill found has the name in some letter case and no earlier skill has; nothing is found exactly when no skill has it |
| Skills.CreateCustom | backend/users/views.py:467-511 | a blank name, a one-character name and one over fifty characters are refused, each exactly when it holds; an existing name in any case returns that skill and adds nothing; otherwise a skill named as trimmed is appended with the first free slug |
| Skills.CreatedKeepsCatalogue | backend/users/models.py:26-28 | a created skill keeps the names and the slugs of the catalogue unique |
| Skills.AskingAgainFindsIt | backend/users/views.py:489-494 | asking again for a name just created, in any case, finds the new skill |
| Users.Holders | backend/users/serializers.py:38-39 | the ids listed are exactly those of the accounts with the email |
| Users.HoldersOfUnique | backend/users/models.py:11 | with unique emails at most one account holds an email |
| Users.LoginFieldErrors | backend/users/serializers.py:14-20 | the form has no field error exactly when the email is given, not blank and well formed and the password is given and not blank; each error is reported exactly when its field fails that way |
| Users.Login | backend/users/serializers.py:11-59 | a missing, blank or malformed email and a missing or blank password are field errors (400), all reported together; with valid fields an unknown email, then a wrong password, then a disabled account is refused (401), each exactly when it is the first check to fail; two holders of the email crash; otherwise tokens are issued for the holder |
| Users.MalformedEmailIsFieldError | backend/users/serializers.py:17 | a malformed email is refused as a field error, never as an unknown account, whether or not some account holds it |
| Users.LoginSucceedsIff | backend/users/serializers.py:26-59 | with unique emails and valid fields sign-in never crashes and issues tokens exactly to the active holder of the email who gives their password |
| Users.ProfileComplete | backend/users/serializers.py:96-107 | every non-freelancer is complete; a complete freelancer has a profile with a positive rate |
| Users.ProfileCompleteIff | backend/users/serializers.py:98-104 | a freelancer is complete exactly when they have a skill, a positive rate, a bio and a portfolio text |
| Users.MoreSkillsStayComplete | backend/users/serializers.py:100 | adding skills never makes a complete profile incomplete |
| Users.UpdateClient | backend/users/serializers.py:209-244 | every user and profile field sent is written as sent and every field left out keeps its value; a new identity document is stored, stamps the submission time and unverifies the profile; a null clears it and keeps the verification columns |
| Users.UpdateNeverVerifies | backend/users/serializers.py:238-240 | a profile verified after an update was verified before and received no document |
| Users.EmptyFormChangesNothing | backend/users/serializers.py:209-246 | a form that sends nothing changes nothing |
| Users.FieldErrors | backend/users/serializers.py:251-267 | there is no field error exactly when the email is given, well formed, at most 254 characters and unused, the username is given, made of word characters and `.@+-`, at most 150 characters and unused, both passwords have at least eight characters and the role is one of the choices; a password error is reported exactly when that password is under eight characters; the mismatch is never a field error |
| Users.EmailErrors | backend/users/serializers.py:259-262 | a blank email reports only that; otherwise a malformed, over-long or taken email reports each of these that holds |
| Users.UsernameErrors | backend/users/serializers.py:264-267 | a blank username reports only that; otherwise a username with a character outside word characters and `.@+-`, one over 150 characters, or a taken one reports each of these that holds |
| Users.FieldErrorsSayWhy | backend/users/serializers.py:251-267 | a malformed or taken email and a malformed, over-long or taken username are each reported exactly when that holds |
| Users.Register | backend/users/serializers.py:251-288 | registration succeeds exactly when every field passes its checks and the passwords agree, the mismatch being reported only after the field checks; a failure changes nothing; a success appends the active account and creates the profile of its role |
| Users.RegisterKeepsEmailsUnique | backend/users/serializers.py:259-262 | registering keeps the emails unique |
| Users.RegisterRefusesTaken | backend/users/serializers.py:259-267 | an email or a username some account already holds is refused and nothing changes |
| Users.RegisterKeepsUsernamesUnique | backend/users/serializers.py:264-267 | registering keeps the usernames unique, and a registered username is non-empty, at most 150 characters and of allowed characters |
| Users.RegisteredCanLogIn | backend/users/serializers.py:274-288 | a newly registered account can sign in at once with its email and password |
| Users.NewFreelancerIncomplete | backend/users/serializers.py:283-285 | a freelancer who has just registered is not complete, because the profile's rate is 0 |
| Users.LevelsPartition | backend/users/views.py:292-298 | every count of completed projects falls in exactly one experience level |
| Users.Directory | backend/users/views.py:247-316 | a freelancer is listed exactly when every filter sent holds: the location contains the text asked for, ignoring case; the rating reaches the minimum rating, 4.5 for top rated, and the success rate read as a rating out of five; one to five completed projects for rising talent; the hourly rate lies between the minimum and maximum rate; the experience level asked for, if it is one of the three; and the skill asked for. A number that does not read applies no filter, and no profile is listed twice |
| Users.NoFilterListsAll | backend/users/views.py:247-316 | a query with no parameters lists every profile, in order |
| Users.UnreadableIsUnsent | backend/users/views.py:256-263 | a minimum rating, rate bound or success rate that does not read as a number lists what leaving it out lists |
| Users.TopRatedIsMinRating | backend/users/views.py:265-268 | top rated lists the same profiles as a minimum rating of 4.5, and so does a success rate of 90 |
| Users.SameFilter | backend/users/views.py:247-316 | two queries that keep the same profiles list the same directory, in the same order |
| Users.MoreFiltersNarrow | backend/users/views.py:251-254 | adding the location, the skill or the rate filters to a query never lists a profile the query without them did not list |
| Users.ListedUnderOneLevel | backend/users/views.py:292-298 | each freelancer is listed under exactly one of the three levels |
| Users.RisingIsNotExpert | backend/users/views.py:271-298 | a rising talent is never listed as expert, and one under five projects is listed as entry |
| WorkspacePage.Filtered | frontend/src/pages/WorkspaceDetail.jsx:329-335 | the list shows, in order, exactly the tasks the filter keeps: all, the user's own, or those of the status named |
| WorkspacePage.FilteredAppend | frontend/src/pages/WorkspaceDetail.jsx:329-335 | filtering keeps the list's order: the filter of a concatenation is the concatenation of the filters |
| WorkspacePage.StatusTabsPartition | frontend/src/pages/WorkspaceDetail.jsx:329-335 | each task is shown under exactly one of the four status tabs |
| WorkspacePage.UnknownFilterShowsNothing | frontend/src/pages/WorkspaceDetail.jsx:329-335 | a filter that is neither a tab nor a status spelling shows no task |
| WorkspacePage.NextStatus | frontend/src/pages/WorkspaceDetail.jsx:1599-1609 | the button always moves a task forward, to in progress or completed, and requests a status the server accepts |
| WorkspacePage.TwoPressesComplete | frontend/src/pages/WorkspaceDetail.jsx:1599-1609 | two presses complete any task that shows the button, which then disappears |
| WorkspacePage.LateTaskBouncesToOverdue | frontend/src/pages/WorkspaceDetail.jsx:1603-1608 | a late task to do is sent to in progress, which the server's save turns back into overdue; the next press completes it |
| WorkspacePage.Labels | frontend/src/pages/WorkspaceDetail.jsx:165-198 | the labels are the distinct completion days, in ascending order |
| WorkspacePage.Timeline | frontend/src/pages/WorkspaceDetail.jsx:165-198 | there is no chart exactly when no task is completed with a time; otherwise one point per label, with the task count and a completed count of at least one |
| WorkspacePage.LabelsSpan | frontend/src/pages/WorkspaceDetail.jsx:165-198 | the labels run from the earliest completion day to the latest |
| WorkspacePage.TimelineMeaning | frontend/src/pages/WorkspaceDetail.jsx:165-198 | each point counts the tasks completed by the end of its day, the line rises at every label, and the last point is the completed count |
| WorkspacePage.NewTask | frontend/src/pages/WorkspaceDetail.jsx:106-123 | a task is sent exactly when its title is not blank; title, description, priority and status as in the form, to the workspace, assigned to its freelancer, with the deadline only when one was given |
| WorkspacePage.NewTaskReachesServer | frontend/src/pages/WorkspaceDetail.jsx:106-123 | a task the page sends by a party without a deadline is created exactly when its trimmed title has at most 300 characters, with the trimmed title, the status and the priority chosen and the assignee the page named |
| WorkspacePage.Amount | frontend/src/pages/WorkspaceDetail.jsx:219-223 | an amount is sent exactly when it is a positive number, and it is that number |
| WorkspacePage.PageStricterThanServer | frontend/src/pages/WorkspaceDetail.jsx:219-223 | the client of a workspace with a freelancer may log a payment of zero, which the server records, but the page never sends it |
| WorkspacePage.PageLooserThanServer | frontend/src/pages/WorkspaceDetail.jsx:219-223 | an amount of 0.001 passes the page but the server's two-decimal field refuses it and stores nothing |
| WorkspacePage.AmountSentIsRecorded | frontend/src/pages/WorkspaceDetail.jsx:219-231 | an amount the page sends and the server's field takes is recorded for the client as exactly that amount |
| Text.LeadingSpace | frontend/src/components/JobApplicationForm.jsx:32 | the leading run of whitespace is all whitespace and stops at the first other character |
| Text.ContentLength | frontend/src/components/JobApplicationForm.jsx:32 | what follows the content is all whitespace and the content ends with another character |
| Text.TrimWithin | frontend/src/pages/OnboardingWizard.jsx:145-153 | a value that is all whitespace from some position on trims to at most that many characters |
| Text.Lower | backend/helpcentre/views.py:28 | lower-casing keeps the length, maps each character on its own, and leaves no capital letter |
| Text.LowerIdempotent | backend/helpcentre/views.py:28 | lower-casing twice is lower-casing once |
| Text.IndexOf | backend/helpcentre/views.py:39 | the position found is the first where the word occurs, and none is found exactly when it occurs nowhere |
| Text.ContainsIffMatch | backend/helpcentre/views.py:39 | `in` holds exactly when the word occurs at some position |
| Text.Split | frontend/src/pages/SignUp.jsx:26 | `split` gives at least one piece and no piece holds the separator |
| Text.FirstIndex | frontend/src/pages/SignUp.jsx:26 | the position found holds the character and none before it does |
| Text.JoinSplit | frontend/src/pages/SignUp.jsx:26 | joining the pieces with the separator gives back the value |
| Text.SplitJoin | frontend/src/pages/SignUp.jsx:26 | splitting pieces joined by a separator none contains gives back the pieces |
| Text.DigitsBound | frontend/src/components/CalendarInput.jsx:6-14 | a run of n digits reads as less than 10 to the n |
| Text.NatToStringLength | frontend/src/components/CalendarInput.jsx:5 | a number has as many decimal digits as its size says, one below 10, two below 100, and so on |

## Left out

- Authentication: a view that requires a signed-in user answers an anonymous request with 401 before it runs, which is not modelled. Registration, sign-in, password reset, the skill catalogue, the help centre, the project endpoints and the job list and detail are open to anonymous requests (backend/users/views.py:47-51, backend/helpcentre/views.py:21, backend/projects/views.py:10, backend/jobs/views.py:27-31); their models take the user, where they read one, as signed in.
- The `except Exception: pass` around notifications and contract creation in jobs/views.py: the guarded calls cannot fail in the model, except a notification to a missing user, which `Store.NotifyNullable` drops.
- The generic create, update and delete routes of the viewsets are not modelled; only the overridden actions are.
- A foreign key whose row is missing reads as absent. The database's cascades make such rows impossible there.
- Notification messages, metadata and timestamps other than the ones a property needs; a notification is its user, kind, title and subject.
- Attachment files are not stored in `World`; only the cap on how many are kept is modelled.
- Floating-point arithmetic: amounts and percentages are exact rationals.
- The ordering of querysets by creation time is a parameter: `WorkspaceSummary.Timeline` takes the workspace's payments already in creation order.
- WorkspaceSummary.TotalAmount: a Decimal bid converted with `float()` is not rounded to binary floating point.
- JobRules.ListJobs: the posted-time, hourly-rate, location and search filters (backend/jobs/views.py:69-109) are not modelled; they read the clock, parse floats and match substrings case-insensitively.
- ClientCounts.ProjectSaveKeepsConsistent: stated only for a save that keeps the project's client, because the signal recounts only the new client and a move leaves the old client's counters stale.
- ClientCounts.JobSaveKeepsConsistent: stated only for a save that keeps the job's client, for the same reason.
- Message content follows the field Django REST framework derives from the model: required, not blank, trimmed. Attachments and the read flag are not modelled.
- The rating signal's early return for a review without a reviewee: a review here always names one.
- Password hashing, tokens and password reset: an account keeps its password and signing in compares with it.
- File storage: a file is its name and size, or only its count where the name is never read.
- The clock and the calendar: the current time, the current year and the weekday of a month's first day are parameters.
- Number inputs are `FormFields.Field`, either blank or a number, as the browser keeps an `<input type="number">`. Their floating-point value is an exact rational.
- Whitespace, lower-casing and the regular expression class `\s` cover ASCII only. A string's length counts characters, not UTF-16 code units.
- The onboarding birthdate is `NoDate`, `BadDate` or the year of a readable date; the local-time `getFullYear` is taken as given.
- The completion chart of a workspace labels points by UTC day number rather than by the `YYYY-MM-DD` text, which sorts the same way.
- Onboarding list fields whose contents no rule reads are kept as counts.
- The onboarding handler `updateLanguage` is not modelled: it copies the edited fields into one language.
- The onboarding handler `handlePhoto` is not modelled: its 5 MB and image-type checks guard a file read through the browser's `FileReader`.
- The wizard's final submit is not modelled: it sends the form to the API.
- The month picker's previous-year and next-year buttons are not modelled; they add or subtract one from the year shown.
- The help centre's call to the hosted language model is a parameter: its text or its failure.
- Django's `EmailValidator` is a parameter, `isEmail`, of sign-in and registration; its rules are not part of the repository.
- Users.Directory: a `skill` parameter that is not a number, which the database lookup refuses with a server error, is not modelled; the parameter is an id or absent.
- Users.Directory: `float()` is taken as given: a numeric parameter arrives as not sent, unreadable or a number, and the texts Python reads (including "nan" and "inf") are not modelled. `icontains` lower-cases ASCII letters only.
- Users.Directory: `.distinct()` needs no step of its own: each profile is one entry of the table and the skill filter is a membership test, so no profile is listed twice.
- WorkspaceViews.CreateTask: the deadline arrives already parsed, as missing, unparsable or a time; which texts `DateTimeField` reads is not modelled. The description is not modelled.
- WorkspaceViews.CreatePayment: the amount arrives already read, as a number or as nothing when it is missing, null or not a number; which texts `DecimalField` reads is not modelled. The same holds for WorkspaceViews.CreateRequest and WorkspaceViews.CreateRequestAsWritten.
- Users.UsernameChar: every non-ASCII character is taken to be a word character; Python's Unicode table for `\w` is not modelled.
- Users.Registration: the optional first and last names of the registration form are not modelled; no rule reads them beyond their 150-character limit.
- Skills.CreateCustom: a `name` that is JSON but not a string, such as null or a number, fails in `strip()` with a server error; the model takes the name as text or missing.
- HelpCentre.Ask: a `question` that is a non-empty JSON value other than a string, such as a number, fails in `lower()` with a server error; the model takes it as text or missing. A null, zero or false question is refused as missing, as the model says.
- JobForms.CheckPricing: the browser's `required` attributes on the title, description and other non-pricing inputs of PostJob and EditJob, and the `required` and `min="1"` inputs of EditProject (frontend/src/pages/EditProject.jsx:511-543), are not modelled; only the pricing inputs of PostJob and EditJob are, by `JobForms.InputsPass`.
- Contracts.Review: `isVerified` and `reviewType` stand for the `is_verified` and `review_type` columns the rating signal filters on. The `Review` model (backend/contracts/models.py:108-140) declares neither, so they are abstract columns here.
- Ratings.OnReviewChanged: as written, the signal's filter on `is_verified` and `review_type` names fields the model lacks, so Django raises a field error on every review save and delete; the model states what the signal computes once those columns exist.
- Payments.ValidAmount: amounts are exact rationals, so an amount typed with more than two decimal digits that are all zeros, such as the text `1.500`, is taken here although the decimal field counts the digits as sent and refuses it.

## Findings

| source | as written | input that shows it | evidently intended | confidence | as-written member | corrected member |
|---|---|---|---|---|---|---|
| backend/workspaces/views.py:370-389 | `perform_create` returns a 403 response for a user who is not the contract's freelancer, but the framework discards what `perform_create` returns and renders the unsaved serializer, whose `freelancer_name` reads `freelancer` off the validated data, a plain mapping: the request ends in a server error and nothing is stored | the contract's client posts a payment request with a valid amount on their own workspace | the request is refused with 403 | not executed | WorkspaceViews.CreateRequestAsWritten | WorkspaceViews.CreateRequest |

=== FILE: accounts.dfy ===
/** Accounts (users/models.py): every user has exactly one role, chosen at registration. */
module Accounts {

  /** Primary key of a `User` row. */
  type UserId = nat

  /** The `role` column. Its choices are client and freelancer; `OtherRole` stands for a value
      outside the choices (a staff account created from the shell), which no role check accepts. */
  datatype Role = ClientRole | FreelancerRole | OtherRole

  /** The user a request is made by: Django's anonymous user, or a signed-in account. */
  datatype Requester = Anonymous | Member(id: UserId, role: Role)
}

=== FILE: application_form.dfy ===
/** The job application form (components/JobApplicationForm.jsx): attachments up to three in
    all, the checks before submitting, and the form data sent. */
module ApplicationForm {
  import opened Wrappers
  import opened FormFields
  import JobRules

  const MaxFiles: nat := 3

  /** `handleFileChange`: a selection that would take the list past three is refused whole
      and the list is left as it was; otherwise it is appended. */
  function AddFiles<F>(files: seq<F>, selected: seq<F>): (r: (seq<F>, bool))
    ensures r.1 <==> |files| + |selected| > MaxFiles
    ensures r.1 ==> r.0 == files
    ensures !r.1 ==> r.0 == files + selected
  {
    if |files| + |selected| > MaxFiles then (files, true) else (files + selected, false)
  }

  /** Starting from at most three files, picking and removing never leave more than three. */
  lemma NeverPastThree<F>(files: seq<F>, selected: seq<F>, idx: int)
    requires |files| <= MaxFiles
    ensures |AddFiles(files, selected).0| <= MaxFiles
    ensures |Without(files, idx)| <= MaxFiles
  {
  }

  datatype Draft = Draft(coverLetter: string, bid: Field, estimatedTime: string)

  datatype ApplyError = CoverLetterRequired | BidInvalid

  /** The form data `handleSubmit` hands on: `estimated_time` only when it is not blank, and
      then as typed. */
  datatype Submission = Submission(job: nat, coverLetter: string, bid: real, estimatedTime: Option<string>, files: nat)

  function Submit(job: nat, d: Draft, fileCount: nat): (r: Result<Submission, ApplyError>)
    ensures r == Failure(CoverLetterRequired) <==> !Filled(d.coverLetter)
    ensures r == Failure(BidInvalid) <==> Filled(d.coverLetter) && !Positive(d.bid)
    ensures r.Success? ==> r.value.bid > 0.0 && r.value.coverLetter == d.coverLetter
    ensures r.Success? ==> (r.value.estimatedTime.Some? <==> Filled(d.estimatedTime))
    ensures r.Success? && r.value.estimatedTime.Some? ==> r.value.estimatedTime.value == d.estimatedTime
  {
    if !Filled(d.coverLetter) then Failure(CoverLetterRequired)
    else if !Positive(d.bid) then Failure(BidInvalid)
    else Success(Submission(job, d.coverLetter, d.bid.value,
      if Filled(d.estimatedTime) then Some(d.estimatedTime) else None, fileCount))
  }

  /** Changing only the estimated time never decides whether the form is sent. */
  lemma EstimateIsOptional(job: nat, d: Draft, fileCount: nat, t: string)
    ensures Submit(job, d, fileCount).Success? <==> Submit(job, d.(estimatedTime := t), fileCount).Success?
  {
  }

  /** The bid input steps by hundredths, and the form sends any positive bid: a fractional bid
      passes the page, but the server's whole-number bid field refuses it. */
  lemma FractionalBidPassesOnlyThePage(job: nat, coverLetter: string, fileCount: nat)
    requires Filled(coverLetter)
    ensures Submit(job, Draft(coverLetter, Number(12.5), ""), fileCount).Success?
    ensures Submit(job, Draft(coverLetter, Number(12.5), ""), fileCount).value.bid == 12.5
    ensures JobRules.ReadBid(12.5).None?
  {
    assert (12.5).Floor == 12;
  }
}

=== FILE: application_views.dfy ===
/** Applications to jobs: `JobApplication.save` (jobs/models.py) and the endpoints of
    `JobApplicationViewSet` in jobs/views.py (`get_queryset`, `create`, `accept`, `reject`). */
module ApplicationViews {
  import opened Wrappers
  import opened Accounts
  import opened Listings
  import opened Offers
  import opened Contracts
  import opened Notices
  import opened Store
  import Text
  import WorkspaceSignals

  /** `get_queryset`: a freelancer reaches their own applications, a client the applications to
      their jobs, any other role none. */
  predicate ApplicationVisible(w: World, user: UserId, role: Role, aid: Id) {
    aid in w.applications &&
    ((role == FreelancerRole && w.applications[aid].freelancer == user) ||
     (role == ClientRole && w.applications[aid].job in w.jobs && w.jobs[w.applications[aid].job].client == user))
  }

  lemma OtherRoleSeesNoApplication(w: World, user: UserId, aid: Id)
    ensures !ApplicationVisible(w, user, OtherRole, aid)
  {
  }

  /** `JobApplication.save` of a stored application with new values `a`: when it becomes
      accepted, its job moves to in progress; then the row is written. */
  function SaveApplication(w: World, aid: Id, a: Application): (r: World)
    requires Valid(w) && aid in w.applications && a.job in w.jobs
    ensures Valid(r)
    ensures r == w.(applications := w.applications[aid := a], jobs := MovedJobs(w.jobs, w.applications[aid].status, a))
  {
    var moved := w.(jobs := MovedJobs(w.jobs, w.applications[aid].status, a));
    assert Valid(moved) by { assert moved.jobs.Keys == w.jobs.Keys; }
    moved.(applications := moved.applications[aid := a])
  }

  /** The jobs table after `JobApplication.save`: the application's job is in progress when a
      stored application becomes accepted, and nothing else changes. */
  function MovedJobs(jobs: map<Id, Job>, before: OfferStatus, a: Application): (r: map<Id, Job>)
    requires a.job in jobs
    ensures r.Keys == jobs.Keys
    ensures forall k :: k in jobs && k != a.job ==> r[k] == jobs[k]
    ensures r[a.job] == (if ApplicationMovesJob(Some(before), a.status) then jobs[a.job].(status := InProgress) else jobs[a.job])
  {
    if ApplicationMovesJob(Some(before), a.status) then jobs[a.job := jobs[a.job].(status := InProgress)] else jobs
  }

  /** The bulk update of `accept`: every other pending application to the same job becomes
      rejected. It writes the rows directly, so no `save` and no signal runs for them. */
  function RejectSiblings(apps: map<Id, Application>, aid: Id, job: Id): (r: map<Id, Application>)
    ensures r.Keys == apps.Keys
    ensures forall k :: k in apps ==>
      r[k] == (if k != aid && apps[k].job == job && apps[k].status == OfferStatus.Pending then apps[k].(status := Rejected) else apps[k])
  {
    map k | k in apps :: if k != aid && apps[k].job == job && apps[k].status == OfferStatus.Pending then apps[k].(status := Rejected) else apps[k]
  }

  /** `Contract.objects.get_or_create(job_application=...)` with its post-save signals: a
      contract already linked to the application is kept; otherwise one is inserted pending and
      unsigned. The contract-notification signal ignores contracts without a proposal, and the
      workspace signal adds nothing to an unsigned contract. */
  function GetOrCreateContract(w: World, aid: Id): (r: World)
    requires Valid(w)
    ensures Valid(r) && HasApplicationContract(r, aid)
    ensures HasApplicationContract(w, aid) ==> r == w
    ensures !HasApplicationContract(w, aid) ==>
      r == w.(contracts := w.contracts[w.nextId := NewContract(None, Some(aid))], nextId := w.nextId + 1)
  {
    if HasApplicationContract(w, aid) then w
    else
      var w1 := InsertContract(w, NewContract(None, Some(aid)));
      assert w1.contracts[w.nextId].application == Some(aid);
      assert !WorkspaceSignals.ShouldCreate(w1, w.nextId);
      WorkspaceSignals.OnContractSaved(w1, w.nextId)
  }

  /** `accept`: an application outside the user's queryset is 404; a user who is not the job's
      client is 403. Every other pending application to the job is rejected, the application is
      saved accepted (moving the job to in progress the first time), its freelancer is told, and
      the application gets a contract unless it already has one. */
  function Accept(w: World, user: UserId, role: Role, aid: Id): (r: (World, Status))
    requires Valid(w)
    ensures r.1 == NotFound <==> !ApplicationVisible(w, user, role, aid)
    ensures r.1 == ServerError <==> ApplicationVisible(w, user, role, aid) && w.applications[aid].job !in w.jobs
    ensures r.1 == Forbidden <==> (ApplicationVisible(w, user, role, aid) && w.applications[aid].job in w.jobs &&
      w.jobs[w.applications[aid].job].client != user)
    ensures r.1 != Ok ==> r.0 == w
    ensures r.1 == Ok ==> var a := w.applications[aid]; (Valid(r.0) &&
      r.0.applications == RejectSiblings(w.applications, aid, a.job)[aid := a.(status := Accepted)] &&
      r.0.jobs == (if a.status != Accepted then w.jobs[a.job := w.jobs[a.job].(status := InProgress)] else w.jobs) &&
      r.0.notes == w.notes + [Notification(a.freelancer, JobApplicationKind, "Application Accepted", w.jobs[a.job].title)] &&
      HasApplicationContract(r.0, aid) &&
      r.0.contracts == (if HasApplicationContract(w, aid) then w.contracts else w.contracts[w.nextId := NewContract(None, Some(aid))]))
    ensures r.0.projects == w.projects && r.0.proposals == w.proposals && r.0.workspaces == w.workspaces
  {
    if !ApplicationVisible(w, user, role, aid) then (w, NotFound)
    else
      var a := w.applications[aid];
      if a.job !in w.jobs then (w, ServerError)
      else if w.jobs[a.job].client != user then (w, Forbidden)
      else
        var w1 := w.(applications := RejectSiblings(w.applications, aid, a.job));
        assert Valid(w1) by { assert w1.applications.Keys == w.applications.Keys; }
        assert w1.applications[aid] == a;
        var w2 := SaveApplication(w1, aid, a.(status := Accepted));
        var w3 := Notify(w2, a.freelancer, JobApplicationKind, "Application Accepted", w.jobs[a.job].title);
        (GetOrCreateContract(w3, aid), Ok)
  }

  /** `reject`: the same lookups and check as `accept`; the application is saved rejected,
      whatever its status, and its freelancer is told. Nothing else changes. */
  function Reject(w: World, user: UserId, role: Role, aid: Id): (r: (World, Status))
    requires Valid(w)
    ensures r.1 == NotFound <==> !ApplicationVisible(w, user, role, aid)
    ensures r.1 == ServerError <==> ApplicationVisible(w, user, role, aid) && w.applications[aid].job !in w.jobs
    ensures r.1 == Forbidden <==> (ApplicationVisible(w, user, role, aid) && w.applications[aid].job in w.jobs &&
      w.jobs[w.applications[aid].job].client != user)
    ensures r.1 != Ok ==> r.0 == w
    ensures r.1 == Ok ==> var a := w.applications[aid]; (Valid(r.0) &&
      r.0 == w.(applications := w.applications[aid := a.(status := Rejected)],
                notes := w.notes + [Notification(a.freelancer, JobApplicationKind, "Application Rejected", w.jobs[a.job].title)]))
  {
    if !ApplicationVisible(w, user, role, aid) then (w, NotFound)
    else
      var a := w.applications[aid];
      if a.job !in w.jobs then (w, ServerError)
      else if w.jobs[a.job].client != user then (w, Forbidden)
      else
        var w1 := SaveApplication(w, aid, a.(status := Rejected));
        assert w1.jobs == w.jobs;
        (Notify(w1, a.freelancer, JobApplicationKind, "Application Rejected", w.jobs[a.job].title), Ok)
  }

  /** Rejecting an application a second time answers 200 and changes nothing but the
      notifications: the freelancer is told again. */
  lemma RejectAgainOnlyNotifies(w: World, user: UserId, role: Role, aid: Id)
    requires Valid(w) && Reject(w, user, role, aid).1 == Ok
    ensures var r1 := Reject(w, user, role, aid).0; var a := r1.applications[aid];
      a.status == Rejected &&
      Reject(r1, user, role, aid) ==
        (r1.(notes := r1.notes + [Notification(a.freelancer, JobApplicationKind, "Application Rejected", r1.jobs[a.job].title)]), Ok)
  {
    var r1 := Reject(w, user, role, aid).0;
    var a := r1.applications[aid];
    assert ApplicationVisible(r1, user, role, aid);
    assert r1.applications[aid := a.(status := Rejected)] == r1.applications;
  }

  /** At most one application per (job, freelancer) pair, the `unique_together` constraint. */
  predicate OneApplicationPerPair(apps: map<Id, Application>) {
    forall a, b :: a in apps && b in apps && a != b ==> !(apps[a].job == apps[b].job && apps[a].freelancer == apps[b].freelancer)
  }

  predicate HasApplicationBy(w: World, job: Id, user: UserId) {
    exists k :: k in w.applications && w.applications[k].job == job && w.applications[k].freelancer == user
  }

  /** The serializer's checks of a new application: a cover letter that is not blank once
      trimmed, a whole bid of at least zero, and an estimated time (optional, may be blank) of at
      most 100 characters once trimmed. */
  predicate ValidApplicationForm(coverLetter: Option<string>, bid: Option<int>, estimatedTime: Option<string>) {
    coverLetter.Some? && Text.Trim(coverLetter.value) != [] &&
    bid.Some? && bid.value >= 0 &&
    (estimatedTime.Some? ==> |Text.Trim(estimatedTime.value)| <= 100)
  }

  /** `create`: an unknown job is 404; a job that is not open, a second application by the same
      user and an invalid form are 400, checked in that order. The application is stored as
      pending under the user, and the job's client is told. */
  function Create(w: World, user: UserId, job: Option<Id>, coverLetter: Option<string>, bid: Option<int>,
                  estimatedTime: Option<string>): (r: (World, Status))
    requires Valid(w)
    ensures r.1 == Ok || r.1 == NotFound || r.1 == BadRequest
    ensures r.1 == NotFound <==> job.None? || job.value !in w.jobs
    ensures r.1 == BadRequest <==> (r.1 != NotFound &&
      (w.jobs[job.value].status != Open || HasApplicationBy(w, job.value, user) || !ValidApplicationForm(coverLetter, bid, estimatedTime)))
    ensures r.1 != Ok ==> r.0 == w
    ensures r.1 == Ok ==> (Valid(r.0) &&
      r.0 == w.(applications := w.applications[w.nextId := Application(job.value, user, bid.value, OfferStatus.Pending)],
                nextId := w.nextId + 1,
                notes := w.notes + [Notification(w.jobs[job.value].client, JobApplicationKind, "New Job Application", w.jobs[job.value].title)]))
    ensures r.1 == Ok && OneApplicationPerPair(w.applications) ==> OneApplicationPerPair(r.0.applications)
  {
    if job.None? || job.value !in w.jobs then (w, NotFound)
    else if w.jobs[job.value].status != Open then (w, BadRequest)
    else if HasApplicationBy(w, job.value, user) then (w, BadRequest)
    else if !ValidApplicationForm(coverLetter, bid, estimatedTime) then (w, BadRequest)
    else
      var jb := w.jobs[job.value];
      var w1 := InsertApplication(w, Application(job.value, user, bid.value, OfferStatus.Pending));
      (Notify(w1, jb.client, JobApplicationKind, "New Job Application", jb.title), Ok)
  }

  /** The attachments `create` stores: the first three uploaded files. */
  function StoredAttachments<F>(files: seq<F>): (r: seq<F>)
    ensures |r| <= 3 && |r| == (if |files| < 3 then |files| else 3)
    ensures r == files[..|r|]
  {
    if |files| <= 3 then files else files[..3]
  }

  /** Accepting twice leaves exactly the one contract the first accept made. */
  lemma {:induction false} AcceptTwiceOneContract(w: World, user: UserId, role: Role, aid: Id)
    requires Valid(w) && Accept(w, user, role, aid).1 == Ok
    ensures var r1 := Accept(w, user, role, aid).0;
      var r2 := Accept(r1, user, role, aid);
      r2.1 == Ok && r2.0.contracts == r1.contracts && r2.0.jobs == r1.jobs
  {
    var r1 := Accept(w, user, role, aid).0;
    var a := w.applications[aid];
    assert r1.applications[aid] == a.(status := Accepted);
    assert ApplicationVisible(r1, user, role, aid);
  }

  /** The siblings rule of `accept`: each other pending application to the job is rejected,
      any other application is left as it was. */
  lemma {:induction false} AcceptSettlesSiblings(w: World, user: UserId, role: Role, aid: Id, k: Id)
    requires Valid(w) && Accept(w, user, role, aid).1 == Ok
    requires k in w.applications && k != aid
    ensures var r := Accept(w, user, role, aid).0; var b := w.applications[k];
      r.applications[k] == (if b.job == w.applications[aid].job && b.status == OfferStatus.Pending then b.(status := Rejected) else b)
  {
  }
}

=== FILE: client_counts.dfy ===
/** The counters on a client's profile (projects/signals.py, jobs/signals.py and the one-off
    backfill_client_counts.py script): how many projects and jobs the client posted, how many are
    active, and how many are completed. */
module ClientCounts {
  import opened Wrappers
  import opened Accounts
  import opened Listings

  /** The three counters of one kind of posting: posted, active (open or in progress), and
      completed. */
  datatype Tally = Tally(posted: nat, active: nat, completed: nat)

  /** The six counter columns of a `ClientProfile`. */
  datatype Counters = Counters(projects: Tally, jobs: Tally)

  /** The client's postings among `statuses`, whatever table they are from: each posting is given
      by its owner and status. */
  function Owned(owner: map<Id, (UserId, ListingStatus)>, client: UserId, statuses: set<ListingStatus>): set<Id> {
    set k | k in owner && owner[k].0 == client && owner[k].1 in statuses
  }

  const AllStatuses: set<ListingStatus> := {Draft, Open, InProgress, Completed, Cancelled}

  /** The three `count()` queries of `_recalculate_client_*_counts`. */
  function Recount(owner: map<Id, (UserId, ListingStatus)>, client: UserId): (t: Tally)
    ensures t.posted == |Owned(owner, client, AllStatuses)|
    ensures t.active == |Owned(owner, client, {Open, InProgress})|
    ensures t.completed == |Owned(owner, client, {Completed})|
  {
    Tally(|Owned(owner, client, AllStatuses)|, |Owned(owner, client, {Open, InProgress})|,
          |Owned(owner, client, {Completed})|)
  }

  /** Active and completed postings are disjoint subsets of the posted ones, so together they
      never exceed the posted count. */
  lemma ActivePlusCompleted(owner: map<Id, (UserId, ListingStatus)>, client: UserId)
    ensures Recount(owner, client).active + Recount(owner, client).completed <= Recount(owner, client).posted
  {
    var a := Owned(owner, client, {Open, InProgress});
    var c := Owned(owner, client, {Completed});
    var all := Owned(owner, client, AllStatuses);
    assert a * c == {};
    assert all == (all - (a + c)) + (a + c);
    assert |a + c| == |a| + |c|;
  }

  /** The client and status of a project, and of a job: what the counters read of a posting. */
  function ProjectKey(p: Project): (UserId, ListingStatus) {
    (p.client, p.status)
  }

  function JobKey(j: Job): (UserId, ListingStatus) {
    (j.client, j.status)
  }

  /** The client and status of every posting of one table, read through `key`. */
  function Owners<T>(table: map<Id, T>, key: T -> (UserId, ListingStatus)): (r: map<Id, (UserId, ListingStatus)>)
    ensures r.Keys == table.Keys
    ensures forall k :: k in table ==> r[k] == key(table[k])
  {
    map k | k in table :: key(table[k])
  }

  /** `_recalculate_client_project_counts`, run by the post-save and the post-delete signal of a
      project with the table as it then stands: a client without a profile is skipped, otherwise
      only that client's project counters are written. */
  function OnProjectChanged(profiles: map<UserId, Counters>, projects: map<Id, Project>, client: UserId): (r: map<UserId, Counters>)
    ensures r.Keys == profiles.Keys
    ensures client in profiles ==> r[client] == profiles[client].(projects := Recount(Owners(projects, ProjectKey), client))
    ensures forall u :: u in profiles && u != client ==> r[u] == profiles[u]
  {
    if client !in profiles then profiles
    else profiles[client := profiles[client].(projects := Recount(Owners(projects, ProjectKey), client))]
  }

  /** `_recalculate_client_job_counts`, the same for jobs. */
  function OnJobChanged(profiles: map<UserId, Counters>, jobs: map<Id, Job>, client: UserId): (r: map<UserId, Counters>)
    ensures r.Keys == profiles.Keys
    ensures client in profiles ==> r[client] == profiles[client].(jobs := Recount(Owners(jobs, JobKey), client))
    ensures forall u :: u in profiles && u != client ==> r[u] == profiles[u]
  {
    if client !in profiles then profiles
    else profiles[client := profiles[client].(jobs := Recount(Owners(jobs, JobKey), client))]
  }

  /** The counters of every profile agree with a recount of the tables. */
  predicate Consistent(profiles: map<UserId, Counters>, projects: map<Id, Project>, jobs: map<Id, Job>) {
    forall u :: u in profiles ==> profiles[u] == Counters(Recount(Owners(projects, ProjectKey), u), Recount(Owners(jobs, JobKey), u))
  }

  /** Writing one posting writes one entry of the owner map; deleting one deletes one entry. */
  lemma OwnersUpdate<T>(table: map<Id, T>, key: T -> (UserId, ListingStatus), k: Id, v: T)
    ensures Owners(table[k := v], key) == Owners(table, key)[k := key(v)]
  {
  }

  lemma OwnersRemove<T>(table: map<Id, T>, key: T -> (UserId, ListingStatus), k: Id)
    ensures Owners(table - {k}, key) == Owners(table, key) - {k}
  {
  }

  /** Writing a posting of another client, new or kept by that client, leaves `u`'s recount as
      it was. */
  lemma RecountUpdateOther(a: map<Id, (UserId, ListingStatus)>, k: Id, v: (UserId, ListingStatus), u: UserId)
    requires u != v.0 && (k in a ==> a[k].0 == v.0)
    ensures Recount(a[k := v], u) == Recount(a, u)
  {
    assert Owned(a[k := v], u, AllStatuses) == Owned(a, u, AllStatuses);
    assert Owned(a[k := v], u, {Open, InProgress}) == Owned(a, u, {Open, InProgress});
    assert Owned(a[k := v], u, {Completed}) == Owned(a, u, {Completed});
  }

  /** Deleting a posting of another client leaves `u`'s recount as it was. */
  lemma RecountRemoveOther(a: map<Id, (UserId, ListingStatus)>, k: Id, u: UserId)
    requires k in a && a[k].0 != u
    ensures Recount(a - {k}, u) == Recount(a, u)
  {
    assert Owned(a - {k}, u, AllStatuses) == Owned(a, u, AllStatuses);
    assert Owned(a - {k}, u, {Open, InProgress}) == Owned(a, u, {Open, InProgress});
    assert Owned(a - {k}, u, {Completed}) == Owned(a, u, {Completed});
  }

  /** Saving project `pid` (new, or edited without changing its client) and running the signal
      keeps every profile consistent. */
  lemma ProjectSaveKeepsConsistent(profiles: map<UserId, Counters>, projects: map<Id, Project>, jobs: map<Id, Job>, pid: Id, p: Project)
    requires Consistent(profiles, projects, jobs)
    requires pid in projects ==> projects[pid].client == p.client
    ensures Consistent(OnProjectChanged(profiles, projects[pid := p], p.client), projects[pid := p], jobs)
  {
    OwnersUpdate(projects, ProjectKey, pid, p);
    forall u | u != p.client
      ensures Recount(Owners(projects[pid := p], ProjectKey), u) == Recount(Owners(projects, ProjectKey), u)
    {
      RecountUpdateOther(Owners(projects, ProjectKey), pid, (p.client, p.status), u);
    }
  }

  /** Deleting project `pid` and running the signal for its client keeps every profile
      consistent. */
  lemma ProjectDeleteKeepsConsistent(profiles: map<UserId, Counters>, projects: map<Id, Project>, jobs: map<Id, Job>, pid: Id)
    requires Consistent(profiles, projects, jobs) && pid in projects
    ensures Consistent(OnProjectChanged(profiles, projects - {pid}, projects[pid].client), projects - {pid}, jobs)
  {
    OwnersRemove(projects, ProjectKey, pid);
    forall u | u != projects[pid].client
      ensures Recount(Owners(projects - {pid}, ProjectKey), u) == Recount(Owners(projects, ProjectKey), u)
    {
      RecountRemoveOther(Owners(projects, ProjectKey), pid, u);
    }
  }

  /** Saving job `jid` (new, or edited without changing its client) and running the signal keeps
      every profile consistent. */
  lemma JobSaveKeepsConsistent(profiles: map<UserId, Counters>, projects: map<Id, Project>, jobs: map<Id, Job>, jid: Id, j: Job)
    requires Consistent(profiles, projects, jobs)
    requires jid in jobs ==> jobs[jid].client == j.client
    ensures Consistent(OnJobChanged(profiles, jobs[jid := j], j.client), projects, jobs[jid := j])
  {
    OwnersUpdate(jobs, JobKey, jid, j);
    forall u | u != j.client
      ensures Recount(Owners(jobs[jid := j], JobKey), u) == Recount(Owners(jobs, JobKey), u)
    {
      RecountUpdateOther(Owners(jobs, JobKey), jid, (j.client, j.status), u);
    }
  }

  /** Deleting job `jid` and running the signal for its client keeps every profile consistent. */
  lemma JobDeleteKeepsConsistent(profiles: map<UserId, Counters>, projects: map<Id, Project>, jobs: map<Id, Job>, jid: Id)
    requires Consistent(profiles, projects, jobs) && jid in jobs
    ensures Consistent(OnJobChanged(profiles, jobs - {jid}, jobs[jid].client), projects, jobs - {jid})
  {
    OwnersRemove(jobs, JobKey, jid);
    forall u | u != jobs[jid].client
      ensures Recount(Owners(jobs - {jid}, JobKey), u) == Recount(Owners(jobs, JobKey), u)
    {
      RecountRemoveOther(Owners(jobs, JobKey), jid, u);
    }
  }

  /** The backfill script: every client profile, one at a time, gets all six counters recounted
      with the same definitions as the signals; `updated` counts the profiles written. */
  method Backfill(profiles: map<UserId, Counters>, projects: map<Id, Project>, jobs: map<Id, Job>)
    returns (r: map<UserId, Counters>, updated: nat)
    ensures r.Keys == profiles.Keys && updated == |profiles|
    ensures Consistent(r, projects, jobs)
  {
    r := profiles;
    updated := 0;
    var todo := profiles.Keys;
    while todo != {}
      invariant todo <= profiles.Keys && r.Keys == profiles.Keys
      invariant updated + |todo| == |profiles.Keys|
      invariant forall u :: u in r && u !in todo ==>
        r[u] == Counters(Recount(Owners(projects, ProjectKey), u), Recount(Owners(jobs, JobKey), u))
      decreases |todo|
    {
      var u :| u in todo;
      r := r[u := Counters(Recount(Owners(projects, ProjectKey), u), Recount(Owners(jobs, JobKey), u))];
      todo := todo - {u};
      updated := updated + 1;
    }
  }

  /** Once the backfill has run, a signal fired for any client writes the values already
      stored: the script and the signals count the same way. */
  lemma SignalsAgreeWithBackfill(profiles: map<UserId, Counters>, projects: map<Id, Project>, jobs: map<Id, Job>, client: UserId)
    requires Consistent(profiles, projects, jobs)
    ensures OnProjectChanged(profiles, projects, client) == profiles
    ensures OnJobChanged(profiles, jobs, client) == profiles
  {
  }
}

=== FILE: contract_views.dfy ===
/** The contract endpoints (contracts/views.py `ContractViewSet`): which contracts a user can
    reach, and the `sign` and `complete` actions. Every save of a contract also runs the
    workspace signal. */
module ContractViews {
  import opened Wrappers
  import opened Accounts
  import opened Contracts
  import opened Store
  import WorkspaceSignals

  /** The client of the proposal's project and the proposal's freelancer, when the contract came
      from a proposal whose rows exist. A job-application contract has no proposal. */
  function ProposalParties(w: World, cid: Id): (r: Option<(UserId, UserId)>)
    requires cid in w.contracts
    ensures r.Some? <==> var c := w.contracts[cid];
      c.proposal.Some? && c.proposal.value in w.proposals && w.proposals[c.proposal.value].project in w.projects
    ensures r.Some? ==> var p := w.proposals[w.contracts[cid].proposal.value];
      r.value == (w.projects[p.project].client, p.freelancer)
  {
    var c := w.contracts[cid];
    if c.proposal.Some? && c.proposal.value in w.proposals && w.proposals[c.proposal.value].project in w.projects then
      var p := w.proposals[c.proposal.value];
      Some((w.projects[p.project].client, p.freelancer))
    else None
  }

  /** `get_queryset`: the contracts whose proposal's project belongs to the user or whose
      proposal was made by the user. */
  predicate Visible(w: World, user: UserId, cid: Id) {
    cid in w.contracts && ProposalParties(w, cid).Some? &&
    (ProposalParties(w, cid).value.0 == user || ProposalParties(w, cid).value.1 == user)
  }

  /** A contract made from a job application is never reachable through these endpoints. */
  lemma JobContractsInvisible(w: World, user: UserId, cid: Id)
    requires cid in w.contracts && w.contracts[cid].proposal.None?
    ensures !Visible(w, user, cid)
  {
  }

  /** `sign`: a contract outside the user's queryset is not found. Otherwise the signature is
      recorded, the contract is activated when both have signed, and it is saved, which gives it
      a workspace the first time it is saved fully signed and active. The 403 branch of the view
      cannot be reached here, because every visible contract has the user as one of its two
      parties; `Contracts.SignAs` states it for a contract on its own. */
  function Sign(w: World, user: UserId, cid: Id): (r: (World, Status))
    requires Valid(w)
    ensures r.1 == Ok || r.1 == NotFound
    ensures r.1 == NotFound <==> !Visible(w, user, cid)
    ensures r.1 == NotFound ==> r.0 == w
    ensures r.1 == Ok ==> Valid(r.0) && cid in r.0.contracts
    ensures r.1 == Ok ==> var (client, freelancer) := ProposalParties(w, cid).value;
      var before := w.contracts[cid];
      var after := r.0.contracts[cid];
      after == SignAs(before, user, client, freelancer).0 &&
      after.clientSigned == (before.clientSigned || user == client) &&
      after.freelancerSigned == (before.freelancerSigned || (user != client && user == freelancer)) &&
      (IsFullySigned(after) ==> after.status == Active) &&
      (!IsFullySigned(after) ==> after.status == before.status)
    ensures r.1 == Ok ==> forall k :: k in w.contracts && k != cid ==> k in r.0.contracts && r.0.contracts[k] == w.contracts[k]
    ensures r.1 == Ok ==> r.0.contracts.Keys == w.contracts.Keys
    ensures r.1 == Ok ==> (HasWorkspace(r.0, cid) <==> HasWorkspace(w, cid) || IsFullySigned(r.0.contracts[cid]))
    ensures r.1 == Ok ==> Covered(r.0) - {cid} == Covered(w) - {cid}
    ensures OneWorkspacePerContract(w) ==> OneWorkspacePerContract(r.0)
  {
    if !Visible(w, user, cid) then (w, NotFound)
    else
      var (client, freelancer) := ProposalParties(w, cid).value;
      var c := SignAs(w.contracts[cid], user, client, freelancer).0;
      (WorkspaceSignals.SaveContract(w, cid, c), Ok)
  }

  /** `complete`: any contract in the user's queryset is set completed, whatever its status and
      whichever party asks. Its workspace, if any, is left as it is, and no workspace is created. */
  function Complete(w: World, user: UserId, cid: Id): (r: (World, Status))
    requires Valid(w)
    ensures r.1 == Ok || r.1 == NotFound
    ensures r.1 == NotFound <==> !Visible(w, user, cid)
    ensures r.1 == NotFound ==> r.0 == w
    ensures r.1 == Ok ==> Valid(r.0) && r.0 == w.(contracts := w.contracts[cid := w.contracts[cid].(status := Completed)])
    ensures r.1 == Ok ==> Covered(r.0) == Covered(w)
    ensures OneWorkspacePerContract(w) ==> OneWorkspacePerContract(r.0)
  {
    if !Visible(w, user, cid) then (w, NotFound)
    else
      var r := WorkspaceSignals.SaveContract(w, cid, w.contracts[cid].(status := Completed));
      CoveredUnchanged(w, r, cid);
      (r, Ok)
  }

  /** Completing a contract a second time changes nothing, and a completed contract stays
      reachable by both parties. */
  lemma CompleteTwiceIsNoop(w: World, user: UserId, cid: Id)
    requires Valid(w) && Complete(w, user, cid).1 == Ok
    ensures var r1 := Complete(w, user, cid).0;
      Complete(r1, user, cid) == (r1, Ok) && r1.contracts[cid].status == Completed &&
      (forall u :: Visible(w, u, cid) <==> Visible(r1, u, cid))
  {
    var r1 := Complete(w, user, cid).0;
    assert ProposalParties(r1, cid) == ProposalParties(w, cid);
    assert r1.contracts[cid := r1.contracts[cid].(status := Completed)] == r1.contracts;
  }

  lemma CoveredUnchanged(w: World, r: World, cid: Id)
    requires Covered(r) - {cid} == Covered(w) - {cid}
    requires HasWorkspace(r, cid) <==> HasWorkspace(w, cid)
    ensures Covered(r) == Covered(w)
  {
    assert Covered(r) == (Covered(r) - {cid}) + (if cid in Covered(r) then {cid} else {});
    assert Covered(w) == (Covered(w) - {cid}) + (if cid in Covered(w) then {cid} else {});
  }

  /** The whole signing flow of a proposal contract: once the project's client and the
      proposal's freelancer have each signed, in either order, the contract is active and has
      exactly one workspace. */
  lemma {:induction false} BothSignaturesOpenWorkspace(w: World, cid: Id, first: UserId, second: UserId)
    requires Valid(w) && OneWorkspacePerContract(w) && Visible(w, first, cid)
    requires var (client, freelancer) := ProposalParties(w, cid).value;
      client != freelancer && {first, second} == {client, freelancer}
    ensures var r1 := Sign(w, first, cid).0;
      var r2 := Sign(r1, second, cid);
      r2.1 == Ok && r2.0.contracts[cid].status == Active && IsFullySigned(r2.0.contracts[cid]) &&
      HasWorkspace(r2.0, cid) && OneWorkspacePerContract(r2.0)
  {
    var (client, freelancer) := ProposalParties(w, cid).value;
    var r1 := Sign(w, first, cid).0;
    assert ProposalParties(r1, cid) == ProposalParties(w, cid);
    assert Visible(r1, second, cid);
    if first == client {
      assert second == freelancer;
    } else {
      assert first == freelancer && second == client;
    }
  }
}

=== FILE: contracts.dfy ===
/** Contracts and reviews (contracts/models.py): a contract links a client and a freelancer
    through an accepted proposal or job application, and both must sign it. */
module Contracts {
  import opened Wrappers
  import opened Accounts

  datatype ContractStatus = Pending | Active | Completed | Cancelled

  /** A contract row. `proposal` and `application` are nullable one-to-one links; `client` and
      `freelancer` are nullable foreign keys that the accept views never fill in. */
  datatype Contract = Contract(
    proposal: Option<Id>,
    application: Option<Id>,
    client: Option<UserId>,
    freelancer: Option<UserId>,
    status: ContractStatus,
    clientSigned: bool,
    freelancerSigned: bool)

  /** The row `Contract.objects.create` writes when only the links are given: the column
      defaults are status pending and neither party signed. */
  function NewContract(proposal: Option<Id>, application: Option<Id>): (c: Contract)
    ensures c.status == Pending && !c.clientSigned && !c.freelancerSigned
    ensures c.client.None? && c.freelancer.None?
    ensures c.proposal == proposal && c.application == application
  {
    Contract(proposal, application, None, None, Pending, false, false)
  }

  /** `is_fully_signed`: both parties have signed. */
  predicate IsFullySigned(c: Contract) {
    c.clientSigned && c.freelancerSigned
  }

  /** `activate_if_signed`: a fully signed pending contract becomes active; nothing else changes
      and no other contract changes. */
  function ActivateIfSigned(c: Contract): (r: Contract)
    ensures r == c.(status := r.status)
    ensures r.status == Active <==> c.status == Active || (IsFullySigned(c) && c.status == Pending)
    ensures r.status != c.status ==> c.status == Pending
  {
    if IsFullySigned(c) && c.status == Pending then c.(status := Active) else c
  }

  /** Activation is idempotent. */
  lemma ActivateIdempotent(c: Contract)
    ensures ActivateIfSigned(ActivateIfSigned(c)) == ActivateIfSigned(c)
  {
  }

  /** The body of the `sign` view once the contract has been found: `projectClient` and
      `proposalFreelancer` are the client of the proposal's project and the proposal's freelancer.
      The project's client signs as client (even when they are also the freelancer), the
      proposal's freelancer signs as freelancer, anyone else is refused; afterwards a contract both
      have signed is set active, whatever its status was. */
  function SignAs(c: Contract, user: UserId, projectClient: UserId, proposalFreelancer: UserId): (r: (Contract, Status))
    ensures r.1 == Ok || r.1 == Forbidden
    ensures r.1 == Forbidden <==> user != projectClient && user != proposalFreelancer
    ensures r.1 == Forbidden ==> r.0 == c
    ensures r.1 == Ok ==> r.0.proposal == c.proposal && r.0.application == c.application
    ensures r.1 == Ok ==> r.0.client == c.client && r.0.freelancer == c.freelancer
    ensures r.1 == Ok ==> r.0.clientSigned == (c.clientSigned || user == projectClient)
    ensures r.1 == Ok ==> r.0.freelancerSigned == (c.freelancerSigned || (user != projectClient && user == proposalFreelancer))
    ensures r.1 == Ok ==> (IsFullySigned(r.0) ==> r.0.status == Active) && (!IsFullySigned(r.0) ==> r.0.status == c.status)
  {
    var signed :=
      if user == projectClient then c.(clientSigned := true)
      else if user == proposalFreelancer then c.(freelancerSigned := true)
      else c;
    if user != projectClient && user != proposalFreelancer then (c, Forbidden)
    else if IsFullySigned(signed) then (signed.(status := Active), Ok)
    else (signed, Ok)
  }

  /** The two activation paths disagree: `sign` re-activates a completed contract that is signed
      again, where `activate_if_signed` would leave it completed. */
  lemma {:induction false} SignReactivatesCompleted(c: Contract, client: UserId, freelancer: UserId)
    requires c.status == Completed && IsFullySigned(c)
    ensures SignAs(c, client, client, freelancer).0.status == Active
    ensures ActivateIfSigned(c).status == Completed
  {
  }

  /** The order in which the parties sign does not matter, and the contract is active after both. */
  lemma {:induction false} SignOrderIrrelevant(c: Contract, client: UserId, freelancer: UserId)
    requires client != freelancer
    ensures var a := SignAs(SignAs(c, client, client, freelancer).0, freelancer, client, freelancer).0;
            var b := SignAs(SignAs(c, freelancer, client, freelancer).0, client, client, freelancer).0;
            a == b && a.status == Active && IsFullySigned(a)
  {
  }

  /** Signing twice has the effect of signing once. */
  lemma {:induction false} SignIdempotent(c: Contract, user: UserId, client: UserId, freelancer: UserId)
    ensures var once := SignAs(c, user, client, freelancer);
            SignAs(once.0, user, client, freelancer) == once
  {
  }

  /** `review_type` as the rating signal reads it: a review left through a completed contract,
      or an outside testimonial. */
  datatype ReviewType = Platform | External

  /** A review row. `isVerified` and `reviewType` are the `is_verified` and `review_type` the
      rating signal filters on; the `Review` model declares neither column, so they stand for
      the columns the signal assumes (see Ratings). */
  datatype Review = Review(contract: Id, reviewer: UserId, reviewee: UserId, rating: int, isVerified: bool, reviewType: ReviewType)

  /** The validators on `rating`: between 1 and 5 inclusive. */
  predicate ValidRating(rating: int) {
    1 <= rating <= 5
  }

  /** `unique_together = ('contract', 'reviewer')`: one review per reviewer per contract. */
  predicate OneReviewPerReviewer(reviews: seq<Review>) {
    forall i, j :: 0 <= i < j < |reviews| ==>
      !(reviews[i].contract == reviews[j].contract && reviews[i].reviewer == reviews[j].reviewer)
  }

  datatype ReviewError = RatingOutOfRange | AlreadyReviewed

  /** Saving a new review: the rating validators run first, then the uniqueness constraint.
      The stored reviews keep their order and the new one is appended. */
  function AddReview(reviews: seq<Review>, review: Review): (r: Result<seq<Review>, ReviewError>)
    ensures r.Success? <==> ValidRating(review.rating) &&
                            forall i :: 0 <= i < |reviews| ==> !(reviews[i].contract == review.contract && reviews[i].reviewer == review.reviewer)
    ensures r.Failure? && !ValidRating(review.rating) ==> r.error == RatingOutOfRange
    ensures r.Success? ==> |r.value| == |reviews| + 1 && r.value[..|reviews|] == reviews && r.value[|reviews|] == review
    ensures r.Success? && OneReviewPerReviewer(reviews) ==> OneReviewPerReviewer(r.value)
  {
    if !ValidRating(review.rating) then Failure(RatingOutOfRange)
    else if exists i :: 0 <= i < |reviews| && reviews[i].contract == review.contract && reviews[i].reviewer == review.reviewer then
      Failure(AlreadyReviewed)
    else
      Success(reviews + [review])
  }
}

=== FILE: dates.dfy ===
/** The two date pickers of the frontend: CalendarInput.jsx (a `YYYY-MM-DD` day picker with a
    month grid) and MonthYearInput.jsx (a `YYYY-MM` month picker). JavaScript's `Date` is
    modelled as far as the pickers use it: the constructor's two-digit-year rule and its
    normalisation of out-of-range months and days, on the proleptic Gregorian calendar. The
    weekday of the first of a month is a parameter. */
module Dates {
  import opened Wrappers
  import Text

  /** `String(n).padStart(2, '0')`. */
  function Pad(n: nat): (r: string)
    ensures Text.AllDigits(r) && Text.DigitsValue(r) == n
    ensures n < 100 ==> |r| == 2
  {
    var s := Text.NatToString(n);
    Text.NatToStringRoundTrip(n);
    Text.NatToStringLength(n);
    if |s| < 2 then
      var r := "0" + s;
      assert r[..1] == "0";
      r
    else s
  }

  predicate Leap(y: int) {
    y % 4 == 0 && (y % 100 != 0 || y % 400 == 0)
  }

  /** The length of month `m` (0 for January) of year `y`. */
  function DaysIn(y: int, m: nat): (n: nat)
    requires m < 12
    ensures 28 <= n <= 31
  {
    if m == 1 then (if Leap(y) then 29 else 28)
    else if m == 3 || m == 5 || m == 8 || m == 10 then 30
    else 31
  }

  /** What a `Date` reports through `getFullYear`, `getMonth` and `getDate`. */
  datatype Date = Date(year: int, month: nat, day: nat)

  predicate Valid(d: Date) {
    d.month < 12 && 1 <= d.day <= DaysIn(d.year, d.month)
  }

  /** The constructor reads a year from 0 to 99 as 1900 to 1999. */
  function FullYear(y: int): int {
    if 0 <= y <= 99 then 1900 + y else y
  }

  /** Normalising a day of month `m` of year `y` that may fall outside the month: earlier days
      borrow from the months before, later days carry into the months after. */
  function Walk(y: int, m: nat, d: int): (r: Date)
    requires m < 12
    ensures Valid(r)
    ensures d >= 1 ==> r.year >= y
    ensures d >= 0 ==> r.year >= y - 1
    ensures 1 <= d <= DaysIn(y, m) ==> r == Date(y, m, d)
    decreases (if d < 1 then 1 else 0), (if d < 1 then -d else d)
  {
    if d < 1 then
      var py := if m == 0 then y - 1 else y;
      var pm := if m == 0 then 11 else m - 1;
      Walk(py, pm, d + DaysIn(py, pm))
    else if d > DaysIn(y, m) then
      var ny := if m == 11 then y + 1 else y;
      var nm := if m == 11 then 0 else m + 1;
      Walk(ny, nm, d - DaysIn(y, m))
    else Date(y, m, d)
  }

  /** `new Date(y, mo, d)`: the month is first brought into 0..11 by moving whole years, then the
      day is normalised. */
  function MakeDate(y: int, mo: int, d: int): (r: Date)
    ensures Valid(r)
  {
    Walk(FullYear(y) + mo / 12, mo % 12, d)
  }

  /** `new Date(y, m + 1, 0).getDate()` is the length of month `m`: day 0 of the next month is
      the last day of this one. */
  lemma DayZeroIsMonthEnd(y: int, m: nat)
    requires m < 12
    ensures MakeDate(y, m + 1, 0) == Date(FullYear(y), m, DaysIn(FullYear(y), m))
  {
    var ny := FullYear(y) + (m + 1) / 12;
    var nm := (m + 1) % 12;
    if m == 11 {
      assert ny == FullYear(y) + 1 && nm == 0;
    } else {
      assert ny == FullYear(y) && nm == m + 1;
    }
  }

  /** A date survives construction unchanged exactly when it is a real day of a year outside
      0..99, for the month and day ranges the pickers' patterns admit. */
  lemma MakeDateExact(y: int, mo: int, d: int)
    requires mo >= -1 && d >= 0
    ensures var r := MakeDate(y, mo, d);
      (r.year == y && r.month == mo && r.day == d) <==> (!(0 <= y <= 99) && 0 <= mo < 12 && 1 <= d <= DaysIn(y, mo))
  {
  }

  /** The string consists of the digit groups `a`, `b`, `c` joined by hyphens. */
  predicate Shape3(s: string, a: string, b: string, c: string) {
    s == a + "-" + b + "-" + c && Text.AllDigits(a) && Text.AllDigits(b) && Text.AllDigits(c)
  }

  /** The match of `^(\d{4})-(\d{1,2})-(\d{1,2})$`: the three numbers, when the string has that
      form. */
  function MatchYMD(s: string): (r: Option<(nat, nat, nat)>)
  {
    var p := Text.Split(s, '-');
    if |p| == 3 && |p[0]| == 4 && 1 <= |p[1]| <= 2 && 1 <= |p[2]| <= 2 &&
       Text.AllDigits(p[0]) && Text.AllDigits(p[1]) && Text.AllDigits(p[2])
    then Some((Text.DigitsValue(p[0]), Text.DigitsValue(p[1]), Text.DigitsValue(p[2])))
    else None
  }

  /** Digits contain no hyphen. */
  lemma DigitsHaveNoHyphen(s: string)
    requires Text.AllDigits(s)
    ensures '-' !in s
  {
  }

  /** Joining three pieces with hyphens and splitting them again recovers the pieces. */
  lemma SplitThree(a: string, b: string, c: string)
    requires '-' !in a && '-' !in b && '-' !in c
    ensures Text.Split(a + "-" + b + "-" + c, '-') == [a, b, c]
  {
    JoinThree(a, b, c);
    Text.SplitJoin([a, b, c], '-');
  }

  lemma JoinThree(a: string, b: string, c: string)
    ensures Text.Join([a, b, c], '-') == a + "-" + b + "-" + c
  {
    var p := [a, b, c];
    assert p[1..] == [b, c];
    assert [b, c][1..] == [c];
    assert Text.Join([b, c], '-') == b + ['-'] + c;
  }

  lemma JoinTwo(a: string, b: string)
    ensures Text.Join([a, b], '-') == a + "-" + b
  {
    assert [a, b][1..] == [b];
  }

  /** The match of three digit groups of the right lengths joined by hyphens. */
  lemma MatchOfGroups(a: string, b: string, c: string)
    requires Text.AllDigits(a) && Text.AllDigits(b) && Text.AllDigits(c)
    ensures MatchYMD(a + "-" + b + "-" + c) ==
      if |a| == 4 && 1 <= |b| <= 2 && 1 <= |c| <= 2
      then Some((Text.DigitsValue(a), Text.DigitsValue(b), Text.DigitsValue(c))) else None
  {
    DigitsHaveNoHyphen(a);
    DigitsHaveNoHyphen(b);
    DigitsHaveNoHyphen(c);
    SplitThree(a, b, c);
  }

  /** The match succeeds exactly on strings of the pattern's shape. */
  lemma MatchYMDShape(s: string)
    ensures MatchYMD(s).Some? <==> exists a, b, c :: Shape3(s, a, b, c) && |a| == 4 && 1 <= |b| <= 2 && 1 <= |c| <= 2
  {
    var p := Text.Split(s, '-');
    if MatchYMD(s).Some? {
      Text.JoinSplit(s, '-');
      assert p == [p[0], p[1], p[2]];
      JoinThree(p[0], p[1], p[2]);
      assert Shape3(s, p[0], p[1], p[2]);
    }
    if exists a, b, c :: Shape3(s, a, b, c) && |a| == 4 && 1 <= |b| <= 2 && 1 <= |c| <= 2 {
      var a, b, c :| Shape3(s, a, b, c) && |a| == 4 && 1 <= |b| <= 2 && 1 <= |c| <= 2;
      MatchOfGroups(a, b, c);
    }
  }

  /** `parseYMD`: the pattern, then a `Date` built from the numbers, kept only if it reports
      the same year, month and day. */
  function ParseYMD(s: string): (r: Option<Date>)
    ensures r.Some? ==> Valid(r.value) && 100 <= r.value.year <= 9999
  {
    if s == "" then None
    else match MatchYMD(s)
      case None => None
      case Some((y, m, d)) =>
        var dt := MakeDate(y, m - 1, d);
        if dt.year == y && dt.month == m - 1 && dt.day == d then
          MakeDateExact(y, m - 1, d);
          MatchYMDBound(s);
          Some(dt)
        else None
  }

  /** The year group has four digits. */
  lemma MatchYMDBound(s: string)
    requires MatchYMD(s).Some?
    ensures MatchYMD(s).value.0 <= 9999
  {
    var p := Text.Split(s, '-');
    Text.DigitsBound(p[0]);
  }

  /** `pickDay`: an empty cell emits nothing; a day emits `year-MM-DD`. */
  function PickDay(viewYear: int, viewMonth: nat, cell: Option<nat>): (r: Option<string>)
    ensures r.Some? <==> cell.Some? && cell.value != 0
  {
    if cell.None? || cell.value == 0 then None
    else Some(Text.IntToString(viewYear) + "-" + Pad(viewMonth + 1) + "-" + Pad(cell.value))
  }

  /** What the picker emits reads back as the day picked, for four-digit years. */
  lemma PickDayRoundTrip(y: int, m: nat, d: nat)
    requires 1000 <= y <= 9999 && m < 12 && 1 <= d <= DaysIn(y, m)
    ensures ParseYMD(PickDay(y, m, Some(d)).value) == Some(Date(y, m, d))
  {
    var ys, mm, dd := Text.NatToString(y), Pad(m + 1), Pad(d);
    Text.NatToStringLength(y);
    Text.NatToStringRoundTrip(y);
    var s := ys + "-" + mm + "-" + dd;
    assert PickDay(y, m, Some(d)).value == s;
    MatchOfGroups(ys, mm, dd);
    ParseOfMatch(s, y, m + 1, d);
  }

  /** Once the pattern has matched, the date is kept exactly when it is a real day of a year
      outside 0..99. */
  lemma ParseOfMatch(s: string, y: nat, m: nat, d: nat)
    requires s != "" && MatchYMD(s) == Some((y, m, d))
    ensures ParseYMD(s).Some? <==> 100 <= y && 1 <= m <= 12 && 1 <= d <= DaysIn(y, m - 1)
    ensures ParseYMD(s).Some? ==> ParseYMD(s).value == Date(y, m - 1, d)
  {
    MakeDateExact(y, m - 1, d);
  }

  /** A year below 1000 is written with fewer than four digits, so what the picker emits for
      it does not read back. */
  lemma ShortYearDoesNotRoundTrip(y: int, m: nat, d: nat)
    requires 0 <= y < 1000 && m < 12 && 1 <= d
    ensures ParseYMD(PickDay(y, m, Some(d)).value) == None
  {
    var ys, mm, dd := Text.NatToString(y), Pad(m + 1), Pad(d);
    Text.NatToStringLength(y);
    var s := ys + "-" + mm + "-" + dd;
    assert PickDay(y, m, Some(d)).value == s;
    MatchOfGroups(ys, mm, dd);
  }

  /** The thirtieth of February does not exist in any year. */
  lemma NoThirtiethOfFebruary(y: nat)
    requires 1000 <= y <= 9999
    ensures ParseYMD(Text.NatToString(y) + "-02-30") == None
  {
    var ys := Text.NatToString(y);
    Text.NatToStringLength(y);
    Text.NatToStringRoundTrip(y);
    var s := ys + "-02-30";
    assert s == ys + "-" + "02" + "-" + "30";
    assert Text.DigitsValue("02") == 2 by { assert "02"[..1] == "0"; }
    assert Text.DigitsValue("30") == 30 by { assert "30"[..1] == "3"; }
    MatchOfGroups(ys, "02", "30");
    ParseOfMatch(s, y, 2, 30);
  }

  /** The number of empty cells that complete the last week. */
  function Padding(filled: nat): (n: nat)
    ensures n < 7 && (filled + n) % 7 == 0
  {
    (7 - filled % 7) % 7
  }

  /** The month grid as the three loops of `days` lay it out: `startDay` empty cells, the days
      1 to `days`, then empty cells up to a whole number of weeks. */
  predicate IsGrid(g: seq<Option<nat>>, startDay: nat, days: nat) {
    |g| == startDay + days + Padding(startDay + days) &&
    forall i :: 0 <= i < |g| ==> g[i] == if startDay <= i < startDay + days then Some(i - startDay + 1) else None
  }

  /** Below the padded length, the only whole number of weeks is the padded length itself. */
  lemma PaddingIsLeast(filled: nat, len: nat)
    requires filled <= len <= filled + Padding(filled) && len % 7 == 0
    ensures len == filled + Padding(filled)
  {
    var q, r := filled / 7, filled % 7;
    assert filled == 7 * q + r;
    var k := len / 7;
    assert len == 7 * k;
    if r != 0 {
      assert 7 * q < 7 * k <= 7 * q + 7;
      assert q < k <= q + 1;
    }
  }

  /** The loops of `days`. */
  method MonthGrid(startDay: nat, days: nat) returns (grid: seq<Option<nat>>)
    ensures IsGrid(grid, startDay, days)
  {
    grid := [];
    var i := 0;
    while i < startDay
      invariant i <= startDay && |grid| == i
      invariant forall j :: 0 <= j < i ==> grid[j] == None
    {
      grid := grid + [None];
      i := i + 1;
    }
    var d := 1;
    while d <= days
      invariant 1 <= d <= days + 1 && |grid| == startDay + d - 1
      invariant forall j :: 0 <= j < |grid| ==> grid[j] == if startDay <= j then Some(j - startDay + 1) else None
    {
      grid := grid + [Some(d)];
      d := d + 1;
    }
    var full := startDay + days;
    while |grid| % 7 != 0
      invariant full <= |grid| <= full + Padding(full)
      invariant forall j :: 0 <= j < |grid| ==> grid[j] == if startDay <= j < full then Some(j - startDay + 1) else None
      decreases full + Padding(full) - |grid|
    {
      grid := grid + [None];
    }
    PaddingIsLeast(full, |grid|);
  }

  /** Every week row is full, each day appears in exactly one cell, and the column of day `d` is
      its weekday counted from the first's. */
  lemma GridLayout(g: seq<Option<nat>>, startDay: nat, days: nat, i: nat)
    requires IsGrid(g, startDay, days) && i < |g|
    ensures |g| % 7 == 0 && |g| < startDay + days + 7
    ensures g[i].Some? <==> startDay <= i < startDay + days
    ensures g[i].Some? ==> 1 <= g[i].value <= days && i % 7 == (startDay + g[i].value - 1) % 7
  {
  }

  /** Each day of the month has its cell. */
  lemma EveryDayHasACell(g: seq<Option<nat>>, startDay: nat, days: nat, d: nat)
    requires IsGrid(g, startDay, days) && 1 <= d <= days
    ensures startDay + d - 1 < |g| && g[startDay + d - 1] == Some(d)
  {
  }

  /** The previous and next month buttons, on a (year, month) view with month 0 for January. */
  function PrevMonth(y: int, m: nat): (r: (int, nat))
    requires m < 12
    ensures r.1 < 12 && 12 * r.0 + r.1 == 12 * y + m - 1
  {
    if m == 0 then (y - 1, 11) else (y, m - 1)
  }

  function NextMonth(y: int, m: nat): (r: (int, nat))
    requires m < 12
    ensures r.1 < 12 && 12 * r.0 + r.1 == 12 * y + m + 1
  {
    if m == 11 then (y + 1, 0) else (y, m + 1)
  }

  /** The two buttons undo each other. */
  lemma PrevNextInverse(y: int, m: nat)
    requires m < 12
    ensures NextMonth(PrevMonth(y, m).0, PrevMonth(y, m).1) == (y, m)
    ensures PrevMonth(NextMonth(y, m).0, NextMonth(y, m).1) == (y, m)
  {
  }

  /** The match of `^(\d{4})-(\d{1,2})$`. */
  function MatchYM(s: string): (r: Option<(nat, nat)>)
  {
    var p := Text.Split(s, '-');
    if |p| == 2 && |p[0]| == 4 && 1 <= |p[1]| <= 2 && Text.AllDigits(p[0]) && Text.AllDigits(p[1])
    then Some((Text.DigitsValue(p[0]), Text.DigitsValue(p[1])))
    else None
  }

  /** `parseYM`: the pattern and a month from 1 to 12; the year is not checked further. */
  function ParseYM(s: string): (r: Option<(nat, nat)>)
    ensures r.Some? ==> 1 <= r.value.1 <= 12
  {
    if s == "" then None
    else match MatchYM(s)
      case None => None
      case Some((y, m)) => if m < 1 || m > 12 then None else Some((y, m))
  }

  /** `pickMonth`: `year-MM`. */
  function PickMonth(viewYear: int, m: nat): string {
    Text.IntToString(viewYear) + "-" + Pad(m)
  }

  /** Joining two pieces with a hyphen and splitting again recovers them. */
  lemma SplitTwo(a: string, b: string)
    requires '-' !in a && '-' !in b
    ensures Text.Split(a + "-" + b, '-') == [a, b]
  {
    JoinTwo(a, b);
    Text.SplitJoin([a, b], '-');
  }

  /** What the month picker emits reads back as the year and month picked, for four-digit
      years. */
  lemma PickMonthRoundTrip(y: int, m: nat)
    requires 1000 <= y <= 9999 && 1 <= m <= 12
    ensures ParseYM(PickMonth(y, m)) == Some((y, m))
  {
    var ys := Text.NatToString(y);
    Text.NatToStringLength(y);
    Text.NatToStringRoundTrip(y);
    DigitsHaveNoHyphen(ys);
    DigitsHaveNoHyphen(Pad(m));
    SplitTwo(ys, Pad(m));
    assert MatchYM(PickMonth(y, m)) == Some((y, m));
  }
}

=== FILE: form_fields.dfy ===
/** What the frontend forms share: number inputs, blank text checks and the file lists the
    pick, cap and remove buttons edit. */
module FormFields {
  import Text

  /** The value of an `<input type="number">`. The browser keeps it either empty or a valid
      number, so `parseFloat` and `Number` read it the same way, and `!value` holds exactly when
      it is empty. */
  datatype Field = Blank | Number(value: real)

  /** The refusal `!value || parseFloat(value) <= 0` fails exactly on a positive number. */
  predicate Positive(f: Field) {
    f.Number? && f.value > 0.0
  }

  /** `s.trim()` is non-empty. */
  predicate Filled(s: string) {
    Text.Trim(s) != []
  }

  /** `list.filter((_, i) => i !== idx)`. */
  function Without<T>(s: seq<T>, idx: int): (r: seq<T>)
    ensures 0 <= idx < |s| ==> r == s[..idx] + s[idx + 1..]
    ensures !(0 <= idx < |s|) ==> r == s
    decreases |s|
  {
    if s == [] then []
    else
      var rest := Without(s[1..], idx - 1);
      assert idx != 0 && 0 <= idx < |s| ==> rest == s[1..][..idx - 1] + s[1..][idx..];
      assert idx != 0 && 0 <= idx < |s| ==> s[..idx] == [s[0]] + s[1..][..idx - 1];
      if idx == 0 then rest else [s[0]] + rest
  }

  /** Removing one entry drops exactly that entry: what stays keeps its order, and the entries
      after it move up by one. */
  lemma WithoutShifts<T>(s: seq<T>, idx: int)
    requires 0 <= idx < |s|
    ensures |Without(s, idx)| == |s| - 1
    ensures forall i :: 0 <= i < idx ==> Without(s, idx)[i] == s[i]
    ensures forall i :: idx <= i < |s| - 1 ==> Without(s, idx)[i] == s[i + 1]
  {
  }

  /** `[...prev, ...picked].slice(0, n)`: the files already held come first, and the newly
      picked ones fill what room is left. */
  function Capped<T>(prev: seq<T>, picked: seq<T>, n: nat): (r: seq<T>)
    ensures |r| == if |prev| + |picked| <= n then |prev| + |picked| else n
    ensures |prev| + |picked| <= n ==> r == prev + picked
    ensures |prev| <= n ==> r[..|prev|] == prev && r[|prev|..] == picked[..|r| - |prev|]
    ensures |prev| > n ==> r == prev[..n]
  {
    var all := prev + picked;
    var r := if |all| <= n then all else all[..n];
    assert |prev| <= n ==> r[..|prev|] == all[..|prev|];
    assert |prev| > n ==> all[..n] == prev[..n];
    r
  }

  /** Capping twice at the same size is capping once: picking nothing more keeps the list. */
  lemma CappedStable<T>(prev: seq<T>, n: nat)
    requires |prev| <= n
    ensures Capped(prev, [], n) == prev
  {
  }
}

=== FILE: help_centre.dfy ===
/** The help-centre chat endpoint (helpcentre/views.py): a keyword gate in front of a call to a
    hosted language model. The model call itself is a parameter: its text, or the exception it
    raised. */
module HelpCentre {
  import opened Wrappers
  import Text

  /** `allowed_keywords`, in order. */
  const Keywords: seq<string> := [
    "talentlink", "hire", "freelancer", "client", "project",
    "support", "help", "issue", "problem", "complaint", "contact",
    "service", "hi", "hello", "account", "notification", "portfolio",
    "jobs", "job", "workspace", "contract", "proposal",
    "password", "reset", "login", "signin", "sign in", "sign up"
  ]

  /** `any(w in q for w in words)`, scanning the words in order. */
  function AnyIn(q: string, words: seq<string>): (b: bool)
    ensures b <==> exists i :: 0 <= i < |words| && Text.Contains(q, words[i])
  {
    if words == [] then false
    else if Text.Contains(q, words[0]) then true
    else
      var rest := AnyIn(q, words[1..]);
      assert forall i :: 1 <= i < |words| ==> words[i] == words[1..][i - 1];
      rest
  }

  /** The question passes the gate: its lower-case form contains some keyword. */
  predicate OnTopic(question: string) {
    AnyIn(Text.Lower(question), Keywords)
  }

  /** What the language-model call produced: its response text (possibly empty), or an
      exception. */
  datatype Generation = Generated(text: string) | Raised

  /** The answers the endpoint gives. `Fallback` is the canned text used when the model returned
      nothing; `ConnectionTrouble` the one used when it raised. */
  datatype Reply = QuestionRequired | OffTopic | EngineMissing | NotConfigured | Answer(text: string) | Fallback | ConnectionTrouble

  /** `post`: a missing or empty question is 400. Every other request is 200: the gate's refusal,
      the two configuration messages, the model's text, or one of the two fallbacks. */
  function Ask(question: Option<string>, engineInstalled: bool, apiKeySet: bool, generation: Generation): (r: (Status, Reply))
    ensures r.0 == BadRequest <==> question.None? || question.value == ""
    ensures r.0 != BadRequest ==> r.0 == Ok
    ensures r.0 == BadRequest ==> r.1 == QuestionRequired
    ensures r.1 == OffTopic <==> r.0 == Ok && !OnTopic(question.value)
    ensures r.1.Answer? ==> engineInstalled && apiKeySet && generation == Generated(r.1.text) && r.1.text != ""
  {
    var q := if question.Some? then question.value else "";
    if q == "" then (BadRequest, QuestionRequired)
    else if !OnTopic(q) then (Ok, OffTopic)
    else if !engineInstalled then (Ok, EngineMissing)
    else if !apiKeySet then (Ok, NotConfigured)
    else match generation
      case Raised => (Ok, ConnectionTrouble)
      case Generated(text) => if text == "" then (Ok, Fallback) else (Ok, Answer(text))
  }

  /** The gate comes first: an off-topic question gets the refusal whatever the configuration
      and whatever the model would have said, so the model is never consulted for it. */
  lemma OffTopicNeverReachesTheModel(question: string, e1: bool, k1: bool, g1: Generation, e2: bool, k2: bool, g2: Generation)
    requires question != "" && !OnTopic(question)
    ensures Ask(Some(question), e1, k1, g1) == Ask(Some(question), e2, k2, g2) == (Ok, OffTopic)
  {
  }

  /** Any question containing a keyword, in any letter case, passes the gate. */
  lemma KeywordPasses(question: string, i: nat)
    requires i < |Keywords| && Text.Contains(Text.Lower(question), Keywords[i])
    ensures OnTopic(question)
  {
  }

  /** Because "hi" is a keyword and the match is on substrings, a question merely containing the
      letters "hi", such as "this", passes. */
  lemma ThisIsOnTopic()
    ensures OnTopic("this")
  {
    assert Text.Lower("this") == "this";
    assert Text.MatchAt("this", "hi", 1);
    assert Keywords[12] == "hi";
    Text.ContainsIffMatch("this", "hi");
    KeywordPasses("this", 12);
  }
}

=== FILE: job_forms.dfy ===
/** The client's job and project forms (pages/PostJob.jsx, pages/EditJob.jsx,
    pages/EditProject.jsx): the checks run before submitting, the pricing fields that are sent,
    the attachment cap, the owner check on loading a job for editing, and the category search. */
module JobForms {
  import opened Wrappers
  import opened FormFields
  import Text
  import JobRules

  /** `job_type`: `'hourly'`, `'fixed'`, or anything else the form state may hold. */
  datatype Kind = HourlyKind | FixedKind | OtherKind

  /** The pricing inputs of a job form. */
  datatype Pricing = Pricing(kind: Kind, hourlyMin: Field, hourlyMax: Field, fixedAmount: Field)

  datatype PriceError = RangeMissing | RangeInverted | AmountInvalid

  /** The pricing checks `handleSubmit` runs in PostJob and EditJob. A job type other than
      hourly or fixed is not checked. */
  function CheckPricing(p: Pricing): (r: Option<PriceError>)
    ensures r == Some(RangeMissing) <==> p.kind == HourlyKind && (p.hourlyMin.Blank? || p.hourlyMax.Blank?)
    ensures r == Some(RangeInverted) <==>
      p.kind == HourlyKind && p.hourlyMin.Number? && p.hourlyMax.Number? && p.hourlyMin.value >= p.hourlyMax.value
    ensures r == Some(AmountInvalid) <==> p.kind == FixedKind && !Positive(p.fixedAmount)
  {
    match p.kind
    case HourlyKind =>
      if p.hourlyMin.Blank? || p.hourlyMax.Blank? then Some(RangeMissing)
      else if p.hourlyMin.value >= p.hourlyMax.value then Some(RangeInverted)
      else None
    case FixedKind => if !Positive(p.fixedAmount) then Some(AmountInvalid) else None
    case OtherKind => None
  }

  /** The pricing part of the submitted form data: the two hourly fields for an hourly job,
      otherwise the fixed amount alone. */
  datatype Sent = SentHourly(min: Field, max: Field) | SentFixed(amount: Field)

  function PricingPayload(p: Pricing): (s: Sent)
    ensures s.SentHourly? <==> p.kind == HourlyKind
    ensures s.SentHourly? ==> s.min == p.hourlyMin && s.max == p.hourlyMax
    ensures s.SentFixed? ==> s.amount == p.fixedAmount
  {
    if p.kind == HourlyKind then SentHourly(p.hourlyMin, p.hourlyMax) else SentFixed(p.fixedAmount)
  }

  /** Whatever the hidden fields of the other pricing type hold, the payload is the same: it
      carries the selected type's fields only. */
  lemma PayloadIgnoresOtherType(p: Pricing, min: Field, max: Field, amount: Field)
    ensures p.kind == HourlyKind ==> PricingPayload(p.(fixedAmount := amount)) == PricingPayload(p)
    ensures p.kind != HourlyKind ==> PricingPayload(p.(hourlyMin := min, hourlyMax := max)) == PricingPayload(p)
  {
  }

  /** The field the job serializer receives for one sent value: a whole number as sent. A
      fractional number, which the `IntegerField` would refuse, is floored here instead; the
      lemmas below only send whole numbers, which `ClientChecksMatchServer` requires and the
      inputs' `step` attributes enforce. */
  function ServerField(f: Field): JobRules.Field {
    if f.Number? then JobRules.Given(f.value.Floor) else JobRules.Null
  }

  function ServerForm(p: Pricing): JobRules.JobForm {
    match PricingPayload(p)
    case SentHourly(mn, mx) => JobRules.JobForm(Some(JobRules.Hourly), ServerField(mn), ServerField(mx), JobRules.Absent)
    case SentFixed(a) =>
      JobRules.JobForm(if p.kind == FixedKind then Some(JobRules.Fixed) else None, JobRules.Absent, JobRules.Absent, ServerField(a))
  }

  predicate Whole(f: Field) {
    f.Number? && f.value.Floor as real == f.value
  }

  /** An `<input type="number" required min="m" step="m">` passes the browser's constraint
      validation: it holds a number of at least `m` that is a whole multiple of `m`. */
  predicate OnStep(f: Field, m: nat) {
    m > 0 && f.Number? && f.value >= m as real && (f.value / m as real).Floor as real == f.value / m as real
  }

  /** The constraint validation the browser runs on the pricing inputs of PostJob and EditJob
      before `handleSubmit` is called: an hourly job shows the two rate inputs with
      `min="50" step="50"`, any other job the fixed amount with `min="100" step="100"`. */
  predicate InputsPass(p: Pricing) {
    if p.kind == HourlyKind then OnStep(p.hourlyMin, 50) && OnStep(p.hourlyMax, 50)
    else OnStep(p.fixedAmount, 100)
  }

  /** A number on its step is a positive whole number. */
  lemma OnStepWhole(f: Field, m: nat)
    requires OnStep(f, m)
    ensures Whole(f) && f.value.Floor >= m
  {
    var k := (f.value / m as real).Floor;
    assert f.value == (k * m) as real;
  }

  /** A new hourly or fixed job that passes the form's checks, with whole positive amounts, is
      accepted by the server's pricing validation as well. */
  lemma ClientChecksMatchServer(p: Pricing)
    requires p.kind != OtherKind && CheckPricing(p).None?
    requires p.kind == HourlyKind ==> Whole(p.hourlyMin) && Whole(p.hourlyMax) && p.hourlyMin.value > 0.0
    requires p.kind == FixedKind ==> Whole(p.fixedAmount)
    ensures JobRules.Validate(ServerForm(p), None).Success?
  {
  }

  /** Every new hourly or fixed job the page submits, past both the browser's input constraints
      and `handleSubmit`'s checks, is accepted by the server's pricing validation. */
  lemma SubmittedJobPassesServer(p: Pricing)
    requires p.kind != OtherKind && InputsPass(p) && CheckPricing(p).None?
    ensures JobRules.Validate(ServerForm(p), None).Success?
  {
    if p.kind == HourlyKind {
      OnStepWhole(p.hourlyMin, 50);
      OnStepWhole(p.hourlyMax, 50);
    } else {
      OnStepWhole(p.fixedAmount, 100);
    }
    ClientChecksMatchServer(p);
  }

  /** `handleSubmit`'s own check is weaker than the server's: it lets a zero minimum through
      and the server refuses it. The browser's `min="50"` on the input stops it first. */
  lemma ZeroMinimumPassesOnlyTheHandler()
    ensures CheckPricing(Pricing(HourlyKind, Number(0.0), Number(10.0), Blank)).None?
    ensures JobRules.Validate(ServerForm(Pricing(HourlyKind, Number(0.0), Number(10.0), Blank)), None) ==
      Failure(JobRules.HourlyRateRequired)
    ensures !InputsPass(Pricing(HourlyKind, Number(0.0), Number(10.0), Blank))
  {
  }

  /** The signed-in user, as the edit page sees it. */
  datatype Viewer = Viewer(id: nat, role: string)

  /** The owner check of `loadJob`: only the client who posted the job may edit it. */
  predicate MayEdit(user: Option<Viewer>, jobClient: nat) {
    user.Some? && user.value.role == "client" && user.value.id == jobClient
  }

  /** Nobody else passes: a freelancer never, and another client never. */
  lemma OnlyOwnerEdits(user: Option<Viewer>, jobClient: nat)
    ensures MayEdit(user, jobClient) ==> user.value.id == jobClient && user.value.role == "client"
    ensures user.Some? && user.value.id != jobClient ==> !MayEdit(user, jobClient)
  {
  }

  /** `onPickFiles` on the job and project forms: at most two new files, the earliest kept. */
  function PickFiles<F>(files: seq<F>, picked: seq<F>): (r: seq<F>)
    ensures |r| <= 2
    ensures |files| <= 2 ==> |files| <= |r| && r[..|files|] == files
  {
    Capped(files, picked, 2)
  }

  /** A file the cap dropped is never one that was held before the pick. */
  lemma PickKeepsHeld<F>(files: seq<F>, picked: seq<F>, i: nat)
    requires |files| <= 2 && i < |files|
    ensures PickFiles(files, picked)[i] == files[i]
  {
    assert PickFiles(files, picked)[..|files|] == files;
  }

  /** The project form (EditProject). */
  datatype ProjectForm = ProjectForm(
    title: string, description: string, skills: seq<Option<nat>>, kind: Kind,
    fixedPayment: Field, hourlyMin: Field, hourlyMax: Field)

  datatype ProjectError =
    TitleMissing | DescriptionMissing | SkillsMissing | PaymentInvalid | RateRangeMissing | RateRangeInverted | TooManyFiles

  /** `validateBeforeSubmit`: the first failing check in the order title, description,
      skills, pricing, files. */
  function ValidateProject(f: ProjectForm, fileCount: nat): (r: Option<ProjectError>)
    ensures r == Some(TitleMissing) <==> !Filled(f.title)
    ensures r.None? <==> (
      Filled(f.title) && Filled(f.description) && f.skills != [] &&
      (f.kind == FixedKind ==> Positive(f.fixedPayment)) &&
      (f.kind == HourlyKind ==> f.hourlyMin.Number? && f.hourlyMax.Number? && f.hourlyMin.value < f.hourlyMax.value) &&
      fileCount <= 2)
    ensures r == Some(TooManyFiles) ==> fileCount > 2
  {
    if !Filled(f.title) then Some(TitleMissing)
    else if !Filled(f.description) then Some(DescriptionMissing)
    else if f.skills == [] then Some(SkillsMissing)
    else if f.kind == FixedKind && !Positive(f.fixedPayment) then Some(PaymentInvalid)
    else if f.kind == HourlyKind && (f.hourlyMin.Blank? || f.hourlyMax.Blank?) then Some(RateRangeMissing)
    else if f.kind == HourlyKind && f.hourlyMin.value >= f.hourlyMax.value then Some(RateRangeInverted)
    else if fileCount > 2 then Some(TooManyFiles)
    else None
  }

  /** The files of the project form only ever come from `onPickFiles` and the remove button,
      so the file check never fires. */
  lemma FileCheckNeverFires<F>(f: ProjectForm, files: seq<F>, picked: seq<F>, idx: int)
    ensures ValidateProject(f, |PickFiles(files, picked)|) != Some(TooManyFiles)
    ensures |files| <= 2 ==> ValidateProject(f, |Without(files, idx)|) != Some(TooManyFiles)
  {
  }

  /** The budget the project update sends. */
  datatype Budget = Budget(budgetMin: Field, budgetMax: Field, hourly: Option<(Field, Field)>, fixedPayment: Option<Field>)

  function ProjectBudget(f: ProjectForm): (b: Budget)
    ensures f.kind == HourlyKind ==> b.budgetMin == f.hourlyMin && b.budgetMax == f.hourlyMax && b.fixedPayment.None?
    ensures f.kind != HourlyKind ==> b.budgetMin == b.budgetMax == f.fixedPayment && b.hourly.None?
  {
    if f.kind == HourlyKind then Budget(f.hourlyMin, f.hourlyMax, Some((f.hourlyMin, f.hourlyMax)), None)
    else Budget(f.fixedPayment, f.fixedPayment, None, Some(f.fixedPayment))
  }

  /** A project that passes the checks is sent with an ordered budget: a fixed price as a
      positive single point, an hourly one as a range with its minimum below its maximum. */
  lemma ValidBudgetOrdered(f: ProjectForm, fileCount: nat)
    requires ValidateProject(f, fileCount).None? && f.kind != OtherKind
    requires f.kind == HourlyKind ==> f.hourlyMin.value >= 0.0
    ensures var b := ProjectBudget(f);
      b.budgetMin.Number? && b.budgetMax.Number? && 0.0 < b.budgetMax.value &&
      (f.kind == FixedKind ==> b.budgetMin.value == b.budgetMax.value) &&
      (f.kind == HourlyKind ==> b.budgetMin.value < b.budgetMax.value)
  {
  }

  /** `skill_ids`: the ids of the selected skills, skipping the ones without an id. */
  function SkillIds(skills: seq<Option<nat>>): (r: seq<nat>)
    ensures |r| <= |skills|
    ensures forall x :: x in r <==> Some(x) in skills
  {
    if skills == [] then []
    else (if skills[0].Some? then [skills[0].value] else []) + SkillIds(skills[1..])
  }

  /** One group of the category menu. */
  datatype Group = Group(name: string, items: seq<string>)

  /** An item the search term matches. */
  predicate ItemMatches(item: string, term: string) {
    Text.Contains(Text.Lower(item), term)
  }

  function MatchingItems(items: seq<string>, term: string): (r: seq<string>)
    ensures forall x :: x in r <==> x in items && ItemMatches(x, term)
  {
    if items == [] then []
    else (if ItemMatches(items[0], term) then [items[0]] else []) + MatchingItems(items[1..], term)
  }

  function MatchingGroups(groups: seq<Group>, term: string): (r: seq<Group>)
    ensures forall g :: g in r ==> g.items != [] && forall x :: x in g.items ==> ItemMatches(x, term)
    ensures forall g, x :: g in groups && x in g.items && ItemMatches(x, term) ==>
      exists h :: h in r && h.name == g.name && x in h.items
  {
    if groups == [] then []
    else
      var g := groups[0];
      var kept := MatchingItems(g.items, term);
      var rest := MatchingGroups(groups[1..], term);
      if kept != [] then
        assert forall x :: x in g.items && ItemMatches(x, term) ==> Group(g.name, kept) in [Group(g.name, kept)] + rest;
        [Group(g.name, kept)] + rest
      else rest
  }

  /** The `CategoryDropdown` filter: every group for a blank term; otherwise each group cut to
      the items containing the lower-cased, trimmed term, empty groups dropped. */
  function FilterCategories(groups: seq<Group>, term: string): (r: seq<Group>)
    ensures !Filled(term) ==> r == groups
    ensures Filled(term) ==> forall g :: g in r ==> (
      g.items != [] && forall x :: x in g.items ==> ItemMatches(x, Text.Lower(Text.Trim(term))))
  {
    var t := Text.Lower(Text.Trim(term));
    if t == [] then groups else MatchingGroups(groups, t)
  }

  /** Every item containing a non-blank term is still offered, under its own group's name. */
  lemma SearchLosesNoMatch(groups: seq<Group>, term: string, g: Group, x: string)
    requires Filled(term) && g in groups && x in g.items && ItemMatches(x, Text.Lower(Text.Trim(term)))
    ensures exists h :: h in FilterCategories(groups, term) && h.name == g.name && x in h.items
  {
  }
}

=== FILE: job_rules.dfy ===
/** The job posting rules of jobs/serializers.py and the listing filters of jobs/views.py: the
    pricing validation of a job form, the cap on attachments, the whole-number bid of an
    application, and the comma-separated filter parameters. */
module JobRules {
  import opened Wrappers
  import opened Accounts
  import opened Listings
  import Text

  /** `JOB_TYPE_CHOICES`. */
  datatype JobType = Hourly | Fixed

  /** One numeric field of a submitted form: left out, sent as null, or sent as a whole number
      (the serializer's integer field has already parsed it). */
  datatype Field = Absent | Null | Given(n: int)

  /** The pricing part of a job form. */
  datatype JobForm = JobForm(jobType: Option<JobType>, hourlyMin: Field, hourlyMax: Field, fixedAmount: Field)

  /** The pricing columns of a stored job, the `instance` of an update. */
  datatype Pricing = Pricing(jobType: JobType, hourlyMin: Option<int>, hourlyMax: Option<int>, fixedAmount: Option<int>)

  datatype JobError = NegativeValue | HourlyRateRequired | HourlyRateOrder | FixedAmountRequired

  /** `attrs.get(name, getattr(self.instance, name, None))`: the submitted value, else the stored
      one on an update, else nothing. An explicit null is kept as null. */
  function Effective(f: Field, stored: Option<int>): Option<int> {
    match f
    case Absent => stored
    case Null => None
    case Given(n) => Some(n)
  }

  function StoredMin(instance: Option<Pricing>): Option<int> {
    if instance.Some? then instance.value.hourlyMin else None
  }

  function StoredMax(instance: Option<Pricing>): Option<int> {
    if instance.Some? then instance.value.hourlyMax else None
  }

  function StoredFixed(instance: Option<Pricing>): Option<int> {
    if instance.Some? then instance.value.fixedAmount else None
  }

  /** The job type the validation uses: the submitted one, else the stored one, else hourly. */
  function TypeOf(form: JobForm, instance: Option<Pricing>): JobType {
    if form.jobType.Some? then form.jobType.value
    else if instance.Some? then instance.value.jobType
    else Hourly
  }

  predicate Negative(f: Field) {
    f.Given? && f.n < 0
  }

  /** Python truthiness of a nullable integer: present and non-zero. */
  predicate Truthy(v: Option<int>) {
    v.Some? && v.value != 0
  }

  /** Field validation (`MinValueValidator(0)` on the three amounts) followed by
      `JobSerializer.validate`. On success the validated form carries the effective amounts the
      check read. */
  function Validate(form: JobForm, instance: Option<Pricing>): (r: Result<JobForm, JobError>)
    ensures r == Failure(NegativeValue) <==> Negative(form.hourlyMin) || Negative(form.hourlyMax) || Negative(form.fixedAmount)
    ensures r.Success? && TypeOf(form, instance) == Hourly ==>
      var mn := Effective(form.hourlyMin, StoredMin(instance));
      var mx := Effective(form.hourlyMax, StoredMax(instance));
      mn.Some? && mx.Some? && mn.value != 0 && mn.value < mx.value &&
      (form.hourlyMin.Given? ==> 0 < mn.value) &&
      r.value == form.(hourlyMin := Given(mn.value), hourlyMax := Given(mx.value))
    ensures r.Success? && TypeOf(form, instance) == Fixed ==>
      var fa := Effective(form.fixedAmount, StoredFixed(instance));
      fa.Some? && fa.value > 0 && r.value == form.(fixedAmount := Given(fa.value))
    ensures r == Failure(HourlyRateRequired) ==> TypeOf(form, instance) == Hourly
    ensures r == Failure(HourlyRateOrder) ==> TypeOf(form, instance) == Hourly
    ensures r == Failure(FixedAmountRequired) ==> TypeOf(form, instance) == Fixed
  {
    if Negative(form.hourlyMin) || Negative(form.hourlyMax) || Negative(form.fixedAmount) then Failure(NegativeValue)
    else if TypeOf(form, instance) == Hourly then
      var mn := Effective(form.hourlyMin, StoredMin(instance));
      var mx := Effective(form.hourlyMax, StoredMax(instance));
      if !Truthy(mn) || !Truthy(mx) then Failure(HourlyRateRequired)
      else if mn.value >= mx.value then Failure(HourlyRateOrder)
      else Success(form.(hourlyMin := Given(mn.value), hourlyMax := Given(mx.value)))
    else
      assert TypeOf(form, instance) == Fixed;
      var fa := Effective(form.fixedAmount, StoredFixed(instance));
      if !Truthy(fa) || fa.value <= 0 then Failure(FixedAmountRequired)
      else Success(form.(fixedAmount := Given(fa.value)))
  }

  /** Fills the fields an update leaves out with the stored values. */
  function Merge(form: JobForm, instance: Pricing): JobForm {
    JobForm(Some(TypeOf(form, Some(instance))),
            if form.hourlyMin.Absent? then (if instance.hourlyMin.Some? then Given(instance.hourlyMin.value) else Null) else form.hourlyMin,
            if form.hourlyMax.Absent? then (if instance.hourlyMax.Some? then Given(instance.hourlyMax.value) else Null) else form.hourlyMax,
            if form.fixedAmount.Absent? then (if instance.fixedAmount.Some? then Given(instance.fixedAmount.value) else Null) else form.fixedAmount)
  }

  /** A partial update is judged exactly like a full form carrying the merged values, as long as
      the stored amounts are not negative (their validators ran when they were saved). */
  lemma PartialUpdateIsFullForm(form: JobForm, instance: Pricing)
    requires instance.hourlyMin.Some? ==> instance.hourlyMin.value >= 0
    requires instance.hourlyMax.Some? ==> instance.hourlyMax.value >= 0
    requires instance.fixedAmount.Some? ==> instance.fixedAmount.value >= 0
    ensures Validate(form, Some(instance)).Success? <==> Validate(Merge(form, instance), None).Success?
    ensures Validate(form, Some(instance)).Failure? ==>
      Validate(form, Some(instance)).error == Validate(Merge(form, instance), None).error
  {
  }

  /** A fixed-price job is judged on its amount alone: whatever hourly rates it carries, even an
      inverted pair, do not matter as long as they are not negative. */
  lemma FixedIgnoresHourly(form: JobForm, instance: Option<Pricing>, mn: Field, mx: Field)
    requires TypeOf(form, instance) == Fixed && !Negative(mn) && !Negative(mx)
    requires !Negative(form.hourlyMin) && !Negative(form.hourlyMax)
    ensures Validate(form, instance).Success? == Validate(form.(hourlyMin := mn, hourlyMax := mx), instance).Success?
  {
  }

  /** `files[:2]`: a create or an update stores at most the first two uploaded files. */
  function StoredFiles<F>(files: seq<F>): (r: seq<F>)
    ensures |r| <= 2 && |r| <= |files|
    ensures r == files[..|r|]
    ensures |files| <= 2 ==> r == files
  {
    if |files| <= 2 then files else files[..2]
  }

  /** The cap is per request: every update adds up to two more, so a job can hold more than
      two attachments in total. */
  lemma CapIsPerRequest<F>(a: F, b: F, c: F, d: F)
    ensures |StoredFiles([a, b]) + StoredFiles([c, d])| == 4
  {
  }

  /** The bid as the application serializer reads it. Its `IntegerField` takes a whole number
      (a submitted `12.0` included) and refuses a fractional one, and the column's minimum
      refuses a negative one: both are a 400 before `validate` runs. */
  function ReadBid(x: real): (r: Option<int>)
    ensures r.Some? <==> x >= 0.0 && x.Floor as real == x
    ensures r.Some? ==> r.value >= 0 && r.value as real == x
  {
    if x >= 0.0 && x.Floor as real == x then Some(x.Floor) else None
  }

  /** Python's `int()` on a number: truncation toward zero. */
  function TruncateBid(x: real): (n: int)
    ensures x >= 0.0 ==> n as real <= x < n as real + 1.0
    ensures x < 0.0 ==> n as real - 1.0 < x <= n as real
  {
    if x >= 0.0 then x.Floor else -((-x).Floor)
  }

  /** `int(attrs['bid_amount'])` in `validate` only ever sees a bid the field has read, and on it
      the conversion is the identity: the stored bid is the submitted number exactly. */
  lemma ValidatedBidKept(x: real)
    requires ReadBid(x).Some?
    ensures TruncateBid(ReadBid(x).value as real) == ReadBid(x).value
    ensures TruncateBid(ReadBid(x).value as real) as real == x
  {
  }

  /** `[p.strip() for p in parts if p.strip()]`. */
  function Pieces(parts: seq<string>): (r: seq<string>)
    ensures |r| <= |parts|
    ensures forall k :: 0 <= k < |r| ==> r[k] != [] && Text.Trim(r[k]) == r[k]
  {
    if parts == [] then []
    else
      var t := Text.Trim(parts[0]);
      var rest := Pieces(parts[1..]);
      Text.TrimIdempotent(parts[0]);
      if t == [] then rest else [t] + rest
  }

  /** A character none of the parts contains is in none of the pieces. */
  lemma {:induction false} PiecesAvoid(parts: seq<string>, c: char)
    requires forall i :: 0 <= i < |parts| ==> c !in parts[i]
    ensures forall k :: 0 <= k < |Pieces(parts)| ==> c !in Pieces(parts)[k]
  {
    if parts != [] {
      PiecesAvoid(parts[1..], c);
      TrimInside(parts[0]);
    }
  }

  /** A comma-separated filter parameter (`job_type`, `experience_level`, `location_type`): the
      stripped parameter is split on commas and the stripped non-empty pieces are kept; the
      filter applies only when there is at least one. */
  function CommaList(param: string): (r: Option<seq<string>>)
    ensures r.Some? ==> |r.value| >= 1
    ensures r.Some? ==> forall k :: 0 <= k < |r.value| ==> r.value[k] != [] && Text.Trim(r.value[k]) == r.value[k] && ',' !in r.value[k]
    ensures Text.Trim(param) == [] ==> r.None?
  {
    var p := Text.Trim(param);
    if p == [] then None
    else
      var parts := Text.Split(p, ',');
      var xs := Pieces(parts);
      PiecesAvoid(parts, ',');
      if xs == [] then None else Some(xs)
  }

  /** Trimming only removes characters: everything in the result was in the input. */
  lemma TrimInside(s: string)
    ensures forall c :: c in Text.Trim(s) ==> c in s
  {
    var i, j :| 0 <= i <= j <= |s| && Text.Trim(s) == s[i..j] && Text.AllSpace(s[..i]) && Text.AllSpace(s[j..]);
    forall c | c in Text.Trim(s) ensures c in s {
      var k :| 0 <= k < |s[i..j]| && s[i..j][k] == c;
      assert s[i + k] == c;
    }
  }

  /** A string that starts and ends with a non-space character is its own trim. */
  lemma TrimmedAlready(s: string)
    requires s != [] && !Text.IsSpace(s[0]) && !Text.IsSpace(s[|s| - 1])
    ensures Text.Trim(s) == s
  {
    assert Text.LeadingSpace(s) == 0;
    assert s[0..] == s;
  }

  /** The first and last characters of a joined list are those of its first and last piece. */
  lemma {:induction false} JoinEnds(xs: seq<string>, sep: char)
    requires |xs| >= 1 && forall k :: 0 <= k < |xs| ==> xs[k] != []
    ensures Text.Join(xs, sep) != []
    ensures Text.Join(xs, sep)[0] == xs[0][0]
    ensures Text.Join(xs, sep)[|Text.Join(xs, sep)| - 1] == xs[|xs| - 1][|xs[|xs| - 1]| - 1]
  {
    if |xs| > 1 {
      JoinEnds(xs[1..], sep);
      var rest := Text.Join(xs[1..], sep);
      assert Text.Join(xs, sep) == xs[0] + [sep] + rest;
    }
  }

  /** Pieces that are already stripped and non-empty pass through unchanged. */
  lemma {:induction false} PiecesKeepClean(xs: seq<string>)
    requires forall k :: 0 <= k < |xs| ==> xs[k] != [] && Text.Trim(xs[k]) == xs[k]
    ensures Pieces(xs) == xs
  {
    if xs != [] {
      PiecesKeepClean(xs[1..]);
    }
  }

  /** Round trip: the frontend's comma-joined list of clean values is read back as exactly that
      list. */
  lemma CommaListRoundTrip(xs: seq<string>)
    requires |xs| >= 1
    requires forall k :: 0 <= k < |xs| ==> xs[k] != [] && Text.Trim(xs[k]) == xs[k] && ',' !in xs[k]
    ensures CommaList(Text.Join(xs, ',')) == Some(xs)
  {
    var s := Text.Join(xs, ',');
    JoinEnds(xs, ',');
    var first, last := xs[0], xs[|xs| - 1];
    assert !Text.IsSpace(first[0]) && !Text.IsSpace(last[|last| - 1]);
    TrimmedAlready(s);
    Text.SplitJoin(xs, ',');
    PiecesKeepClean(xs);
  }

  /** The columns of a job the listing filters look at. */
  datatype JobRow = JobRow(status: string, jobType: string, experience: string, locationType: string, public: bool)

  /** The query parameters of the listing, as received. */
  datatype JobQuery = JobQuery(status: string, jobType: string, experience: string, locationType: string)

  /** An `__in` filter that applies only when its list is present. */
  predicate InList(values: Option<seq<string>>, v: string) {
    values.None? || v in values.value
  }

  /** The row survives `get_queryset`: it is public, has the stripped status when one is asked
      for, and is in each comma list that applies. */
  predicate Listed(row: JobRow, q: JobQuery) {
    row.public &&
    (Text.Trim(q.status) == [] || row.status == Text.Trim(q.status)) &&
    InList(CommaList(q.jobType), row.jobType) &&
    InList(CommaList(q.experience), row.experience) &&
    InList(CommaList(q.locationType), row.locationType)
  }

  /** The listing, in table order. */
  function ListJobs(rows: seq<JobRow>, q: JobQuery): (r: seq<JobRow>)
    ensures |r| <= |rows|
    ensures forall x :: x in r <==> x in rows && Listed(x, q)
  {
    if rows == [] then []
    else
      var x := rows[|rows| - 1];
      ListJobs(rows[..|rows| - 1], q) + (if Listed(x, q) then [x] else [])
  }

  /** Parameters that are blank, or hold only commas and spaces, filter nothing but the private
      jobs. */
  lemma BlankQueryListsPublic(rows: seq<JobRow>, q: JobQuery)
    requires Text.Trim(q.status) == [] && CommaList(q.jobType).None? && CommaList(q.experience).None? && CommaList(q.locationType).None?
    ensures forall x :: x in ListJobs(rows, q) <==> x in rows && x.public
  {
  }

  /** `JobViewSet.destroy`: `get_object` looks the job up among the public jobs only, so an
      unknown or private job is 404 (for its own client too); a user who is not the job's client
      is 403; otherwise the job is deleted. */
  function Destroy(jobs: map<Id, Job>, user: UserId, jid: Id): (r: (map<Id, Job>, Status))
    ensures r.1 == NotFound <==> jid !in jobs || !jobs[jid].public
    ensures r.1 == Forbidden <==> jid in jobs && jobs[jid].public && jobs[jid].client != user
    ensures r.1 != Ok ==> r.0 == jobs
    ensures r.1 == Ok ==> r.0 == jobs - {jid} && jid in jobs && jobs[jid].public && jobs[jid].client == user
  {
    if jid !in jobs || !jobs[jid].public then (jobs, NotFound)
    else if jobs[jid].client != user then (jobs, Forbidden)
    else (jobs - {jid}, Ok)
  }

  /** A private job cannot be deleted through the endpoint at all, not even by its client. */
  lemma PrivateJobStays(jobs: map<Id, Job>, user: UserId, jid: Id)
    requires jid in jobs && !jobs[jid].public
    ensures Destroy(jobs, user, jid) == (jobs, NotFound)
  {
  }

  /** Deleting removes exactly one job and every other job is kept as it was; deleting the same
      job again finds nothing. */
  lemma DestroyOnce(jobs: map<Id, Job>, user: UserId, jid: Id)
    requires Destroy(jobs, user, jid).1 == Ok
    ensures var r := Destroy(jobs, user, jid).0;
      |r.Keys| == |jobs.Keys| - 1 && (forall k :: k in jobs && k != jid ==> k in r && r[k] == jobs[k]) &&
      Destroy(r, user, jid) == (r, NotFound)
  {
    var r := Destroy(jobs, user, jid).0;
    assert r.Keys == jobs.Keys - {jid};
  }

  /** No one but its client can remove a job. */
  lemma OnlyClientDestroys(jobs: map<Id, Job>, user: UserId, jid: Id)
    requires jid in jobs && jobs[jid].client != user
    ensures Destroy(jobs, user, jid).0 == jobs
  {
  }
}

=== FILE: listings.dfy ===
/** Projects (projects/models.py) and jobs (jobs/models.py): the two kinds of posting a client
    makes. They share one list of statuses. */
module Listings {
  import opened Accounts

  /** `STATUS_CHOICES` of both Project and Job. */
  datatype ListingStatus = Draft | Open | InProgress | Completed | Cancelled

  datatype Project = Project(client: UserId, title: string, status: ListingStatus)

  /** A job; `public` is `visibility == 'public'`. */
  datatype Job = Job(client: UserId, title: string, status: ListingStatus, public: bool)

  /** `ACTIVE_STATUSES` of the client counters: open and in progress. */
  predicate IsActiveStatus(s: ListingStatus) {
    s == Open || s == InProgress
  }
}

=== FILE: locations.dfy ===
/** The location picker's search (components/LocationSelectLite.jsx `filterLocations`): the
    query is trimmed and lower-cased, every location containing it is scored by where the match
    starts and how long the name is, the scan stops once it has more than three times the wanted
    number of hits, and the hits are shown lowest score first, at most `limit` of them. */
module Locations {
  import opened Wrappers
  import Text

  datatype Hit = Hit(item: string, score: real)

  /** `idx * 2 + t.length * 0.01`. */
  function Score(idx: nat, len: nat): real {
    2.0 * idx as real + len as real / 100.0
  }

  /** Every location that contains `s` once lower-cased, with its score, in list order. */
  function Matches(list: seq<string>, s: string): (r: seq<Hit>)
    ensures |r| <= |list|
  {
    if list == [] then []
    else
      var t := Text.Lower(list[0]);
      match Text.IndexOf(t, s)
      case Some(idx) => [Hit(list[0], Score(idx, |t|))] + Matches(list[1..], s)
      case None => Matches(list[1..], s)
  }

  /** Each hit is a location of the list that contains the query, ignoring case. */
  lemma {:induction false} MatchesContain(list: seq<string>, s: string)
    ensures forall h :: h in Matches(list, s) ==> h.item in list && Text.Contains(Text.Lower(h.item), s)
  {
    if list != [] {
      MatchesContain(list[1..], s);
    }
  }

  lemma {:induction false} MatchesAppend(a: seq<string>, b: seq<string>, s: string)
    ensures Matches(a + b, s) == Matches(a, s) + Matches(b, s)
  {
    if a == [] {
      assert a + b == b;
    } else {
      assert (a + b)[0] == a[0] && (a + b)[1..] == a[1..] + b;
      MatchesAppend(a[1..], b, s);
    }
  }

  /** The scanning loop: keep the hits in list order and stop right after the hit that takes
      the count past `3 * limit`. */
  method Collect(list: seq<string>, s: string, limit: nat) returns (hits: seq<Hit>)
    ensures var all := Matches(list, s);
      hits == all[..if |all| <= 3 * limit + 1 then |all| else 3 * limit + 1]
  {
    hits := [];
    var i := 0;
    while i < |list|
      invariant i <= |list| && hits == Matches(list[..i], s) && |hits| <= 3 * limit
    {
      var t := Text.Lower(list[i]);
      var idx := Text.IndexOf(t, s);
      MatchesAppend(list[..i], [list[i]], s);
      assert list[..i + 1] == list[..i] + [list[i]];
      if idx.Some? {
        hits := hits + [Hit(list[i], Score(idx.value, |t|))];
        if |hits| > 3 * limit {
          MatchesAppend(list[..i + 1], list[i + 1..], s);
          assert list[..i + 1] + list[i + 1..] == list;
          return;
        }
      }
      i := i + 1;
    }
    assert list[..i] == list;
  }

  /** Ascending by score. */
  predicate Sorted(hs: seq<Hit>) {
    forall i, j :: 0 <= i < j < |hs| ==> hs[i].score <= hs[j].score
  }

  /** Puts `h` before the first hit scoring at least as much, so that it stays ahead of the
      later hits it ties with. */
  function Insert(h: Hit, hs: seq<Hit>): (r: seq<Hit>)
    ensures multiset(r) == multiset(hs) + multiset{h}
    ensures |r| == |hs| + 1
    ensures r[0] == h || (hs != [] && r[0] == hs[0])
  {
    if hs == [] || h.score <= hs[0].score then [h] + hs
    else
      assert hs == [hs[0]] + hs[1..];
      [hs[0]] + Insert(h, hs[1..])
  }

  lemma {:induction false} InsertSorted(h: Hit, hs: seq<Hit>)
    requires Sorted(hs)
    ensures Sorted(Insert(h, hs))
  {
    if hs != [] && h.score > hs[0].score {
      var rest := Insert(h, hs[1..]);
      InsertSorted(h, hs[1..]);
      assert hs[0].score <= rest[0].score by {
        if rest[0] != h {
          assert hs[1..] == [hs[1]] + hs[2..];
        }
      }
      var r := [hs[0]] + rest;
      forall i, j | 0 <= i < j < |r| ensures r[i].score <= r[j].score {
        assert r[j] == rest[j - 1];
        if i > 0 {
          assert r[i] == rest[i - 1];
        } else {
          assert rest[0].score <= rest[j - 1].score;
        }
      }
    }
  }

  /** `hits.sort((a, b) => a.score - b.score)`, a stable sort, written as an insertion sort. */
  function Sort(hs: seq<Hit>): (r: seq<Hit>)
    ensures multiset(r) == multiset(hs) && Sorted(r) && |r| == |hs|
  {
    if hs == [] then []
    else
      assert hs == [hs[0]] + hs[1..];
      InsertSorted(hs[0], Sort(hs[1..]));
      Insert(hs[0], Sort(hs[1..]))
  }

  /** The hits that score `c`, in order. */
  function Scoring(hs: seq<Hit>, c: real): seq<Hit> {
    if hs == [] then [] else (if hs[0].score == c then [hs[0]] else []) + Scoring(hs[1..], c)
  }

  lemma {:induction false} InsertStable(h: Hit, hs: seq<Hit>, c: real)
    ensures Scoring(Insert(h, hs), c) == (if h.score == c then [h] else []) + Scoring(hs, c)
  {
    if hs == [] || h.score <= hs[0].score {
      assert ([h] + hs)[1..] == hs;
    } else {
      var rest := Insert(h, hs[1..]);
      assert ([hs[0]] + rest)[1..] == rest;
      InsertStable(h, hs[1..], c);
    }
  }

  /** The sort is stable: hits that tie keep their list order. */
  lemma {:induction false} SortStable(hs: seq<Hit>, c: real)
    ensures Scoring(Sort(hs), c) == Scoring(hs, c)
  {
    if hs != [] {
      SortStable(hs[1..], c);
      InsertStable(hs[0], Sort(hs[1..]), c);
    }
  }

  function Items(hs: seq<Hit>): (r: seq<string>)
    ensures |r| == |hs| && forall i :: 0 <= i < |hs| ==> r[i] == hs[i].item
  {
    if hs == [] then [] else [hs[0].item] + Items(hs[1..])
  }

  /** The query after `q.trim().toLowerCase()`. */
  function Needle(q: string): string {
    Text.Lower(Text.Trim(q))
  }

  /** The hits the scan collects: the matches up to and including the one that takes their
      number past `3 * limit`. */
  function Pool(list: seq<string>, s: string, limit: nat): (p: seq<Hit>)
    ensures |p| == if |Matches(list, s)| <= 3 * limit + 1 then |Matches(list, s)| else 3 * limit + 1
    ensures p <= Matches(list, s)
  {
    var all := Matches(list, s);
    all[..if |all| <= 3 * limit + 1 then |all| else 3 * limit + 1]
  }

  /** `shown` is a lowest-scoring part of `pool`: together with the hits left out it makes up
      the pool, and no hit left out scores below a hit shown. */
  ghost predicate KeepsLowest(shown: seq<Hit>, pool: seq<Hit>) {
    exists rest: seq<Hit> :: multiset(shown) + multiset(rest) == multiset(pool) &&
      forall a, b :: a in shown && b in rest ==> a.score <= b.score
  }

  /** `filterLocations(list, q, limit)`. */
  method FilterLocations(list: seq<string>, q: string, limit: nat) returns (r: seq<string>, shown: seq<Hit>)
    ensures Needle(q) == [] ==> r == []
    ensures |r| <= limit
    ensures forall x :: x in r ==> x in list && Text.Contains(Text.Lower(x), Needle(q))
    ensures r == Items(shown) && Sorted(shown)
    ensures Needle(q) != [] && |Matches(list, Needle(q))| <= limit ==>
      multiset(shown) == multiset(Matches(list, Needle(q)))
    ensures Needle(q) != [] ==> (|shown| == if |Pool(list, Needle(q), limit)| <= limit then |Pool(list, Needle(q), limit)| else limit)
    ensures Needle(q) != [] ==> KeepsLowest(shown, Pool(list, Needle(q), limit))
  {
    var s := Needle(q);
    if s == [] {
      shown := [];
      assert Items(shown) == [];
      return [], shown;
    }
    r, shown := Rank(list, s, limit);
  }

  /** The search for a non-blank needle `s`. */
  method Rank(list: seq<string>, s: string, limit: nat) returns (r: seq<string>, shown: seq<Hit>)
    ensures |r| <= limit
    ensures forall x :: x in r ==> x in list && Text.Contains(Text.Lower(x), s)
    ensures r == Items(shown) && Sorted(shown)
    ensures |Matches(list, s)| <= limit ==> multiset(shown) == multiset(Matches(list, s))
    ensures |shown| == if |Pool(list, s, limit)| <= limit then |Pool(list, s, limit)| else limit
    ensures KeepsLowest(shown, Pool(list, s, limit))
  {
    var hits := Collect(list, s, limit);
    var sorted := Sort(hits);
    var k := if |sorted| <= limit then |sorted| else limit;
    shown := sorted[..k];
    r := Items(shown);
    ghost var all := Matches(list, s);
    DrawnFromMatches(list, s, hits, sorted, if |all| <= 3 * limit + 1 then |all| else 3 * limit + 1);
    PrefixSorted(sorted, k);
    forall x | x in r ensures x in list && Text.Contains(Text.Lower(x), s) {
      var i :| 0 <= i < |r| && r[i] == x;
      assert x == sorted[i].item;
    }
    if |all| <= limit {
      assert all[..|all|] == all;
      assert shown == sorted;
    }
    assert hits == Pool(list, s, limit);
    CutIsLowest(sorted, k, hits);
  }

  /** The first `k` hits of a sorted arrangement of `pool` are a lowest-scoring part of it. */
  lemma CutIsLowest(sorted: seq<Hit>, k: nat, pool: seq<Hit>)
    requires Sorted(sorted) && k <= |sorted| && multiset(sorted) == multiset(pool)
    ensures KeepsLowest(sorted[..k], pool)
  {
    CutKeepsBest(sorted, k);
    var rest := sorted[k..];
    assert sorted[..k] + rest == sorted;
    assert multiset(sorted[..k]) + multiset(rest) == multiset(pool);
  }

  /** What the sort returns of the collected hits all come from matching locations. */
  lemma DrawnFromMatches(list: seq<string>, s: string, hits: seq<Hit>, sorted: seq<Hit>, n: nat)
    requires n <= |Matches(list, s)| && hits == Matches(list, s)[..n]
    requires multiset(sorted) == multiset(hits)
    ensures forall i :: 0 <= i < |sorted| ==> sorted[i].item in list && Text.Contains(Text.Lower(sorted[i].item), s)
  {
    MatchesContain(list, s);
    var all := Matches(list, s);
    forall i | 0 <= i < |sorted| ensures sorted[i].item in list && Text.Contains(Text.Lower(sorted[i].item), s) {
      assert sorted[i] in multiset(hits);
      var m :| 0 <= m < n && hits[m] == sorted[i];
      assert all[m] in all;
    }
  }

  lemma PrefixSorted(hs: seq<Hit>, k: nat)
    requires Sorted(hs) && k <= |hs|
    ensures Sorted(hs[..k])
  {
    forall i, j | 0 <= i < j < k ensures hs[..k][i].score <= hs[..k][j].score {
      assert hs[..k][i] == hs[i] && hs[..k][j] == hs[j];
    }
  }

  /** Nothing left out scores lower than something shown: the cut at `limit` keeps the best
      of the hits collected. */
  lemma CutKeepsBest(hs: seq<Hit>, limit: nat)
    requires Sorted(hs) && limit <= |hs|
    ensures forall a, b :: a in hs[..limit] && b in hs[limit..] ==> a.score <= b.score
  {
    forall a, b | a in hs[..limit] && b in hs[limit..] ensures a.score <= b.score {
      var i :| 0 <= i < limit && hs[..limit][i] == a;
      var j :| 0 <= j < |hs| - limit && hs[limit..][j] == b;
      assert hs[i] == a && hs[limit + j] == b;
    }
  }

  /** An earlier match ranks ahead unless the names differ in length by 200 or more; at the
      same position the shorter name ranks ahead. */
  lemma ScoreOrder(i1: nat, l1: nat, i2: nat, l2: nat)
    requires (i1 < i2 && l1 < l2 + 200) || (i1 == i2 && l1 < l2)
    ensures Score(i1, l1) < Score(i2, l2)
  {
  }

  /** The exception: a 250-character name matching at its start ranks below a 3-character one
      matching at its second character. */
  lemma LongNameRanksLower()
    ensures Score(0, 250) > Score(1, 3)
  {
  }
}

=== FILE: messaging.dfy ===
/** Direct messages (messaging/views.py) and the notification a new message raises
    (notifications/signals.py). */
module Messaging {
  import opened Wrappers
  import opened Accounts
  import opened Notices
  import Text

  /** A `Message` row: who sent it, to whom, its text and its creation time. */
  datatype Message = Message(sender: UserId, recipient: UserId, content: string, created: Time)

  /** The message table in the order the messages were sent, and the notification rows created so far. */
  datatype Inbox = Inbox(messages: seq<Message>, notes: seq<Notification>)

  predicate Involves(m: Message, user: UserId) {
    m.sender == user || m.recipient == user
  }

  /** `get_queryset`: the messages the user sent or received, in the order they were sent
      (each is appended when sent), which is the `created_at` order `Meta.ordering` asks for as
      long as the clock does not run backwards. */
  function Visible(ms: seq<Message>, user: UserId): (r: seq<Message>)
    ensures |r| <= |ms|
    ensures forall m :: m in r <==> m in ms && Involves(m, user)
  {
    if ms == [] then []
    else
      var m := ms[|ms| - 1];
      Visible(ms[..|ms| - 1], user) + (if Involves(m, user) then [m] else [])
  }

  /** The other party of a message the user is part of: the sender if that is someone else,
      otherwise the recipient. */
  function Other(m: Message, user: UserId): UserId {
    if m.sender != user then m.sender else m.recipient
  }

  /** The people the user has a conversation with. */
  function Partners(ms: seq<Message>, user: UserId): set<UserId> {
    set m | m in ms && Involves(m, user) :: Other(m, user)
  }

  /** `conversations`: one pass over the user's messages collecting the other party into a set,
      so each person appears once however many messages were exchanged. */
  method Conversations(ms: seq<Message>, user: UserId) returns (users: set<UserId>)
    ensures forall u :: u in users <==> exists m :: m in ms && Involves(m, user) && Other(m, user) == u
  {
    var mine := Visible(ms, user);
    users := {};
    var i := 0;
    while i < |mine|
      invariant i <= |mine|
      invariant forall u :: u in users <==> exists k :: 0 <= k < i && Other(mine[k], user) == u
    {
      users := users + {Other(mine[i], user)};
      i := i + 1;
    }
    forall u | u in users
      ensures exists m :: m in ms && Involves(m, user) && Other(m, user) == u
    {
      var k :| 0 <= k < |mine| && Other(mine[k], user) == u;
      assert mine[k] in mine;
    }
    forall u | exists m :: m in ms && Involves(m, user) && Other(m, user) == u
      ensures u in users
    {
      var m :| m in ms && Involves(m, user) && Other(m, user) == u;
      assert m in mine;
      var k :| 0 <= k < |mine| && mine[k] == m;
    }
  }

  /** Conversations are mutual: `a` lists `b` exactly when `b` lists `a`. */
  lemma PartnersSymmetric(ms: seq<Message>, a: UserId, b: UserId)
    ensures b in Partners(ms, a) <==> a in Partners(ms, b)
  {
    if b in Partners(ms, a) {
      var m :| m in ms && Involves(m, a) && Other(m, a) == b;
      assert Involves(m, b) && Other(m, b) == a;
    }
    if a in Partners(ms, b) {
      var m :| m in ms && Involves(m, b) && Other(m, b) == a;
      assert Involves(m, a) && Other(m, a) == b;
    }
  }

  /** A user is among their own conversations only if they once messaged themselves, which the
      serializer does not forbid. */
  lemma SelfPartnerIffSelfMessage(ms: seq<Message>, user: UserId)
    ensures user in Partners(ms, user) <==> exists m :: m in ms && m.sender == user && m.recipient == user
  {
    if user in Partners(ms, user) {
      var m :| m in ms && Involves(m, user) && Other(m, user) == user;
      assert m.sender == user && m.recipient == user;
    }
    if exists m :: m in ms && m.sender == user && m.recipient == user {
      var m :| m in ms && m.sender == user && m.recipient == user;
      assert Other(m, user) == user;
    }
  }

  /** The message goes one way or the other between `a` and `b`. */
  predicate BetweenUsers(m: Message, a: UserId, b: UserId) {
    (m.sender == b && m.recipient == a) || (m.sender == a && m.recipient == b)
  }

  /** The filter of `with_user`, in table order. */
  function Between(ms: seq<Message>, a: UserId, b: UserId): (r: seq<Message>)
    ensures forall m :: m in r <==> m in ms && BetweenUsers(m, a, b)
  {
    if ms == [] then []
    else
      var m := ms[|ms| - 1];
      Between(ms[..|ms| - 1], a, b) + (if BetweenUsers(m, a, b) then [m] else [])
  }

  /** Non-decreasing creation times. */
  predicate Chronological(s: seq<Message>) {
    forall i, j :: 0 <= i < j < |s| ==> s[i].created <= s[j].created
  }

  /** Puts `x` into a chronological list after every message created no later than it. */
  function InsertByTime(x: Message, s: seq<Message>): (r: seq<Message>)
    requires Chronological(s)
    ensures Chronological(r) && |r| == |s| + 1
    ensures r[0] == x || (|s| > 0 && r[0] == s[0])
  {
    if s == [] then [x]
    else if x.created < s[0].created then [x] + s
    else
      var t := InsertByTime(x, s[1..]);
      var r := [s[0]] + t;
      assert forall j :: 0 < j < |r| ==> r[0].created <= r[j].created by {
        assert s[0].created <= t[0].created;
        forall j | 0 < j < |r| ensures r[0].created <= r[j].created {
          assert r[j] == t[j - 1];
        }
      }
      r
  }

  /** Inserting adds exactly `x`. */
  lemma {:induction false} InsertByTimeAdds(x: Message, s: seq<Message>)
    requires Chronological(s)
    ensures multiset(InsertByTime(x, s)) == multiset(s) + multiset{x}
  {
    if s != [] && x.created >= s[0].created {
      InsertByTimeAdds(x, s[1..]);
      assert s == [s[0]] + s[1..];
    }
  }

  /** `order_by('created_at')`: a stable sort on creation time. */
  function SortByTime(s: seq<Message>): (r: seq<Message>)
    ensures Chronological(r)
  {
    if s == [] then []
    else InsertByTime(s[|s| - 1], SortByTime(s[..|s| - 1]))
  }

  /** Sorting keeps the same messages. */
  lemma {:induction false} SortByTimePermutes(s: seq<Message>)
    ensures multiset(SortByTime(s)) == multiset(s)
  {
    if s != [] {
      var init, x := s[..|s| - 1], s[|s| - 1];
      SortByTimePermutes(init);
      InsertByTimeAdds(x, SortByTime(init));
      assert s == init + [x];
      assert multiset(s) == multiset(init) + multiset{x};
    }
  }

  /** A message created no earlier than everything in the list goes at its end. */
  lemma {:induction false} InsertLatest(x: Message, s: seq<Message>)
    requires Chronological(s)
    requires forall i :: 0 <= i < |s| ==> s[i].created <= x.created
    ensures InsertByTime(x, s) == s + [x]
  {
    if s != [] {
      InsertLatest(x, s[1..]);
      assert s == [s[0]] + s[1..];
    }
  }

  /** Sorting a list that is already chronological changes nothing. */
  lemma {:induction false} SortedIsKept(s: seq<Message>)
    requires Chronological(s)
    ensures SortByTime(s) == s
  {
    if s != [] {
      var init := s[..|s| - 1];
      SortedIsKept(init);
      InsertLatest(s[|s| - 1], init);
      assert s == init + [s[|s| - 1]];
    }
  }

  /** `with_user`: the messages between the user and `other`, oldest first. A missing `user_id`
      filters on a null sender, which no row has. */
  function WithUser(ms: seq<Message>, user: UserId, other: Option<UserId>): (r: seq<Message>)
    ensures Chronological(r)
    ensures other.None? ==> r == []
    ensures other.Some? ==> forall m :: m in r <==> m in ms && BetweenUsers(m, user, other.value)
  {
    if other.None? then []
    else
      var r := SortByTime(Between(ms, user, other.value));
      SortByTimePermutes(Between(ms, user, other.value));
      assert forall m :: m in r <==> m in multiset(r);
      r
  }

  /** Both sides of a conversation see the same thread. */
  lemma {:induction false} BetweenSymmetric(ms: seq<Message>, a: UserId, b: UserId)
    ensures Between(ms, a, b) == Between(ms, b, a)
  {
    if ms != [] {
      BetweenSymmetric(ms[..|ms| - 1], a, b);
    }
  }

  lemma WithUserSymmetric(ms: seq<Message>, a: UserId, b: UserId)
    ensures WithUser(ms, a, Some(b)) == WithUser(ms, b, Some(a))
  {
    BetweenSymmetric(ms, a, b);
  }

  /** Every message of a thread is in the queryset of both of its users. */
  lemma ThreadIsVisible(ms: seq<Message>, a: UserId, b: UserId)
    ensures forall m :: m in WithUser(ms, a, Some(b)) ==> m in Visible(ms, a) && m in Visible(ms, b)
  {
  }

  /** `notify_new_message`: a newly created message notifies its recipient, unless they sent it
      to themselves; an update notifies nobody. */
  function MessageNote(m: Message, created: bool): (r: seq<Notification>)
    ensures |r| <= 1
    ensures |r| == 1 <==> created && m.sender != m.recipient
    ensures forall n :: n in r ==> n.user == m.recipient && n.kind == MessageKind
  {
    if !created || m.sender == m.recipient then []
    else [Notification(m.recipient, MessageKind, "New message received", "")]
  }

  /** `create`: the recipient must be an existing user and the content, with surrounding
      whitespace stripped as the serializer field does, must not be empty; otherwise 400 and
      nothing changes. The message is stored as sent by the requesting user, whatever the form
      says, and the signal notifies the recipient. */
  function Create(b: Inbox, users: set<UserId>, user: UserId, recipient: Option<UserId>, content: Option<string>, now: Time): (r: (Inbox, Status))
    ensures r.1 == Ok || r.1 == BadRequest
    ensures r.1 == BadRequest <==> recipient.None? || recipient.value !in users || content.None? || Text.Trim(content.value) == ""
    ensures r.1 == BadRequest ==> r.0 == b
    ensures r.1 == Ok ==> |r.0.messages| == |b.messages| + 1 && r.0.messages[..|b.messages|] == b.messages
    ensures r.1 == Ok ==> var m := r.0.messages[|b.messages|];
      m.sender == user && m.recipient == recipient.value && m.content == Text.Trim(content.value) && m.created == now
    ensures r.1 == Ok ==> r.0.notes == b.notes + MessageNote(r.0.messages[|b.messages|], true)
  {
    if recipient.None? || recipient.value !in users || content.None? || Text.Trim(content.value) == "" then (b, BadRequest)
    else
      var m := Message(user, recipient.value, Text.Trim(content.value), now);
      (Inbox(b.messages + [m], b.notes + MessageNote(m, true)), Ok)
  }

  /** A sent message shows up for both of its users and in their thread, and each lists the
      other among their conversations. */
  lemma SentIsDelivered(b: Inbox, users: set<UserId>, user: UserId, recipient: UserId, content: string, now: Time)
    requires Create(b, users, user, Some(recipient), Some(content), now).1 == Ok
    ensures var ms := Create(b, users, user, Some(recipient), Some(content), now).0.messages;
      var m := ms[|ms| - 1];
      m in Visible(ms, user) && m in Visible(ms, recipient) && m in WithUser(ms, user, Some(recipient)) &&
      recipient in Partners(ms, user) && user in Partners(ms, recipient)
  {
    var ms := Create(b, users, user, Some(recipient), Some(content), now).0.messages;
    var m := ms[|ms| - 1];
    assert m in ms;
    assert Other(m, user) == recipient;
    assert Other(m, recipient) == user;
  }
}

=== FILE: notices.dfy ===
/** In-app notifications (notifications/models.py). Delivery is out of scope: the model keeps
    the list of rows created, in order. */
module Notices {
  import opened Accounts

  /** `TYPE_CHOICES`; the workspace and payment views write the upper-case spellings of the last
      three, which the model does not distinguish. The job-application views write
      `job_application`, which is not one of the choices; the column does not enforce them. */
  datatype Kind = MessageKind | ProposalKind | ContractKind | SystemKind | WorkspaceKind | PaymentKind | ReviewKind | JobApplicationKind

  /** One notification row: its recipient, type, title, and the name of the thing it is about
      (a project or job title, a task title) where the message quotes one. */
  datatype Notification = Notification(user: UserId, kind: Kind, title: string, subject: string)
}

=== FILE: offers.dfy ===
/** Proposals on projects (proposals/models.py) and applications to jobs (jobs/models.py). */
module Offers {
  import opened Wrappers
  import opened Accounts

  /** `STATUS_CHOICES` of both Proposal and JobApplication; both default to pending. */
  datatype OfferStatus = Pending | Accepted | Rejected | Withdrawn

  /** A proposal: `bid` is a decimal amount. */
  datatype Proposal = Proposal(project: Id, freelancer: UserId, bid: real, status: OfferStatus)

  /** A job application: `bid` is a whole amount. */
  datatype Application = Application(job: Id, freelancer: UserId, bid: int, status: OfferStatus)

  /** `Proposal.save`: whether saving a proposal whose stored status is `before` (`None` for a
      row not yet in the database) with status `after` moves its project to in progress. */
  predicate ProposalMovesProject(before: Option<OfferStatus>, after: OfferStatus) {
    after == Accepted && before != Some(Accepted)
  }

  /** `JobApplication.save`: the same decision for an application and its job; it is only taken
      for a row that already has a primary key. */
  predicate ApplicationMovesJob(before: Option<OfferStatus>, after: OfferStatus) {
    before.Some? && after == Accepted && before.value != Accepted
  }

  /** The two cascades agree on rows already stored, and disagree exactly on a row inserted as
      accepted: a new accepted proposal moves its project, a new accepted application does not. */
  lemma SaveCascadesCompared(before: Option<OfferStatus>, after: OfferStatus)
    ensures before.Some? ==> (ProposalMovesProject(before, after) <==> ApplicationMovesJob(before, after))
    ensures before.None? ==> !ApplicationMovesJob(before, after)
    ensures before.None? ==> (ProposalMovesProject(before, after) <==> after == Accepted)
    ensures !ProposalMovesProject(Some(after), after)
  {
  }
}

=== FILE: onboarding.dfy ===
/** The freelancer onboarding wizard (pages/OnboardingWizard.jsx): nine steps, the progress
    bar that counts completed sections, the check each step makes before moving on, the moves
    between steps, and the experience, education and language lists it edits. */
module Onboarding {
  import opened Wrappers
  import Text
  import opened FormFields
  import Progress
  import ProfilePage
  import opened Phone

  const LastStep: nat := 8
  const Sections: nat := 9

  datatype Language = Language(language: string, level: string)

  /** The birthdate input: empty, a value `Date` cannot read, or a date in the given year. */
  datatype Birthdate = NoDate | BadDate | Born(year: int)

  /** The wizard's `formData`, with list fields whose contents no rule reads kept as counts or
      sizes. */
  datatype Form = Form(
    socials: seq<string>,
    category: string, customCategory: string,
    skills: nat,
    roleTitle: string, hourlyRate: Field,
    experiences: seq<ProfilePage.Experience>, education: seq<ProfilePage.Education>,
    languages: seq<Language>, languagesTouched: bool,
    bio: string,
    phone: string, birthdate: Birthdate, location: string,
    portfolioFiles: seq<nat>)

  // ---- `calculateProgress` ----

  function Age(nowYear: int, year: int): int { nowYear - year }

  /** Section 0: any social link given. */
  predicate SocialDone(f: Form) {
    exists i :: 0 <= i < |f.socials| && Filled(f.socials[i])
  }

  /** Section 1: a category, described when it is "other". */
  predicate CategoryDone(f: Form) {
    f.category != [] && (f.category != "other" || Filled(f.customCategory))
  }

  /** Section 2: one to twenty skills. */
  predicate SkillsDone(f: Form) {
    0 < f.skills <= 20
  }

  /** Section 3: a title of at least five characters once trimmed, and a rate in (0, 50000]. */
  predicate TitleDone(f: Form) {
    Filled(f.roleTitle) && |Text.Trim(f.roleTitle)| >= 5 && Positive(f.hourlyRate) && f.hourlyRate.value <= 50000.0
  }

  /** Section 4: some experience or education. */
  predicate BackgroundDone(f: Form) {
    |f.experiences| > 0 || |f.education| > 0
  }

  /** Section 5: the languages step has been shown and some language is named. */
  predicate LanguagesDone(f: Form) {
    f.languagesTouched && Named(f.languages)
  }

  /** Section 6: a bio of at most 2000 characters. */
  predicate BioDone(f: Form) {
    Filled(f.bio) && |f.bio| <= 2000
  }

  /** Section 7: a valid phone, a readable birthdate giving an age from 16 to 100, and a
      location. */
  predicate PersonalDone(f: Form, nowYear: int) {
    PhoneGiven(f) && f.birthdate.Born? &&
    16 <= Age(nowYear, f.birthdate.year) <= 100 && Filled(f.location)
  }

  /** A phone number is given and, without its separators, has the expected shape. */
  predicate PhoneGiven(f: Form) {
    Filled(f.phone) && PhoneOk(f.phone)
  }

  /** Section 8: one to five portfolio files. */
  predicate FilesDone(f: Form) {
    0 < |f.portfolioFiles| <= 5
  }

  /** Whether each of the nine sections is complete, in order. */
  function Complete(f: Form, nowYear: int): (c: seq<bool>)
    ensures |c| == Sections
  {
    [SocialDone(f), CategoryDone(f), SkillsDone(f), TitleDone(f), BackgroundDone(f),
     LanguagesDone(f), BioDone(f), PersonalDone(f, nowYear), FilesDone(f)]
  }

  /** `languages.some((l) => l.language.trim().length > 0)`. */
  predicate Named(langs: seq<Language>) {
    exists i :: 0 <= i < |langs| && Filled(langs[i].language)
  }

  function CountTrue(c: seq<bool>): (n: nat)
    ensures n <= |c|
    ensures n == |c| <==> forall i :: 0 <= i < |c| ==> c[i]
    ensures n == 0 <==> forall i :: 0 <= i < |c| ==> !c[i]
  {
    if c == [] then 0
    else
      var rest := CountTrue(c[1..]);
      assert forall i :: 1 <= i < |c| ==> c[i] == c[1..][i - 1];
      (if c[0] then 1 else 0) + rest
  }

  /** The progress bar: the rounded share of the nine sections that are complete. */
  function ProgressOf(f: Form, nowYear: int): (p: int)
    ensures 0 <= p <= 100
    ensures p == 100 <==> forall i :: 0 <= i < Sections ==> Complete(f, nowYear)[i]
    ensures p == 0 <==> forall i :: 0 <= i < Sections ==> !Complete(f, nowYear)[i]
  {
    var n := CountTrue(Complete(f, nowYear));
    Progress.PercentWithin(n as real, Sections as real);
    Progress.PercentFull(n as real, Sections as real);
    Progress.PercentEmpty(n as real, Sections as real);
    Progress.Percent(n as real, Sections as real)
  }

  /** Each completed section is worth one ninth of the bar, rounded: eight of nine show 89. */
  lemma EightOfNine()
    ensures Progress.Percent(8.0, 9.0) == 89
  {
  }

  // ---- `validate` ----

  datatype StepError =
    | CategoryRequired | SpecialtyRequired
    | NoSkills | TooManySkills
    | TitleRequired | TitleTooShort | RateInvalid | RateTooHigh
    | NoLanguage
    | BioTooLong
    | PhoneRequired | PhoneInvalid | BirthdateRequired | TooYoung | BirthdateInvalid | LocationRequired
    | TooManyFiles | FileTooLarge

  const MaxFileSize: nat := 10 * 1024 * 1024

  /** Step 1: a category, and a description when it is "other". */
  function CheckCategory(f: Form): (r: Option<StepError>)
    ensures r.None? <==> CategoryDone(f)
  {
    if f.category == [] then Some(CategoryRequired)
    else if f.category == "other" && !Filled(f.customCategory) then Some(SpecialtyRequired)
    else None
  }

  /** Step 2: one to twenty skills. */
  function CheckSkills(f: Form): (r: Option<StepError>)
    ensures r.None? <==> SkillsDone(f)
  {
    if f.skills == 0 then Some(NoSkills)
    else if f.skills > 20 then Some(TooManySkills)
    else None
  }

  /** Step 3: a title that is not blank and is at least five characters long as typed, and a
      rate in (0, 50000]. */
  function CheckTitle(f: Form): (r: Option<StepError>)
    ensures r.None? <==> Filled(f.roleTitle) && |f.roleTitle| >= 5 && Positive(f.hourlyRate) && f.hourlyRate.value <= 50000.0
  {
    if !Filled(f.roleTitle) then Some(TitleRequired)
    else if |f.roleTitle| < 5 then Some(TitleTooShort)
    else if !Positive(f.hourlyRate) then Some(RateInvalid)
    else if f.hourlyRate.value > 50000.0 then Some(RateTooHigh)
    else None
  }

  /** Step 5: some named language. */
  function CheckLanguages(f: Form): (r: Option<StepError>)
    ensures r.None? <==> Named(f.languages)
  {
    if f.languages == [] || !Named(f.languages) then Some(NoLanguage) else None
  }

  /** Step 6: a bio of at most 2000 characters, or none. */
  function CheckBio(f: Form): (r: Option<StepError>)
    ensures r.None? <==> |f.bio| <= 2000
  {
    if f.bio != [] && |f.bio| > 2000 then Some(BioTooLong) else None
  }

  /** Step 7: a valid phone, a birthdate, an age from 16 to 100 and a location. An unreadable
      birthdate gives an age that is not a number, which neither age comparison refuses. */
  function CheckPersonal(f: Form, nowYear: int): (r: Option<StepError>)
    ensures r.None? <==> (PhoneGiven(f) && !f.birthdate.NoDate? &&
      (f.birthdate.Born? ==> 16 <= Age(nowYear, f.birthdate.year) <= 100) && Filled(f.location))
  {
    if !Filled(f.phone) then Some(PhoneRequired)
    else if !PhoneOk(f.phone) then Some(PhoneInvalid)
    else if f.birthdate.NoDate? then Some(BirthdateRequired)
    else if f.birthdate.Born? && Age(nowYear, f.birthdate.year) < 16 then Some(TooYoung)
    else if f.birthdate.Born? && Age(nowYear, f.birthdate.year) > 100 then Some(BirthdateInvalid)
    else if !Filled(f.location) then Some(LocationRequired)
    else None
  }

  /** Step 8: at most five files, none over 10 MB. */
  function CheckFiles(f: Form): (r: Option<StepError>)
    ensures r.None? <==> |f.portfolioFiles| <= 5 && forall i :: 0 <= i < |f.portfolioFiles| ==> f.portfolioFiles[i] <= MaxFileSize
  {
    if |f.portfolioFiles| > 5 then Some(TooManyFiles)
    else if exists i :: 0 <= i < |f.portfolioFiles| && f.portfolioFiles[i] > MaxFileSize then Some(FileTooLarge)
    else None
  }

  /** `validate`: the check `next` makes on the current step; steps 0 and 4 have none. */
  function Validate(step: nat, f: Form, nowYear: int): (r: Option<StepError>)
    ensures step in {0, 4} || step > LastStep ==> r.None?
    ensures step == 3 ==> (r.None? ==> |f.roleTitle| >= 5 && f.hourlyRate.Number? && 0.0 < f.hourlyRate.value <= 50000.0)
    ensures step == 7 ==> (r.None? ==> PhoneOk(f.phone) && Filled(f.location))
  {
    match step
    case 1 => CheckCategory(f)
    case 2 => CheckSkills(f)
    case 3 => CheckTitle(f)
    case 5 => CheckLanguages(f)
    case 6 => CheckBio(f)
    case 7 => CheckPersonal(f, nowYear)
    case 8 => CheckFiles(f)
    case _ => None
  }

  /** On the category, skills and languages steps (once the languages step has been shown) the
      step check and the progress bar agree: the step passes exactly when its section is
      complete. */
  lemma StepAgreesWithSection(f: Form, nowYear: int)
    ensures Validate(1, f, nowYear).None? <==> CategoryDone(f)
    ensures Validate(2, f, nowYear).None? <==> SkillsDone(f)
    ensures f.languagesTouched ==> (Validate(5, f, nowYear).None? <==> LanguagesDone(f))
  {
    assert Validate(1, f, nowYear) == CheckCategory(f);
    assert Validate(2, f, nowYear) == CheckSkills(f);
    assert Validate(5, f, nowYear) == CheckLanguages(f);
  }

  /** A complete title section always passes the title step. */
  lemma TitleSectionPassesStep(f: Form, nowYear: int)
    requires TitleDone(f)
    ensures Validate(3, f, nowYear).None?
  {
    assert Validate(3, f, nowYear) == CheckTitle(f);
  }

  /** A complete bio section always passes the bio step. */
  lemma BioSectionPassesStep(f: Form, nowYear: int)
    requires BioDone(f)
    ensures Validate(6, f, nowYear).None?
  {
    assert Validate(6, f, nowYear) == CheckBio(f);
  }

  /** With a readable birthdate the personal step and its section agree. */
  lemma PersonalStepAgrees(f: Form, nowYear: int)
    requires f.birthdate.Born?
    ensures Validate(7, f, nowYear).None? <==> PersonalDone(f, nowYear)
  {
    assert Validate(7, f, nowYear) == CheckPersonal(f, nowYear);
  }

  /** The title step counts spaces the progress bar trims away: "ab" followed by three spaces
      passes the step, but its section stays incomplete. */
  lemma PaddedTitlePassesOnlyTheStep(f: Form, nowYear: int)
    requires f.roleTitle == PaddedTitle && f.hourlyRate == Number(20.0)
    ensures Validate(3, f, nowYear).None?
    ensures !TitleDone(f)
  {
    PaddedTitleShape();
    assert Validate(3, f, nowYear) == CheckTitle(f);
  }

  const PaddedTitle: string := "ab   "

  /** Two letters and three spaces: not blank, five characters as typed, two once trimmed. */
  lemma PaddedTitleShape()
    ensures Filled(PaddedTitle) && |PaddedTitle| == 5 && |Text.Trim(PaddedTitle)| < 5
  {
    assert PaddedTitle[0] == 'a';
    assert Text.Trim(PaddedTitle) != [] by {
      Text.TrimEmptyIffAllSpace(PaddedTitle);
    }
    assert PaddedTitle[2..] == "   ";
    Text.TrimWithin(PaddedTitle, 2);
  }

  /** An unreadable birthdate never completes the personal section, yet the personal step
      lets it through whenever the phone and the location are fine. */
  lemma UnreadableBirthdatePassesOnlyTheStep(f: Form, nowYear: int)
    requires f.birthdate == BadDate
    ensures Validate(7, f, nowYear).None? <==> PhoneGiven(f) && Filled(f.location)
    ensures !PersonalDone(f, nowYear)
  {
    assert Validate(7, f, nowYear) == CheckPersonal(f, nowYear);
  }

  // ---- Moving between steps ----

  predicate Skippable(step: nat) {
    step == 0 || step == 4 || step == 6 || step == 8
  }

  datatype Move = NextMove(valid: bool) | BackMove | SkipMove

  /** `next` (given whether `validate` passed), `back` and `skip`. */
  function Step(step: nat, m: Move): (r: nat)
    requires step <= LastStep
    ensures r <= LastStep
    ensures m.NextMove? ==> (r == step + 1 <==> m.valid && step < LastStep) && (r != step + 1 ==> r == step)
    ensures m.BackMove? ==> r == if step > 0 then step - 1 else 0
    ensures m.SkipMove? ==> (r == step + 1 <==> Skippable(step) && step < LastStep) && (r != step + 1 ==> r == step)
  {
    match m
    case NextMove(valid) => if valid && step < LastStep then step + 1 else step
    case BackMove => if step > 0 then step - 1 else 0
    case SkipMove => if Skippable(step) && step < LastStep then step + 1 else step
  }

  /** Where a sequence of moves from `step` ends. */
  function Run(step: nat, moves: seq<Move>): (r: nat)
    requires step <= LastStep
    ensures r <= LastStep
    decreases |moves|
  {
    if moves == [] then step else Run(Step(step, moves[0]), moves[1..])
  }

  /** Getting past a required step (1, 2, 3, 5 or 7) takes a `next` whose check passed while
      on it: skip cannot leave it and every move goes at most one step forward. */
  lemma {:induction false} RequiredStepsNeedTheCheck(step: nat, moves: seq<Move>, k: nat)
    requires step <= k < LastStep && !Skippable(k)
    requires Run(step, moves) > k
    ensures exists i :: 0 <= i < |moves| && Run(step, moves[..i]) == k && moves[i] == NextMove(true)
    decreases |moves|
  {
    var s1 := Step(step, moves[0]);
    if s1 > k {
      assert Run(step, moves[..0]) == step;
    } else {
      RequiredStepsNeedTheCheck(s1, moves[1..], k);
      var j :| 0 <= j < |moves[1..]| && Run(s1, moves[1..][..j]) == k && moves[1..][j] == NextMove(true);
      assert moves[..j + 1][1..] == moves[1..][..j];
      assert Run(step, moves[..j + 1]) == k;
    }
  }

  // ---- The lists the wizard edits ----

  /** `removeLanguage`: with more than one language the one at `i` goes; the last one stays. */
  function RemoveLanguage(langs: seq<Language>, i: int): (r: seq<Language>)
    ensures |langs| <= 1 ==> r == langs
    ensures |langs| > 1 && 0 <= i < |langs| ==> r == langs[..i] + langs[i + 1..]
    ensures |langs| > 1 && !(0 <= i < |langs|) ==> r == langs
  {
    if |langs| > 1 then Without(langs, i) else langs
  }

  /** `addLanguage`: a blank row at the basic level. */
  function AddLanguage(langs: seq<Language>): (r: seq<Language>)
    ensures |r| == |langs| + 1 && r[..|langs|] == langs && !Filled(r[|langs|].language)
  {
    assert Text.Trim("") == [];
    langs + [Language("", "Basic")]
  }

  datatype LanguageEdit = Add | Remove(i: int)

  function Edit(langs: seq<Language>, e: LanguageEdit): seq<Language> {
    match e
    case Add => AddLanguage(langs)
    case Remove(i) => RemoveLanguage(langs, i)
  }

  function EditAll(langs: seq<Language>, edits: seq<LanguageEdit>): seq<Language>
    decreases |edits|
  {
    if edits == [] then langs else EditAll(Edit(langs, edits[0]), edits[1..])
  }

  /** Starting from the one language the form opens with, no sequence of adds and removes
      empties the list. */
  lemma {:induction false} LanguagesNeverEmpty(langs: seq<Language>, edits: seq<LanguageEdit>)
    requires |langs| >= 1
    ensures |EditAll(langs, edits)| >= 1
    decreases |edits|
  {
    if edits != [] {
      var next := Edit(langs, edits[0]);
      assert |next| >= 1;
      LanguagesNeverEmpty(next, edits[1..]);
    }
  }

  /** JavaScript's `<` on strings: code unit by code unit, a proper prefix first. */
  predicate Before(a: string, b: string) {
    if a == [] then b != []
    else if b == [] then false
    else a[0] < b[0] || (a[0] == b[0] && Before(a[1..], b[1..]))
  }

  lemma {:induction false} BeforeIrreflexive(a: string)
    ensures !Before(a, a)
  {
    if a != [] {
      BeforeIrreflexive(a[1..]);
    }
  }

  lemma {:induction false} BeforeTransitive(a: string, b: string, c: string)
    requires Before(a, b) && Before(b, c)
    ensures Before(a, c)
  {
    if a != [] && b != [] && c != [] && a[0] == b[0] && b[0] == c[0] {
      BeforeTransitive(a[1..], b[1..], c[1..]);
    }
  }

  /** The picked files of at most 10 MB, in order. */
  function Small(picked: seq<nat>): (r: seq<nat>)
    ensures |r| <= |picked|
    ensures forall i :: 0 <= i < |r| ==> r[i] <= MaxFileSize
    ensures r == picked <==> forall i :: 0 <= i < |picked| ==> picked[i] <= MaxFileSize
  {
    if picked == [] then []
    else
      var rest := Small(picked[1..]);
      assert forall i :: 1 <= i < |picked| ==> picked[i] == picked[1..][i - 1];
      if picked[0] <= MaxFileSize then [picked[0]] + rest else rest
  }

  /** `handlePortfolioFiles`: a selection larger than the room left under five files is refused
      whole with an error; otherwise the files over 10 MB are dropped, with an error, and the
      others appended. */
  function AddPortfolioFiles(files: seq<nat>, picked: seq<nat>): (r: (seq<nat>, bool))
    ensures |picked| > 5 - |files| ==> r == (files, true)
    ensures |picked| <= 5 - |files| ==> r.0 == files + Small(picked)
    ensures |picked| <= 5 - |files| ==> (r.1 <==> exists i :: 0 <= i < |picked| && picked[i] > MaxFileSize)
  {
    if |picked| > 5 - |files| then (files, true)
    else (files + Small(picked), Small(picked) != picked)
  }

  /** Files that pass the portfolio step still pass it after any pick and any removal. */
  lemma PortfolioStaysValid(f: Form, picked: seq<nat>, idx: int, nowYear: int)
    requires CheckFiles(f).None?
    ensures CheckFiles(f.(portfolioFiles := AddPortfolioFiles(f.portfolioFiles, picked).0)).None?
    ensures CheckFiles(f.(portfolioFiles := Without(f.portfolioFiles, idx))).None?
  {
    var files := f.portfolioFiles;
    var r := AddPortfolioFiles(files, picked).0;
    if |picked| <= 5 - |files| {
      forall i | 0 <= i < |r|
        ensures r[i] <= MaxFileSize
      {
        if i >= |files| {
          assert r[i] == Small(picked)[i - |files|];
        }
      }
    }
    var w := Without(files, idx);
    if 0 <= idx < |files| {
      forall i | 0 <= i < |w|
        ensures w[i] <= MaxFileSize
      {
        if i < idx {
          assert w[i] == files[i];
        } else {
          assert w[i] == files[i + 1];
        }
      }
    }
  }

  /** The "add experience" fields. */
  datatype NewExperience = NewExperience(
    title: string, company: string, startDate: string, endDate: string, current: bool, description: string)

  const BlankExperience := NewExperience("", "", "", "", false, "")

  datatype EntryError = JobTitleRequired | CompanyRequired | InvalidDates | DegreeRequired | InstitutionRequired

  /** `addExperience`: a blank title or company, or a past role whose start comes after its end,
      is refused and the draft stays; otherwise the entry goes at the end as typed, with `now` as
      its id, and the draft is cleared. */
  function AddExperience(list: seq<ProfilePage.Experience>, e: NewExperience, now: int): (r: Result<(seq<ProfilePage.Experience>, NewExperience), EntryError>)
    ensures r == Failure(JobTitleRequired) <==> !Filled(e.title)
    ensures r == Failure(CompanyRequired) <==> Filled(e.title) && !Filled(e.company)
    ensures r == Failure(InvalidDates) <==> (Filled(e.title) && Filled(e.company) &&
      e.startDate != [] && e.endDate != [] && !e.current && Before(e.endDate, e.startDate))
    ensures r.Success? ==> (r.value ==
      (list + [ProfilePage.Experience(now, e.title, e.company, e.startDate, e.endDate, e.description, e.current)], BlankExperience))
  {
    if !Filled(e.title) then Failure(JobTitleRequired)
    else if !Filled(e.company) then Failure(CompanyRequired)
    else if e.startDate != [] && e.endDate != [] && !e.current && Before(e.endDate, e.startDate) then Failure(InvalidDates)
    else Success((list + [ProfilePage.Experience(now, e.title, e.company, e.startDate, e.endDate, e.description, e.current)], BlankExperience))
  }

  /** What the wizard's experience list holds: a title and a company, and for a past role with
      both dates a start that does not come after the end. */
  predicate SoundExperience(x: ProfilePage.Experience) {
    Filled(x.title) && Filled(x.company) &&
    !(x.startDate != [] && x.endDate != [] && !x.current && Before(x.endDate, x.startDate))
  }

  predicate AllSound(list: seq<ProfilePage.Experience>) {
    forall i :: 0 <= i < |list| ==> SoundExperience(list[i])
  }

  /** Adding an experience keeps every entry sound. */
  lemma AddKeepsSound(list: seq<ProfilePage.Experience>, e: NewExperience, now: int)
    requires AllSound(list)
    requires AddExperience(list, e, now).Success?
    ensures AllSound(AddExperience(list, e, now).value.0)
  {
    var r := AddExperience(list, e, now).value.0;
    assert r == list + [ProfilePage.Experience(now, e.title, e.company, e.startDate, e.endDate, e.description, e.current)];
    assert SoundExperience(r[|list|]);
  }

  /** Removing experiences keeps every entry sound. */
  lemma RemoveKeepsSound(list: seq<ProfilePage.Experience>, id: int)
    requires AllSound(list)
    ensures AllSound(ProfilePage.RemoveById(list, ProfilePage.ExperienceId, id))
  {
    var r := ProfilePage.RemoveById(list, ProfilePage.ExperienceId, id);
    forall i | 0 <= i < |r|
      ensures SoundExperience(r[i])
    {
      var j :| 0 <= j < |list| && list[j] == r[i];
    }
  }

  /** The "add education" fields. */
  datatype NewEducation = NewEducation(degree: string, institution: string, field: string, year: string)

  const BlankEducation := NewEducation("", "", "", "")

  /** `addEducation`: a blank degree or institution is refused; otherwise the entry goes at the
      end as typed and the draft is cleared. */
  function AddEducation(list: seq<ProfilePage.Education>, e: NewEducation, now: int): (r: Result<(seq<ProfilePage.Education>, NewEducation), EntryError>)
    ensures r == Failure(DegreeRequired) <==> !Filled(e.degree)
    ensures r == Failure(InstitutionRequired) <==> Filled(e.degree) && !Filled(e.institution)
    ensures r.Success? ==> (r.value.1 == BlankEducation && r.value.0 ==
      list + [ProfilePage.Education(now, e.degree, e.institution, e.field, e.year)])
  {
    if !Filled(e.degree) then Failure(DegreeRequired)
    else if !Filled(e.institution) then Failure(InstitutionRequired)
    else Success((list + [ProfilePage.Education(now, e.degree, e.institution, e.field, e.year)], BlankEducation))
  }

  /** One accepted entry completes the optional experience and education section. */
  lemma EntryCompletesSection(f: Form, e: NewEducation, now: int, nowYear: int)
    requires AddEducation(f.education, e, now).Success?
    ensures BackgroundDone(f.(education := AddEducation(f.education, e, now).value.0))
  {
  }
}

=== FILE: payments.dfy ===
/** Payments a client logs and the freelancer confirms, and the payment requests a freelancer
    sends (workspaces/models.py `PaymentTransaction`, `PaymentRequest`). */
module Payments {
  import opened Wrappers
  import opened Accounts

  datatype PaymentStatus = PaymentPending | PaymentConfirmed | PaymentDisputed

  /** An amount both amount columns take, `DecimalField(max_digits=10, decimal_places=2)` with a
      minimum of zero: not negative, at most two decimals, at most eight digits before the
      point. */
  predicate ValidAmount(a: real) {
    0.0 <= a < 100000000.0 && (a * 100.0).Floor as real == a * 100.0
  }

  /** The `amount` a request sends, as the decimal field reads it: `None` when it is missing,
      null or not a number, which the field refuses, else the number. The field takes it when
      the column does. */
  predicate AmountTaken(a: Option<real>) {
    a.Some? && ValidAmount(a.value)
  }

  /** A logged payment; `amount` is a decimal amount of at least zero. */
  datatype Payment = Payment(
    workspace: Id,
    amount: real,
    paidBy: UserId,
    receivedBy: UserId,
    status: PaymentStatus,
    freelancerConfirmed: bool,
    confirmedAt: Option<Time>,
    createdAt: Time)

  /** `confirm_payment`: the first confirmation sets the flag, the confirmed status and the time;
      a later one changes nothing. Amount, parties and workspace never change. */
  function ConfirmPayment(p: Payment, now: Time): (r: Payment)
    ensures r.freelancerConfirmed
    ensures r.workspace == p.workspace && r.amount == p.amount && r.paidBy == p.paidBy && r.receivedBy == p.receivedBy && r.createdAt == p.createdAt
    ensures p.freelancerConfirmed ==> r == p
    ensures !p.freelancerConfirmed ==> r.status == PaymentConfirmed && r.confirmedAt == Some(now)
  {
    if !p.freelancerConfirmed then
      p.(freelancerConfirmed := true, status := PaymentConfirmed, confirmedAt := Some(now))
    else p
  }

  /** Confirming twice has the effect of confirming once. */
  lemma ConfirmIdempotent(p: Payment, first: Time, later: Time)
    ensures ConfirmPayment(ConfirmPayment(p, first), later) == ConfirmPayment(p, first)
  {
  }

  datatype RequestStatus = RequestPending | RequestApproved | RequestRejected | RequestPaid

  /** A freelancer's request to be paid `amount`. */
  datatype PaymentRequest = PaymentRequest(workspace: Id, freelancer: UserId, amount: real, status: RequestStatus)
}

=== FILE: permissions.dfy ===
/** The three custom REST permission classes (talentlink/permissions.py). */
module Permissions {
  import opened Wrappers
  import opened Accounts

  /** `IsClient.has_permission`: a signed-in user whose role is client. */
  predicate IsClient(req: Requester) {
    req.Member? && req.role == ClientRole
  }

  /** `IsFreelancer.has_permission`: a signed-in user whose role is freelancer. */
  predicate IsFreelancer(req: Requester) {
    req.Member? && req.role == FreelancerRole
  }

  /** What `IsOwner` can see of an object: whether it has a `client` attribute and what it
      holds (a nullable user), and the same for a `user` attribute. */
  datatype Owned = Owned(clientAttr: Option<Option<UserId>>, userAttr: Option<Option<UserId>>)

  /** The user an attribute names equals the requester: an anonymous requester equals no user. */
  predicate SameUser(attr: Option<UserId>, req: Requester) {
    req.Member? && attr == Some(req.id)
  }

  /** `IsOwner.has_object_permission`: the `client` attribute decides when present, then the
      `user` attribute; an object with neither is owned by nobody. */
  function IsOwner(req: Requester, obj: Owned): (r: bool)
    ensures r ==> req.Member?
    ensures r <==> exists u: UserId :: SameUser(Some(u), req) && OwnerAttr(obj) == Some(Some(u))
  {
    if obj.clientAttr.Some? then SameUser(obj.clientAttr.value, req)
    else if obj.userAttr.Some? then SameUser(obj.userAttr.value, req)
    else false
  }

  /** The attribute `IsOwner` consults: `client` if the object has one, else `user`. */
  function OwnerAttr(obj: Owned): Option<Option<UserId>> {
    if obj.clientAttr.Some? then obj.clientAttr else obj.userAttr
  }

  /** No requester passes both role checks, and an anonymous requester passes neither. */
  lemma RolesExclusive(req: Requester)
    ensures !(IsClient(req) && IsFreelancer(req))
    ensures req.Anonymous? ==> !IsClient(req) && !IsFreelancer(req)
  {
  }

  /** A `client` attribute hides the `user` attribute: an object whose `client` is someone else
      is not owned by the requester even when its `user` is the requester. */
  lemma ClientAttributeWins(id: UserId, other: UserId)
    requires id != other
    ensures !IsOwner(Member(id, ClientRole), Owned(Some(Some(other)), Some(Some(id))))
    ensures IsOwner(Member(id, ClientRole), Owned(None, Some(Some(id))))
  {
  }
}

=== FILE: phone.dfy ===
/** The phone rule of the onboarding wizard (pages/OnboardingWizard.jsx): separators are
    removed and what is left must be an optional plus sign and ten to fifteen digits. */
module Phone {
  import Text

  /** The characters `/[\s()-]/g` removes. */
  predicate Stripped(c: char) {
    Text.IsSpace(c) || c == '(' || c == ')' || c == '-'
  }

  /** `phone.replace(/[\s()-]/g, '')`. */
  function Cleaned(phone: string): (r: string)
    ensures |r| <= |phone|
  {
    if phone == [] then []
    else (if Stripped(phone[0]) then [] else [phone[0]]) + Cleaned(phone[1..])
  }

  /** `/^\+?\d{10,15}$/`: an optional plus sign and then ten to fifteen decimal digits. */
  predicate PhoneShape(s: string) {
    var digits := if s != [] && s[0] == '+' then s[1..] else s;
    10 <= |digits| <= 15 && Text.AllDigits(digits)
  }

  predicate PhoneOk(phone: string) {
    PhoneShape(Cleaned(phone))
  }

  /** Cleaning looks at the first character, then cleans the rest. */
  lemma CleanedCons(x: char, s: string)
    ensures Cleaned([x] + s) == (if Stripped(x) then [] else [x]) + Cleaned(s)
  {
    assert ([x] + s)[0] == x && ([x] + s)[1..] == s;
  }

  /** Cleaning works character by character. */
  lemma {:induction false} CleanedConcat(a: string, b: string)
    ensures Cleaned(a + b) == Cleaned(a) + Cleaned(b)
  {
    if a == [] {
      assert a + b == b;
    } else {
      var x, rest := a[0], a[1..];
      var keep: string := if Stripped(x) then [] else [x];
      calc {
        Cleaned(a + b);
        { assert a + b == [x] + (rest + b); }
        Cleaned([x] + (rest + b));
        { CleanedCons(x, rest + b); }
        keep + Cleaned(rest + b);
        { CleanedConcat(rest, b); }
        keep + (Cleaned(rest) + Cleaned(b));
        (keep + Cleaned(rest)) + Cleaned(b);
        { assert a == [x] + rest; CleanedCons(x, rest); }
        Cleaned(a) + Cleaned(b);
      }
    }
  }

  /** Nothing the pattern removes is left in the cleaned number. */
  lemma {:induction false} CleanedHasNoSeparators(phone: string)
    ensures forall i :: 0 <= i < |Cleaned(phone)| ==> !Stripped(Cleaned(phone)[i])
  {
    if phone != [] {
      CleanedHasNoSeparators(phone[1..]);
      var rest := Cleaned(phone[1..]);
      if !Stripped(phone[0]) {
        assert Cleaned(phone) == [phone[0]] + rest;
        forall i | 0 < i < |Cleaned(phone)|
          ensures !Stripped(Cleaned(phone)[i])
        {
          assert Cleaned(phone)[i] == rest[i - 1];
        }
      }
    }
  }

  /** A number typed without separators is checked exactly as typed. */
  lemma {:induction false} CleanedKeepsPlainNumber(phone: string)
    requires forall i :: 0 <= i < |phone| ==> !Stripped(phone[i])
    ensures Cleaned(phone) == phone
  {
    if phone != [] {
      CleanedKeepsPlainNumber(phone[1..]);
      assert phone == [phone[0]] + phone[1..];
    }
  }

  /** Spacing a number out with blanks, brackets and hyphens never changes whether it is
      accepted. */
  lemma CleanedIgnoresSeparators(a: string, sep: char, b: string)
    requires Stripped(sep)
    ensures Cleaned(a + [sep] + b) == Cleaned(a + b)
  {
    CleanedConcat(a + [sep], b);
    CleanedConcat(a, [sep]);
    CleanedConcat(a, b);
    assert Cleaned([sep]) == [];
  }

  /** The cleaned number is at most sixteen characters, and an accepted one has at least ten
      digits. */
  lemma PhoneLength(phone: string)
    requires PhoneOk(phone)
    ensures 10 <= |Cleaned(phone)| <= 16
  {
  }
}

=== FILE: portfolio.dfy ===
/** Portfolio uploads (users/views.py `upload_portfolio_files`): a freelancer adds files to their
    portfolio, at most five in all and none over 10 MB. Files are given by name and size; their
    content and storage are not modelled. */
module Portfolio {
  import opened Wrappers

  const MaxFiles: nat := 5
  const MaxSize: nat := 10 * 1024 * 1024

  /** One file of the request (or one stored `PortfolioFile`). */
  datatype Upload = Upload(name: string, size: nat)

  /** Why a file of the request was not stored: the cap was reached at the key at that position,
      or the file was too large. */
  datatype Skip = LimitReached(key: nat) | TooLarge(name: string)

  /** Which files of a request are stored when `room` more fit: in request order, every file of
      at most 10 MB until the room is used up. */
  function Accepted(room: nat, files: seq<Upload>): seq<Upload> {
    if files == [] || room == 0 then []
    else if files[0].size > MaxSize then Accepted(room, files[1..])
    else [files[0]] + Accepted(room - 1, files[1..])
  }

  /** The files of at most 10 MB, in request order. */
  function Small(files: seq<Upload>): seq<Upload> {
    if files == [] then []
    else if files[0].size > MaxSize then Small(files[1..])
    else [files[0]] + Small(files[1..])
  }

  /** What is stored is as many small files as there are, up to the room, and is drawn from
      the small files of the request. */
  lemma {:induction false} AcceptedBounds(room: nat, files: seq<Upload>)
    ensures |Accepted(room, files)| == if |Small(files)| < room then |Small(files)| else room
    ensures forall f :: f in Accepted(room, files) ==> f in files && f.size <= MaxSize
  {
    if files != [] && room != 0 {
      if files[0].size > MaxSize {
        AcceptedBounds(room, files[1..]);
      } else {
        AcceptedBounds(room - 1, files[1..]);
      }
    }
  }

  /** When the small files fit, all of them are stored. */
  lemma {:induction false} AcceptedAll(room: nat, files: seq<Upload>)
    requires |Small(files)| <= room
    ensures Accepted(room, files) == Small(files)
  {
    if files != [] && room != 0 {
      if files[0].size > MaxSize {
        AcceptedAll(room, files[1..]);
      } else {
        AcceptedAll(room - 1, files[1..]);
      }
    } else if files != [] {
      SmallBound(files);
    }
  }

  lemma {:induction false} SmallBound(files: seq<Upload>)
    ensures |Small(files)| <= |files|
  {
    if files != [] {
      SmallBound(files[1..]);
    }
  }

  /** The endpoint. `stored` is the requester's portfolio, `None` when they have no freelancer
      profile; `files` are the request's files in key order. Returns the portfolio afterwards,
      the status, the files stored and the reasons the others were skipped. */
  method UploadPortfolio(stored: Option<seq<Upload>>, files: seq<Upload>)
    returns (r: Option<seq<Upload>>, status: Status, uploaded: seq<Upload>, skipped: seq<Skip>)
    ensures stored.None? ==> status == NotFound && r == stored && uploaded == []
    ensures stored.Some? && |stored.value| >= MaxFiles ==> status == BadRequest && r == stored && uploaded == []
    ensures stored.Some? && |stored.value| < MaxFiles ==>
      uploaded == Accepted(MaxFiles - |stored.value|, files) && r == Some(stored.value + uploaded) &&
      |uploaded| + |skipped| == |files| &&
      (status == BadRequest <==> uploaded == [] && files != []) && (status == Ok || status == BadRequest)
  {
    uploaded := [];
    skipped := [];
    r := stored;
    if stored.None? {
      status := NotFound;
      return;
    }
    var current := |stored.value|;
    if current >= MaxFiles {
      status := BadRequest;
      return;
    }
    var room: nat := MaxFiles - current;
    var i := 0;
    while i < |files|
      invariant i <= |files| && |uploaded| <= room
      invariant Accepted(room, files) == uploaded + Accepted(room - |uploaded|, files[i..])
      invariant |uploaded| + |skipped| == i
    {
      assert files[i..][0] == files[i] && files[i..][1..] == files[i + 1..];
      if current + |uploaded| >= MaxFiles {
        skipped := skipped + [LimitReached(i)];
      } else if files[i].size > MaxSize {
        skipped := skipped + [TooLarge(files[i].name)];
      } else {
        uploaded := uploaded + [files[i]];
      }
      i := i + 1;
    }
    assert files[i..] == [];
    r := Some(stored.value + uploaded);
    if uploaded == [] && skipped != [] {
      status := BadRequest;
    } else {
      status := Ok;
    }
  }

  /** The portfolio never grows past five files through this endpoint, and everything it adds
      is at most 10 MB. */
  lemma NeverPastCap(stored: seq<Upload>, files: seq<Upload>)
    requires |stored| < MaxFiles
    ensures |stored + Accepted(MaxFiles - |stored|, files)| <= MaxFiles
    ensures forall f :: f in Accepted(MaxFiles - |stored|, files) ==> f.size <= MaxSize
  {
    AcceptedBounds(MaxFiles - |stored|, files);
  }

  /** A request whose small files all fit stores every one of them. */
  lemma AllSmallFilesFit(stored: seq<Upload>, files: seq<Upload>)
    requires |stored| + |Small(files)| <= MaxFiles
    ensures Accepted(MaxFiles - |stored|, files) == Small(files)
  {
    AcceptedAll(MaxFiles - |stored|, files);
  }
}

=== FILE: profile_completion.dfy ===
/** Profile completion (api/profileCompletionUtils.js), shared by the freelancer dashboard, the
    profile page and the onboarding wizard. Thirteen checks over the member and their freelancer
    profile are counted, turned into a percentage, a list of what is missing and a pass/fail per
    section; the percentage picks a colour and a message. A JavaScript value that can be null
    or empty is a `string` here, with `""` for both, since both are falsy. */
module ProfileCompletion {
  import opened Wrappers
  import Progress

  /** The member fields the checks read (`user`). */
  datatype Member = Member(avatar: string, bio: string, location: string, phone: string)

  datatype Socials = Socials(linkedin: string, github: string, website: string, other: string)

  /** The freelancer profile fields the checks read. `hourlyRate` is `None` when the field is
      null or does not parse as a number; list fields are given by their length. */
  datatype Profile = Profile(
    roleTitle: string, hourlyRate: Option<real>, skills: nat, portfolio: string,
    languages: nat, experiences: nat, education: nat, socials: Socials, portfolioFiles: nat)

  datatype Section = Basic | Professional | Additional

  datatype Check = Check(key: string, complete: bool, caption: string, section: Section)

  /** The four `sectionChecks` flags the profile page reads, plus the four single-check ones. */
  datatype Sections = Sections(
    basic: bool, professional: bool, additional: bool,
    portfolio: bool, experience: bool, education: bool, languages: bool)

  /** The returned object. `sections` is `None` for the empty `{}` of a missing profile, and
      `checks` is empty there, where the object has no such member. */
  datatype Completion = Completion(
    percentage: int, completedCount: nat, totalCount: nat, missing: seq<string>, sections: Option<Sections>,
    checks: map<string, bool>)

  const Keys: seq<string> := [
    "avatar", "bio", "location", "phone", "role_title", "hourly_rate", "skills", "portfolio",
    "languages", "experiences", "education", "social_links", "portfolio_files"]

  /** The thirteen checks in their fixed order. A missing `user` fails the four member checks. */
  function Checks(user: Option<Member>, p: Profile): (cs: seq<Check>)
    ensures |cs| == 13
    ensures forall i :: 0 <= i < 13 ==> cs[i].key == Keys[i]
    ensures forall i :: 0 <= i < 13 ==> (cs[i].section == Basic <==> i < 4)
    ensures forall i :: 0 <= i < 13 ==> (cs[i].section == Professional <==> 4 <= i < 8)
  {
    var u := if user.Some? then user.value else Member("", "", "", "");
    var s := p.socials;
    [ Check("avatar", u.avatar != "", "Profile photo", Basic),
      Check("bio", |u.bio| >= 50, "Bio (50+ chars)", Basic),
      Check("location", u.location != "", "Location", Basic),
      Check("phone", u.phone != "", "Phone number", Basic),
      Check("role_title", p.roleTitle != "", "Professional title", Professional),
      Check("hourly_rate", p.hourlyRate.Some? && p.hourlyRate.value > 0.0, "Hourly rate", Professional),
      Check("skills", p.skills >= 3, "At least 3 skills", Professional),
      Check("portfolio", p.portfolio != "", "Portfolio description", Professional),
      Check("languages", p.languages > 0, "Languages", Additional),
      Check("experiences", p.experiences > 0, "Work experience", Additional),
      Check("education", p.education > 0, "Education", Additional),
      Check("social_links", s.linkedin != "" || s.github != "" || s.website != "" || s.other != "",
        "Social links", Additional),
      Check("portfolio_files", p.portfolioFiles > 0, "Portfolio files", Additional) ]
  }

  /** `checks.filter(c => c.complete).length`. */
  function Done(cs: seq<Check>): (n: nat)
    ensures n <= |cs|
    ensures n == |cs| <==> forall i :: 0 <= i < |cs| ==> cs[i].complete
    ensures n == 0 <==> forall i :: 0 <= i < |cs| ==> !cs[i].complete
  {
    if cs == [] then 0 else (if cs[0].complete then 1 else 0) + Done(cs[1..])
  }

  /** `checks.filter(c => !c.complete).map(c => c.label)`. */
  function Missing(cs: seq<Check>): (r: seq<string>)
    ensures |r| <= |cs|
  {
    if cs == [] then [] else (if cs[0].complete then [] else [cs[0].caption]) + Missing(cs[1..])
  }

  /** A caption is listed exactly when some check with that caption fails. */
  lemma {:induction false} MissingNames(cs: seq<Check>)
    ensures forall x :: x in Missing(cs) <==> exists i :: 0 <= i < |cs| && !cs[i].complete && cs[i].caption == x
  {
    if cs != [] {
      MissingNames(cs[1..]);
      forall x | (exists i :: 0 <= i < |cs| && !cs[i].complete && cs[i].caption == x)
        ensures x in Missing(cs)
      {
        var i :| 0 <= i < |cs| && !cs[i].complete && cs[i].caption == x;
        if i > 0 {
          assert cs[1..][i - 1] == cs[i];
        }
      }
      forall x | x in Missing(cs[1..])
        ensures exists i :: 0 <= i < |cs| && !cs[i].complete && cs[i].caption == x
      {
        var j :| 0 <= j < |cs[1..]| && !cs[1..][j].complete && cs[1..][j].caption == x;
        assert cs[j + 1] == cs[1..][j];
      }
    }
  }

  /** Every check is either counted or listed as missing. */
  lemma {:induction false} DoneAndMissing(cs: seq<Check>)
    ensures Done(cs) + |Missing(cs)| == |cs|
  {
    if cs != [] {
      DoneAndMissing(cs[1..]);
    }
  }

  predicate AllIn(cs: seq<Check>, s: Section) {
    forall i :: 0 <= i < |cs| && cs[i].section == s ==> cs[i].complete
  }

  predicate AnyIn(cs: seq<Check>, s: Section) {
    exists i :: 0 <= i < |cs| && cs[i].section == s && cs[i].complete
  }

  /** `calculateProfileCompletion(user, freelancerProfile)`. */
  function Calculate(user: Option<Member>, profile: Option<Profile>): (c: Completion)
    ensures profile.None? ==> c == Completion(0, 0, 11, [], None, map[])
    ensures profile.Some? ==> c.totalCount == 13 && c.completedCount + |c.missing| == 13
    ensures profile.Some? ==> 0 <= c.percentage <= 100
    ensures profile.Some? ==> c.checks == CheckMap(Checks(user, profile.value))
  {
    if profile.None? then Completion(0, 0, 11, [], None, map[])
    else
      var cs := Checks(user, profile.value);
      var n := Done(cs);
      DoneAndMissing(cs);
      Progress.PercentBounds(n as real, n as real, 13.0);
      Completion(
        Progress.Percent(n as real, 13.0), n, 13, Missing(cs),
        Some(Sections(AllIn(cs, Basic), AllIn(cs, Professional), AnyIn(cs, Additional),
          cs[12].complete, cs[9].complete, cs[10].complete, cs[8].complete)),
        CheckMap(cs))
  }

  /** The `checks` member holds exactly the thirteen keys, each with its own check's outcome. */
  lemma CalculateChecks(user: Option<Member>, p: Profile)
    ensures var c := Calculate(user, Some(p));
      (forall k :: k in c.checks <==> k in Keys) &&
      (forall i :: 0 <= i < 13 ==> c.checks[Keys[i]] == Checks(user, p)[i].complete)
  {
    var cs := Checks(user, p);
    KeysDistinct();
    CheckMapOfDistinct(cs);
    forall k | k in Keys
      ensures k in CheckMap(cs)
    {
      var i :| 0 <= i < 13 && Keys[i] == k;
      assert cs[i].key == k;
    }
  }

  /** The thirteen keys are distinct. */
  lemma KeysDistinct()
    ensures forall i, j :: 0 <= i < j < |Keys| ==> Keys[i] != Keys[j]
  {
  }

  /** The `checks` member: `checks.reduce(...)` sets each check's key to its outcome, a later
      check overwriting an earlier one with the same key. */
  function CheckMap(cs: seq<Check>): (m: map<string, bool>)
    ensures forall k :: k in m <==> exists i :: 0 <= i < |cs| && cs[i].key == k
  {
    if cs == [] then map[]
    else
      CheckMap(cs[..|cs| - 1])[cs[|cs| - 1].key := cs[|cs| - 1].complete]
  }

  /** With distinct keys, each key maps to the outcome of its own check. */
  lemma {:induction false} CheckMapOfDistinct(cs: seq<Check>)
    requires forall i, j :: 0 <= i < j < |cs| ==> cs[i].key != cs[j].key
    ensures forall i :: 0 <= i < |cs| ==> CheckMap(cs)[cs[i].key] == cs[i].complete
  {
    if cs != [] {
      var init := cs[..|cs| - 1];
      CheckMapOfDistinct(init);
      forall i | 0 <= i < |cs|
        ensures CheckMap(cs)[cs[i].key] == cs[i].complete
      {
        if i < |cs| - 1 {
          assert init[i] == cs[i];
        }
      }
    }
  }

  /** The percentage reads 100 exactly when every check passes, which is also exactly when
      nothing is listed as missing; it reads 0 exactly when no check passes. */
  lemma FullAndEmpty(user: Option<Member>, p: Profile)
    ensures var c := Calculate(user, Some(p));
      (c.percentage == 100 <==> forall i :: 0 <= i < 13 ==> Checks(user, p)[i].complete) &&
      (c.percentage == 100 <==> c.missing == []) &&
      (c.percentage == 0 <==> forall i :: 0 <= i < 13 ==> !Checks(user, p)[i].complete)
  {
    var cs := Checks(user, p);
    var n := Done(cs);
    DoneAndMissing(cs);
    Progress.PercentFull(n as real, 13.0);
    Progress.PercentEmpty(n as real, 13.0);
  }

  /** A complete profile passes every section. */
  lemma FullPassesSections(user: Option<Member>, p: Profile)
    requires Calculate(user, Some(p)).percentage == 100
    ensures var s := Calculate(user, Some(p)).sections.value;
      s.basic && s.professional && s.additional && s.portfolio && s.experience && s.education && s.languages
  {
    FullAndEmpty(user, p);
    var cs := Checks(user, p);
    assert cs[8].section == Additional && cs[8].complete;
  }

  /** `b` passes at least the checks `a` passes. */
  predicate AtLeast(a: seq<Check>, b: seq<Check>) {
    |a| == |b| && forall i :: 0 <= i < |a| ==> a[i].complete ==> b[i].complete
  }

  lemma {:induction false} DoneMonotone(a: seq<Check>, b: seq<Check>)
    requires AtLeast(a, b)
    ensures Done(a) <= Done(b)
  {
    if a != [] {
      assert AtLeast(a[1..], b[1..]) by {
        forall i | 0 <= i < |a| - 1 ensures a[1..][i].complete ==> b[1..][i].complete {
          assert a[1..][i] == a[i + 1] && b[1..][i] == b[i + 1];
        }
      }
      DoneMonotone(a[1..], b[1..]);
    }
  }

  /** Filling in more of the profile never lowers the percentage nor worsens its colour. */
  lemma MoreFilledNeverLower(u1: Option<Member>, p1: Profile, u2: Option<Member>, p2: Profile)
    requires AtLeast(Checks(u1, p1), Checks(u2, p2))
    ensures Calculate(u1, Some(p1)).percentage <= Calculate(u2, Some(p2)).percentage
    ensures Progress.BandOf(Calculate(u1, Some(p1)).percentage) == Progress.Green ==>
      Progress.BandOf(Calculate(u2, Some(p2)).percentage) == Progress.Green
  {
    var a, b := Checks(u1, p1), Checks(u2, p2);
    DoneMonotone(a, b);
    Progress.PercentBounds(Done(a) as real, Done(b) as real, 13.0);
  }

  /** The missing profile reports a total of 11 while a present one always has 13 checks: the
      two totals disagree. */
  lemma MissingProfileTotal(user: Option<Member>, p: Profile)
    ensures Calculate(user, None).totalCount == 11 && Calculate(user, Some(p)).totalCount == |Checks(user, p)|
    ensures Calculate(user, None).totalCount != Calculate(user, Some(p)).totalCount
  {
  }

  datatype Message = CompleteMsg | AlmostThere | GoodProgress | LetsComplete

  /** `getCompletionMessage`. */
  function MessageOf(p: int): (m: Message)
    ensures m == CompleteMsg <==> p == 100
    ensures m == LetsComplete <==> p < 50
  {
    if p == 100 then CompleteMsg
    else if p >= 80 then AlmostThere
    else if p >= 50 then GoodProgress
    else LetsComplete
  }

  /** The message and the colour (`getCompletionColor`) tell the same story: a complete or an
      almost-there message sits on green, a good-progress one on yellow and the prompt to start
      on red. */
  lemma MessageMatchesColour(p: int)
    requires p <= 100
    ensures MessageOf(p) == CompleteMsg || MessageOf(p) == AlmostThere <==> Progress.BandOf(p) == Progress.Green
    ensures MessageOf(p) == GoodProgress <==> Progress.BandOf(p) == Progress.Yellow
    ensures MessageOf(p) == LetsComplete <==> Progress.BandOf(p) == Progress.Red
  {
  }
}

=== FILE: profile_page.dfy ===
/** The freelancer's own profile page (pages/FreelancerProfile.jsx): the experience and
    education lists it edits in place, and the portfolio list after an upload. */
module ProfilePage {
  import Text
  import opened FormFields

  datatype Experience = Experience(
    id: int, title: string, company: string, startDate: string, endDate: string,
    description: string, current: bool)

  datatype Education = Education(id: int, degree: string, institution: string, field: string, year: string)

  /** The `_newExp…` fields of the form. */
  datatype ExperienceDraft = ExperienceDraft(title: string, company: string, startDate: string, endDate: string, description: string)

  /** The `_newEdu…` fields of the form. */
  datatype EducationDraft = EducationDraft(degree: string, institution: string, field: string, year: string)

  const BlankExperience := ExperienceDraft("", "", "", "", "")
  const BlankEducation := EducationDraft("", "", "", "")

  /** The experience "Add" button: a blank title or company leaves the list and the draft as
      they are; otherwise the entry, its title and company trimmed and stamped with `now` as
      id, goes at the end and the draft is cleared. */
  function AddExperience(list: seq<Experience>, d: ExperienceDraft, now: int): (r: (seq<Experience>, ExperienceDraft))
    ensures !Filled(d.title) || !Filled(d.company) ==> r == (list, d)
    ensures Filled(d.title) && Filled(d.company) ==>
      r.1 == BlankExperience && |r.0| == |list| + 1 && r.0[..|list|] == list &&
      r.0[|list|] == Experience(now, Text.Trim(d.title), Text.Trim(d.company), d.startDate, d.endDate, d.description, false)
  {
    var t := Text.Trim(d.title);
    var c := Text.Trim(d.company);
    if t == [] || c == [] then (list, d)
    else (list + [Experience(now, t, c, d.startDate, d.endDate, d.description, false)], BlankExperience)
  }

  /** What the button stores is already trimmed and never blank, so editing the entry later
      finds it clean. */
  lemma {:induction false} StoredExperienceClean(list: seq<Experience>, d: ExperienceDraft, now: int)
    requires Filled(d.title) && Filled(d.company)
    ensures var e := AddExperience(list, d, now).0[|list|];
      Text.Trim(e.title) == e.title && e.title != [] && Text.Trim(e.company) == e.company && e.company != []
  {
    Text.TrimIdempotent(d.title);
    Text.TrimIdempotent(d.company);
  }

  /** The education "Add" button: the same rule with degree and institution. */
  function AddEducation(list: seq<Education>, d: EducationDraft, now: int): (r: (seq<Education>, EducationDraft))
    ensures !Filled(d.degree) || !Filled(d.institution) ==> r == (list, d)
    ensures Filled(d.degree) && Filled(d.institution) ==>
      r.1 == BlankEducation && |r.0| == |list| + 1 && r.0[..|list|] == list &&
      r.0[|list|] == Education(now, Text.Trim(d.degree), Text.Trim(d.institution), d.field, d.year)
  {
    var deg := Text.Trim(d.degree);
    var inst := Text.Trim(d.institution);
    if deg == [] || inst == [] then (list, d)
    else (list + [Education(now, deg, inst, d.field, d.year)], BlankEducation)
  }

  /** Pressing "Add" again on the cleared draft changes nothing. */
  lemma SecondAddIgnored(list: seq<Education>, d: EducationDraft, now: int, later: int)
    ensures var (l1, d1) := AddEducation(list, d, now); AddEducation(l1, d1, later) == (l1, d1)
  {
    var (l1, d1) := AddEducation(list, d, now);
    if d1 == BlankEducation {
      assert Text.Trim(d1.degree) == [];
    }
  }

  /** `list.filter((x) => x.id !== id)`, for either list, given how to read an entry's id. */
  function RemoveById<T>(list: seq<T>, idOf: T -> int, id: int): (r: seq<T>)
    ensures |r| <= |list|
    ensures forall i :: 0 <= i < |r| ==> r[i] in list && idOf(r[i]) != id
    ensures forall i :: 0 <= i < |list| && idOf(list[i]) != id ==> list[i] in r
  {
    if list == [] then []
    else (if idOf(list[0]) != id then [list[0]] else []) + RemoveById(list[1..], idOf, id)
  }

  /** How many entries carry `id`. */
  function CountId<T>(list: seq<T>, idOf: T -> int, id: int): nat {
    if list == [] then 0 else (if idOf(list[0]) == id then 1 else 0) + CountId(list[1..], idOf, id)
  }

  /** Removing deletes one entry per occurrence of the id. */
  lemma {:induction false} RemoveCount<T>(list: seq<T>, idOf: T -> int, id: int)
    ensures |RemoveById(list, idOf, id)| == |list| - CountId(list, idOf, id)
  {
    if list != [] {
      RemoveCount(list[1..], idOf, id);
    }
  }

  /** An id no entry carries leaves the list as it is. */
  lemma {:induction false} RemoveAbsent<T>(list: seq<T>, idOf: T -> int, id: int)
    requires CountId(list, idOf, id) == 0
    ensures RemoveById(list, idOf, id) == list
  {
    if list != [] {
      RemoveAbsent(list[1..], idOf, id);
      assert list == [list[0]] + list[1..];
    }
  }

  /** After removing, no entry carries the id, so pressing remove again changes nothing. */
  lemma {:induction false} RemoveTwice<T>(list: seq<T>, idOf: T -> int, id: int)
    ensures CountId(RemoveById(list, idOf, id), idOf, id) == 0
    ensures RemoveById(RemoveById(list, idOf, id), idOf, id) == RemoveById(list, idOf, id)
  {
    if list != [] {
      RemoveTwice(list[1..], idOf, id);
      var rest := RemoveById(list[1..], idOf, id);
      if idOf(list[0]) != id {
        assert RemoveById(list, idOf, id) == [list[0]] + rest;
        assert ([list[0]] + rest)[1..] == rest;
      } else {
        assert RemoveById(list, idOf, id) == rest;
      }
    }
    RemoveAbsent(RemoveById(list, idOf, id), idOf, id);
  }

  function ExperienceId(e: Experience): int { e.id }
  function EducationId(e: Education): int { e.id }

  /** Removing one experience of several added at different moments keeps all the others. */
  lemma RemoveOneExperience(list: seq<Experience>, id: int)
    requires forall i, j :: 0 <= i < j < |list| ==> list[i].id != list[j].id
    requires exists i :: 0 <= i < |list| && list[i].id == id
    ensures |RemoveById(list, ExperienceId, id)| == |list| - 1
  {
    var k :| 0 <= k < |list| && list[k].id == id;
    CountOne(list, id, k);
    RemoveCount(list, ExperienceId, id);
  }

  lemma {:induction false} CountOne(list: seq<Experience>, id: int, k: int)
    requires forall i, j :: 0 <= i < j < |list| ==> list[i].id != list[j].id
    requires 0 <= k < |list| && list[k].id == id
    ensures CountId(list, ExperienceId, id) == 1
  {
    if k == 0 {
      NoId(list[1..], id);
    } else {
      CountOne(list[1..], id, k - 1);
    }
  }

  lemma {:induction false} NoId(list: seq<Experience>, id: int)
    requires forall i :: 0 <= i < |list| ==> list[i].id != id
    ensures CountId(list, ExperienceId, id) == 0
  {
    if list != [] {
      NoId(list[1..], id);
    }
  }

  const MaxPortfolio: nat := 5

  /** `uploadMorePortfolio`: no selection sends nothing; otherwise the files the server reports
      as uploaded go first, the ones already shown follow, and the list is cut to five. */
  function UploadMore<F>(shown: seq<F>, selected: nat, uploaded: seq<F>): (r: seq<F>)
    ensures selected == 0 ==> r == shown
    ensures selected > 0 ==> |r| == if |uploaded| + |shown| <= MaxPortfolio then |uploaded| + |shown| else MaxPortfolio
    ensures selected > 0 && |uploaded| <= MaxPortfolio ==>
      r[..|uploaded|] == uploaded && r[|uploaded|..] == shown[..|r| - |uploaded|]
    ensures selected > 0 && |uploaded| > MaxPortfolio ==> r == uploaded[..MaxPortfolio]
  {
    if selected == 0 then shown else Capped(uploaded, shown, MaxPortfolio)
  }

  /** Uploading makes room by dropping the oldest entries shown: those kept are the first ones
      of the previous list, and the newest upload is always at the top. */
  lemma UploadDropsFromTheEnd<F>(shown: seq<F>, uploaded: seq<F>)
    requires 0 < |uploaded| <= MaxPortfolio
    ensures UploadMore(shown, 1, uploaded)[0] == uploaded[0]
    ensures forall i :: |uploaded| <= i < |UploadMore(shown, 1, uploaded)| ==>
      UploadMore(shown, 1, uploaded)[i] == shown[i - |uploaded|]
  {
    var r := UploadMore(shown, 1, uploaded);
    assert r[..|uploaded|] == uploaded;
    assert r[0] == r[..|uploaded|][0];
    forall i | |uploaded| <= i < |r|
      ensures r[i] == shown[i - |uploaded|]
    {
      assert r[i] == r[|uploaded|..][i - |uploaded|];
    }
  }
}

=== FILE: progress.dfy ===
/** Percentages and the three-colour progress bands the frontend draws for profile completion
    (api/profileCompletionUtils.js) and for workspace progress (pages/Workspace.jsx). Both use
    the same thresholds, 80 and 50. Numbers are exact reals: floating-point error is not
    modelled. */
module Progress {
  import Rounding

  datatype Band = Green | Yellow | Red

  /** `percentage >= 80` is green, `>= 50` yellow, anything lower red. */
  function BandOf(p: int): (b: Band)
    ensures b == Green <==> p >= 80
    ensures b == Red <==> p < 50
  {
    if p >= 80 then Green else if p >= 50 then Yellow else Red
  }

  /** A higher percentage never shows a worse colour. */
  lemma BandMonotone(p: int, q: int)
    requires p <= q
    ensures BandOf(p) == Green ==> BandOf(q) == Green
    ensures BandOf(q) == Red ==> BandOf(p) == Red
  {
  }

  /** `whole === 0 ? 0 : Math.round(part / whole * 100)`. */
  function Percent(part: real, whole: real): (p: int)
    ensures whole == 0.0 ==> p == 0
    ensures whole != 0.0 ==> part / whole * 100.0 - 0.5 < p as real <= part / whole * 100.0 + 0.5
  {
    if whole == 0.0 then 0 else Rounding.JsRound(part / whole * 100.0)
  }

  /** `Math.round` never decreases as its argument grows. */
  lemma JsRoundMonotone(x: real, y: real)
    requires x <= y
    ensures Rounding.JsRound(x) <= Rounding.JsRound(y)
  {
  }

  /** Of a positive whole, a part between nothing and all of it is shown as 0 to 100, and
      more of it never shows less. */
  lemma PercentBounds(a: real, b: real, whole: real)
    requires 0.0 <= a <= b <= whole && whole > 0.0
    ensures 0 <= Percent(a, whole) <= Percent(b, whole) <= 100
  {
    assert a / whole * 100.0 <= b / whole * 100.0 <= 100.0;
    JsRoundMonotone(a / whole * 100.0, b / whole * 100.0);
  }

  /** A part between nothing and all of the whole is shown as 0 to 100, an empty whole
      included. */
  lemma PercentWithin(part: real, whole: real)
    ensures 0.0 <= part <= whole ==> 0 <= Percent(part, whole) <= 100
  {
    if 0.0 <= part <= whole && whole > 0.0 {
      PercentBounds(part, part, whole);
    }
  }

  /** 100 is shown exactly when the part is at least 99.5% of the whole: a part just short of
      it already reads as complete. */
  lemma PercentFull(part: real, whole: real)
    requires 0.0 <= part <= whole && whole > 0.0
    ensures Percent(part, whole) == 100 <==> part * 200.0 >= whole * 199.0
  {
    var y := part / whole * 100.0;
    assert y * whole == part * 100.0;
    if part * 200.0 >= whole * 199.0 {
      assert y >= 99.5;
    } else {
      assert y < 99.5;
    }
  }

  /** Nothing is shown as 0, and so is any part under 0.5% of the whole. */
  lemma PercentEmpty(part: real, whole: real)
    requires 0.0 <= part <= whole && whole > 0.0
    ensures Percent(part, whole) == 0 <==> part * 200.0 < whole
  {
    var y := part / whole * 100.0;
    assert y * whole == part * 100.0;
    if part * 200.0 < whole {
      if y >= 0.5 {
        ScaleUp(0.5, y, whole);
      }
    } else if y < 0.5 {
      ScaleUp(y, 0.5, whole);
    }
  }

  lemma ScaleUp(a: real, b: real, c: real)
    requires a <= b && c > 0.0
    ensures a * c <= b * c
  {
  }

  /** Nothing caps the value: a part larger than the whole reads as more than 100. */
  lemma PercentNotCapped(part: real, whole: real)
    requires whole > 0.0 && part * 200.0 >= whole * 201.0
    ensures Percent(part, whole) > 100
  {
    var y := part / whole * 100.0;
    assert y * whole == part * 100.0;
    assert y >= 100.5;
  }
}

=== FILE: proposal_views.dfy ===
/** Proposals on projects: what `Proposal.save` and the proposal signals of
    notifications/signals.py do on every save, and the endpoints of proposals/views.py
    (`get_queryset`, `create`, `accept`, `reject`). */
module ProposalViews {
  import opened Wrappers
  import opened Accounts
  import opened Listings
  import opened Offers
  import opened Contracts
  import opened Notices
  import opened Store
  import Text
  import WorkspaceSignals

  /** `get_queryset`: a freelancer reaches their own proposals, a client the proposals on their
      projects, any other role none. */
  predicate ProposalVisible(w: World, user: UserId, role: Role, pid: Id) {
    pid in w.proposals &&
    ((role == FreelancerRole && w.proposals[pid].freelancer == user) ||
     (role == ClientRole && w.proposals[pid].project in w.projects && w.projects[w.proposals[pid].project].client == user))
  }

  lemma OtherRoleSeesNoProposal(w: World, user: UserId, pid: Id)
    ensures !ProposalVisible(w, user, OtherRole, pid)
  {
  }

  /** The notification the post-save signal sends the freelancer when a stored proposal changes
      status to accepted or rejected; a change to any other status, or no change, sends none. */
  function StatusNotes(before: OfferStatus, p: Proposal, projectTitle: string): seq<Notification> {
    if before != p.status && (p.status == Accepted || p.status == Rejected) then
      [Notification(p.freelancer, ProposalKind, if p.status == Accepted then "Proposal accepted" else "Proposal rejected", projectTitle)]
    else []
  }

  /** Saving a stored proposal with new values `p`: the pre-save signal records the stored
      status, `Proposal.save` moves the project to in progress when the proposal becomes
      accepted, the row is written, and the post-save signal notifies the freelancer of a change
      to accepted or rejected and forgets the recorded status. Nothing else changes. */
  function SaveProposal(w: World, pid: Id, p: Proposal): (r: World)
    requires Valid(w) && pid in w.proposals && p.project in w.projects
    ensures Valid(r)
    ensures r == w.(proposals := w.proposals[pid := p], projects := MovedProjects(w.projects, w.proposals[pid].status, p),
                    notes := w.notes + StatusNotes(w.proposals[pid].status, p, w.projects[p.project].title),
                    tracker := w.tracker - {pid})
  {
    var before := w.proposals[pid].status;
    var tracked := w.(tracker := w.tracker[pid := before]);
    var moved := tracked.(projects := MovedProjects(w.projects, before, p));
    var r := ProposalPostSave(moved.(proposals := moved.proposals[pid := p]), pid);
    ForgetRecorded(w.tracker, pid, before);
    assert Valid(r) by { KeysKept(w, r, pid, p.project); }
    r
  }

  /** The projects table after `Proposal.save`: the proposal's project is in progress when the
      proposal becomes accepted, and nothing else changes. */
  function MovedProjects(projects: map<Id, Project>, before: OfferStatus, p: Proposal): (r: map<Id, Project>)
    requires p.project in projects
    ensures r.Keys == projects.Keys
    ensures forall k :: k in projects && k != p.project ==> r[k] == projects[k]
    ensures r[p.project] == (if ProposalMovesProject(Some(before), p.status) then projects[p.project].(status := InProgress) else projects[p.project])
  {
    if ProposalMovesProject(Some(before), p.status) then projects[p.project := projects[p.project].(status := InProgress)] else projects
  }

  lemma ForgetRecorded(m: map<Id, OfferStatus>, pid: Id, v: OfferStatus)
    ensures m[pid := v] - {pid} == m - {pid}
  {
  }

  lemma KeysKept(w: World, r: World, pid: Id, project: Id)
    requires Valid(w) && pid in w.proposals && project in w.projects
    requires r.proposals.Keys == w.proposals.Keys && r.projects.Keys == w.projects.Keys && r.nextId == w.nextId
    requires r.jobs == w.jobs && r.applications == w.applications && r.contracts == w.contracts && r.workspaces == w.workspaces
    requires r.tasks == w.tasks && r.comments == w.comments && r.payments == w.payments && r.requests == w.requests
    ensures Valid(r)
  {
  }

  /** `notify_proposal_events` for a save of a stored proposal: the recorded previous status, if
      there is one and it differs from the current one, triggers the accepted or rejected
      notification; the record is then removed. */
  function ProposalPostSave(w: World, pid: Id): (r: World)
    requires pid in w.proposals && w.proposals[pid].project in w.projects
    ensures r == w.(notes := r.notes, tracker := w.tracker - {pid})
    ensures pid in w.tracker ==>
      r.notes == w.notes + StatusNotes(w.tracker[pid], w.proposals[pid], w.projects[w.proposals[pid].project].title)
    ensures pid !in w.tracker ==> r.notes == w.notes
  {
    var p := w.proposals[pid];
    var notes :=
      if pid in w.tracker then StatusNotes(w.tracker[pid], p, w.projects[p.project].title) else [];
    w.(notes := w.notes + notes, tracker := w.tracker - {pid})
  }

  /** Re-saving a proposal without changing it notifies nobody and moves nothing. */
  lemma {:induction false} ResaveIsQuiet(w: World, pid: Id)
    requires Valid(w) && pid in w.proposals && w.proposals[pid].project in w.projects
    ensures var r := SaveProposal(w, pid, w.proposals[pid]);
      r.notes == w.notes && r.projects == w.projects && r.proposals == w.proposals
  {
    assert w.proposals[pid := w.proposals[pid]] == w.proposals;
  }

  /** The checks the serializer makes of a new proposal: a cover letter and an estimated time
      that are not blank once trimmed, the time at most 100 characters, and a bid of at least
      zero with at most two decimal places and at most ten digits. */
  predicate ValidProposalForm(coverLetter: Option<string>, bid: Option<real>, estimatedTime: Option<string>) {
    coverLetter.Some? && Text.Trim(coverLetter.value) != [] &&
    estimatedTime.Some? && Text.Trim(estimatedTime.value) != [] && |Text.Trim(estimatedTime.value)| <= 100 &&
    bid.Some? && 0.0 <= bid.value < 100000000.0 && (bid.value * 100.0).Floor as real == bid.value * 100.0
  }

  /** At most one proposal per (project, freelancer) pair, the `unique_together` constraint. */
  predicate OneProposalPerPair(proposals: map<Id, Proposal>) {
    forall a, b :: a in proposals && b in proposals && a != b ==>
      !(proposals[a].project == proposals[b].project && proposals[a].freelancer == proposals[b].freelancer)
  }

  predicate HasProposalBy(w: World, project: Id, user: UserId) {
    exists k :: k in w.proposals && w.proposals[k].project == project && w.proposals[k].freelancer == user
  }

  /** `create`: an unknown project is 404 and an invalid form 400. The serializer does not check
      the (project, freelancer) pair, because the freelancer is read-only, so a second proposal
      by the same user fails on the database constraint and nothing is stored. Otherwise the
      proposal is stored as pending under the user, and the project's client is notified. Any
      signed-in role may propose. */
  function Create(w: World, user: UserId, project: Option<Id>, coverLetter: Option<string>, bid: Option<real>,
                  estimatedTime: Option<string>): (r: (World, Status))
    requires Valid(w)
    ensures r.1 == NotFound <==> project.None? || project.value !in w.projects
    ensures r.1 == BadRequest <==> r.1 != NotFound && !ValidProposalForm(coverLetter, bid, estimatedTime)
    ensures r.1 == ServerError <==> (r.1 != NotFound && r.1 != BadRequest && HasProposalBy(w, project.value, user))
    ensures r.1 != Ok ==> r.0 == w
    ensures r.1 == Ok ==> (Valid(r.0) &&
      r.0 == w.(proposals := w.proposals[w.nextId := Proposal(project.value, user, bid.value, OfferStatus.Pending)], nextId := w.nextId + 1,
                notes := w.notes + [Notification(w.projects[project.value].client, ProposalKind, "New proposal received", w.projects[project.value].title)]))
    ensures r.1 == Ok && OneProposalPerPair(w.proposals) ==> OneProposalPerPair(r.0.proposals)
  {
    if project.None? || project.value !in w.projects then (w, NotFound)
    else if !ValidProposalForm(coverLetter, bid, estimatedTime) then (w, BadRequest)
    else if HasProposalBy(w, project.value, user) then (w, ServerError)
    else
      var pr := w.projects[project.value];
      var w1 := InsertProposal(w, Proposal(project.value, user, bid.value, OfferStatus.Pending));
      (Notify(w1, pr.client, ProposalKind, "New proposal received", pr.title), Ok)
  }

  /** A user's second proposal on the same project is never stored: once the first is, the
      same form is refused by the database constraint and nothing changes. */
  lemma CreateTwiceFails(w: World, user: UserId, project: Option<Id>, coverLetter: Option<string>, bid: Option<real>,
                         estimatedTime: Option<string>)
    requires Valid(w) && Create(w, user, project, coverLetter, bid, estimatedTime).1 == Ok
    ensures var r1 := Create(w, user, project, coverLetter, bid, estimatedTime).0;
      HasProposalBy(r1, project.value, user) &&
      Create(r1, user, project, coverLetter, bid, estimatedTime) == (r1, ServerError)
  {
    var r1 := Create(w, user, project, coverLetter, bid, estimatedTime).0;
    assert r1.proposals[w.nextId].project == project.value && r1.proposals[w.nextId].freelancer == user;
  }

  /** The post-save signal of a new proposal contract notifies the project's client and the
      proposal's freelancer. */
  function ContractNotes(client: UserId, freelancer: UserId, projectTitle: string): seq<Notification> {
    var title := "New contract for \"" + projectTitle + "\"";
    [Notification(client, ContractKind, title, ""), Notification(freelancer, ContractKind, title, "")]
  }

  /** `Contract.objects.create(proposal=...)` with its post-save signals: the contract is
      inserted pending and unsigned, both parties are notified, and the workspace signal adds
      nothing because the contract is not signed. A contract already linked to the proposal
      makes the insert fail on the one-to-one constraint. */
  function CreateProposalContract(w: World, pid: Id): (r: (World, bool))
    requires Valid(w) && pid in w.proposals && w.proposals[pid].project in w.projects
    ensures !r.1 <==> HasProposalContract(w, pid)
    ensures !r.1 ==> r.0 == w
    ensures r.1 ==> var p := w.proposals[pid]; (Valid(r.0) &&
      r.0 == w.(contracts := w.contracts[w.nextId := NewContract(Some(pid), None)], nextId := w.nextId + 1,
                notes := w.notes + ContractNotes(w.projects[p.project].client, p.freelancer, w.projects[p.project].title)))
  {
    if HasProposalContract(w, pid) then (w, false)
    else
      var p := w.proposals[pid];
      (AddContract(w, pid, w.projects[p.project].client, p.freelancer, w.projects[p.project].title), true)
  }

  /** The insert of a proposal contract and its post-save signals, when the insert succeeds. */
  function AddContract(w: World, pid: Id, client: UserId, freelancer: UserId, projectTitle: string): (r: World)
    requires Valid(w)
    ensures Valid(r)
    ensures r == w.(contracts := w.contracts[w.nextId := NewContract(Some(pid), None)], nextId := w.nextId + 1,
                    notes := w.notes + ContractNotes(client, freelancer, projectTitle))
  {
    var w1 := InsertContract(w, NewContract(Some(pid), None));
    var w2 := w1.(notes := w1.notes + ContractNotes(client, freelancer, projectTitle));
    UnsignedIsQuiet(w2, w.nextId);
    WorkspaceSignals.OnContractSaved(w2, w.nextId)
  }

  /** The workspace signal does nothing for a contract that is not fully signed. */
  lemma UnsignedIsQuiet(w: World, cid: Id)
    requires Valid(w) && cid in w.contracts && !IsFullySigned(w.contracts[cid])
    ensures WorkspaceSignals.OnContractSaved(w, cid) == w
  {
  }

  /** `accept`: a proposal outside the user's queryset is 404; a user who is not the project's
      client is 403. The proposal is saved accepted (moving the project to in progress the first
      time) and a contract is created for it. A proposal that already has a contract, such as
      one accepted before, makes the create fail after the proposal was saved: a server error.
      Sibling proposals on the project are left as they are. */
  function Accept(w: World, user: UserId, role: Role, pid: Id): (r: (World, Status))
    requires Valid(w)
    ensures r.1 == NotFound <==> !ProposalVisible(w, user, role, pid)
    ensures r.1 == Forbidden <==> (ProposalVisible(w, user, role, pid) && w.proposals[pid].project in w.projects &&
      w.projects[w.proposals[pid].project].client != user)
    ensures r.1 == Ok <==> (ProposalVisible(w, user, role, pid) && w.proposals[pid].project in w.projects &&
      w.projects[w.proposals[pid].project].client == user && !HasProposalContract(w, pid))
    ensures r.1 == NotFound || r.1 == Forbidden ==> r.0 == w
    ensures r.1 == Ok || (r.1 == ServerError && w.proposals[pid].project in w.projects) ==> (Valid(r.0) &&
      r.0.proposals == w.proposals[pid := w.proposals[pid].(status := Accepted)] &&
      r.0.projects == (if w.proposals[pid].status != Accepted
                       then w.projects[w.proposals[pid].project := w.projects[w.proposals[pid].project].(status := InProgress)]
                       else w.projects))
    ensures r.1 == ServerError && w.proposals[pid].project in w.projects ==> r.0.contracts == w.contracts
    ensures r.1 == Ok ==> r.0.contracts == w.contracts[w.nextId := NewContract(Some(pid), None)]
    ensures r.0.workspaces == w.workspaces && r.0.applications == w.applications && r.0.jobs == w.jobs
  {
    if !ProposalVisible(w, user, role, pid) then (w, NotFound)
    else
      var p := w.proposals[pid];
      if p.project !in w.projects then (w, ServerError)
      else if w.projects[p.project].client != user then (w, Forbidden)
      else
        var w1 := SaveProposal(w, pid, p.(status := Accepted));
        var (w2, created) := CreateProposalContract(w1, pid);
        HasContractKept(w, w1, pid);
        (w2, if created then Ok else ServerError)
  }

  lemma HasContractKept(w: World, r: World, pid: Id)
    requires r.contracts == w.contracts
    ensures HasProposalContract(r, pid) <==> HasProposalContract(w, pid)
  {
  }

  /** `reject`: the same lookups and check as `accept`; the proposal is saved rejected, whatever
      its status, even accepted. No contract is created or removed. */
  function Reject(w: World, user: UserId, role: Role, pid: Id): (r: (World, Status))
    requires Valid(w)
    ensures r.1 == NotFound <==> !ProposalVisible(w, user, role, pid)
    ensures r.1 == Forbidden <==> (ProposalVisible(w, user, role, pid) && w.proposals[pid].project in w.projects &&
      w.projects[w.proposals[pid].project].client != user)
    ensures r.1 == ServerError <==> ProposalVisible(w, user, role, pid) && w.proposals[pid].project !in w.projects
    ensures r.1 != Ok ==> r.0 == w
    ensures r.1 == Ok ==> (Valid(r.0) && r.0.proposals == w.proposals[pid := w.proposals[pid].(status := Rejected)] &&
      r.0.projects == w.projects && r.0.contracts == w.contracts &&
      r.0.notes == w.notes + StatusNotes(w.proposals[pid].status, w.proposals[pid].(status := Rejected), w.projects[w.proposals[pid].project].title))
  {
    if !ProposalVisible(w, user, role, pid) then (w, NotFound)
    else
      var p := w.proposals[pid];
      if p.project !in w.projects then (w, ServerError)
      else if w.projects[p.project].client != user then (w, Forbidden)
      else (SaveProposal(w, pid, p.(status := Rejected)), Ok)
  }

  /** Rejecting a proposal a second time answers 200 and changes nothing: the status is
      already rejected, so no notification is sent and the project does not move. */
  lemma {:induction false} RejectTwiceIsQuiet(w: World, user: UserId, role: Role, pid: Id)
    requires Valid(w) && Reject(w, user, role, pid).1 == Ok
    ensures var r1 := Reject(w, user, role, pid).0;
      r1.proposals[pid].status == Rejected && Reject(r1, user, role, pid) == (r1, Ok)
  {
    var r1 := Reject(w, user, role, pid).0;
    var p := r1.proposals[pid];
    assert ProposalVisible(r1, user, role, pid);
    assert p.(status := Rejected) == p;
    assert StatusNotes(p.status, p, r1.projects[p.project].title) == [];
    assert r1.proposals[pid := p] == r1.proposals;
    assert MovedProjects(r1.projects, p.status, p) == r1.projects;
    assert r1.tracker - {pid} == r1.tracker;
    assert r1.notes + [] == r1.notes;
    assert SaveProposal(r1, pid, p) == r1;
  }

  /** Accepting a proposal a second time saves nothing new and fails on the existing contract. */
  lemma {:induction false} AcceptTwiceFails(w: World, user: UserId, role: Role, pid: Id)
    requires Valid(w) && Accept(w, user, role, pid).1 == Ok
    ensures var r1 := Accept(w, user, role, pid).0;
      Accept(r1, user, role, pid) == (r1, ServerError)
  {
    var r1 := Accept(w, user, role, pid).0;
    assert r1.contracts[w.nextId].proposal == Some(pid);
    assert HasProposalContract(r1, pid);
    assert ProposalVisible(r1, user, role, pid);
    ResaveAcceptedIsNoop(r1, pid);
  }

  /** Saving an accepted proposal as accepted, with no status recorded for it, changes nothing. */
  lemma ResaveAcceptedIsNoop(w: World, pid: Id)
    requires Valid(w) && pid in w.proposals && w.proposals[pid].status == Accepted
    requires w.proposals[pid].project in w.projects && pid !in w.tracker
    ensures SaveProposal(w, pid, w.proposals[pid].(status := Accepted)) == w
  {
    assert w.proposals[pid].(status := Accepted) == w.proposals[pid];
    assert w.proposals[pid := w.proposals[pid]] == w.proposals;
    assert w.tracker - {pid} == w.tracker;
  }
}

=== FILE: ratings.dfy ===
/** The rating signal of contracts/signals.py: after a review is saved or deleted, the reviewee's
    `rating_avg` becomes the average of their verified platform reviews, rounded to hundredths. */
module Ratings {
  import opened Accounts
  import opened Contracts
  import Rounding

  // The rows are `Contracts.Review`. Its `rating` is validated to 1..5 by the model field, but
  // the table is not constrained, so the type does not assume it.

  /** The filter of the signal's query: the review is about `user`, verified and from the
      platform. */
  predicate Counts(r: Review, user: UserId) {
    r.reviewee == user && r.isVerified && r.reviewType == Platform
  }

  /** How many reviews of the table enter `user`'s average. */
  function Count(rs: seq<Review>, user: UserId): nat {
    if rs == [] then 0
    else Count(rs[..|rs| - 1], user) + (if Counts(rs[|rs| - 1], user) then 1 else 0)
  }

  /** The sum of the ratings that enter `user`'s average. */
  function Total(rs: seq<Review>, user: UserId): int {
    if rs == [] then 0
    else Total(rs[..|rs| - 1], user) + (if Counts(rs[|rs| - 1], user) then rs[|rs| - 1].rating else 0)
  }

  /** The value the signal writes: `Avg('rating')` over the filtered reviews, `0.0` when there is
      none, passed through `round(_, 2)`. */
  function Average(rs: seq<Review>, user: UserId): (a: real)
    ensures Count(rs, user) == 0 ==> a == 0.0
    ensures Count(rs, user) > 0 ==> -0.005 <= a - Total(rs, user) as real / Count(rs, user) as real <= 0.005
    ensures (a * 100.0).Floor as real == a * 100.0
  {
    var n := Count(rs, user);
    if n == 0 then
      Rounding.Round2Exact(0.0);
      0.0
    else
      Rounding.Round2(Total(rs, user) as real / n as real)
  }

  /** Splitting the table splits both the count and the sum. */
  lemma {:induction false} TallyAppend(a: seq<Review>, b: seq<Review>, user: UserId)
    ensures Count(a + b, user) == Count(a, user) + Count(b, user)
    ensures Total(a + b, user) == Total(a, user) + Total(b, user)
    decreases |b|
  {
    if b != [] {
      var n := |b| - 1;
      assert (a + b)[..|a + b| - 1] == a + b[..n];
      assert (a + b)[|a + b| - 1] == b[n];
      TallyAppend(a, b[..n], user);
    } else {
      assert a + b == a;
    }
  }

  /** A review that does not count for `user` — about someone else, unverified, or external —
      can be added or removed anywhere in the table without changing `user`'s average. */
  lemma IrrelevantReview(a: seq<Review>, x: Review, b: seq<Review>, user: UserId)
    requires !Counts(x, user)
    ensures Count(a + [x] + b, user) == Count(a + b, user)
    ensures Total(a + [x] + b, user) == Total(a + b, user)
    ensures Average(a + [x] + b, user) == Average(a + b, user)
  {
    TallyAppend(a + [x], b, user);
    TallyAppend(a, [x], user);
    TallyAppend(a, b, user);
    assert [x][..0] == [];
  }

  /** The count and the sum do not depend on the order the rows are read in. */
  lemma {:induction false} TallyPermutation(rs: seq<Review>, qs: seq<Review>, user: UserId)
    requires multiset(rs) == multiset(qs)
    ensures Count(rs, user) == Count(qs, user) && Total(rs, user) == Total(qs, user)
    decreases |rs|
  {
    if rs != [] {
      var n := |rs| - 1;
      var last := rs[n];
      assert last in multiset(qs);
      var j :| 0 <= j < |qs| && qs[j] == last;
      var rest := qs[..j] + qs[j + 1..];
      assert qs == qs[..j] + [qs[j]] + qs[j + 1..];
      assert rs == rs[..n] + [last];
      assert multiset(rs) == multiset(rs[..n]) + multiset{last};
      assert multiset(rs[..n]) == multiset(rs) - multiset{last};
      assert multiset(qs) == multiset(qs[..j]) + multiset{last} + multiset(qs[j + 1..]);
      assert multiset(rest) == multiset(qs[..j]) + multiset(qs[j + 1..]);
      assert multiset(rs[..n]) == multiset(rest);
      TallyPermutation(rs[..n], rest, user);
      TallyAppend(qs[..j] + [qs[j]], qs[j + 1..], user);
      TallyAppend(qs[..j], [qs[j]], user);
      TallyAppend(qs[..j], qs[j + 1..], user);
      assert [qs[j]][..0] == [];
    } else {
      assert qs == [];
    }
  }

  /** The average does not depend on the order the rows are read in (the query has no
      `order_by`). */
  lemma AveragePermutation(rs: seq<Review>, qs: seq<Review>, user: UserId)
    requires multiset(rs) == multiset(qs)
    ensures Average(rs, user) == Average(qs, user)
  {
    TallyPermutation(rs, qs, user);
  }

  /** Every rating in the table is within the model field's validators. */
  predicate Rated(rs: seq<Review>) {
    forall i :: 0 <= i < |rs| ==> 1 <= rs[i].rating <= 5
  }

  lemma {:induction false} TotalBounds(rs: seq<Review>, user: UserId)
    requires Rated(rs)
    ensures Count(rs, user) <= Total(rs, user) <= 5 * Count(rs, user)
  {
    if rs != [] {
      TotalBounds(rs[..|rs| - 1], user);
    }
  }

  /** A quotient by a positive divisor keeps the bounds of its numerator scaled by the divisor. */
  lemma DivBounds(a: real, d: real, lo: real, hi: real)
    requires d > 0.0 && lo * d <= a <= hi * d
    ensures lo <= a / d <= hi
  {
    var q := a / d;
    assert q * d == a;
    assert (q - lo) * d == a - lo * d;
    assert (hi - q) * d == hi * d - a;
  }

  /** With ratings in 1..5, a user with at least one counted review has an average between 1 and
      5; rounding cannot push it outside. */
  lemma AverageInRange(rs: seq<Review>, user: UserId)
    requires Rated(rs) && Count(rs, user) > 0
    ensures 1.0 <= Average(rs, user) <= 5.0
  {
    var n := Count(rs, user);
    var t := Total(rs, user);
    TotalBounds(rs, user);
    DivBounds(t as real, n as real, 1.0, 5.0);
    Rounding.Round2Exact(1.0);
    Rounding.Round2Exact(5.0);
    Rounding.Round2Between(t as real / n as real, 1.0, 5.0);
  }

  /** `update_user_rating`: with the table as it stands after the save or the delete, it writes
      the reviewee's `rating_avg` and touches no other user. */
  function OnReviewChanged(rs: seq<Review>, avg: map<UserId, real>, instance: Review): (r: map<UserId, real>)
    ensures instance.reviewee in r && r[instance.reviewee] == Average(rs, instance.reviewee)
    ensures forall u :: u != instance.reviewee ==> (u in r <==> u in avg)
    ensures forall u :: u in avg && u != instance.reviewee ==> r[u] == avg[u]
  {
    avg[instance.reviewee := Average(rs, instance.reviewee)]
  }

  /** The stored averages agree with a recomputation from the table. */
  predicate Consistent(rs: seq<Review>, avg: map<UserId, real>) {
    forall u :: u in avg ==> avg[u] == Average(rs, u)
  }

  /** Creating a review and running the signal keeps every stored average consistent: the
      reviewee's is recomputed, and nobody else's can have changed. */
  lemma SaveKeepsConsistent(rs: seq<Review>, avg: map<UserId, real>, x: Review)
    requires Consistent(rs, avg)
    ensures Consistent(rs + [x], OnReviewChanged(rs + [x], avg, x))
  {
    forall u | u in avg && u != x.reviewee
      ensures Average(rs + [x], u) == Average(rs, u)
    {
      IrrelevantReview(rs, x, [], u);
      assert rs + [x] + [] == rs + [x];
      assert rs + [] == rs;
    }
  }

  /** Deleting row `i` and running the signal keeps every stored average consistent. */
  lemma DeleteKeepsConsistent(rs: seq<Review>, avg: map<UserId, real>, i: nat)
    requires Consistent(rs, avg) && i < |rs|
    ensures Consistent(rs[..i] + rs[i + 1..], OnReviewChanged(rs[..i] + rs[i + 1..], avg, rs[i]))
  {
    assert rs == rs[..i] + [rs[i]] + rs[i + 1..];
    forall u | u in avg && u != rs[i].reviewee
      ensures Average(rs[..i] + rs[i + 1..], u) == Average(rs, u)
    {
      IrrelevantReview(rs[..i], rs[i], rs[i + 1..], u);
    }
  }

  /** Editing row `i` without changing its reviewee (a new rating, a verification) and running
      the signal keeps every stored average consistent. */
  lemma UpdateKeepsConsistent(rs: seq<Review>, avg: map<UserId, real>, i: nat, x: Review)
    requires Consistent(rs, avg) && i < |rs| && x.reviewee == rs[i].reviewee
    ensures Consistent(rs[i := x], OnReviewChanged(rs[i := x], avg, x))
  {
    assert rs == rs[..i] + [rs[i]] + rs[i + 1..];
    assert rs[i := x] == rs[..i] + [x] + rs[i + 1..];
    forall u | u in avg && u != x.reviewee
      ensures Average(rs[i := x], u) == Average(rs, u)
    {
      IrrelevantReview(rs[..i], rs[i], rs[i + 1..], u);
      IrrelevantReview(rs[..i], x, rs[i + 1..], u);
    }
  }

  /** An unverified review or an external testimonial, saved or deleted, leaves every stored
      average as it was. */
  lemma TestimonialChangesNothing(rs: seq<Review>, avg: map<UserId, real>, x: Review)
    requires Consistent(rs, avg) && x.reviewee in avg
    requires !x.isVerified || x.reviewType == External
    ensures OnReviewChanged(rs + [x], avg, x) == avg
  {
    IrrelevantReview(rs, x, [], x.reviewee);
    assert rs + [x] + [] == rs + [x];
    assert rs + [] == rs;
  }
}

=== FILE: rounding.dfy ===
/** The two rounding rules the system uses: Python's `round(x, 2)`, which rounds a tie to the
    even neighbour, and JavaScript's `Math.round`, which rounds a tie up. Both are stated on
    exact rationals; the binary floating point underneath is not modelled. */
module Rounding {

  /** The nearest integer to `y`, a tie going to the even one (Python's `round`). */
  function HalfEven(y: real): (k: int)
    ensures y - 0.5 <= k as real <= y + 0.5
    ensures (k as real - y == 0.5 || y - k as real == 0.5) ==> k % 2 == 0
  {
    var n := y.Floor;
    var f := y - n as real;
    if f > 0.5 then n + 1
    else if f < 0.5 then n
    else if n % 2 == 0 then n
    else n + 1
  }

  /** The two properties above single out one integer: `HalfEven` is the only rounding to the
      nearest integer that sends ties to even. */
  lemma HalfEvenUnique(y: real, k: int)
    requires y - 0.5 <= k as real <= y + 0.5
    requires (k as real - y == 0.5 || y - k as real == 0.5) ==> k % 2 == 0
    ensures k == HalfEven(y)
  {
    var h := HalfEven(y);
    if k != h {
      assert false;
    }
  }

  /** `round(x, 2)`: `x` rounded to hundredths, ties to even. */
  function Round2(x: real): (r: real)
    ensures -0.005 <= r - x <= 0.005
    ensures (r * 100.0).Floor as real == r * 100.0
  {
    var k := HalfEven(x * 100.0);
    var r := k as real / 100.0;
    assert r * 100.0 == k as real;
    r
  }

  /** A value that already has at most two decimals is left as it is. */
  lemma Round2Exact(x: real)
    requires (x * 100.0).Floor as real == x * 100.0
    ensures Round2(x) == x
  {
    HalfEvenUnique(x * 100.0, (x * 100.0).Floor);
  }

  /** Rounding never crosses a bound that has two decimals: a value in `[lo, hi]` rounds into
      `[lo, hi]`. */
  lemma Round2Between(x: real, lo: real, hi: real)
    requires lo <= x <= hi
    requires (lo * 100.0).Floor as real == lo * 100.0 && (hi * 100.0).Floor as real == hi * 100.0
    ensures lo <= Round2(x) <= hi
  {
    var k := HalfEven(x * 100.0);
    assert (lo * 100.0).Floor <= k <= (hi * 100.0).Floor;
  }

  /** `Math.round`: `floor(y + 1/2)`, so a tie goes up. */
  function JsRound(y: real): (k: int)
    ensures y - 0.5 < k as real <= y + 0.5
  {
    (y + 0.5).Floor
  }

  /** The bound above singles out one integer. */
  lemma JsRoundUnique(y: real, k: int)
    requires y - 0.5 < k as real <= y + 0.5
    ensures k == JsRound(y)
  {
  }
}

=== FILE: saved_items.dfy ===
/** Saved projects and saved jobs (saved_items/): a user bookmarks a posting, checks whether it
    is bookmarked, lists their bookmarks and removes one. The two viewsets are the same code over
    two tables, so one model serves both: `target` is the project id or the job id. */
module SavedItems {
  import opened Wrappers
  import opened Accounts

  /** A `SavedProject` or `SavedJob` row. */
  datatype Saved = Saved(user: UserId, target: Id)

  /** The table and the next primary key. */
  datatype Shelf = Shelf(rows: map<Id, Saved>, nextId: nat)

  predicate Valid(s: Shelf) {
    forall k :: k in s.rows ==> k < s.nextId
  }

  /** `unique_together = ('user', 'project')` (resp. `'job'`). */
  predicate Unique(s: Shelf) {
    forall a, b :: a in s.rows && b in s.rows && s.rows[a] == s.rows[b] ==> a == b
  }

  /** The rows holding the pair. */
  function Matching(s: Shelf, user: UserId, target: Id): set<Id> {
    set k | k in s.rows && s.rows[k] == Saved(user, target)
  }

  /** `check`: whether a row exists for the pair. */
  function IsSaved(s: Shelf, user: UserId, target: Id): (b: bool)
    ensures b <==> exists k :: k in s.rows && s.rows[k] == Saved(user, target)
  {
    var ks := Matching(s, user, target);
    assert forall k :: k in s.rows && s.rows[k] == Saved(user, target) ==> k in ks;
    ks != {}
  }

  /** `get_queryset`: the user's own rows, never anyone else's. */
  function Listing(s: Shelf, user: UserId): (r: set<Id>)
    ensures forall k :: k in r <==> k in s.rows && s.rows[k].user == user
  {
    set k | k in s.rows && s.rows[k].user == user
  }

  /** `create`: a missing `project_id` (`job_id`) is 400. Otherwise `get_or_create` on the pair of
      the requesting user and the target: an existing row is returned as it is (two of them, which
      the unique constraint rules out, make the `get` raise, a server error); a new row is
      inserted, which fails on the foreign key, a server error, when no such posting exists. */
  function Save(s: Shelf, postings: set<Id>, user: UserId, target: Option<Id>): (r: (Shelf, Status))
    requires Valid(s)
    ensures Valid(r.0)
    ensures r.1 == BadRequest <==> target.None?
    ensures r.1 == ServerError <==> (target.Some? &&
      (|Matching(s, user, target.value)| > 1 || (!IsSaved(s, user, target.value) && target.value !in postings)))
    ensures r.1 != Ok ==> r.0 == s
    ensures r.1 == Ok ==> IsSaved(r.0, user, target.value)
    ensures r.1 == Ok && IsSaved(s, user, target.value) ==> r.0 == s
    ensures r.1 == Ok && !IsSaved(s, user, target.value) ==>
      r.0 == Shelf(s.rows[s.nextId := Saved(user, target.value)], s.nextId + 1)
  {
    if target.None? then (s, BadRequest)
    else
      var ks := Matching(s, user, target.value);
      if |ks| > 1 then (s, ServerError)
      else if ks != {} then (s, Ok)
      else if target.value !in postings then (s, ServerError)
      else
        var r := Shelf(s.rows[s.nextId := Saved(user, target.value)], s.nextId + 1);
        assert r.rows[s.nextId] == Saved(user, target.value);
        (r, Ok)
  }

  /** `destroy`: the URL's id is the target, not the row. No row for the pair is 404; otherwise
      the row is deleted. Two rows for the pair, which the unique constraint rules out, would make
      `get` raise: a server error. */
  function Unsave(s: Shelf, user: UserId, target: Id): (r: (Shelf, Status))
    ensures r.1 == NotFound <==> !IsSaved(s, user, target)
    ensures r.1 == ServerError <==> |Matching(s, user, target)| > 1
    ensures r.1 != Ok ==> r.0 == s
    ensures r.1 == Ok ==> |Matching(s, user, target)| == 1 && r.0 == Shelf(s.rows - Matching(s, user, target), s.nextId)
  {
    var ks := Matching(s, user, target);
    if ks == {} then (s, NotFound)
    else if |ks| > 1 then (s, ServerError)
    else (Shelf(s.rows - ks, s.nextId), Ok)
  }

  /** Saving keeps the pair unique: a pair already saved is not inserted again. */
  lemma SaveKeepsUnique(s: Shelf, postings: set<Id>, user: UserId, target: Option<Id>)
    requires Valid(s) && Unique(s)
    ensures Unique(Save(s, postings, user, target).0)
  {
  }

  /** Saving twice is saving once: the second request finds the row of the first. */
  lemma SaveIdempotent(s: Shelf, postings: set<Id>, user: UserId, target: Id)
    requires Valid(s)
    ensures var r1 := Save(s, postings, user, Some(target));
      Save(r1.0, postings, user, Some(target)).0 == r1.0
  {
  }

  /** After a successful save `check` is true; after a successful unsave it is false for a table
      that kept the pair unique. */
  lemma CheckAfterSaveAndUnsave(s: Shelf, postings: set<Id>, user: UserId, target: Id)
    requires Valid(s) && Unique(s)
    ensures Save(s, postings, user, Some(target)).1 == Ok ==> IsSaved(Save(s, postings, user, Some(target)).0, user, target)
    ensures Unsave(s, user, target).1 == Ok ==> !IsSaved(Unsave(s, user, target).0, user, target)
  {
    var u := Unsave(s, user, target);
    if u.1 == Ok {
      assert Matching(u.0, user, target) == {};
    }
  }

  /** Neither saving nor unsaving changes what any other user has saved. */
  lemma OthersUnaffected(s: Shelf, postings: set<Id>, user: UserId, other: UserId, target: Option<Id>, t: Id, x: Id)
    requires Valid(s) && other != user
    ensures IsSaved(Save(s, postings, user, target).0, other, x) == IsSaved(s, other, x)
    ensures IsSaved(Unsave(s, user, t).0, other, x) == IsSaved(s, other, x)
    ensures Listing(Unsave(s, user, t).0, other) == Listing(s, other)
  {
    var r := Save(s, postings, user, target);
    if IsSaved(r.0, other, x) {
      var k :| k in r.0.rows && r.0.rows[k] == Saved(other, x);
      assert k in s.rows;
    }
    var u := Unsave(s, user, t);
    if IsSaved(s, other, x) {
      var k :| k in s.rows && s.rows[k] == Saved(other, x);
      assert k in u.0.rows;
    }
  }
}

=== FILE: sign_up.dfy ===
/** The sign-up page (pages/SignUp.jsx): the username it derives from the email, the password
    checks it runs before calling the registration endpoint, and where it sends the new member
    afterwards. */
module SignUp {
  import opened Wrappers
  import Text
  import Users
  import Accounts

  /** `email.split('@')[0]`. */
  function Username(email: string): (u: string)
    ensures '@' !in u
    ensures '@' !in email ==> u == email
    ensures '@' in email ==> u == email[..Text.FirstIndex(email, '@')]
  {
    Text.Split(email, '@')[0]
  }

  /** The username is the email up to its first `@`: what follows it, if anything, starts with
      that `@`. */
  lemma UsernameIsPrefix(email: string)
    ensures |Username(email)| <= |email| && email[..|Username(email)|] == Username(email)
    ensures |Username(email)| < |email| ==> email[|Username(email)|] == '@'
  {
  }

  datatype PasswordError = Mismatch | TooShort

  /** The checks of `handleSubmit`: the two passwords must agree, and only then is the length
      checked. */
  function CheckPasswords(password: string, password2: string): (r: Option<PasswordError>)
    ensures r == Some(Mismatch) <==> password != password2
    ensures r == Some(TooShort) <==> password == password2 && |password| < 8
    ensures r.None? <==> password == password2 && |password| >= 8
  {
    if password != password2 then Some(Mismatch)
    else if |password| < 8 then Some(TooShort)
    else None
  }

  /** Two short passwords that differ are reported as a mismatch, not as too short. */
  lemma MismatchReportedFirst(password: string, password2: string)
    requires password != password2 && |password| < 8
    ensures CheckPasswords(password, password2) == Some(Mismatch)
  {
  }

  /** The server sees the typed passwords trimmed. Typed passwords that pass the page's checks
      and have no surrounding whitespace meet none of the server's password errors. */
  lemma PageChecksMeetServer(reg: Users.Registry, isEmail: string -> bool, f: Users.Registration, typed: string, typed2: string)
    requires CheckPasswords(typed, typed2).None? && Text.Trim(typed) == typed
    requires f.password == Text.Trim(typed) && f.password2 == Text.Trim(typed2)
    ensures Users.PasswordTooShort !in Users.FieldErrors(isEmail, reg.users, f)
    ensures Users.Password2TooShort !in Users.FieldErrors(isEmail, reg.users, f)
    ensures Users.PasswordMismatch !in Users.Register(reg, isEmail, f).1
  {
  }

  /** A value with whitespace at both ends loses at least two characters to trimming. */
  lemma TrimDropsPadding(s: string)
    requires |s| >= 2 && Text.IsSpace(s[0]) && Text.IsSpace(s[|s| - 1])
    ensures |Text.Trim(s)| <= |s| - 2
  {
    var i := Text.LeadingSpace(s);
    var rest := s[i..];
    assert Text.Trim(s) == rest[..Text.ContentLength(rest)];
    if rest != [] {
      assert rest[|rest| - 1] == s[|s| - 1];
    }
  }

  const Padded: string := " abcdef "

  /** Eight characters with a space at each end pass the page, but the server, which trims
      them, keeps six and refuses them as too short. */
  lemma PaddedPasswordPassesOnlyThePage(users: seq<Users.Account>, isEmail: string -> bool, f: Users.Registration)
    requires f.password == Text.Trim(Padded)
    ensures CheckPasswords(Padded, Padded).None?
    ensures Users.PasswordTooShort in Users.FieldErrors(isEmail, users, f)
  {
    assert |Padded| == 8 && Padded[0] == ' ' && Padded[7] == ' ';
    TrimDropsPadding(Padded);
  }

  datatype Destination = Onboarding | ClientDashboard

  /** The routing after signing up: the role the profile endpoint reports, else the one the
      form sent, decides; only a freelancer goes to onboarding. */
  function Route(reported: Option<string>, formRole: string): (d: Destination)
    ensures reported.Some? && reported.value != "" ==> (d == Onboarding <==> reported.value == "freelancer")
    ensures !(reported.Some? && reported.value != "") ==> (d == Onboarding <==> formRole == "freelancer")
  {
    var role := if reported.Some? && reported.value != "" then reported.value else formRole;
    if role == "freelancer" then Onboarding else ClientDashboard
  }

  /** A non-empty reported role wins over the form whatever the form said: a member the server
      knows as a client goes to the dashboard even if the form said freelancer. Without one the
      form decides. */
  lemma ReportedRoleWins(reported: Option<string>, formRole: string, otherRole: string)
    ensures reported.Some? && reported.value != "" ==> Route(reported, formRole) == Route(reported, otherRole)
    ensures reported == Some("client") ==> Route(reported, formRole) == ClientDashboard
    ensures !(reported.Some? && reported.value != "") ==> Route(reported, formRole) == Route(None, formRole)
  {
  }
}

=== FILE: skills.dfy ===
/** The skill catalogue (users/models.py `Skill`, users/views.py `SkillViewSet.create_custom`): a
    signed-in member may add a skill the catalogue lacks. The name is trimmed and checked for
    length, a case-insensitive match returns the existing skill, and a new skill gets the first
    free slug among `base`, `base-1`, `base-2`, ... Django's `slugify`, which produces the base,
    is a parameter. */
module Skills {
  import opened Wrappers
  import Text

  /** A `Skill` row. The catalogue is held in primary-key order, the order `.first()` uses. */
  datatype Skill = Skill(name: string, slug: string)

  /** The slugs the `while ... exists()` loop tries, in order: the base itself, then the base
      with `-1`, `-2`, ... appended. */
  function Candidate(base: string, k: nat): string {
    if k == 0 then base else base + "-" + Text.NatToString(k)
  }

  /** Different attempts try different slugs. */
  lemma CandidateInjective(base: string, j: nat, k: nat)
    requires Candidate(base, j) == Candidate(base, k)
    ensures j == k
  {
    var p := base + "-";
    if j != 0 && k != 0 {
      assert Text.NatToString(j) == Candidate(base, j)[|p|..];
      assert Text.NatToString(k) == Candidate(base, k)[|p|..];
      Text.NatToStringInjective(j, k);
    }
  }

  /** `slug` is the first candidate not in `used`. */
  ghost predicate FirstFree(used: set<string>, base: string, slug: string) {
    exists k: nat :: slug == Candidate(base, k) && slug !in used &&
      forall j :: 0 <= j < k ==> Candidate(base, j) in used
  }

  /** There is only one first free slug. */
  lemma FirstFreeUnique(used: set<string>, base: string, a: string, b: string)
    requires FirstFree(used, base, a) && FirstFree(used, base, b)
    ensures a == b
  {
    var ka: nat :| a == Candidate(base, ka) && a !in used && forall j :: 0 <= j < ka ==> Candidate(base, j) in used;
    var kb: nat :| b == Candidate(base, kb) && b !in used && forall j :: 0 <= j < kb ==> Candidate(base, j) in used;
  }

  /** The de-duplication loop: try the candidates in order until one is unused. It ends because
      every tried candidate is a different member of the finite set `used`. */
  method UniqueSlug(used: set<string>, base: string) returns (slug: string, k: nat)
    ensures slug == Candidate(base, k) && slug !in used
    ensures forall j :: 0 <= j < k ==> Candidate(base, j) in used
  {
    slug := base;
    k := 0;
    ghost var tried: set<string> := {};
    while slug in used
      invariant slug == Candidate(base, k)
      invariant forall j :: 0 <= j < k ==> Candidate(base, j) in used
      invariant forall s :: s in tried ==> exists j :: 0 <= j < k && s == Candidate(base, j)
      invariant tried <= used
      decreases used - tried
    {
      if slug in tried {
        var j :| 0 <= j < k && slug == Candidate(base, j);
        CandidateInjective(base, j, k);
        assert false;
      }
      tried := tried + {slug};
      k := k + 1;
      slug := Candidate(base, k);
    }
  }

  /** `name__iexact`: the names agree once both are lower-cased. */
  predicate SameName(a: string, b: string) {
    Text.Lower(a) == Text.Lower(b)
  }

  /** `Skill.objects.filter(name__iexact=name).first()`: the position of the first skill with
      that name in any letter case. */
  function FirstNamed(skills: seq<Skill>, name: string): (r: Option<nat>)
    ensures r.Some? ==> r.value < |skills| && SameName(skills[r.value].name, name)
    ensures r.Some? ==> forall i :: 0 <= i < r.value ==> !SameName(skills[i].name, name)
    ensures r.None? ==> forall i :: 0 <= i < |skills| ==> !SameName(skills[i].name, name)
  {
    if skills == [] then None
    else if SameName(skills[0].name, name) then Some(0)
    else match FirstNamed(skills[1..], name)
      case None => None
      case Some(i) => Some(i + 1)
  }

  function Slugs(skills: seq<Skill>): set<string> {
    set i | 0 <= i < |skills| :: skills[i].slug
  }

  /** The catalogue's two unique constraints, on `name` and on `slug`. */
  predicate Catalogue(skills: seq<Skill>) {
    forall i, j :: 0 <= i < j < |skills| ==> skills[i].name != skills[j].name && skills[i].slug != skills[j].slug
  }

  /** `request.data.get('name', '').strip()`. */
  function Cleaned(name: Option<string>): string {
    Text.Trim(if name.Some? then name.value else "")
  }

  /** The answers of `create_custom`: three 400s, the existing skill (200), or the new one
      (201). */
  datatype SkillReply = NameRequired | NameTooShort | NameTooLong | Found(skill: Skill) | Created(skill: Skill)

  function StatusOf(r: SkillReply): Status {
    if r.NameRequired? || r.NameTooShort? || r.NameTooLong? then BadRequest else Ok
  }

  /** `create_custom`. */
  method CreateCustom(skills: seq<Skill>, name: Option<string>, slugify: string -> string) returns (r: seq<Skill>, reply: SkillReply)
    ensures reply == NameRequired <==> Cleaned(name) == ""
    ensures reply == NameTooShort <==> |Cleaned(name)| == 1
    ensures reply == NameTooLong <==> |Cleaned(name)| > 50
    ensures reply.Found? <==> 2 <= |Cleaned(name)| <= 50 && FirstNamed(skills, Cleaned(name)).Some?
    ensures reply.Found? ==> reply.skill == skills[FirstNamed(skills, Cleaned(name)).value]
    ensures reply.Created? ==> reply.skill.name == Cleaned(name) && r == skills + [reply.skill]
    ensures reply.Created? ==> FirstFree(Slugs(skills), slugify(Cleaned(name)), reply.skill.slug)
    ensures !reply.Created? ==> r == skills
  {
    var t := Cleaned(name);
    r := skills;
    if t == "" {
      reply := NameRequired;
    } else if |t| < 2 {
      reply := NameTooShort;
    } else if |t| > 50 {
      reply := NameTooLong;
    } else {
      var existing := FirstNamed(skills, t);
      if existing.Some? {
        reply := Found(skills[existing.value]);
      } else {
        var slug, k := UniqueSlug(Slugs(skills), slugify(t));
        reply := Created(Skill(t, slug));
        r := skills + [reply.skill];
      }
    }
  }

  /** A created skill keeps both unique constraints: its name matches no existing name even
      ignoring case, and its slug is unused. */
  lemma CreatedKeepsCatalogue(skills: seq<Skill>, s: Skill, base: string)
    requires Catalogue(skills)
    requires FirstNamed(skills, s.name).None? && FirstFree(Slugs(skills), base, s.slug)
    ensures Catalogue(skills + [s])
  {
    var r := skills + [s];
    forall i, j | 0 <= i < j < |r| ensures r[i].name != r[j].name && r[i].slug != r[j].slug {
      if j == |skills| {
        assert !SameName(skills[i].name, s.name);
        assert skills[i].slug in Slugs(skills);
      }
    }
  }

  /** Asking again for a name just created, in any letter case, finds the new skill and adds
      nothing. */
  lemma AskingAgainFindsIt(skills: seq<Skill>, s: Skill, again: string)
    requires FirstNamed(skills, s.name).None? && SameName(s.name, again)
    ensures FirstNamed(skills + [s], again) == Some(|skills|)
  {
    assert forall i :: 0 <= i < |skills| ==> !SameName(skills[i].name, again);
    FirstNamedAppended(skills, s, again);
  }

  /** A search that finds nothing in `a` finds a matching skill appended after it. */
  lemma {:induction false} FirstNamedAppended(a: seq<Skill>, s: Skill, name: string)
    requires FirstNamed(a, name).None? && SameName(s.name, name)
    ensures FirstNamed(a + [s], name) == Some(|a|)
  {
    if a != [] {
      assert (a + [s])[0] == a[0] && !SameName(a[0].name, name);
      assert FirstNamed(a[1..], name).None?;
      assert (a + [s])[1..] == a[1..] + [s];
      FirstNamedAppended(a[1..], s, name);
    } else {
      assert (a + [s])[1..] == [];
    }
  }
}

=== FILE: store.dfy ===
/** The database the backend views and signals work on: one map per table, keyed by primary
    key, the notifications created so far, and the next primary key the database will hand out. */
module Store {
  import opened Wrappers
  import opened Accounts
  import opened Listings
  import opened Offers
  import opened Contracts
  import opened Workspaces
  import opened Tasks
  import opened Payments
  import opened Notices
  import Text

  /** A comment on a task (workspaces/models.py `TaskComment`). */
  datatype Comment = Comment(task: Id, user: UserId, text: string)

  datatype World = World(
    projects: map<Id, Project>,
    jobs: map<Id, Job>,
    proposals: map<Id, Proposal>,
    applications: map<Id, Application>,
    contracts: map<Id, Contract>,
    workspaces: map<Id, Workspace>,
    tasks: map<Id, Task>,
    comments: map<Id, Comment>,
    payments: map<Id, Payment>,
    requests: map<Id, PaymentRequest>,
    notes: seq<Notification>,
    /** `_proposal_previous_status` of notifications/signals.py: the status a proposal had before
        the save in progress. */
    tracker: map<Id, OfferStatus>,
    nextId: nat)

  /** Every key of table `m` is below `n`. */
  predicate Below<V>(m: map<Id, V>, n: nat) {
    forall k :: k in m ==> k < n
  }

  /** Every primary key in use is below `nextId`, so `nextId` is free in every table. */
  predicate Valid(w: World) {
    Below(w.projects, w.nextId) && Below(w.jobs, w.nextId) && Below(w.proposals, w.nextId) &&
    Below(w.applications, w.nextId) && Below(w.contracts, w.nextId) && Below(w.workspaces, w.nextId) &&
    Below(w.tasks, w.nextId) && Below(w.comments, w.nextId) && Below(w.payments, w.nextId) &&
    Below(w.requests, w.nextId)
  }

  /** The contracts that have a workspace (the reverse side of `Workspace.contract`). */
  function Covered(w: World): set<Id> {
    set k | k in w.workspaces :: w.workspaces[k].contract
  }

  predicate HasWorkspace(w: World, cid: Id) {
    cid in Covered(w)
  }

  /** The one-to-one constraint on `Workspace.contract`. */
  predicate OneWorkspacePerContract(w: World) {
    forall a, b :: a in w.workspaces && b in w.workspaces && w.workspaces[a].contract == w.workspaces[b].contract ==> a == b
  }

  /** Inserts a proposal under the next primary key. */
  function InsertProposal(w: World, p: Proposal): (r: World)
    requires Valid(w)
    ensures Valid(r) && w.nextId !in w.proposals
    ensures r == w.(proposals := w.proposals[w.nextId := p], nextId := w.nextId + 1)
  {
    w.(proposals := w.proposals[w.nextId := p], nextId := w.nextId + 1)
  }

  /** Inserts a job application under the next primary key. */
  function InsertApplication(w: World, a: Application): (r: World)
    requires Valid(w)
    ensures Valid(r) && w.nextId !in w.applications
    ensures r == w.(applications := w.applications[w.nextId := a], nextId := w.nextId + 1)
  {
    w.(applications := w.applications[w.nextId := a], nextId := w.nextId + 1)
  }

  /** Inserts a contract under the next primary key, without running the post-save signals. */
  function InsertContract(w: World, c: Contract): (r: World)
    requires Valid(w)
    ensures Valid(r) && w.nextId !in w.contracts
    ensures r == w.(contracts := w.contracts[w.nextId := c], nextId := w.nextId + 1)
  {
    w.(contracts := w.contracts[w.nextId := c], nextId := w.nextId + 1)
  }

  /** Inserts a task under the next primary key. */
  function InsertTask(w: World, t: Task): (r: World)
    requires Valid(w)
    ensures Valid(r) && w.nextId !in w.tasks
    ensures r == w.(tasks := w.tasks[w.nextId := t], nextId := w.nextId + 1)
  {
    w.(tasks := w.tasks[w.nextId := t], nextId := w.nextId + 1)
  }

  /** Inserts a comment under the next primary key. */
  function InsertComment(w: World, c: Comment): (r: World)
    requires Valid(w)
    ensures Valid(r) && w.nextId !in w.comments
    ensures r == w.(comments := w.comments[w.nextId := c], nextId := w.nextId + 1)
  {
    w.(comments := w.comments[w.nextId := c], nextId := w.nextId + 1)
  }

  /** Inserts a payment under the next primary key. */
  function InsertPayment(w: World, p: Payment): (r: World)
    requires Valid(w)
    ensures Valid(r) && w.nextId !in w.payments
    ensures r == w.(payments := w.payments[w.nextId := p], nextId := w.nextId + 1)
  {
    w.(payments := w.payments[w.nextId := p], nextId := w.nextId + 1)
  }

  /** Inserts a payment request under the next primary key. */
  function InsertRequest(w: World, q: PaymentRequest): (r: World)
    requires Valid(w)
    ensures Valid(r) && w.nextId !in w.requests
    ensures r == w.(requests := w.requests[w.nextId := q], nextId := w.nextId + 1)
  {
    w.(requests := w.requests[w.nextId := q], nextId := w.nextId + 1)
  }

  /** Appends one notification row. */
  function Notify(w: World, user: UserId, kind: Kind, title: string, subject: string): World {
    w.(notes := w.notes + [Notification(user, kind, title, subject)])
  }

  /** `Notification.objects.create(user=...)` with a user that may be missing: the `user` column
      is not nullable, so a missing user makes the insert fail and nothing is appended. */
  function NotifyNullable(w: World, user: Option<UserId>, kind: Kind, title: string, subject: string): (World, bool) {
    if user.Some? then (Notify(w, user.value, kind, title, subject), true) else (w, false)
  }

  /** The contract's display title used by the workspace signal, the backfill command and the
      workspace serializer: the job's title for a job contract, else the project's title for a
      project contract, else "Contract #<id>". */
  function ContractTitle(w: World, cid: Id): string
    requires cid in w.contracts
  {
    var c := w.contracts[cid];
    if c.application.Some? && c.application.value in w.applications && w.applications[c.application.value].job in w.jobs then
      w.jobs[w.applications[c.application.value].job].title
    else if c.proposal.Some? && c.proposal.value in w.proposals && w.proposals[c.proposal.value].project in w.projects then
      w.projects[w.proposals[c.proposal.value].project].title
    else
      "Contract #" + Text.NatToString(cid)
  }

  /** Some contract is linked to proposal `pid` (the one-to-one `Contract.proposal`). */
  predicate HasProposalContract(w: World, pid: Id) {
    exists k :: k in w.contracts && w.contracts[k].proposal == Some(pid)
  }

  /** Some contract is linked to job application `aid` (the one-to-one `Contract.job_application`). */
  predicate HasApplicationContract(w: World, aid: Id) {
    exists k :: k in w.contracts && w.contracts[k].application == Some(aid)
  }

  /** The user is the client or the freelancer recorded on the contract. This is the filter of
      every workspace, task, payment and payment-request queryset. */
  predicate IsParty(c: Contract, user: UserId) {
    c.client == Some(user) || c.freelancer == Some(user)
  }

  /** The contract of a workspace, when both rows exist. */
  predicate WorkspaceJoins(w: World, wsid: Id) {
    wsid in w.workspaces && w.workspaces[wsid].contract in w.contracts
  }

  function ContractOf(w: World, wsid: Id): Contract
    requires WorkspaceJoins(w, wsid)
  {
    w.contracts[w.workspaces[wsid].contract]
  }
}

=== FILE: tasks.dfy ===
/** Tasks inside a workspace (workspaces/models.py `WorkspaceTask`) and the rule their `save`
    applies to the completion time and the overdue status. */
module Tasks {
  import opened Wrappers
  import opened Accounts
  import Text

  datatype TaskStatus = Todo | InProgress | Completed | Overdue

  datatype Priority = Low | Medium | High

  datatype Task = Task(
    workspace: Id,
    title: string,
    createdBy: UserId,
    assignedTo: Option<UserId>,
    status: TaskStatus,
    priority: Priority,
    deadline: Option<Time>,
    completedAt: Option<Time>)

  /** The title the task serializer takes: the `CharField(max_length=300)` it derives from the
      model trims the value, refuses it blank and refuses it over 300 characters. */
  predicate TitleFits(title: string) {
    Text.Trim(title) != [] && |Text.Trim(title)| <= 300
  }

  /** The stored spelling of each status choice. */
  function StatusName(s: TaskStatus): string {
    match s
    case Todo => "todo"
    case InProgress => "in_progress"
    case Completed => "completed"
    case Overdue => "overdue"
  }

  /** Reading a requested status: only the four stored spellings are choices. */
  function ParseStatus(s: string): (r: Option<TaskStatus>)
    ensures r.Some? ==> StatusName(r.value) == s
    ensures r.None? ==> forall t: TaskStatus :: StatusName(t) != s
  {
    if s == "todo" then Some(Todo)
    else if s == "in_progress" then Some(InProgress)
    else if s == "completed" then Some(Completed)
    else if s == "overdue" then Some(Overdue)
    else None
  }

  /** Every status reads back from its stored spelling. */
  lemma ParseStatusName(t: TaskStatus)
    ensures ParseStatus(StatusName(t)) == Some(t)
  {
  }

  /** The stored spelling of each priority choice. */
  function PriorityName(p: Priority): string {
    match p
    case Low => "low"
    case Medium => "medium"
    case High => "high"
  }

  /** Reading a sent priority: only the three stored spellings are choices. */
  function ParsePriority(s: string): (r: Option<Priority>)
    ensures r.Some? ==> PriorityName(r.value) == s
    ensures r.None? ==> forall p: Priority :: PriorityName(p) != s
  {
    if s == "low" then Some(Low)
    else if s == "medium" then Some(Medium)
    else if s == "high" then Some(High)
    else None
  }

  /** Every priority reads back from its stored spelling. */
  lemma ParsePriorityName(p: Priority)
    ensures ParsePriority(PriorityName(p)) == Some(p)
  {
  }

  /** The `deadline` a create request sends, as its `DateTimeField(allow_null=True)` reads it:
      missing or null, text it cannot parse (refused), or a time. */
  datatype DeadlineField = NoDeadline | BadDeadline | Deadline(at: Time)

  /** A `status` or `priority` that is sent must be one of the choices; one left out takes the
      model's default. */
  predicate ChoicesRead(status: Option<string>, priority: Option<string>) {
    (status.Some? ==> ParseStatus(status.value).Some?) && (priority.Some? ==> ParsePriority(priority.value).Some?)
  }

  /** The status a task is created with: the one sent, else todo. */
  function StatusSent(status: Option<string>): TaskStatus
    requires status.Some? ==> ParseStatus(status.value).Some?
  {
    if status.Some? then ParseStatus(status.value).value else Todo
  }

  /** The priority a task is created with: the one sent, else medium. */
  function PrioritySent(priority: Option<string>): Priority
    requires priority.Some? ==> ParsePriority(priority.value).Some?
  {
    if priority.Some? then ParsePriority(priority.value).value else Medium
  }

  /** `WorkspaceTask.save`: a completed task keeps (or gets) its completion time, any other task
      loses it; then a task whose deadline has passed and that is not completed becomes overdue.
      Only the status and the completion time can change. */
  function SaveTask(t: Task, now: Time): (r: Task)
    ensures r == t.(status := r.status, completedAt := r.completedAt)
    ensures r.status == Completed <==> t.status == Completed
    ensures r.status != t.status ==> r.status == Overdue
    ensures r.status == Overdue <==> t.status == Overdue || (t.status != Completed && t.deadline.Some? && now > t.deadline.value)
    ensures r.status == Completed ==> r.completedAt == (if t.completedAt.Some? then t.completedAt else Some(now))
    ensures r.status != Completed ==> r.completedAt.None?
  {
    var stamped :=
      if t.status == Completed && t.completedAt.None? then t.(completedAt := Some(now))
      else if t.status != Completed then t.(completedAt := None)
      else t;
    if stamped.deadline.Some? && now > stamped.deadline.value && stamped.status != Completed then
      stamped.(status := Overdue)
    else
      stamped
  }

  /** Saving twice at the same moment has the effect of saving once. */
  lemma SaveTaskIdempotent(t: Task, now: Time)
    ensures SaveTask(SaveTask(t, now), now) == SaveTask(t, now)
  {
  }

  /** The first completion time survives later saves. */
  lemma SaveKeepsCompletionTime(t: Task, first: Time, later: Time)
    requires t.status == Completed
    ensures SaveTask(SaveTask(t, first), later).completedAt == SaveTask(t, first).completedAt
  {
  }

  /** `get_is_overdue` of the task serializer: a deadline that has passed on a task that is not
      completed. */
  predicate IsOverdue(t: Task, now: Time) {
    t.deadline.Some? && t.status != Completed && now > t.deadline.value
  }

  /** After a save, a task the serializer reports as overdue carries the overdue status, and a
      completed task is never reported as overdue. */
  lemma {:induction false} SavedOverdueAgrees(t: Task, now: Time)
    ensures IsOverdue(SaveTask(t, now), now) ==> SaveTask(t, now).status == Overdue
    ensures SaveTask(t, now).status == Completed ==> !IsOverdue(SaveTask(t, now), now)
  {
  }
}

=== FILE: text.dfy ===
/** Character-level string helpers shared by the backend and the frontend models:
    whitespace trimming (Python `strip`, JavaScript `trim`), ASCII lower-casing,
    substring search, splitting on a separator, and decimal digits. */
module Text {
  import opened Wrappers

  /** The whitespace both `str.strip()` and `String.prototype.trim()` remove, restricted to
      the ASCII characters: space, tab, line feed, vertical tab, form feed, carriage return. */
  predicate IsSpace(c: char) {
    c == ' ' || c == '\t' || c == '\n' || c == '\r' || c as int == 11 || c as int == 12
  }

  predicate AllSpace(s: string) {
    forall i :: 0 <= i < |s| ==> IsSpace(s[i])
  }

  /** The number of whitespace characters `s` starts with. */
  function LeadingSpace(s: string): (n: nat)
    ensures n <= |s| && AllSpace(s[..n])
    ensures n == |s| || !IsSpace(s[n])
  {
    if |s| == 0 || !IsSpace(s[0]) then 0
    else
      var m := LeadingSpace(s[1..]);
      assert s[..m + 1] == [s[0]] + s[1..][..m];
      m + 1
  }

  /** The length of `s` without its trailing whitespace. */
  function ContentLength(s: string): (n: nat)
    ensures n <= |s| && AllSpace(s[n..])
    ensures n == 0 || !IsSpace(s[n - 1])
  {
    if |s| == 0 || !IsSpace(s[|s| - 1]) then |s|
    else
      var p := s[..|s| - 1];
      var m := ContentLength(p);
      assert s[m..] == p[m..] + [s[|s| - 1]];
      m
  }

  /** Python `s.strip()` and JavaScript `s.trim()`. */
  function Trim(s: string): (r: string)
    ensures |r| <= |s|
    ensures exists i, j :: 0 <= i <= j <= |s| && r == s[i..j] && AllSpace(s[..i]) && AllSpace(s[j..])
    ensures r == [] || (!IsSpace(r[0]) && !IsSpace(r[|r| - 1]))
  {
    var i := LeadingSpace(s);
    var rest := s[i..];
    var n := ContentLength(rest);
    var j := i + n;
    var r := s[i..j];
    assert s[j..] == rest[n..];
    assert r == rest[..n];
    assert r != [] ==> r[0] == s[i] && r[|r| - 1] == rest[n - 1];
    assert 0 <= i <= j <= |s| && AllSpace(s[..i]) && AllSpace(s[j..]);
    r
  }

  /** Trimming a value that is all whitespace from `k` on leaves at most `k` characters. */
  /** Trimming a value that is all whitespace from `k` on leaves at most `k` characters. */
  lemma TrimWithin(s: string, k: nat)
    requires k <= |s| && AllSpace(s[k..])
    ensures |Trim(s)| <= k
  {
    var r := Trim(s);
    var i, j :| 0 <= i <= j <= |s| && r == s[i..j] && AllSpace(s[..i]) && AllSpace(s[j..]);
    forall m | k <= m < |s|
      ensures IsSpace(s[m])
    {
      assert s[m] == s[k..][m - k];
    }
    if r != [] {
      assert r[|r| - 1] == s[j - 1];
    }
  }

  /** Trimming a trimmed string changes nothing. */
  lemma {:induction false} TrimIdempotent(s: string)
    ensures Trim(Trim(s)) == Trim(s)
  {
    var t := Trim(s);
    if t != [] {
      assert LeadingSpace(t) == 0;
      assert ContentLength(t[0..]) == |t| by { assert t[0..] == t; }
    }
  }

  /** A string trims to nothing exactly when it is all whitespace. */
  lemma {:induction false} TrimEmptyIffAllSpace(s: string)
    ensures Trim(s) == [] <==> AllSpace(s)
  {
    var i, j :| 0 <= i <= j <= |s| && Trim(s) == s[i..j] && AllSpace(s[..i]) && AllSpace(s[j..]);
    if i < j {
      assert Trim(s)[0] == s[i];
    }
    if Trim(s) == [] {
      assert i == j;
      forall k | 0 <= k < |s| ensures IsSpace(s[k]) {
        if k < i { assert s[..i][k] == s[k]; } else { assert s[j..][k - j] == s[k]; }
      }
    }
  }

  /** ASCII lower-casing of one character; every other character is left alone. */
  function LowerChar(c: char): char {
    if 'A' <= c <= 'Z' then (c as int + 32) as char else c
  }

  /** Python `s.lower()` and JavaScript `s.toLowerCase()` on the ASCII letters. */
  function Lower(s: string): (r: string)
    ensures |r| == |s|
    ensures forall i :: 0 <= i < |s| ==> r[i] == LowerChar(s[i])
    ensures forall i :: 0 <= i < |r| ==> !('A' <= r[i] <= 'Z')
  {
    if |s| == 0 then [] else [LowerChar(s[0])] + Lower(s[1..])
  }

  lemma LowerIdempotent(s: string)
    ensures Lower(Lower(s)) == Lower(s)
  {
  }

  /** `needle` occurs in `hay` starting at position `i`. */
  predicate MatchAt(hay: string, needle: string, i: int) {
    0 <= i && i + |needle| <= |hay| && hay[i..i + |needle|] == needle
  }

  /** JavaScript `hay.indexOf(needle)`: the first position where `needle` occurs. */
  function IndexOf(hay: string, needle: string): (r: Option<nat>)
    ensures r.Some? ==> MatchAt(hay, needle, r.value) && forall k :: 0 <= k < r.value ==> !MatchAt(hay, needle, k)
    ensures r.None? ==> forall k :: !MatchAt(hay, needle, k)
  {
    IndexFrom(hay, needle, 0)
  }

  function IndexFrom(hay: string, needle: string, from: nat): (r: Option<nat>)
    ensures r.Some? ==> from <= r.value && MatchAt(hay, needle, r.value)
    ensures r.Some? ==> forall k :: from <= k < r.value ==> !MatchAt(hay, needle, k)
    ensures r.None? ==> forall k :: from <= k ==> !MatchAt(hay, needle, k)
    decreases |hay| - from
  {
    if from + |needle| > |hay| then None
    else if hay[from..from + |needle|] == needle then Some(from)
    else IndexFrom(hay, needle, from + 1)
  }

  /** Python `needle in hay` and JavaScript `hay.includes(needle)`. */
  predicate Contains(hay: string, needle: string) {
    IndexOf(hay, needle).Some?
  }

  lemma ContainsIffMatch(hay: string, needle: string)
    ensures Contains(hay, needle) <==> exists k :: MatchAt(hay, needle, k)
  {
  }

  /** Python `s.split(sep)` for a one-character separator: always at least one piece. */
  function Split(s: string, sep: char): (r: seq<string>)
    ensures |r| >= 1
    ensures forall k :: 0 <= k < |r| ==> sep !in r[k]
  {
    if sep !in s then [s]
    else
      var i := FirstIndex(s, sep);
      [s[..i]] + Split(s[i + 1..], sep)
  }

  function FirstIndex(s: string, c: char): (i: nat)
    requires c in s
    ensures i < |s| && s[i] == c && c !in s[..i]
  {
    if s[0] == c then 0 else 1 + FirstIndex(s[1..], c)
  }

  /** Python `sep.join(parts)`. */
  function Join(parts: seq<string>, sep: char): string {
    if |parts| == 0 then []
    else if |parts| == 1 then parts[0]
    else parts[0] + [sep] + Join(parts[1..], sep)
  }

  /** Splitting and re-joining on the same separator gives the original string back. */
  lemma {:induction false} JoinSplit(s: string, sep: char)
    ensures Join(Split(s, sep), sep) == s
    decreases |s|
  {
    if sep in s {
      var i := FirstIndex(s, sep);
      var tail := Split(s[i + 1..], sep);
      var parts := [s[..i]] + tail;
      assert parts[0] == s[..i] && parts[1..] == tail;
      assert Join(parts, sep) == s[..i] + [sep] + Join(tail, sep);
      JoinSplit(s[i + 1..], sep);
      assert s == s[..i] + [sep] + s[i + 1..];
    }
  }

  /** Joining pieces that do not contain the separator and splitting again recovers them. */
  lemma {:induction false} SplitJoin(parts: seq<string>, sep: char)
    requires |parts| >= 1
    requires forall k :: 0 <= k < |parts| ==> sep !in parts[k]
    ensures Split(Join(parts, sep), sep) == parts
  {
    if |parts| > 1 {
      var s := Join(parts, sep);
      var rest := Join(parts[1..], sep);
      assert s == parts[0] + [sep] + rest;
      assert sep in s by { assert s[|parts[0]|] == sep; }
      var i := FirstIndex(s, sep);
      assert forall k :: 0 <= k < |parts[0]| ==> s[k] == parts[0][k];
      assert i == |parts[0]| by {
        assert forall k :: 0 <= k < i ==> s[..i][k] == s[k];
      }
      assert s[..i] == parts[0];
      assert s[i + 1..] == rest;
      SplitJoin(parts[1..], sep);
    }
  }

  predicate IsDigit(c: char) {
    '0' <= c <= '9'
  }

  predicate AllDigits(s: string) {
    forall i :: 0 <= i < |s| ==> IsDigit(s[i])
  }

  function DigitChar(d: nat): (c: char)
    requires d < 10
    ensures IsDigit(c)
  {
    ('0' as int + d) as char
  }

  function DigitValue(c: char): nat
    requires IsDigit(c)
  {
    c as int - '0' as int
  }

  /** The decimal reading of a string of digits (`int("0042") == 42`). */
  function DigitsValue(s: string): nat
    requires AllDigits(s)
  {
    if |s| == 0 then 0 else DigitsValue(s[..|s| - 1]) * 10 + DigitValue(s[|s| - 1])
  }

  /** A string of n digits is worth less than `10^n`. */
  lemma {:induction false} DigitsBound(s: string)
    requires AllDigits(s)
    ensures DigitsValue(s) < Power10(|s|)
  {
    if |s| > 0 {
      DigitsBound(s[..|s| - 1]);
    }
  }

  function Power10(n: nat): (r: nat)
    ensures r >= 1
  {
    if n == 0 then 1 else 10 * Power10(n - 1)
  }

  /** Python `str(n)` and JavaScript `String(n)` for a natural number. */
  function NatToString(n: nat): (r: string)
    ensures |r| >= 1 && AllDigits(r)
    ensures |r| > 1 ==> r[0] != '0'
  {
    if n < 10 then [DigitChar(n)] else NatToString(n / 10) + [DigitChar(n % 10)]
  }

  /** Reading back the digits `NatToString` writes gives the number. */
  lemma {:induction false} NatToStringRoundTrip(n: nat)
    ensures DigitsValue(NatToString(n)) == n
  {
    if n >= 10 {
      var s := NatToString(n);
      assert s[..|s| - 1] == NatToString(n / 10);
      NatToStringRoundTrip(n / 10);
    }
  }

  /** Distinct numbers are written differently. */
  lemma NatToStringInjective(m: nat, n: nat)
    requires NatToString(m) == NatToString(n)
    ensures m == n
  {
    NatToStringRoundTrip(m);
    NatToStringRoundTrip(n);
  }

  /** The number of digits `NatToString` writes, by magnitude. */
  lemma {:induction false} NatToStringLength(n: nat)
    ensures n < 10 ==> |NatToString(n)| == 1
    ensures 10 <= n < 100 ==> |NatToString(n)| == 2
    ensures 100 <= n < 1000 ==> |NatToString(n)| == 3
    ensures 1000 <= n < 10000 ==> |NatToString(n)| == 4
    ensures 10000 <= n ==> |NatToString(n)| >= 5
  {
    if n >= 10 {
      NatToStringLength(n / 10);
    }
  }

  /** JavaScript `String(i)` for an integer. */
  function IntToString(i: int): string {
    if i < 0 then "-" + NatToString(-i) else NatToString(i)
  }
}

=== FILE: users.dfy ===
/** User accounts and profiles (users/serializers.py, users/views.py): signing in by email,
    registration with the profile each role gets, the `profile_complete` flag, the client's
    profile update with its identity-document rule, and the experience and rising-talent
    filters of the freelancer directory. Password hashing is not modelled: an account keeps the
    password it was registered with, and checking a password is comparing with it. */
module Users {
  import opened Wrappers
  import opened Accounts
  import Text

  /** A `User` row. The user's id is their position in the table. */
  datatype Account = Account(email: string, username: string, password: string, role: Role, active: bool, bio: string)

  /** The ids of the accounts with this email, in table order. */
  function Holders(users: seq<Account>, email: string): (r: seq<nat>)
    ensures forall i :: i in r <==> 0 <= i < |users| && users[i].email == email
    ensures forall k :: 0 <= k < |r| ==> r[k] < |users|
    ensures (forall i :: 0 <= i < |users| ==> users[i].email != email) ==> r == []
  {
    if users == [] then []
    else
      var n := |users| - 1;
      Holders(users[..n], email) + (if users[n].email == email then [n] else [])
  }

  /** `email` is `unique=True`. */
  predicate UniqueEmails(users: seq<Account>) {
    forall i, j :: 0 <= i < j < |users| ==> users[i].email != users[j].email
  }

  /** A table with unique emails has at most one holder of each. */
  lemma {:induction false} HoldersOfUnique(users: seq<Account>, email: string)
    requires UniqueEmails(users)
    ensures |Holders(users, email)| <= 1
  {
    if users != [] {
      var n := |users| - 1;
      HoldersOfUnique(users[..n], email);
      if users[n].email == email {
        assert forall i :: 0 <= i < n ==> users[..n][i].email != email;
      }
    }
  }

  /** The field-level refusals of the sign-in form (400). Both fields are required: the email
      is an `EmailField`, the password a `CharField`, and neither may be blank. */
  datatype LoginField = NoEmail | BlankEmail | BadEmail | NoPassword | BlankPassword

  /** The refusals of `validate` (401). Its own checks for a missing email or password can no
      longer fail once the fields have been validated, so only these three remain. */
  datatype LoginError = NoAccount | WrongPassword | Disabled

  /** The outcome of signing in: a token pair for the user, the field errors, one of the
      refusals of `validate`, or the `MultipleObjectsReturned` of `get` when two accounts share
      the email, which the unique constraint rules out. */
  datatype LoginOutcome = Tokens(user: nat) | Invalid(fields: set<LoginField>) | Refused(error: LoginError) | Crash

  predicate Given(s: Option<string>) {
    s.Some? && s.value != ""
  }

  /** Both fields are present, not blank, and the email is well formed. */
  predicate FieldsPass(isEmail: string -> bool, email: Option<string>, password: Option<string>) {
    Given(email) && isEmail(email.value) && Given(password)
  }

  /** The sign-in form's field validation. Values are those DRF has trimmed; `isEmail` stands
      for Django's `EmailValidator`, which is not part of this model. */
  function LoginFieldErrors(isEmail: string -> bool, email: Option<string>, password: Option<string>): (e: set<LoginField>)
    ensures e == {} <==> FieldsPass(isEmail, email, password)
    ensures NoEmail in e <==> email.None?
    ensures BlankEmail in e <==> email == Some("")
    ensures BadEmail in e <==> Given(email) && !isEmail(email.value)
    ensures NoPassword in e <==> password.None?
    ensures BlankPassword in e <==> password == Some("")
  {
    var emailErrors: set<LoginField> :=
      if email.None? then {NoEmail}
      else if email.value == "" then {BlankEmail}
      else if !isEmail(email.value) then {BadEmail}
      else {};
    var passwordErrors: set<LoginField> :=
      if password.None? then {NoPassword}
      else if password.value == "" then {BlankPassword}
      else {};
    emailErrors + passwordErrors
  }

  /** Signing in: the field errors first; then `validate` looks the email up, compares the
      password and looks at the active flag, and the first of these that fails decides. */
  function Login(users: seq<Account>, isEmail: string -> bool, email: Option<string>, password: Option<string>): (r: LoginOutcome)
    ensures r.Invalid? <==> !FieldsPass(isEmail, email, password)
    ensures r.Invalid? ==> r.fields != {} && r.fields == LoginFieldErrors(isEmail, email, password)
    ensures r == Refused(NoAccount) <==> FieldsPass(isEmail, email, password) && Holders(users, email.value) == []
    ensures r == Crash <==> FieldsPass(isEmail, email, password) && |Holders(users, email.value)| > 1
    ensures r == Refused(WrongPassword) <==> (FieldsPass(isEmail, email, password) && |Holders(users, email.value)| == 1 &&
      users[Holders(users, email.value)[0]].password != password.value)
    ensures r.Tokens? <==> (FieldsPass(isEmail, email, password) && |Holders(users, email.value)| == 1 &&
      users[Holders(users, email.value)[0]].password == password.value && users[Holders(users, email.value)[0]].active)
    ensures r.Tokens? ==> r.user < |users| && users[r.user].email == email.value
  {
    var errors := LoginFieldErrors(isEmail, email, password);
    if errors != {} then Invalid(errors)
    else
      var hs := Holders(users, email.value);
      if hs == [] then Refused(NoAccount)
      else if |hs| > 1 then Crash
      else
        assert hs[0] in hs;
        var a := users[hs[0]];
        if a.password != password.value then Refused(WrongPassword)
        else if !a.active then Refused(Disabled)
        else Tokens(hs[0])
  }

  /** A malformed email is a field error, never the "no account" refusal, whether or not an
      account holds it. */
  lemma MalformedEmailIsFieldError(users: seq<Account>, isEmail: string -> bool, email: string, password: Option<string>)
    requires email != "" && !isEmail(email)
    ensures Login(users, isEmail, Some(email), password).Invalid?
    ensures BadEmail in Login(users, isEmail, Some(email), password).fields
  {
  }

  /** With unique emails, signing in with well-formed fields never crashes, and it succeeds
      exactly for the active owner of the email giving their password. */
  lemma LoginSucceedsIff(users: seq<Account>, isEmail: string -> bool, email: string, password: string, u: nat)
    requires UniqueEmails(users) && email != "" && isEmail(email) && password != ""
    ensures Login(users, isEmail, Some(email), Some(password)) != Crash
    ensures Login(users, isEmail, Some(email), Some(password)) == Tokens(u) <==>
      u < |users| && users[u].email == email && users[u].password == password && users[u].active
  {
    HoldersOfUnique(users, email);
    if u < |users| && users[u].email == email {
      assert u in Holders(users, email);
      assert Holders(users, email)[0] == u;
    }
  }

  /** A `FreelancerProfile` as far as `profile_complete` looks at it. */
  datatype FreelancerProfile = FreelancerProfile(hourlyRate: real, skills: set<nat>, portfolio: string)

  /** `get_profile_complete`: always true for a non-freelancer. A freelancer needs a profile with
      at least one skill, a positive rate, a bio and a portfolio text; a missing profile raises,
      and the bare `except` turns that into false. */
  function ProfileComplete(role: Role, bio: string, profile: Option<FreelancerProfile>): (b: bool)
    ensures role != FreelancerRole ==> b
    ensures role == FreelancerRole && b ==> profile.Some? && profile.value.hourlyRate > 0.0
  {
    if role != FreelancerRole then true
    else match profile
      case None => false
      case Some(p) => |p.skills| > 0 && p.hourlyRate > 0.0 && bio != "" && p.portfolio != ""
  }

  /** The four requirements are each necessary and together sufficient. */
  lemma ProfileCompleteIff(bio: string, p: FreelancerProfile)
    ensures ProfileComplete(FreelancerRole, bio, Some(p)) <==>
      p.skills != {} && p.hourlyRate > 0.0 && |bio| > 0 && |p.portfolio| > 0
  {
  }

  /** Adding skills to a complete profile keeps it complete. */
  lemma MoreSkillsStayComplete(bio: string, p: FreelancerProfile, extra: set<nat>)
    requires ProfileComplete(FreelancerRole, bio, Some(p))
    ensures ProfileComplete(FreelancerRole, bio, Some(p.(skills := p.skills + extra)))
  {
    assert p.skills <= p.skills + extra;
  }

  /** A `ClientProfile` with the verification columns. */
  datatype ClientProfile = ClientProfile(company: string, website: string, idDocument: Option<string>, verified: bool, submittedAt: Option<Time>)

  /** The user columns the client profile form also edits. */
  datatype Contact = Contact(firstName: string, lastName: string, bio: string, location: string, phone: string)

  /** A field of a partial update: left out, sent as null, or sent with a value. */
  datatype Patch<T> = Keep | Clear | Put(value: T)

  /** The fields of the client profile form. The verification columns are read-only and cannot
      be sent. */
  datatype ClientForm = ClientForm(
    firstName: Option<string>, lastName: Option<string>, bio: Option<string>, location: Option<string>, phone: Option<string>,
    company: Option<string>, website: Option<string>, idDocument: Patch<string>)

  function Apply(prior: string, sent: Option<string>): string {
    if sent.Some? then sent.value else prior
  }

  /** `ClientProfileMeSerializer.update`: the sent user fields are written to the user, the sent
      profile fields to the profile. A newly uploaded identity document stamps the submission
      time and puts the profile back to unverified until an administrator approves it; an
      explicit null clears the document without touching the verification columns. */
  function UpdateClient(c: ClientProfile, u: Contact, form: ClientForm, now: Time): (r: (ClientProfile, Contact))
    ensures form.idDocument.Put? ==> r.0.idDocument == Some(form.idDocument.value) && !r.0.verified && r.0.submittedAt == Some(now)
    ensures form.idDocument.Clear? ==> r.0.idDocument == None
    ensures !form.idDocument.Put? ==> r.0.verified == c.verified && r.0.submittedAt == c.submittedAt
    ensures form.idDocument.Keep? ==> r.0.idDocument == c.idDocument
    ensures r.0.company == (if form.company.Some? then form.company.value else c.company)
    ensures r.0.website == (if form.website.Some? then form.website.value else c.website)
    ensures r.1.firstName == (if form.firstName.Some? then form.firstName.value else u.firstName)
    ensures r.1.lastName == (if form.lastName.Some? then form.lastName.value else u.lastName)
    ensures r.1.bio == (if form.bio.Some? then form.bio.value else u.bio)
    ensures r.1.location == (if form.location.Some? then form.location.value else u.location)
    ensures r.1.phone == (if form.phone.Some? then form.phone.value else u.phone)
    ensures form.firstName.None? && form.lastName.None? && form.bio.None? && form.location.None? && form.phone.None? ==> r.1 == u
  {
    var contact := Contact(Apply(u.firstName, form.firstName), Apply(u.lastName, form.lastName),
                           Apply(u.bio, form.bio), Apply(u.location, form.location), Apply(u.phone, form.phone));
    var stamped := if form.idDocument.Put? then c.(verified := false, submittedAt := Some(now)) else c;
    var doc := match form.idDocument
      case Keep => c.idDocument
      case Clear => None
      case Put(d) => Some(d);
    (stamped.(company := Apply(c.company, form.company), website := Apply(c.website, form.website), idDocument := doc), contact)
  }

  /** The profile form can never grant verification: a profile verified after an update was
      verified before and received no new document. */
  lemma UpdateNeverVerifies(c: ClientProfile, u: Contact, form: ClientForm, now: Time)
    ensures UpdateClient(c, u, form, now).0.verified ==> c.verified && !form.idDocument.Put?
  {
  }

  /** A form that sends nothing changes nothing. */
  lemma EmptyFormChangesNothing(c: ClientProfile, u: Contact, now: Time)
    ensures UpdateClient(c, u, ClientForm(None, None, None, None, None, None, None, Keep), now) == (c, u)
  {
  }

  /** The registration form. A missing role takes the model default, freelancer. Fields are
      given after DRF's character fields have trimmed them. */
  datatype Registration = Registration(email: string, username: string, password: string, password2: string, role: Option<Role>)

  datatype RegError =
    | EmailBlank | EmailMalformed | EmailTooLong | EmailTaken
    | UsernameBlank | UsernameMalformed | UsernameTooLong | UsernameTaken
    | PasswordTooShort | Password2TooShort | RoleInvalid | PasswordMismatch

  /** The `max_length` of the model's `email` and `username` columns. */
  const MaxEmail := 254
  const MaxUsername := 150

  /** A character `UnicodeUsernameValidator` accepts: a word character or one of `. @ + -`.
      Every non-ASCII character is taken to be a word character. */
  predicate UsernameChar(c: char) {
    'a' <= c <= 'z' || 'A' <= c <= 'Z' || '0' <= c <= '9' || c == '_' ||
    c == '.' || c == '@' || c == '+' || c == '-' || c as int >= 128
  }

  predicate UsernameShaped(s: string) {
    forall k :: 0 <= k < |s| ==> UsernameChar(s[k])
  }

  predicate UsernameHeld(users: seq<Account>, username: string) {
    exists i :: 0 <= i < |users| && users[i].username == username
  }

  /** The email passes its field's checks. */
  predicate EmailAcceptable(isEmail: string -> bool, users: seq<Account>, email: string) {
    email != "" && isEmail(email) && |email| <= MaxEmail && Holders(users, email) == []
  }

  /** The username passes its field's checks. */
  predicate UsernameAcceptable(users: seq<Account>, username: string) {
    username != "" && UsernameShaped(username) && |username| <= MaxUsername &&
    forall i :: 0 <= i < |users| ==> users[i].username != username
  }

  /** The registration form passes every field check. */
  predicate Acceptable(isEmail: string -> bool, users: seq<Account>, f: Registration) {
    EmailAcceptable(isEmail, users, f.email) && UsernameAcceptable(users, f.username) &&
    |f.password| >= 8 && |f.password2| >= 8 && f.role != Some(OtherRole)
  }

  /** The email field: a blank email reports only that; otherwise each of the field's validators
      that fails adds its error: the format (`isEmail` stands for Django's `EmailValidator`,
      which is not part of this model), the column length, and the uniqueness that both the
      model's constraint and `validate_email` check. */
  function EmailErrors(isEmail: string -> bool, users: seq<Account>, email: string): (e: set<RegError>)
    ensures e == {} <==> EmailAcceptable(isEmail, users, email)
    ensures e <= {EmailBlank, EmailMalformed, EmailTooLong, EmailTaken}
    ensures EmailMalformed in e <==> email != "" && !isEmail(email)
    ensures EmailTaken in e <==> email != "" && Holders(users, email) != []
  {
    if email == "" then {EmailBlank}
    else (if !isEmail(email) then {EmailMalformed} else {}) +
         (if |email| > MaxEmail then {EmailTooLong} else {}) +
         (if Holders(users, email) != [] then {EmailTaken} else {})
  }

  /** The username field, checked the same way: `UnicodeUsernameValidator`, the column length,
      and the uniqueness that the model and `validate_username` check. */
  function UsernameErrors(users: seq<Account>, username: string): (e: set<RegError>)
    ensures e == {} <==> UsernameAcceptable(users, username)
    ensures e <= {UsernameBlank, UsernameMalformed, UsernameTooLong, UsernameTaken}
    ensures UsernameMalformed in e <==> username != "" && !UsernameShaped(username)
    ensures UsernameTooLong in e <==> |username| > MaxUsername
    ensures UsernameTaken in e <==> username != "" && UsernameHeld(users, username)
  {
    if username == "" then {UsernameBlank}
    else (if !UsernameShaped(username) then {UsernameMalformed} else {}) +
         (if |username| > MaxUsername then {UsernameTooLong} else {}) +
         (if UsernameHeld(users, username) then {UsernameTaken} else {})
  }

  /** The field-level errors, all of which DRF reports together: those of the email and the
      username, passwords under 8 characters, and a role outside the choices. */
  function FieldErrors(isEmail: string -> bool, users: seq<Account>, f: Registration): (e: set<RegError>)
    ensures e == {} <==> Acceptable(isEmail, users, f)
    ensures PasswordTooShort in e <==> |f.password| < 8
    ensures Password2TooShort in e <==> |f.password2| < 8
    ensures PasswordMismatch !in e
  {
    var email := EmailErrors(isEmail, users, f.email);
    var username := UsernameErrors(users, f.username);
    var password: set<RegError> := if |f.password| < 8 then {PasswordTooShort} else {};
    var password2: set<RegError> := if |f.password2| < 8 then {Password2TooShort} else {};
    var role: set<RegError> := if f.role == Some(OtherRole) then {RoleInvalid} else {};
    email + username + password + password2 + role
  }

  /** Each refusal of a filled-in email or username is reported exactly when its validator
      fails. */
  lemma FieldErrorsSayWhy(isEmail: string -> bool, users: seq<Account>, f: Registration)
    ensures EmailMalformed in FieldErrors(isEmail, users, f) <==> f.email != "" && !isEmail(f.email)
    ensures EmailTaken in FieldErrors(isEmail, users, f) <==> f.email != "" && Holders(users, f.email) != []
    ensures UsernameMalformed in FieldErrors(isEmail, users, f) <==> f.username != "" && !UsernameShaped(f.username)
    ensures UsernameTooLong in FieldErrors(isEmail, users, f) <==> |f.username| > MaxUsername
    ensures UsernameTaken in FieldErrors(isEmail, users, f) <==> f.username != "" && UsernameHeld(users, f.username)
  {
    var email := EmailErrors(isEmail, users, f.email);
    var username := UsernameErrors(users, f.username);
    assert EmailMalformed !in username && EmailTaken !in username;
    assert UsernameMalformed !in email && UsernameTooLong !in email && UsernameTaken !in email;
  }

  function RoleOf(f: Registration): Role {
    if f.role.Some? then f.role.value else FreelancerRole
  }

  /** The users and the two profile tables, keyed by user id. */
  datatype Registry = Registry(users: seq<Account>, freelancers: map<nat, FreelancerProfile>, clients: map<nat, ClientProfile>)

  /** `UserRegistrationSerializer`: field errors first; then `validate` compares the two
      passwords; then `create` adds the user and the profile of their role, a freelancer profile
      with rate 0 or an empty client profile. */
  function Register(reg: Registry, isEmail: string -> bool, f: Registration): (r: (Registry, set<RegError>))
    ensures r.1 == {} <==> Acceptable(isEmail, reg.users, f) && f.password == f.password2
    ensures PasswordMismatch in r.1 <==> Acceptable(isEmail, reg.users, f) && f.password != f.password2
    ensures r.1 != {} && PasswordMismatch !in r.1 ==> r.1 == FieldErrors(isEmail, reg.users, f)
    ensures r.1 != {} ==> r.0 == reg
    ensures r.1 == {} ==> (|r.0.users| == |reg.users| + 1 && r.0.users[..|reg.users|] == reg.users &&
      r.0.users[|reg.users|] == Account(f.email, f.username, f.password, RoleOf(f), true, ""))
    ensures r.1 == {} && RoleOf(f) == FreelancerRole ==>
      r.0.freelancers == reg.freelancers[|reg.users| := FreelancerProfile(0.0, {}, "")] && r.0.clients == reg.clients
    ensures r.1 == {} && RoleOf(f) == ClientRole ==>
      r.0.clients == reg.clients[|reg.users| := ClientProfile("", "", None, false, None)] && r.0.freelancers == reg.freelancers
  {
    var errors := FieldErrors(isEmail, reg.users, f);
    if errors != {} then (reg, errors)
    else if f.password != f.password2 then (reg, {PasswordMismatch})
    else
      var id := |reg.users|;
      var users := reg.users + [Account(f.email, f.username, f.password, RoleOf(f), true, "")];
      var r := match RoleOf(f)
        case FreelancerRole => Registry(users, reg.freelancers[id := FreelancerProfile(0.0, {}, "")], reg.clients)
        case ClientRole => Registry(users, reg.freelancers, reg.clients[id := ClientProfile("", "", None, false, None)])
        case OtherRole => Registry(users, reg.freelancers, reg.clients);
      (r, {})
  }

  /** Registration refuses an email or a username some account already holds. */
  lemma RegisterRefusesTaken(reg: Registry, isEmail: string -> bool, f: Registration, i: nat)
    requires i < |reg.users| && (reg.users[i].email == f.email || reg.users[i].username == f.username)
    ensures Register(reg, isEmail, f).1 != {}
    ensures Register(reg, isEmail, f).0 == reg
  {
    if reg.users[i].email == f.email {
      assert i in Holders(reg.users, f.email);
    }
  }

  /** Usernames are unique. */
  predicate UniqueUsernames(users: seq<Account>) {
    forall i, j :: 0 <= i < j < |users| ==> users[i].username != users[j].username
  }

  /** Registration keeps usernames unique, and every stored username is one the validator
      accepts. */
  lemma RegisterKeepsUsernamesUnique(reg: Registry, isEmail: string -> bool, f: Registration)
    requires UniqueUsernames(reg.users)
    ensures UniqueUsernames(Register(reg, isEmail, f).0.users)
    ensures Register(reg, isEmail, f).1 == {} ==> UsernameShaped(f.username) && 0 < |f.username| <= MaxUsername
  {
    var r := Register(reg, isEmail, f);
    if r.1 == {} {
      var users := r.0.users;
      forall i, j | 0 <= i < j < |users|
        ensures users[i].username != users[j].username
      {
        if j < |reg.users| {
          assert users[i] == reg.users[i] && users[j] == reg.users[j];
        } else {
          assert users[i] == reg.users[i];
        }
      }
    }
  }

  /** Registration keeps emails unique. */
  lemma RegisterKeepsEmailsUnique(reg: Registry, isEmail: string -> bool, f: Registration)
    requires UniqueEmails(reg.users)
    ensures UniqueEmails(Register(reg, isEmail, f).0.users)
  {
    var r := Register(reg, isEmail, f);
    if r.1 == {} {
      assert forall i :: 0 <= i < |reg.users| ==> reg.users[i].email != f.email;
    }
  }

  /** A new account can sign in at once with the email and password it registered. */
  lemma RegisteredCanLogIn(reg: Registry, isEmail: string -> bool, f: Registration)
    requires Register(reg, isEmail, f).1 == {}
    ensures Login(Register(reg, isEmail, f).0.users, isEmail, Some(f.email), Some(f.password)) == Tokens(|reg.users|)
  {
    var users := Register(reg, isEmail, f).0.users;
    assert users == reg.users + [users[|reg.users|]];
    assert users[..|reg.users|] == reg.users;
    assert Holders(users, f.email) == [|reg.users|];
  }

  /** A freelancer who has just registered is not yet complete: the profile's rate is 0. A
      client always is. */
  lemma NewFreelancerIncomplete(reg: Registry, isEmail: string -> bool, f: Registration)
    requires Register(reg, isEmail, f).1 == {}
    ensures var id := |reg.users|; var r := Register(reg, isEmail, f).0;
      RoleOf(f) == FreelancerRole ==> !ProfileComplete(FreelancerRole, r.users[id].bio, Some(r.freelancers[id]))
  {
  }

  /** The `experience_level` values. */
  datatype Level = Entry | Intermediate | Expert

  /** The bucket filter of each level on `projects_completed`. */
  predicate InLevel(level: Level, completed: int) {
    match level
    case Entry => completed < 5
    case Intermediate => 5 <= completed < 20
    case Expert => completed >= 20
  }

  /** Every freelancer lies in exactly one bucket. */
  lemma LevelsPartition(completed: int)
    ensures InLevel(Entry, completed) || InLevel(Intermediate, completed) || InLevel(Expert, completed)
    ensures !(InLevel(Entry, completed) && InLevel(Intermediate, completed))
    ensures !(InLevel(Entry, completed) && InLevel(Expert, completed))
    ensures !(InLevel(Intermediate, completed) && InLevel(Expert, completed))
  {
  }

  /** A freelancer row of the directory, as its filters see it: the user's id, location and
      average rating, and the profile's completed projects, hourly rate and skill ids. */
  datatype Listed = Listed(user: nat, location: string, rating: real, completed: int, rate: real, skills: set<nat>)

  /** A numeric query parameter after `float()`: not sent or blank (falsy, so no filter),
      unreadable (the `ValueError` is swallowed, so no filter), or a number. */
  datatype Numeric = Unsent | Unreadable | Read(value: real)

  /** The query parameters of the freelancer directory. `skill` is the id as a number. */
  datatype DirectoryQuery = DirectoryQuery(
    location: Option<string>, minRating: Numeric, topRated: Option<string>, rising: Option<string>,
    minRate: Numeric, maxRate: Numeric, experience: Option<string>, skill: Option<nat>, successRate: Numeric)

  /** A query that sends only the experience and rising-talent parameters. */
  function LevelQuery(experience: Option<string>, rising: Option<string>): DirectoryQuery {
    DirectoryQuery(None, Unsent, None, rising, Unsent, Unsent, experience, None, Unsent)
  }

  /** The query parameter values: any `experience_level` other than the three names, and any
      `rising_talent` other than "true", applies no filter. */
  function LevelParam(param: Option<string>): Option<Level> {
    if param == Some("entry") then Some(Entry)
    else if param == Some("intermediate") then Some(Intermediate)
    else if param == Some("expert") then Some(Expert)
    else None
  }

  /** A numeric lower bound that applies only when it was read. */
  predicate AtLeast(bound: Numeric, v: real) {
    bound.Read? ==> v >= bound.value
  }

  predicate AtMost(bound: Numeric, v: real) {
    bound.Read? ==> v <= bound.value
  }

  /** The location filter: a non-empty parameter is matched case-insensitively inside the
      user's location. */
  predicate LocationMatches(location: Option<string>, x: Listed) {
    location.Some? && location.value != [] ==> Text.Contains(Text.Lower(x.location), Text.Lower(location.value))
  }

  /** The success-rate parameter, a percentage, read as a minimum rating out of five. */
  function SuccessAsRating(success: Numeric): Numeric {
    if success.Read? then Read(success.value / 100.0 * 5.0) else success
  }

  /** Each filter of `get_queryset`, in its order: location, minimum rating, top rated (4.5 and
      up), rising talent (one to five completed projects), minimum and maximum hourly rate,
      experience level, skill, and success rate as a minimum rating. */
  predicate Passes(q: DirectoryQuery, x: Listed) {
    LocationMatches(q.location, x) &&
    AtLeast(q.minRating, x.rating) &&
    (q.topRated == Some("true") ==> x.rating >= 4.5) &&
    (q.rising == Some("true") ==> 0 < x.completed <= 5) &&
    AtLeast(q.minRate, x.rate) && AtMost(q.maxRate, x.rate) &&
    (LevelParam(q.experience).Some? ==> InLevel(LevelParam(q.experience).value, x.completed)) &&
    (q.skill.Some? ==> q.skill.value in x.skills) &&
    AtLeast(SuccessAsRating(q.successRate), x.rating)
  }

  /** The directory: the profiles that pass every filter sent, each once and in table order. */
  function Directory(rows: seq<Listed>, q: DirectoryQuery): (r: seq<Listed>)
    ensures |r| <= |rows|
    ensures forall x :: x in r <==> (x in rows &&
      LocationMatches(q.location, x) &&
      AtLeast(q.minRating, x.rating) &&
      (q.topRated == Some("true") ==> x.rating >= 4.5) &&
      (q.rising == Some("true") ==> 0 < x.completed <= 5) &&
      AtLeast(q.minRate, x.rate) && AtMost(q.maxRate, x.rate) &&
      (LevelParam(q.experience).Some? ==> InLevel(LevelParam(q.experience).value, x.completed)) &&
      (q.skill.Some? ==> q.skill.value in x.skills) &&
      AtLeast(SuccessAsRating(q.successRate), x.rating))
  {
    if rows == [] then []
    else
      var x := rows[|rows| - 1];
      Directory(rows[..|rows| - 1], q) + (if Passes(q, x) then [x] else [])
  }

  /** A query sending no parameter lists every profile, in order. */
  lemma {:induction false} NoFilterListsAll(rows: seq<Listed>)
    ensures Directory(rows, LevelQuery(None, None)) == rows
  {
    if rows != [] {
      NoFilterListsAll(rows[..|rows| - 1]);
      assert rows[..|rows| - 1] + [rows[|rows| - 1]] == rows;
    }
  }

  /** An unreadable number is ignored: it lists what leaving the parameter out lists. */
  lemma UnreadableIsUnsent(rows: seq<Listed>, q: DirectoryQuery)
    ensures Directory(rows, q.(minRating := Unreadable, minRate := Unreadable, maxRate := Unreadable, successRate := Unreadable)) ==
      Directory(rows, q.(minRating := Unsent, minRate := Unsent, maxRate := Unsent, successRate := Unsent))
  {
    var a := q.(minRating := Unreadable, minRate := Unreadable, maxRate := Unreadable, successRate := Unreadable);
    var b := q.(minRating := Unsent, minRate := Unsent, maxRate := Unsent, successRate := Unsent);
    SameFilter(rows, a, b);
  }

  /** "Top rated" is a minimum rating of 4.5, and a success rate of 90 is the same minimum. */
  lemma TopRatedIsMinRating(rows: seq<Listed>, q: DirectoryQuery)
    requires q.minRating.Unsent? && q.successRate.Unsent? && q.topRated.None?
    ensures Directory(rows, q.(topRated := Some("true"))) == Directory(rows, q.(minRating := Read(4.5)))
    ensures Directory(rows, q.(successRate := Read(90.0))) == Directory(rows, q.(minRating := Read(4.5)))
  {
    SameFilter(rows, q.(topRated := Some("true")), q.(minRating := Read(4.5)));
    SameFilter(rows, q.(successRate := Read(90.0)), q.(minRating := Read(4.5)));
  }

  /** Two queries whose filters keep the same profiles list the same directory. */
  lemma {:induction false} SameFilter(rows: seq<Listed>, a: DirectoryQuery, b: DirectoryQuery)
    requires forall x :: x in rows ==> (Passes(a, x) <==> Passes(b, x))
    ensures Directory(rows, a) == Directory(rows, b)
  {
    if rows != [] {
      SameFilter(rows[..|rows| - 1], a, b);
    }
  }

  /** Sending one more filter never lists a profile that was not listed without it. */
  lemma MoreFiltersNarrow(rows: seq<Listed>, q: DirectoryQuery, x: Listed)
    requires x in Directory(rows, q)
    ensures x in Directory(rows, q.(location := None))
    ensures x in Directory(rows, q.(skill := None))
    ensures x in Directory(rows, q.(minRate := Unsent, maxRate := Unsent))
  {
  }

  /** Each freelancer of the directory is listed under exactly one experience level. */
  lemma ListedUnderOneLevel(rows: seq<Listed>, x: Listed)
    requires x in rows
    ensures x in Directory(rows, LevelQuery(Some("entry"), None)) || x in Directory(rows, LevelQuery(Some("intermediate"), None)) ||
      x in Directory(rows, LevelQuery(Some("expert"), None))
    ensures !(x in Directory(rows, LevelQuery(Some("entry"), None)) && x in Directory(rows, LevelQuery(Some("intermediate"), None)))
    ensures !(x in Directory(rows, LevelQuery(Some("entry"), None)) && x in Directory(rows, LevelQuery(Some("expert"), None)))
    ensures !(x in Directory(rows, LevelQuery(Some("intermediate"), None)) && x in Directory(rows, LevelQuery(Some("expert"), None)))
  {
    assert LevelParam(Some("entry")) == Some(Entry);
    assert LevelParam(Some("intermediate")) == Some(Intermediate);
    assert LevelParam(Some("expert")) == Some(Expert);
    LevelsPartition(x.completed);
  }

  /** Every rising talent is at entry or intermediate level, never expert. */
  lemma RisingIsNotExpert(rows: seq<Listed>, x: Listed)
    requires x in Directory(rows, LevelQuery(None, Some("true")))
    ensures x !in Directory(rows, LevelQuery(Some("expert"), None))
    ensures x.completed < 5 ==> x in Directory(rows, LevelQuery(Some("entry"), None))
  {
  }
}

=== FILE: workspace_board.dfy ===
/** The workspace list page (pages/Workspace.jsx): a tab filter over the workspaces the API
    returns and two progress bars per workspace, one for tasks and one for payments, coloured by
    the shared thresholds. The card fields are the ones `WorkspaceSerializer` computes. */
module WorkspaceBoard {
  import Progress

  datatype Card = Card(
    contractStatus: string, fullyCompleted: bool,
    totalTasks: nat, completedTasks: nat, totalAmount: real, paidAmount: real)

  /** The tab: `'active'`, `'completed'`, and anything else shows all. */
  datatype Tab = ActiveTab | CompletedTab | AllTab

  function TabOf(filter: string): Tab {
    if filter == "active" then ActiveTab else if filter == "completed" then CompletedTab else AllTab
  }

  predicate Keeps(t: Tab, c: Card) {
    match t
    case ActiveTab => c.contractStatus == "active"
    case CompletedTab => c.fullyCompleted
    case AllTab => true
  }

  /** `filteredWorkspaces`. */
  function Shown(cards: seq<Card>, filter: string): (r: seq<Card>)
    ensures |r| <= |cards|
    ensures forall c :: c in r <==> c in cards && Keeps(TabOf(filter), c)
  {
    if cards == [] then []
    else (if Keeps(TabOf(filter), cards[0]) then [cards[0]] else []) + Shown(cards[1..], filter)
  }

  /** Any tab other than "active" and "completed" shows every workspace, in order. */
  lemma {:induction false} AllTabShowsEverything(cards: seq<Card>, filter: string)
    requires filter != "active" && filter != "completed"
    ensures Shown(cards, filter) == cards
  {
    if cards != [] {
      AllTabShowsEverything(cards[1..], filter);
      assert cards == [cards[0]] + cards[1..];
    }
  }

  /** The two narrower tabs together never show more than the "all" tab. */
  lemma {:induction false} TabsWithinAll(cards: seq<Card>)
    ensures |Shown(cards, "active")| <= |cards| && |Shown(cards, "completed")| <= |cards|
    ensures forall c :: c in Shown(cards, "active") || c in Shown(cards, "completed") ==> c in Shown(cards, "all")
  {
    AllTabShowsEverything(cards, "all");
  }

  /** `getTaskProgressPercentage`. */
  function TaskPercent(c: Card): (p: int)
    ensures c.completedTasks <= c.totalTasks ==> 0 <= p <= 100
  {
    Progress.PercentWithin(c.completedTasks as real, c.totalTasks as real);
    Progress.Percent(c.completedTasks as real, c.totalTasks as real)
  }

  /** `getPaymentProgressPercentage`. */
  function PaymentPercent(c: Card): (p: int)
    ensures 0.0 <= c.paidAmount <= c.totalAmount ==> 0 <= p <= 100
  {
    Progress.PercentWithin(c.paidAmount, c.totalAmount);
    Progress.Percent(c.paidAmount, c.totalAmount)
  }

  /** Below 200 tasks the task bar is full exactly when every task is done. */
  lemma TaskBarFull(c: Card)
    requires 0 < c.totalTasks < 200 && c.completedTasks <= c.totalTasks
    ensures TaskPercent(c) == 100 <==> c.completedTasks == c.totalTasks
  {
    Progress.PercentFull(c.completedTasks as real, c.totalTasks as real);
  }

  /** From 200 tasks on, rounding shows a full bar with a task still open: 199 of 200 reads
      as 100. */
  lemma TaskBarRoundsUp()
    ensures TaskPercent(Card("active", false, 200, 199, 0.0, 0.0)) == 100
  {
    Progress.PercentFull(199.0, 200.0);
  }

  /** No task is shown as 0, whatever the count, and so is an empty workspace. */
  lemma TaskBarEmpty(c: Card)
    requires c.completedTasks == 0
    ensures TaskPercent(c) == 0
  {
  }

  /** The payment bar is not capped: confirmed payments beyond the agreed amount read past
      100 and colour the bar green. */
  lemma PaymentBarNotCapped(c: Card)
    requires c.totalAmount > 0.0 && c.paidAmount * 200.0 >= c.totalAmount * 201.0
    ensures PaymentPercent(c) > 100 && Progress.BandOf(PaymentPercent(c)) == Progress.Green
  {
    Progress.PercentNotCapped(c.paidAmount, c.totalAmount);
  }

  /** Paying more of the same contract never lowers the payment bar nor worsens its colour. */
  lemma MorePaidNeverLower(c: Card, paid: real)
    requires c.totalAmount > 0.0 && 0.0 <= c.paidAmount <= paid <= c.totalAmount
    ensures PaymentPercent(c) <= PaymentPercent(c.(paidAmount := paid))
    ensures Progress.BandOf(PaymentPercent(c)) == Progress.Green ==>
      Progress.BandOf(PaymentPercent(c.(paidAmount := paid))) == Progress.Green
  {
    Progress.PercentBounds(c.paidAmount, paid, c.totalAmount);
  }
}

=== FILE: workspace_page.dfy ===
/** The workspace page (pages/WorkspaceDetail.jsx): the task list filter, the button that moves
    a task forward, the completion chart, and the checks the page makes before it creates a task
    or sends a payment. */
module WorkspacePage {
  import opened Wrappers
  import opened Accounts
  import opened Tasks
  import opened FormFields
  import opened Store
  import Text
  import WorkspaceViews
  import Payments

  // ---- The task filter ----

  /** `filteredTasks`: `'all'` keeps everything, `'my-tasks'` keeps what the user is assigned to
      or created, and any other value keeps the tasks whose status is spelt that way. */
  predicate Keeps(filter: string, user: UserId, t: Task) {
    if filter == "all" then true
    else if filter == "my-tasks" then t.assignedTo == Some(user) || t.createdBy == user
    else StatusName(t.status) == filter
  }

  function Filtered(tasks: seq<Task>, filter: string, user: UserId): (r: seq<Task>)
    ensures |r| <= |tasks|
    ensures forall t :: t in r <==> t in tasks && Keeps(filter, user, t)
  {
    if tasks == [] then []
    else (if Keeps(filter, user, tasks[0]) then [tasks[0]] else []) + Filtered(tasks[1..], filter, user)
  }

  /** The filter keeps the order of the list: filtering a concatenation filters each part. */
  lemma {:induction false} FilteredAppend(a: seq<Task>, b: seq<Task>, filter: string, user: UserId)
    ensures Filtered(a + b, filter, user) == Filtered(a, filter, user) + Filtered(b, filter, user)
  {
    if a != [] {
      assert (a + b)[0] == a[0] && (a + b)[1..] == a[1..] + b;
      FilteredAppend(a[1..], b, filter, user);
    } else {
      assert a + b == b;
    }
  }

  /** The four status tabs split the list: every task is shown under exactly one of them. */
  lemma {:induction false} StatusTabsPartition(tasks: seq<Task>, user: UserId)
    ensures |Filtered(tasks, "todo", user)| + |Filtered(tasks, "in_progress", user)| +
            |Filtered(tasks, "completed", user)| + |Filtered(tasks, "overdue", user)| == |tasks|
  {
    if tasks != [] {
      StatusTabsPartition(tasks[1..], user);
    }
  }

  /** A filter value that is neither a tab nor a status spelling shows nothing. */
  lemma {:induction false} UnknownFilterShowsNothing(tasks: seq<Task>, filter: string, user: UserId)
    requires filter != "all" && filter != "my-tasks"
    requires ParseStatus(filter).None?
    ensures Filtered(tasks, filter, user) == []
  {
    if tasks != [] {
      UnknownFilterShowsNothing(tasks[1..], filter, user);
    }
  }

  // ---- The progress button of a task card ----

  /** Only the freelancer sees the button, and only on a task that is not completed. */
  predicate ShowsButton(isClient: bool, s: TaskStatus) {
    !isClient && s != Completed
  }

  /** How far along a status is: to do, then in progress or overdue, then completed. */
  function Stage(s: TaskStatus): nat {
    match s
    case Todo => 0
    case InProgress => 1
    case Overdue => 1
    case Completed => 2
  }

  /** The status the button requests: a task to do moves to in progress, anything else to
      completed. */
  function NextStatus(s: TaskStatus): (n: TaskStatus)
    ensures s != Completed ==> Stage(n) > Stage(s)
    ensures n == InProgress || n == Completed
    ensures ParseStatus(StatusName(n)) == Some(n)
  {
    if s == Todo then InProgress else Completed
  }

  /** Two presses complete any task that shows the button, and the button then disappears. */
  lemma TwoPressesComplete(s: TaskStatus)
    requires ShowsButton(false, s)
    ensures NextStatus(NextStatus(s)) == Completed
    ensures !ShowsButton(false, NextStatus(NextStatus(s)))
  {
  }

  /** A task to do whose deadline has passed is sent to in progress by the button, but the
      server's save rule marks it overdue again; only the next press completes it. */
  lemma LateTaskBouncesToOverdue(t: Task, now: Time)
    requires t.status == Todo && t.deadline.Some? && now > t.deadline.value
    ensures SaveTask(t.(status := NextStatus(t.status)), now).status == Overdue
    ensures SaveTask(t.(status := NextStatus(Overdue)), now).status == Completed
  {
  }

  // ---- The completion chart ----

  /** A task that counts in the chart: completed, with a completion time. */
  predicate Stamped(t: Task) {
    t.status == Completed && t.completedAt.Some?
  }

  /** The UTC calendar day, numbered from 1970-01-01, that `toISOString().slice(0, 10)` names. */
  function DayOf(t: Time): (d: int)
    ensures d * 86400 <= t < (d + 1) * 86400
  {
    t / 86400
  }

  /** The completion days of the stamped tasks, one per task. */
  function CompletedDays(tasks: seq<Task>): (days: seq<int>)
    ensures |days| <= |tasks|
    ensures days == [] <==> forall i :: 0 <= i < |tasks| ==> !Stamped(tasks[i])
  {
    if tasks == [] then []
    else
      var rest := CompletedDays(tasks[1..]);
      assert forall i :: 1 <= i < |tasks| ==> tasks[i] == tasks[1..][i - 1];
      (if Stamped(tasks[0]) then [DayOf(tasks[0].completedAt.value)] else []) + rest
  }

  /** How many of `days` are `x` (`byDate[x]`). */
  function Count(days: seq<int>, x: int): nat {
    if days == [] then 0 else (if days[0] == x then 1 else 0) + Count(days[1..], x)
  }

  /** How many of `days` fall before `x`. */
  function CountBelow(days: seq<int>, x: int): nat {
    if days == [] then 0 else (if days[0] < x then 1 else 0) + CountBelow(days[1..], x)
  }

  /** How many of `days` fall on or before `x`: the tasks done by the end of day `x`. */
  function CountAtMost(days: seq<int>, x: int): nat {
    if days == [] then 0 else (if days[0] <= x then 1 else 0) + CountAtMost(days[1..], x)
  }

  predicate Ascending(ls: seq<int>) {
    forall i, j :: 0 <= i < j < |ls| ==> ls[i] < ls[j]
  }

  /** Adds one day to an ascending list of distinct days, where it belongs. */
  function InsertDay(ls: seq<int>, d: int): (r: seq<int>)
    requires Ascending(ls)
    ensures Ascending(r) && |r| >= 1
    ensures forall x :: x in r <==> x in ls || x == d
    ensures r[0] == d || (ls != [] && r[0] == ls[0])
  {
    if ls == [] then [d]
    else if d < ls[0] then [d] + ls
    else if d == ls[0] then ls
    else [ls[0]] + InsertDay(ls[1..], d)
  }

  /** `Object.keys(byDate).sort()`: the distinct completion days in order. */
  function Labels(days: seq<int>): (r: seq<int>)
    ensures Ascending(r)
    ensures forall x :: x in r <==> x in days
  {
    if days == [] then [] else InsertDay(Labels(days[1..]), days[0])
  }

  /** The running totals the chart plots, one per label, starting from `acc`. */
  function Running(ls: seq<int>, days: seq<int>, acc: nat): (r: seq<nat>)
    ensures |r| == |ls|
  {
    if ls == [] then []
    else
      var c := acc + Count(days, ls[0]);
      [c] + Running(ls[1..], days, c)
  }

  datatype Chart = Chart(labels: seq<int>, data: seq<nat>, totalTasks: nat, completedCount: nat)

  /** `taskTimelineData`: no chart without tasks or without a stamped one; otherwise the
      cumulative count of completions per day, with the two totals. */
  function Timeline(tasks: seq<Task>): (r: Option<Chart>)
    ensures r.None? <==> forall i :: 0 <= i < |tasks| ==> !Stamped(tasks[i])
    ensures r.Some? ==> (|r.value.labels| == |r.value.data| &&
      r.value.totalTasks == |tasks| && 1 <= r.value.completedCount <= |tasks|)
  {
    var days := CompletedDays(tasks);
    if tasks == [] || days == [] then None
    else
      var ls := Labels(days);
      Some(Chart(ls, Running(ls, days, 0), |tasks|, |days|))
  }

  lemma {:induction false} CountAtMostSplit(days: seq<int>, x: int)
    ensures CountAtMost(days, x) == CountBelow(days, x) + Count(days, x)
  {
    if days != [] {
      CountAtMostSplit(days[1..], x);
    }
  }

  /** With no day strictly between `a` and `b`, the days up to `a` are the days before `b`. */
  lemma {:induction false} NoGap(days: seq<int>, a: int, b: int)
    requires a < b
    requires forall k :: 0 <= k < |days| ==> !(a < days[k] < b)
    ensures CountAtMost(days, a) == CountBelow(days, b)
  {
    if days != [] {
      NoGap(days[1..], a, b);
    }
  }

  lemma {:induction false} CountPositive(days: seq<int>, x: int)
    requires x in days
    ensures Count(days, x) >= 1
  {
    if days[0] != x {
      CountPositive(days[1..], x);
    }
  }

  lemma {:induction false} NoneBelow(days: seq<int>, x: int)
    requires forall k :: 0 <= k < |days| ==> days[k] >= x
    ensures CountBelow(days, x) == 0
  {
    if days != [] {
      NoneBelow(days[1..], x);
    }
  }

  lemma {:induction false} AllAtMost(days: seq<int>, x: int)
    requires forall k :: 0 <= k < |days| ==> days[k] <= x
    ensures CountAtMost(days, x) == |days|
  {
    if days != [] {
      AllAtMost(days[1..], x);
    }
  }

  /** Each running total counts the days up to its label, provided every day from the first
      label on is a label and the totals start from the days before the first label. */
  lemma {:induction false} RunningCounts(ls: seq<int>, days: seq<int>, i: int)
    requires Ascending(ls) && 0 <= i < |ls|
    requires forall k :: 0 <= k < |days| && days[k] >= ls[0] ==> days[k] in ls
    ensures Running(ls, days, CountBelow(days, ls[0]))[i] == CountAtMost(days, ls[i])
  {
    CountAtMostSplit(days, ls[0]);
    if i > 0 {
      var tail := ls[1..];
      assert ls[0] < ls[1];
      forall k | 0 <= k < |days| && days[k] >= tail[0]
        ensures days[k] in tail
      {
        var j :| 0 <= j < |ls| && ls[j] == days[k];
        assert j >= 1;
        assert ls[j] == tail[j - 1];
      }
      forall k | 0 <= k < |days|
        ensures days[k] <= ls[0] || days[k] >= ls[1]
      {
        if days[k] > ls[0] {
          var j :| 0 <= j < |ls| && ls[j] == days[k];
          assert j >= 1;
          assert j == 1 || ls[1] < ls[j];
        }
      }
      NoGap(days, ls[0], ls[1]);
      RunningCounts(tail, days, i - 1);
      assert tail[i - 1] == ls[i];
    }
  }

  /** The running totals rise from label to label, each by the tasks done on that day. */
  lemma {:induction false} RunningRises(ls: seq<int>, days: seq<int>, acc: nat, i: int)
    requires 0 <= i < |ls| - 1
    ensures Running(ls, days, acc)[i + 1] == Running(ls, days, acc)[i] + Count(days, ls[i + 1])
  {
    if i > 0 {
      RunningRises(ls[1..], days, acc + Count(days, ls[0]), i - 1);
    }
  }

  /** The labels of some days run from the earliest day to the latest. */
  lemma LabelsSpan(days: seq<int>)
    requires days != []
    ensures var ls := Labels(days); (ls != [] &&
      forall k :: 0 <= k < |days| ==> ls[0] <= days[k] <= ls[|ls| - 1])
  {
    var ls := Labels(days);
    assert days[0] in days;
    forall k | 0 <= k < |days|
      ensures ls[0] <= days[k] <= ls[|ls| - 1]
    {
      assert days[k] in days;
      var j :| 0 <= j < |ls| && ls[j] == days[k];
      assert j == 0 || ls[0] < ls[j];
      assert j == |ls| - 1 || ls[j] < ls[|ls| - 1];
    }
  }

  /** The chart means what it shows: its labels are exactly the completion days in ascending
      order, each point counts the tasks completed by the end of its day, the line rises at
      every label, and its last point is the number of completed tasks. */
  lemma {:induction false} TimelineMeaning(tasks: seq<Task>)
    requires Timeline(tasks).Some?
    ensures var c := Timeline(tasks).value; var days := CompletedDays(tasks);
      Ascending(c.labels) && (forall x :: x in c.labels <==> x in days) &&
      (forall i :: 0 <= i < |c.data| ==> c.data[i] == CountAtMost(days, c.labels[i])) &&
      (forall i :: 0 <= i < |c.data| - 1 ==> c.data[i] < c.data[i + 1]) &&
      c.data[|c.data| - 1] == c.completedCount
  {
    var c := Timeline(tasks).value;
    var days := CompletedDays(tasks);
    var ls := c.labels;
    assert ls == Labels(days) && c.data == Running(ls, days, 0);
    LabelsSpan(days);
    NoneBelow(days, ls[0]);
    forall i | 0 <= i < |c.data|
      ensures c.data[i] == CountAtMost(days, ls[i])
    {
      RunningCounts(ls, days, i);
    }
    forall i | 0 <= i < |c.data| - 1
      ensures c.data[i] < c.data[i + 1]
    {
      RunningRises(ls, days, 0, i);
      CountPositive(days, ls[i + 1]);
    }
    AllAtMost(days, ls[|ls| - 1]);
  }

  // ---- What the page checks before it writes ----

  /** The task form: the status is one of the select's values, `todo` unless changed. */
  datatype TaskDraft = TaskDraft(title: string, description: string, priority: string, status: string, deadline: string)

  /** The task data `handleCreateTask` sends: the draft as typed, the workspace, the
      workspace's freelancer as assignee, and the deadline only when one was given. */
  datatype TaskPayload = TaskPayload(
    title: string, description: string, priority: string, status: string, deadline: Option<string>,
    workspace: Id, assignedTo: Option<UserId>)

  function NewTask(d: TaskDraft, workspace: Id, freelancer: Option<UserId>): (r: Option<TaskPayload>)
    ensures r.Some? <==> Filled(d.title)
    ensures r.Some? ==> (r.value.title == d.title && r.value.description == d.description &&
      r.value.priority == d.priority && r.value.status == d.status)
    ensures r.Some? ==> r.value.workspace == workspace && r.value.assignedTo == freelancer
    ensures r.Some? ==> (r.value.deadline.None? <==> d.deadline == [])
    ensures r.Some? && r.value.deadline.Some? ==> r.value.deadline.value == d.deadline
  {
    if !Filled(d.title) then None
    else Some(TaskPayload(d.title, d.description, d.priority, d.status,
      if d.deadline == [] then None else Some(d.deadline), workspace, freelancer))
  }

  /** What the page sends and the server stores agree. A party of the workspace who sends a
      task without a deadline, with a status and a priority the selects offer and a title of at
      most 300 characters once trimmed, has it created with the trimmed title, that status, that
      priority and the assignee the page named. A longer title passes the page's check and is refused. */
  lemma NewTaskReachesServer(w: World, user: UserId, wsid: Id, d: TaskDraft, now: Time)
    requires Valid(w) && WorkspaceViews.VisibleWorkspace(w, user, wsid)
    requires Filled(d.title) && d.deadline == [] && ParseStatus(d.status).Some? && ParseStatus(d.status) != Some(Overdue)
    requires ParsePriority(d.priority).Some?
    ensures var p := NewTask(d, wsid, ContractOf(w, wsid).freelancer).value;
      var r := WorkspaceViews.CreateTask(w, user, wsid, p.title, Some(p.status), Some(p.priority), NoDeadline, now);
      (r.1 == Ok <==> |Text.Trim(d.title)| <= 300) &&
      (r.1 == Ok ==> (r.0.tasks[w.nextId].title == Text.Trim(p.title) &&
        r.0.tasks[w.nextId].status == ParseStatus(d.status).value &&
        r.0.tasks[w.nextId].priority == ParsePriority(d.priority).value &&
        r.0.tasks[w.nextId].assignedTo == p.assignedTo && r.0.tasks[w.nextId].workspace == p.workspace))
  {
    var p := NewTask(d, wsid, ContractOf(w, wsid).freelancer).value;
    var r := WorkspaceViews.CreateTask(w, user, wsid, p.title, Some(p.status), Some(p.priority), NoDeadline, now);
    assert ChoicesRead(Some(p.status), Some(p.priority));
    if r.1 == Ok {
      var t := r.0.tasks[w.nextId];
      ParsePriorityName(t.priority);
      assert t.status == SaveTask(t.(status := StatusSent(Some(p.status)), completedAt := None), now).status;
    }
  }

  /** The amount `handleLogPayment` and `handleRequestPayment` send: a positive number, else
      nothing is sent. */
  function Amount(f: Field): (r: Option<real>)
    ensures r.Some? <==> f.Number? && f.value > 0.0
    ensures r.Some? ==> f == Number(r.value)
  {
    if Positive(f) then Some(f.value) else None
  }

  /** The page is stricter than the server at zero: the client of a workspace with a
      freelancer may log a payment of zero, which the server records, but the page never sends
      it. */
  lemma PageStricterThanServer(w: World, client: UserId, wsid: Id, now: Time)
    requires Valid(w) && WorkspaceJoins(w, wsid)
    requires ContractOf(w, wsid).client == Some(client) && ContractOf(w, wsid).freelancer.Some?
    ensures WorkspaceViews.CreatePayment(w, client, wsid, Some(0.0), now).1 == Ok
    ensures Amount(Number(0.0)).None?
  {
    assert Payments.ValidAmount(0.0) by {
      assert (0.0 * 100.0).Floor == 0;
    }
  }

  /** The page is looser than the server in precision: an amount of a thousandth passes the
      page's check, but the server's two-decimal field refuses it and stores nothing. */
  lemma PageLooserThanServer(w: World, client: UserId, wsid: Id, now: Time)
    requires Valid(w)
    ensures Amount(Number(0.001)) == Some(0.001)
    ensures WorkspaceViews.CreatePayment(w, client, wsid, Some(0.001), now) == (w, BadRequest)
  {
    assert !Payments.ValidAmount(0.001) by {
      assert 0.001 * 100.0 == 0.1;
      assert (0.1).Floor == 0;
    }
  }

  /** An amount the page sends reaches the server as typed: when the server's field takes it,
      the client's payment is recorded for exactly that amount. */
  lemma AmountSentIsRecorded(w: World, client: UserId, wsid: Id, f: Field, now: Time)
    requires Valid(w) && WorkspaceJoins(w, wsid)
    requires ContractOf(w, wsid).client == Some(client) && ContractOf(w, wsid).freelancer.Some?
    requires Amount(f).Some? && Payments.ValidAmount(Amount(f).value)
    ensures f.Number? && f.value > 0.0
    ensures var r := WorkspaceViews.CreatePayment(w, client, wsid, Amount(f), now);
      r.1 == Ok && r.0.payments[w.nextId].amount == f.value
  {
  }
}

=== FILE: workspace_signals.dfy ===
/** Automatic workspace creation (workspaces/signals.py) and the command that creates the
    workspaces the signal missed (workspaces/management/commands/create_missing_workspaces.py). */
module WorkspaceSignals {
  import opened Wrappers
  import opened Contracts
  import opened Workspaces
  import opened Notices
  import opened Store

  /** The "Workspace Created" notifications for a new workspace: one to the contract's client and
      one to its freelancer, each only when the contract records that party. */
  function CreatedNotes(c: Contract, title: string): seq<Notification> {
    (if c.client.Some? then [Notification(c.client.value, WorkspaceKind, "Workspace Created", title)] else []) +
    (if c.freelancer.Some? then [Notification(c.freelancer.value, WorkspaceKind, "Workspace Created", title)] else [])
  }

  /** A contract none of whose parties is recorded (every contract the accept views create)
      gets a workspace but nobody is told about it. */
  lemma NoPartiesNoNotes(c: Contract, title: string)
    requires c.client.None? && c.freelancer.None?
    ensures CreatedNotes(c, title) == []
  {
  }

  /** Inserts a workspace for the contract under the next primary key and notifies its parties. */
  function CreateWorkspace(w: World, cid: Id): (r: World)
    requires Valid(w) && cid in w.contracts
    ensures Valid(r)
    ensures r.nextId == w.nextId + 1
    ensures r.workspaces == w.workspaces[w.nextId := NewWorkspace(cid)]
    ensures r.notes == w.notes + CreatedNotes(w.contracts[cid], ContractTitle(w, cid))
    ensures r.projects == w.projects && r.jobs == w.jobs && r.proposals == w.proposals && r.applications == w.applications
    ensures r.contracts == w.contracts && r.tasks == w.tasks && r.comments == w.comments
    ensures r.payments == w.payments && r.requests == w.requests && r.tracker == w.tracker
    ensures Covered(r) == Covered(w) + {cid}
    ensures !HasWorkspace(w, cid) && OneWorkspacePerContract(w) ==> OneWorkspacePerContract(r)
  {
    var r := w.(workspaces := w.workspaces[w.nextId := NewWorkspace(cid)],
                notes := w.notes + CreatedNotes(w.contracts[cid], ContractTitle(w, cid)),
                nextId := w.nextId + 1);
    CoveredAfterInsert(w, r, cid);
    r
  }

  lemma CoveredAfterInsert(w: World, r: World, cid: Id)
    requires Valid(w)
    requires r.workspaces == w.workspaces[w.nextId := NewWorkspace(cid)]
    ensures Covered(r) == Covered(w) + {cid}
  {
    assert w.nextId !in w.workspaces;
    assert cid == r.workspaces[w.nextId].contract;
    forall x | x in Covered(r) ensures x in Covered(w) + {cid} {
      var k :| k in r.workspaces && r.workspaces[k].contract == x;
      if k != w.nextId { assert w.workspaces[k].contract == x; }
    }
    forall x | x in Covered(w) ensures x in Covered(r) {
      var k :| k in w.workspaces && w.workspaces[k].contract == x;
      assert r.workspaces[k].contract == x;
    }
  }

  /** The three guards of `create_workspace_on_contract_update`, in order: no workspace yet,
      fully signed, status active. */
  predicate ShouldCreate(w: World, cid: Id)
    requires cid in w.contracts
  {
    !HasWorkspace(w, cid) && IsFullySigned(w.contracts[cid]) && w.contracts[cid].status == Active
  }

  /** The post-save signal of a contract: a fully signed active contract without a workspace gets
      exactly one, and its parties are notified; any other save changes nothing. The signal never
      touches a contract, project or job. */
  function OnContractSaved(w: World, cid: Id): (r: World)
    requires Valid(w) && cid in w.contracts
    ensures Valid(r)
    ensures !ShouldCreate(w, cid) ==> r == w
    ensures ShouldCreate(w, cid) ==> r == CreateWorkspace(w, cid)
    ensures HasWorkspace(r, cid) <==> HasWorkspace(w, cid) || (IsFullySigned(w.contracts[cid]) && w.contracts[cid].status == Active)
    ensures Covered(r) - {cid} == Covered(w) - {cid}
    ensures r.contracts == w.contracts && r.projects == w.projects && r.jobs == w.jobs
    ensures OneWorkspacePerContract(w) ==> OneWorkspacePerContract(r)
  {
    if ShouldCreate(w, cid) then CreateWorkspace(w, cid) else w
  }

  /** Replaces one contract row and runs the post-save signal of that contract. */
  function SaveContract(w: World, cid: Id, c: Contract): (r: World)
    requires Valid(w) && cid in w.contracts
    ensures Valid(r) && r.contracts == w.contracts[cid := c]
    ensures r.projects == w.projects && r.jobs == w.jobs && r.proposals == w.proposals && r.applications == w.applications
    ensures Covered(r) - {cid} == Covered(w) - {cid}
    ensures HasWorkspace(r, cid) <==> HasWorkspace(w, cid) || (IsFullySigned(c) && c.status == Active)
    ensures OneWorkspacePerContract(w) ==> OneWorkspacePerContract(r)
    ensures HasWorkspace(w, cid) || !(IsFullySigned(c) && c.status == Active) ==> r == w.(contracts := w.contracts[cid := c])
  {
    var saved := w.(contracts := w.contracts[cid := c]);
    OnContractSaved(saved, cid)
  }

  /** Saving a contract twice creates no more than saving it once. */
  lemma {:induction false} OnContractSavedIdempotent(w: World, cid: Id)
    requires Valid(w) && cid in w.contracts
    ensures OnContractSaved(OnContractSaved(w, cid), cid) == OnContractSaved(w, cid)
  {
    var r := OnContractSaved(w, cid);
    if ShouldCreate(w, cid) {
      assert HasWorkspace(r, cid);
    }
  }

  /** The contracts the command selects: both flags set, status active, no workspace. */
  function Missing(w: World): (m: set<Id>)
    ensures forall cid :: cid in m <==> cid in w.contracts && ShouldCreate(w, cid)
  {
    set cid | cid in w.contracts && ShouldCreate(w, cid)
  }

  /** `create_missing_workspaces`: creates a workspace for every selected contract except those
      whose insert fails (`failing`, a database error the command catches and counts). It reports
      how many it created and how many failed. */
  method CreateMissingWorkspaces(w: World, failing: set<Id>) returns (r: World, created: nat, errors: nat, ghost order: seq<Id>)
    requires Valid(w) && OneWorkspacePerContract(w)
    ensures created + errors == |Missing(w)|
    ensures created == |Missing(w) - failing| && errors == |Missing(w) * failing|
    ensures Backfilled(w, r, Missing(w) - failing)
    ensures forall i :: |w.notes| <= i < |r.notes| ==> ToldParty(w, r.notes[i], Missing(w) - failing)
    ensures AnnouncedOnce(w, r, order, Missing(w) - failing)
  {
    var missing := Missing(w);
    var todo := missing;
    ghost var done: set<Id> := {};
    r, created, errors, order := w, 0, 0, [];
    NothingBackfilled(w);
    while todo != {}
      invariant todo !! done && todo + done == missing
      invariant created == |done - failing| && errors == |done * failing|
      invariant Backfilled(w, r, done - failing)
      invariant AnnouncedOnce(w, r, order, done - failing)
      decreases |todo|
    {
      var cid :| cid in todo;
      Shift(todo, done, cid);
      r, created, errors, order := Handle(w, r, done, order, failing, cid, created, errors);
      done := done + {cid};
      todo := todo - {cid};
    }
    assert done == missing;
    SplitCard(missing, failing);
  }

  /** Before the first iteration nothing has been added. */
  lemma NothingBackfilled(w: World)
    requires Valid(w) && OneWorkspacePerContract(w)
    ensures Backfilled(w, w, {})
  {
  }

  /** The selected contracts are exactly those created and those that failed. */
  lemma SplitCard(missing: set<Id>, failing: set<Id>)
    ensures |missing| == |missing - failing| + |missing * failing|
  {
    assert missing == (missing - failing) + (missing * failing);
  }

  /** One iteration of the command on contract `cid`: a failing insert is counted as an error,
      any other creates the workspace and is counted as created. */
  method Handle(w: World, r: World, ghost done: set<Id>, ghost order: seq<Id>, failing: set<Id>, cid: Id, created: nat, errors: nat)
    returns (r': World, created': nat, errors': nat, ghost order': seq<Id>)
    requires cid in Missing(w) && cid !in done
    requires created == |done - failing| && errors == |done * failing|
    requires Backfilled(w, r, done - failing)
    requires AnnouncedOnce(w, r, order, done - failing)
    ensures created' == |(done + {cid}) - failing| && errors' == |(done + {cid}) * failing|
    ensures Backfilled(w, r', (done + {cid}) - failing)
    ensures AnnouncedOnce(w, r', order', (done + {cid}) - failing)
  {
    TallyStep(done, failing, cid);
    if cid in failing {
      r', created', errors', order' := r, created, errors + 1, order;
    } else {
      AnnounceStep(w, r, order, done - failing, cid);
      r', created', errors', order' := CreateStep(w, r, done - failing, cid), created + 1, errors, order + [cid];
    }
  }

  /** Moving one contract from the remaining ones to the handled ones keeps the split. */
  lemma Shift(todo: set<Id>, done: set<Id>, cid: Id)
    requires cid in todo && todo !! done
    ensures (todo - {cid}) !! (done + {cid}) && (todo - {cid}) + (done + {cid}) == todo + done
    ensures |todo - {cid}| < |todo|
  {
  }

  /** How the two parts of the handled contracts grow by one contract. */
  lemma TallyStep(done: set<Id>, failing: set<Id>, cid: Id)
    requires cid !in done
    ensures cid in failing ==> (done + {cid}) - failing == done - failing && (done + {cid}) * failing == (done * failing) + {cid}
    ensures cid !in failing ==> (done + {cid}) - failing == (done - failing) + {cid} && (done + {cid}) * failing == done * failing
    ensures |(done + {cid}) - failing| == |done - failing| + (if cid in failing then 0 else 1)
    ensures |(done + {cid}) * failing| == |done * failing| + (if cid in failing then 1 else 0)
  {
    if cid in failing {
      assert (done + {cid}) * failing == (done * failing) + {cid};
    } else {
      assert (done + {cid}) - failing == (done - failing) + {cid};
    }
  }

  /** One successful iteration of the command: the contract gets its workspace and the
      command's invariant on the world carries over. */
  function CreateStep(w: World, before: World, ghost made: set<Id>, cid: Id): (r: World)
    requires cid in Missing(w) && cid !in made
    requires Backfilled(w, before, made)
    ensures Backfilled(w, r, made + {cid})
  {
    CreateCovers(w, before, made, cid);
    CreateKeepsExtends(w, before, cid);
    CreateKeepsNotes(w, before, made, cid);
    CreateWorkspace(before, cid)
  }

  /** The notifications one successful iteration appends go to parties of its contract, and
      each party of every contract handled so far has had its notification. */
  lemma CreateKeepsNotes(w: World, before: World, made: set<Id>, cid: Id)
    requires Valid(before) && Extends(w, before) && cid in w.contracts
    requires NotesFor(w, before, made)
    ensures NotesFor(w, CreateWorkspace(before, cid), made + {cid})
  {
    var r := CreateWorkspace(before, cid);
    var added := CreatedNotes(w.contracts[cid], ContractTitle(w, cid));
    assert ContractTitle(before, cid) == ContractTitle(w, cid);
    assert r.notes == before.notes + added;
    AppendedNotesTold(w, before.notes, added, made, cid);
    AppendedNotesComplete(w, before.notes, added, made, cid);
  }

  lemma AppendedNotesTold(w: World, old_: seq<Notification>, added: seq<Notification>, made: set<Id>, cid: Id)
    requires cid in w.contracts && added == CreatedNotes(w.contracts[cid], ContractTitle(w, cid))
    requires |w.notes| <= |old_|
    requires forall i :: |w.notes| <= i < |old_| ==> ToldParty(w, old_[i], made)
    ensures forall i :: |w.notes| <= i < |old_ + added| ==> ToldParty(w, (old_ + added)[i], made + {cid})
  {
    forall i | |w.notes| <= i < |old_ + added|
      ensures ToldParty(w, (old_ + added)[i], made + {cid})
    {
      if i < |old_| {
        assert ToldParty(w, old_[i], made);
        var k :| k in made && k in w.contracts && Announces(w, k, old_[i]);
        assert (old_ + added)[i] == old_[i];
        assert k in made + {cid};
      } else {
        assert (old_ + added)[i] == added[i - |old_|];
        assert Announces(w, cid, (old_ + added)[i]);
      }
    }
  }

  lemma AppendedNotesComplete(w: World, old_: seq<Notification>, added: seq<Notification>, made: set<Id>, cid: Id)
    requires cid in w.contracts && added == CreatedNotes(w.contracts[cid], ContractTitle(w, cid))
    requires |w.notes| <= |old_|
    requires forall k, n :: k in made && k in w.contracts && n in CreatedNotes(w.contracts[k], ContractTitle(w, k)) ==> n in old_[|w.notes|..]
    ensures forall k, n :: k in made + {cid} && k in w.contracts && n in CreatedNotes(w.contracts[k], ContractTitle(w, k)) ==> n in (old_ + added)[|w.notes|..]
  {
    assert (old_ + added)[|w.notes|..] == old_[|w.notes|..] + added;
  }

  lemma CreateKeepsExtends(w: World, before: World, cid: Id)
    requires Valid(before) && Extends(w, before) && cid in before.contracts
    ensures Extends(w, CreateWorkspace(before, cid))
  {
    assert before.nextId !in before.workspaces;
    var r := CreateWorkspace(before, cid);
    assert r.notes[..|w.notes|] == before.notes[..|w.notes|];
  }

  lemma CreateCovers(w: World, before: World, made: set<Id>, cid: Id)
    requires cid in Missing(w) && cid !in made
    requires Valid(before) && cid in before.contracts && OneWorkspacePerContract(before)
    requires Covered(before) == Covered(w) + made
    ensures OneWorkspacePerContract(CreateWorkspace(before, cid))
    ensures Covered(CreateWorkspace(before, cid)) == Covered(w) + (made + {cid})
  {
    assert !HasWorkspace(before, cid);
  }

  /** The command's invariant: `r` is `w` with workspaces added for exactly the contracts
      `made`, and the notifications it appended announce those workspaces to their parties. */
  ghost predicate Backfilled(w: World, r: World, made: set<Id>) {
    Valid(r) && OneWorkspacePerContract(r) && Extends(w, r) && Covered(r) == Covered(w) + made &&
    NotesFor(w, r, made)
  }

  /** The "Workspace Created" notifications of the contracts `order`, one contract after
      another. */
  ghost function Announcements(w: World, order: seq<Id>): seq<Notification>
    requires forall i :: 0 <= i < |order| ==> order[i] in w.contracts
  {
    if order == [] then []
    else
      var last := order[|order| - 1];
      Announcements(w, order[..|order| - 1]) + CreatedNotes(w.contracts[last], ContractTitle(w, last))
  }

  /** The notifications appended after `w`'s are exactly the notices of the contracts `made`,
      each contract once, in the order `order` the command handled them: each party of each
      contract is told once about it. */
  ghost predicate AnnouncedOnce(w: World, r: World, order: seq<Id>, made: set<Id>) {
    (forall i :: 0 <= i < |order| ==> order[i] in w.contracts) &&
    (forall i, j :: 0 <= i < j < |order| ==> order[i] != order[j]) &&
    (forall k :: k in order <==> k in made) &&
    r.notes == w.notes + Announcements(w, order)
  }

  /** One successful iteration appends the notices of its contract after the earlier ones. */
  lemma AnnounceStep(w: World, before: World, order: seq<Id>, made: set<Id>, cid: Id)
    requires cid in Missing(w) && cid !in made
    requires Backfilled(w, before, made) && AnnouncedOnce(w, before, order, made)
    ensures AnnouncedOnce(w, CreateWorkspace(before, cid), order + [cid], made + {cid})
  {
    var o := order + [cid];
    assert o[..|o| - 1] == order;
    assert ContractTitle(before, cid) == ContractTitle(w, cid);
  }

  /** Notification `n` is the "Workspace Created" notice of contract `cid` to one of its
      parties. */
  ghost predicate Announces(w: World, cid: Id, n: Notification)
    requires cid in w.contracts
  {
    n in CreatedNotes(w.contracts[cid], ContractTitle(w, cid))
  }

  /** The notification goes to a party of some contract in `made`, about that contract. */
  ghost predicate ToldParty(w: World, n: Notification, made: set<Id>) {
    exists cid :: cid in made && cid in w.contracts && Announces(w, cid, n)
  }

  /** Every notification appended after `w`'s announces a contract of `made` to one of its
      parties, and every party of every contract in `made` has been told. */
  ghost predicate NotesFor(w: World, r: World, made: set<Id>)
    requires |w.notes| <= |r.notes|
  {
    (forall i :: |w.notes| <= i < |r.notes| ==> ToldParty(w, r.notes[i], made)) &&
    (forall k, n :: k in made && k in w.contracts && n in CreatedNotes(w.contracts[k], ContractTitle(w, k)) ==> n in r.notes[|w.notes|..])
  }

  /** `r` differs from `w` only by workspaces added and notifications appended. */
  predicate Extends(w: World, r: World) {
    r.contracts == w.contracts && r.projects == w.projects && r.jobs == w.jobs &&
    r.proposals == w.proposals && r.applications == w.applications && r.tasks == w.tasks &&
    r.comments == w.comments && r.payments == w.payments && r.requests == w.requests && r.tracker == w.tracker &&
    w.workspaces.Keys <= r.workspaces.Keys && (forall k :: k in w.workspaces ==> r.workspaces[k] == w.workspaces[k]) &&
    |w.notes| <= |r.notes| && r.notes[..|w.notes|] == w.notes
  }

  /** Every notification the command sends goes to a party the contract records: the client or
      the freelancer of a contract it gave a workspace. */
  lemma OnlyPartiesTold(w: World, n: Notification, made: set<Id>)
    requires ToldParty(w, n, made)
    ensures exists cid :: cid in made && cid in w.contracts && IsParty(w.contracts[cid], n.user) && n.title == "Workspace Created"
  {
    var cid :| cid in made && cid in w.contracts && Announces(w, cid, n);
    assert IsParty(w.contracts[cid], n.user);
  }
}

=== FILE: workspace_summary.dfy ===
/** The figures the workspace serializer and the `payment_stats` action report
    (workspaces/serializers.py `WorkspaceSerializer`, workspaces/views.py `payment_stats`): the
    kind of workspace, the task counts, the contract amount, what has been paid and what remains,
    and the cumulative payment timeline. */
module WorkspaceSummary {
  import opened Wrappers
  import opened Accounts
  import opened Contracts
  import opened Tasks
  import opened Payments
  import opened Store
  import Rounding
  import WorkspaceViews

  datatype WorkspaceType = JobWorkspace | ProjectWorkspace | GeneralWorkspace

  /** `get_workspace_type`: a contract linked to a job application is a job workspace, else one
      linked to a proposal is a project workspace, else it is general. */
  function TypeOf(c: Contract): (t: WorkspaceType)
    ensures t == JobWorkspace <==> c.application.Some?
    ensures t == ProjectWorkspace <==> c.application.None? && c.proposal.Some?
    ensures t == GeneralWorkspace <==> c.application.None? && c.proposal.None?
  {
    if c.application.Some? then JobWorkspace
    else if c.proposal.Some? then ProjectWorkspace
    else GeneralWorkspace
  }

  /** The link a contract's amount is read from, when its row exists. */
  datatype AmountSource = FromProposal | FromApplication | NoSource

  /** `get_total_amount`: the proposal's bid when the contract has a proposal, else the job
      application's bid, else zero. */
  function TotalAmount(w: World, cid: Id): (r: real)
    requires cid in w.contracts
    ensures Source(w, cid) == FromProposal ==> r == w.proposals[w.contracts[cid].proposal.value].bid
    ensures Source(w, cid) == FromApplication ==> r == w.applications[w.contracts[cid].application.value].bid as real
    ensures Source(w, cid) == NoSource ==> r == 0.0
  {
    var c := w.contracts[cid];
    if c.proposal.Some? && c.proposal.value in w.proposals then w.proposals[c.proposal.value].bid
    else if c.application.Some? && c.application.value in w.applications then w.applications[c.application.value].bid as real
    else 0.0
  }

  /** Which link `TotalAmount` reads: the proposal is tried first. */
  function Source(w: World, cid: Id): AmountSource
    requires cid in w.contracts
  {
    var c := w.contracts[cid];
    if c.proposal.Some? && c.proposal.value in w.proposals then FromProposal
    else if c.application.Some? && c.application.value in w.applications then FromApplication
    else NoSource
  }

  /** The type and the amount look at the two links in opposite orders: a contract linked to both
      a proposal and a job application is reported as a job workspace, yet its amount is the
      proposal's bid. */
  lemma TypeAndAmountDisagree(w: World, cid: Id)
    requires cid in w.contracts
    requires w.contracts[cid].proposal.Some? && w.contracts[cid].proposal.value in w.proposals
    requires w.contracts[cid].application.Some?
    ensures TypeOf(w.contracts[cid]) == JobWorkspace
    ensures TotalAmount(w, cid) == w.proposals[w.contracts[cid].proposal.value].bid
  {
  }

  /** The amount a payment adds to the paid total: its amount when it is confirmed, else zero. */
  function Counted(p: Payment): real {
    if p.status == PaymentConfirmed then p.amount else 0.0
  }

  /** `get_paid_amount`: the sum of the confirmed payments' amounts. */
  function PaidAmount(ps: seq<Payment>): real {
    if ps == [] then 0.0 else PaidAmount(ps[..|ps| - 1]) + Counted(ps[|ps| - 1])
  }

  /** The paid amount of two runs of payments is the sum of theirs. */
  lemma {:induction false} PaidAppend(ps: seq<Payment>, qs: seq<Payment>)
    ensures PaidAmount(ps + qs) == PaidAmount(ps) + PaidAmount(qs)
    decreases |qs|
  {
    if qs != [] {
      var n := |qs| - 1;
      assert (ps + qs)[..|ps + qs| - 1] == ps + qs[..n];
      assert (ps + qs)[|ps + qs| - 1] == qs[n];
      assert PaidAmount(qs) == PaidAmount(qs[..n]) + Counted(qs[n]);
      PaidAppend(ps, qs[..n]);
    } else {
      assert ps + qs == ps;
    }
  }

  /** The paid amount does not depend on the order the payments are read in. */
  lemma {:induction false} PaidPermutation(ps: seq<Payment>, qs: seq<Payment>)
    requires multiset(ps) == multiset(qs)
    ensures PaidAmount(ps) == PaidAmount(qs)
    decreases |ps|
  {
    if ps != [] {
      var n := |ps| - 1;
      var last := ps[n];
      assert last in multiset(qs);
      var j :| 0 <= j < |qs| && qs[j] == last;
      var rest := qs[..j] + qs[j + 1..];
      assert qs == qs[..j] + [qs[j]] + qs[j + 1..];
      assert ps == ps[..n] + [last];
      assert multiset(ps) == multiset(ps[..n]) + multiset{last};
      assert multiset(ps[..n]) == multiset(ps) - multiset{last};
      assert multiset(qs) == multiset(qs[..j]) + multiset{last} + multiset(qs[j + 1..]);
      assert multiset(rest) == multiset(qs[..j]) + multiset(qs[j + 1..]);
      assert multiset(ps[..n]) == multiset(rest);
      PaidPermutation(ps[..n], rest);
      PaidAppend(qs[..j] + [qs[j]], qs[j + 1..]);
      PaidAppend(qs[..j], [qs[j]]);
      PaidAppend(qs[..j], qs[j + 1..]);
      assert [qs[j]][..0] == [];
    }
  }

  /** `get_remaining_amount`: what is left to pay, never below zero. */
  function Remaining(total: real, paid: real): (r: real)
    ensures r >= 0.0 && r >= total - paid
    ensures r == 0.0 || r == total - paid
    ensures paid >= 0.0 && total >= 0.0 ==> r <= total
    ensures r == 0.0 <==> paid >= total
  {
    if total - paid > 0.0 then total - paid else 0.0
  }

  /** Recording one more confirmed payment never raises the remaining amount. */
  lemma RemainingShrinks(total: real, paid: real, amount: real)
    requires amount >= 0.0
    ensures Remaining(total, paid + amount) <= Remaining(total, paid)
  {
  }

  /** `payment_percentage`: paid over total, as a percentage rounded to hundredths; zero when the
      total is not positive. */
  function Percentage(paid: real, total: real): (r: real)
    ensures total <= 0.0 ==> r == 0.0
    ensures total > 0.0 && 0.0 <= paid <= total ==> 0.0 <= r <= 100.0
    ensures total > 0.0 && paid == total ==> r == 100.0
  {
    if total > 0.0 then
      var pct := paid / total * 100.0;
      PercentBounds(paid, total);
      Rounding.Round2Exact(100.0);
      if 0.0 <= paid <= total then Rounding.Round2Between(pct, 0.0, 100.0); Rounding.Round2(pct)
      else Rounding.Round2(pct)
    else
      Rounding.Round2Exact(0.0);
      Rounding.Round2(0.0)
  }

  lemma PercentBounds(paid: real, total: real)
    requires total > 0.0
    ensures 0.0 <= paid <= total ==> 0.0 <= paid / total * 100.0 <= 100.0
    ensures paid == total ==> paid / total * 100.0 == 100.0
  {
    var q := paid / total;
    assert q * total == paid;
    if 0.0 <= paid <= total {
      assert 0.0 <= q <= 1.0;
    }
  }

  /** A run of non-negative amounts has paid a non-negative total. */
  lemma {:induction false} PaidNonNegative(ps: seq<Payment>)
    requires forall i :: 0 <= i < |ps| ==> ps[i].amount >= 0.0
    ensures PaidAmount(ps) >= 0.0
  {
    if ps != [] {
      PaidNonNegative(ps[..|ps| - 1]);
    }
  }

  /** The task counts of a workspace: `total_tasks`, `completed_tasks`, `pending_tasks` (to do or
      in progress) and `overdue_tasks`. */
  datatype TaskCounts = TaskCounts(total: nat, completed: nat, pending: nat, overdue: nat)

  /** The tasks of workspace `wsid` whose status is one of `statuses`. */
  function TasksIn(w: World, wsid: Id, statuses: set<TaskStatus>): set<Id> {
    set k | k in w.tasks && w.tasks[k].workspace == wsid && w.tasks[k].status in statuses
  }

  function CountTasks(w: World, wsid: Id): (r: TaskCounts)
    ensures r.total == |TasksIn(w, wsid, {Todo, InProgress, TaskStatus.Completed, Overdue})|
    ensures r.completed == |TasksIn(w, wsid, {TaskStatus.Completed})|
    ensures r.pending == |TasksIn(w, wsid, {Todo, InProgress})|
    ensures r.overdue == |TasksIn(w, wsid, {Overdue})|
    ensures r.completed + r.pending + r.overdue == r.total
  {
    var all := TasksIn(w, wsid, {Todo, InProgress, TaskStatus.Completed, Overdue});
    var done := TasksIn(w, wsid, {TaskStatus.Completed});
    var open := TasksIn(w, wsid, {Todo, InProgress});
    var late := TasksIn(w, wsid, {Overdue});
    StatusesPartition(w, wsid, {TaskStatus.Completed}, {Todo, InProgress});
    StatusesPartition(w, wsid, {TaskStatus.Completed, Todo, InProgress}, {Overdue});
    assert {TaskStatus.Completed} + {Todo, InProgress} == {TaskStatus.Completed, Todo, InProgress};
    assert {TaskStatus.Completed, Todo, InProgress} + {Overdue} == {Todo, InProgress, TaskStatus.Completed, Overdue};
    TaskCounts(|all|, |done|, |open|, |late|)
  }

  /** Tasks counted under two disjoint sets of statuses are counted once under their union. */
  lemma StatusesPartition(w: World, wsid: Id, a: set<TaskStatus>, b: set<TaskStatus>)
    requires a !! b
    ensures |TasksIn(w, wsid, a + b)| == |TasksIn(w, wsid, a)| + |TasksIn(w, wsid, b)|
  {
    assert TasksIn(w, wsid, a + b) == TasksIn(w, wsid, a) + TasksIn(w, wsid, b);
    assert TasksIn(w, wsid, a) !! TasksIn(w, wsid, b);
  }

  /** One point of the payment chart: a confirmed payment's date and amount, and the total paid
      up to and including it. */
  datatype Point = Point(date: Time, amount: real, cumulative: real)

  /** The confirmed payments among `ps`, in the same order. */
  function Confirmed(ps: seq<Payment>): (cs: seq<Payment>)
    ensures |cs| <= |ps|
    ensures forall i :: 0 <= i < |cs| ==> cs[i].status == PaymentConfirmed && cs[i] in ps
  {
    if ps == [] then []
    else Confirmed(ps[..|ps| - 1]) + (if ps[|ps| - 1].status == PaymentConfirmed then [ps[|ps| - 1]] else [])
  }

  /** Dropping the unconfirmed payments leaves the paid amount as it is. */
  lemma {:induction false} PaidOfConfirmed(ps: seq<Payment>)
    ensures PaidAmount(Confirmed(ps)) == PaidAmount(ps)
  {
    if ps != [] {
      var n := |ps| - 1;
      PaidOfConfirmed(ps[..n]);
      var tail := if ps[n].status == PaymentConfirmed then [ps[n]] else [];
      PaidAppend(Confirmed(ps[..n]), tail);
      if tail != [] {
        assert tail[..0] == [];
      }
    }
  }

  /** The chart loop of `payment_stats`: one point per confirmed payment of `ps` (listed in
      creation order), each carrying the paid amount up to and including it. With non-negative
      amounts the curve never goes down, and its last point is the paid amount. */
  method Timeline(ps: seq<Payment>) returns (timeline: seq<Point>)
    ensures |timeline| == |Confirmed(ps)|
    ensures forall i :: 0 <= i < |timeline| ==>
      timeline[i].amount == Confirmed(ps)[i].amount && timeline[i].date == Confirmed(ps)[i].createdAt &&
      timeline[i].cumulative == PaidAmount(Confirmed(ps)[..i + 1])
    ensures |timeline| > 0 ==> timeline[|timeline| - 1].cumulative == PaidAmount(ps)
    ensures (forall i :: 0 <= i < |ps| ==> ps[i].amount >= 0.0) ==>
      forall i, j :: 0 <= i <= j < |timeline| ==> timeline[i].cumulative <= timeline[j].cumulative
  {
    var cs := Confirmed(ps);
    timeline := [];
    var cumulative := 0.0;
    var i := 0;
    while i < |cs|
      invariant 0 <= i <= |cs| && |timeline| == i
      invariant cumulative == PaidAmount(cs[..i])
      invariant forall k :: 0 <= k < i ==>
        timeline[k].amount == cs[k].amount && timeline[k].date == cs[k].createdAt &&
        timeline[k].cumulative == PaidAmount(cs[..k + 1])
    {
      PaidStep(cs, i);
      cumulative := cumulative + cs[i].amount;
      timeline := timeline + [Point(cs[i].createdAt, cs[i].amount, cumulative)];
      i := i + 1;
    }
    assert cs[..|cs|] == cs;
    PaidOfConfirmed(ps);
    if forall k :: 0 <= k < |ps| ==> ps[k].amount >= 0.0 {
      ConfirmedNonNegative(ps);
      ChartRises(cs, timeline);
    }
  }

  /** With non-negative amounts, a later point of the chart has paid at least as much. */
  lemma ChartRises(cs: seq<Payment>, timeline: seq<Point>)
    requires |timeline| == |cs|
    requires forall k :: 0 <= k < |cs| ==> cs[k].amount >= 0.0
    requires forall k :: 0 <= k < |timeline| ==> timeline[k].cumulative == PaidAmount(cs[..k + 1])
    ensures forall i, j :: 0 <= i <= j < |timeline| ==> timeline[i].cumulative <= timeline[j].cumulative
  {
    forall i, j | 0 <= i <= j < |timeline|
      ensures timeline[i].cumulative <= timeline[j].cumulative
    {
      var gap := cs[i + 1..j + 1];
      assert cs[..j + 1] == cs[..i + 1] + gap;
      PaidAppend(cs[..i + 1], gap);
      forall k | 0 <= k < |gap| ensures gap[k].amount >= 0.0 {
        assert gap[k] == cs[i + 1 + k];
      }
      PaidNonNegative(gap);
    }
  }

  /** One more payment adds what it counts for. */
  lemma PaidStep(cs: seq<Payment>, i: nat)
    requires i < |cs|
    ensures PaidAmount(cs[..i + 1]) == PaidAmount(cs[..i]) + Counted(cs[i])
  {
    assert cs[..i + 1][..i] == cs[..i];
  }

  /** The confirmed payments of a run with non-negative amounts have non-negative amounts. */
  lemma ConfirmedNonNegative(ps: seq<Payment>)
    requires forall k :: 0 <= k < |ps| ==> ps[k].amount >= 0.0
    ensures forall k :: 0 <= k < |Confirmed(ps)| ==> Confirmed(ps)[k].amount >= 0.0
  {
    forall k | 0 <= k < |Confirmed(ps)| ensures Confirmed(ps)[k].amount >= 0.0 {
      assert Confirmed(ps)[k] in ps;
    }
  }

  /** `ids` lists exactly the payments of workspace `wsid`, each once, ordered by creation time
      (the order `order_by('created_at')` gives; the database orders ties as it likes). */
  ghost predicate ListsPayments(w: World, wsid: Id, ids: seq<Id>) {
    (forall i :: 0 <= i < |ids| ==> ids[i] in w.payments && w.payments[ids[i]].workspace == wsid) &&
    (forall k :: k in w.payments && w.payments[k].workspace == wsid ==> k in ids) &&
    (forall i, j :: 0 <= i < j < |ids| ==> ids[i] != ids[j]) &&
    (forall i, j :: 0 <= i < j < |ids| ==> w.payments[ids[i]].createdAt <= w.payments[ids[j]].createdAt)
  }

  /** The payment rows `ids` names, in that order. */
  function Rows(w: World, ids: seq<Id>): (ps: seq<Payment>)
    requires forall i :: 0 <= i < |ids| ==> ids[i] in w.payments
    ensures |ps| == |ids| && forall i :: 0 <= i < |ids| ==> ps[i] == w.payments[ids[i]]
  {
    if ids == [] then [] else [w.payments[ids[0]]] + Rows(w, ids[1..])
  }

  /** `payment_stats`: a user who is not a party of the workspace's contract gets 404 from
      `get_object`. Otherwise the contract amount, the paid and remaining amounts, the paid
      percentage, the number of confirmed payments and the chart timeline, all read from the
      workspace's own payments. */
  method PaymentStats(w: World, user: UserId, wsid: Id, ids: seq<Id>)
    returns (status: Status, timeline: seq<Point>, total: real, paid: real, remaining: real, percentage: real, count: nat)
    requires ListsPayments(w, wsid, ids)
    ensures status == NotFound || status == Ok
    ensures status == NotFound <==> !(WorkspaceJoins(w, wsid) && IsParty(ContractOf(w, wsid), user))
    ensures status == NotFound ==> timeline == [] && count == 0
    ensures status == Ok ==> var ps := Rows(w, ids);
      total == TotalAmount(w, w.workspaces[wsid].contract) && paid == PaidAmount(ps) &&
      remaining == Remaining(total, paid) && percentage == Percentage(paid, total) &&
      count == |Confirmed(ps)| == |timeline| &&
      (forall i :: 0 <= i < |timeline| ==>
        timeline[i].amount == Confirmed(ps)[i].amount && timeline[i].date == Confirmed(ps)[i].createdAt &&
        timeline[i].cumulative == PaidAmount(Confirmed(ps)[..i + 1])) &&
      (|timeline| > 0 ==> timeline[|timeline| - 1].cumulative == paid) &&
      ((forall i :: 0 <= i < |ps| ==> ps[i].amount >= 0.0) ==>
        forall i, j :: 0 <= i <= j < |timeline| ==> timeline[i].cumulative <= timeline[j].cumulative)
  {
    if !(WorkspaceJoins(w, wsid) && IsParty(ContractOf(w, wsid), user)) {
      return NotFound, [], 0.0, 0.0, 0.0, 0.0, 0;
    }
    var ps := Rows(w, ids);
    status := Ok;
    total := TotalAmount(w, w.workspaces[wsid].contract);
    paid := PaidAmount(ps);
    remaining := Remaining(total, paid);
    percentage := Percentage(paid, total);
    timeline := Timeline(ps);
    count := |Confirmed(ps)|;
  }

  /** The paid amount is the same whichever order the database puts equal creation times in:
      two listings of the workspace's payments report the same paid amount. */
  lemma PaidIgnoresTies(w: World, wsid: Id, ids: seq<Id>, ids': seq<Id>)
    requires ListsPayments(w, wsid, ids) && ListsPayments(w, wsid, ids')
    ensures PaidAmount(Rows(w, ids)) == PaidAmount(Rows(w, ids'))
  {
    SameIds(w, wsid, ids, ids');
    RowsPermutation(w, ids, ids');
    PaidPermutation(Rows(w, ids), Rows(w, ids'));
  }

  /** Over a database whose payments are all sound (as the payment endpoint keeps them), the
      workspace's payments have amounts of at least zero, so the chart never goes down and the
      paid amount is at least zero. */
  lemma SoundPaymentsRise(w: World, wsid: Id, ids: seq<Id>)
    requires WorkspaceViews.PaymentsSound(w) && ListsPayments(w, wsid, ids)
    ensures forall i :: 0 <= i < |Rows(w, ids)| ==> Rows(w, ids)[i].amount >= 0.0
    ensures PaidAmount(Rows(w, ids)) >= 0.0
  {
    var ps := Rows(w, ids);
    forall i | 0 <= i < |ps|
      ensures ps[i].amount >= 0.0
    {
      assert ps[i] == w.payments[ids[i]];
      assert ValidAmount(w.payments[ids[i]].amount);
    }
    PaidNonNegative(ps);
  }

  /** A sequence without repeats holds each value at most once. */
  lemma {:induction false} DistinctCount(s: seq<Id>, x: Id)
    requires forall i, j :: 0 <= i < j < |s| ==> s[i] != s[j]
    ensures multiset(s)[x] == if x in s then 1 else 0
  {
    if s != [] {
      var t := s[1..];
      assert s == [s[0]] + t;
      assert forall k :: 0 <= k < |t| ==> t[k] == s[k + 1];
      DistinctCount(t, x);
      if x == s[0] {
        assert x !in t;
      }
    }
  }

  /** Two listings of the same workspace's payments name the same ids. */
  lemma SameIds(w: World, wsid: Id, ids: seq<Id>, ids': seq<Id>)
    requires ListsPayments(w, wsid, ids) && ListsPayments(w, wsid, ids')
    ensures multiset(ids) == multiset(ids')
  {
    forall x
      ensures multiset(ids)[x] == multiset(ids')[x]
    {
      DistinctCount(ids, x);
      DistinctCount(ids', x);
    }
  }

  /** Every id of `ids` names a stored payment. */
  predicate AllStored(w: World, ids: seq<Id>) {
    forall i :: 0 <= i < |ids| ==> ids[i] in w.payments
  }

  /** Rows read in a permuted order are a permutation of the rows. */
  lemma {:induction false} RowsPermutation(w: World, ids: seq<Id>, ids': seq<Id>)
    requires AllStored(w, ids) && AllStored(w, ids')
    requires multiset(ids) == multiset(ids')
    ensures multiset(Rows(w, ids)) == multiset(Rows(w, ids'))
    decreases |ids|
  {
    if ids != [] {
      var x := ids[0];
      assert x in multiset(ids');
      var j :| 0 <= j < |ids'| && ids'[j] == x;
      var rest := Splice(w, ids, ids', j);
      RowsPermutation(w, ids[1..], rest);
      var a, b := Rows(w, ids'[..j]), Rows(w, ids'[j + 1..]);
      var px := w.payments[x];
      assert Rows(w, ids') == a + [px] + b by { RowsAround(w, ids', j); }
      assert Rows(w, rest) == a + b by { RowsAppend(w, ids'[..j], ids'[j + 1..]); }
      assert Rows(w, ids) == [px] + Rows(w, ids[1..]);
      var tail := Rows(w, ids[1..]);
      assert multiset(tail) == multiset(a) + multiset(b);
      assert multiset([px] + tail) == multiset{px} + multiset(tail);
      assert multiset(a + [px] + b) == multiset(a) + multiset{px} + multiset(b);
    }
  }

  /** `ids'` without its entry `j`, which is `ids`' first: what is left matches the rest of
      `ids`, and names stored payments. */
  lemma Splice(w: World, ids: seq<Id>, ids': seq<Id>, j: nat) returns (rest: seq<Id>)
    requires AllStored(w, ids) && AllStored(w, ids')
    requires ids != [] && j < |ids'| && ids'[j] == ids[0] && multiset(ids) == multiset(ids')
    ensures rest == ids'[..j] + ids'[j + 1..]
    ensures multiset(ids[1..]) == multiset(rest)
    ensures AllStored(w, rest) && AllStored(w, ids[1..]) && AllStored(w, ids'[..j]) && AllStored(w, ids'[j + 1..])
  {
    var x := ids[0];
    rest := ids'[..j] + ids'[j + 1..];
    assert ids' == ids'[..j] + [x] + ids'[j + 1..];
    assert ids == [x] + ids[1..];
    assert multiset(ids) == multiset{x} + multiset(ids[1..]);
    assert multiset(ids') == multiset(ids'[..j]) + multiset{x} + multiset(ids'[j + 1..]);
    assert multiset(ids[1..]) == multiset(ids) - multiset{x};
    forall i | 0 <= i < |rest| ensures rest[i] in w.payments {
      if i < j { assert rest[i] == ids'[i]; } else { assert rest[i] == ids'[i + 1]; }
    }
    forall i | 0 <= i < |ids[1..]| ensures ids[1..][i] in w.payments {
      assert ids[1..][i] == ids[i + 1];
    }
    var after := ids'[j + 1..];
    forall i | 0 <= i < |after| ensures after[i] in w.payments {
      assert after[i] == ids'[j + 1 + i];
    }
  }

  /** The rows of `ids` around its entry `j`. */
  lemma RowsAround(w: World, ids: seq<Id>, j: nat)
    requires AllStored(w, ids) && j < |ids|
    requires AllStored(w, ids[..j]) && AllStored(w, ids[j + 1..])
    ensures Rows(w, ids) == Rows(w, ids[..j]) + [w.payments[ids[j]]] + Rows(w, ids[j + 1..])
  {
    var a, b := Rows(w, ids[..j]), Rows(w, ids[j + 1..]);
    var r := a + [w.payments[ids[j]]] + b;
    forall i | 0 <= i < |ids| ensures Rows(w, ids)[i] == r[i] {
      if i < j { assert r[i] == a[i]; }
      else if i > j { assert r[i] == b[i - j - 1]; assert ids[j + 1..][i - j - 1] == ids[i]; }
    }
  }

  lemma RowsAppend(w: World, a: seq<Id>, b: seq<Id>)
    requires AllStored(w, a) && AllStored(w, b)
    ensures AllStored(w, a + b)
    ensures Rows(w, a + b) == Rows(w, a) + Rows(w, b)
  {
    forall i | 0 <= i < |a + b| ensures (a + b)[i] in w.payments {
      if i < |a| { assert (a + b)[i] == a[i]; } else { assert (a + b)[i] == b[i - |a|]; }
    }
  }
}

=== FILE: workspace_views.dfy ===
/** The workspace endpoints (workspaces/views.py): marking an engagement complete, tasks and
    their comments, logged payments and payment requests. Each endpoint finds its row through a
    queryset restricted to the parties of the workspace's contract, so a stranger gets 404. */
module WorkspaceViews {
  import opened Wrappers
  import opened Accounts
  import opened Contracts
  import opened Workspaces
  import opened Tasks
  import opened Payments
  import opened Notices
  import opened Store
  import WorkspaceSignals
  import Text

  /** The workspace queryset: the workspace exists and the user is its contract's client or
      freelancer. */
  predicate VisibleWorkspace(w: World, user: UserId, wsid: Id) {
    WorkspaceJoins(w, wsid) && IsParty(ContractOf(w, wsid), user)
  }

  /** `check_and_complete`: the first time a workspace is fully completed its completion time is
      recorded and its contract is set completed (unless it already is) and saved. Nothing else
      changes: no project or job status, no notification, no other workspace. */
  function CheckAndComplete(w: World, wsid: Id, now: Time): (r: World)
    requires Valid(w) && WorkspaceJoins(w, wsid)
    ensures Valid(r) && WorkspaceJoins(r, wsid)
    ensures var cid := w.workspaces[wsid].contract;
      var stamped := IsFullyCompleted(w.workspaces[wsid]) && w.workspaces[wsid].completedAt.None?;
      r == w.(workspaces := w.workspaces[wsid := StampCompletion(w.workspaces[wsid], now)],
              contracts := if stamped then w.contracts[cid := w.contracts[cid].(status := ContractStatus.Completed)] else w.contracts)
  {
    var ws := w.workspaces[wsid];
    if IsFullyCompleted(ws) && ws.completedAt.None? then
      var w1 := w.(workspaces := w.workspaces[wsid := ws.(completedAt := Some(now))]);
      assert HasWorkspace(w1, ws.contract) by { assert w1.workspaces[wsid].contract == ws.contract; }
      CompleteContract(w1, ws.contract)
    else w
  }

  /** The contract half of `check_and_complete`: the contract is set completed and saved unless
      it already is; it has a workspace, so the workspace signal adds nothing. */
  function CompleteContract(w: World, cid: Id): (r: World)
    requires Valid(w) && cid in w.contracts && HasWorkspace(w, cid)
    ensures r == w.(contracts := w.contracts[cid := w.contracts[cid].(status := ContractStatus.Completed)])
  {
    if w.contracts[cid].status != ContractStatus.Completed then
      WorkspaceSignals.SaveContract(w, cid, w.contracts[cid].(status := ContractStatus.Completed))
    else
      assert w.contracts[cid := w.contracts[cid].(status := ContractStatus.Completed)] == w.contracts;
      w
  }

  /** Once a workspace has a completion time, `check_and_complete` changes nothing. */
  lemma CheckAndCompleteOnce(w: World, wsid: Id, now: Time)
    requires Valid(w) && WorkspaceJoins(w, wsid) && w.workspaces[wsid].completedAt.Some?
    ensures CheckAndComplete(w, wsid, now) == w
  {
  }

  /** `mark_complete`: the contract's client marks the client side (the client branch wins when
      one user holds both roles), the freelancer the freelancer side; marking a side already
      marked is a 400 that changes nothing. The workspace is saved and `check_and_complete` runs.
      Then the other party is told, and when both sides are marked both parties are told. A
      notification for a party the contract does not record fails on the non-null `user` column:
      the request ends in a server error after everything before it has been saved. */
  function MarkComplete(w: World, user: UserId, wsid: Id, now: Time): (r: (World, Status))
    requires Valid(w)
    ensures r.1 == NotFound <==> !VisibleWorkspace(w, user, wsid)
    ensures r.1 == BadRequest <==> (VisibleWorkspace(w, user, wsid) &&
      (if ContractOf(w, wsid).client == Some(user) then w.workspaces[wsid].clientMarked else w.workspaces[wsid].freelancerMarked))
    ensures r.1 == NotFound || r.1 == BadRequest ==> r.0 == w
    ensures r.1 != NotFound && r.1 != BadRequest ==> r.1 == Ok || r.1 == ServerError
    ensures Valid(r.0)
    ensures r.0.projects == w.projects && r.0.jobs == w.jobs && r.0.proposals == w.proposals && r.0.applications == w.applications
    ensures r.0.workspaces.Keys == w.workspaces.Keys && r.0.contracts.Keys == w.contracts.Keys
    ensures forall k :: k in w.workspaces && k != wsid ==> r.0.workspaces[k] == w.workspaces[k]
    ensures r.1 == Ok || r.1 == ServerError ==> MarkedBy(w, r.0, user, wsid, now)
    ensures r.1 == Ok <==> (VisibleWorkspace(w, user, wsid) && r.1 != BadRequest &&
      var c := ContractOf(w, wsid);
      (if c.client == Some(user) then c.freelancer.Some? else c.client.Some?) &&
      (IsFullyCompleted(r.0.workspaces[wsid]) ==> c.client.Some? && c.freelancer.Some?))
    ensures r.1 == Ok ==> var c := ContractOf(w, wsid);
      var other := if c.client == Some(user) then c.freelancer.value else c.client.value;
      var marker := if c.client == Some(user) then "Client" else "Freelancer";
      r.0.notes == w.notes + [Notification(other, WorkspaceKind, "Workspace Completion Confirmation", marker)] +
        (if IsFullyCompleted(r.0.workspaces[wsid]) then CompletedNotes(c.client.value, c.freelancer.value) else [])
  {
    if !VisibleWorkspace(w, user, wsid) then (w, NotFound)
    else
      var ws := w.workspaces[wsid];
      var asClient := ContractOf(w, wsid).client == Some(user);
      if (asClient && ws.clientMarked) || (!asClient && ws.freelancerMarked) then (w, BadRequest)
      else
        var w1 := ApplyMark(w, user, wsid, now);
        NotifyMarked(w1, ContractOf(w, wsid), asClient, IsFullyCompleted(w1.workspaces[wsid]))
  }

  /** The saving half of `mark_complete`: the user's side is marked, the workspace saved and
      `check_and_complete` run; no notification yet. */
  function ApplyMark(w: World, user: UserId, wsid: Id, now: Time): (r: World)
    requires Valid(w) && VisibleWorkspace(w, user, wsid)
    requires !(if ContractOf(w, wsid).client == Some(user) then w.workspaces[wsid].clientMarked else w.workspaces[wsid].freelancerMarked)
    ensures Valid(r) && WorkspaceJoins(r, wsid)
    ensures r.workspaces.Keys == w.workspaces.Keys && r.contracts.Keys == w.contracts.Keys
    ensures MarkedBy(w, r, user, wsid, now)
    ensures forall k :: k in w.workspaces && k != wsid ==> r.workspaces[k] == w.workspaces[k]
    ensures r.projects == w.projects && r.jobs == w.jobs && r.proposals == w.proposals && r.applications == w.applications
    ensures r.notes == w.notes
  {
    var ws := w.workspaces[wsid];
    var marked := if ContractOf(w, wsid).client == Some(user) then ws.(clientMarked := true) else ws.(freelancerMarked := true);
    CheckAndComplete(w.(workspaces := w.workspaces[wsid := marked]), wsid, now)
  }

  /** The notifying half of `mark_complete`: the other party of contract `c` is told which side
      was marked, then, when the workspace is fully completed, the client and the freelancer are
      told. The first notification for a party `c` does not record fails, and the ones after it
      are not attempted. Only notifications are added. */
  function NotifyMarked(w: World, c: Contract, asClient: bool, fully: bool): (r: (World, Status))
    ensures r.1 == Ok || r.1 == ServerError
    ensures r.0 == w.(notes := r.0.notes)
    ensures r.1 == Ok <==> (if asClient then c.freelancer.Some? else c.client.Some?) && (fully ==> c.client.Some? && c.freelancer.Some?)
    ensures r.1 == Ok ==> var other := if asClient then c.freelancer.value else c.client.value;
      r.0.notes == w.notes + [Notification(other, WorkspaceKind, "Workspace Completion Confirmation", if asClient then "Client" else "Freelancer")] +
        (if fully then CompletedNotes(c.client.value, c.freelancer.value) else [])
  {
    var (w2, sent) := NotifyNullable(w, if asClient then c.freelancer else c.client, WorkspaceKind,
                                     "Workspace Completion Confirmation", if asClient then "Client" else "Freelancer");
    if !sent then (w2, ServerError)
    else if !fully then (w2, Ok)
    else
      var (w3, sentClient) := NotifyNullable(w2, c.client, WorkspaceKind, "Workspace Completed!", "");
      if !sentClient then (w3, ServerError)
      else
        var (w4, sentFreelancer) := NotifyNullable(w3, c.freelancer, WorkspaceKind, "Workspace Completed!", "");
        (w4, if sentFreelancer then Ok else ServerError)
  }

  /** The "Workspace Completed!" notifications, client first. */
  function CompletedNotes(client: UserId, freelancer: UserId): seq<Notification> {
    [Notification(client, WorkspaceKind, "Workspace Completed!", ""), Notification(freelancer, WorkspaceKind, "Workspace Completed!", "")]
  }

  /** The effect of a mark that got past the checks: the user's side is marked, the other side is
      as it was, the completion time is recorded the first time both sides are marked and never
      replaced, and the contract is completed exactly then. */
  ghost predicate MarkedBy(w: World, r: World, user: UserId, wsid: Id, now: Time)
    requires VisibleWorkspace(w, user, wsid) && wsid in r.workspaces && w.workspaces[wsid].contract in r.contracts
  {
    var before := w.workspaces[wsid];
    var after := r.workspaces[wsid];
    var c := ContractOf(w, wsid);
    var cid := before.contract;
    var asClient := c.client == Some(user);
    after.contract == cid &&
    (asClient ==> after.clientMarked && after.freelancerMarked == before.freelancerMarked) &&
    (!asClient ==> after.freelancerMarked && after.clientMarked == before.clientMarked) &&
    (before.completedAt.Some? ==> after.completedAt == before.completedAt) &&
    (before.completedAt.None? ==> (after.completedAt == Some(now) <==> IsFullyCompleted(after)) && (after.completedAt.None? <==> !IsFullyCompleted(after))) &&
    r.contracts == (if before.completedAt.None? && IsFullyCompleted(after) then w.contracts[cid := c.(status := ContractStatus.Completed)] else w.contracts)
  }

  /** Marking the same side twice is refused the second time, and the refusal changes nothing. */
  lemma {:induction false} MarkTwiceRefused(w: World, user: UserId, wsid: Id, t1: Time, t2: Time)
    requires Valid(w)
    requires MarkComplete(w, user, wsid, t1).1 == Ok
    ensures var r1 := MarkComplete(w, user, wsid, t1).0;
      MarkComplete(r1, user, wsid, t2) == (r1, BadRequest)
  {
    var r1 := MarkComplete(w, user, wsid, t1).0;
    assert MarkedBy(w, r1, user, wsid, t1);
    var cid := w.workspaces[wsid].contract;
    assert r1.workspaces[wsid].contract == cid;
    assert r1.contracts[cid].client == w.contracts[cid].client && r1.contracts[cid].freelancer == w.contracts[cid].freelancer;
    assert VisibleWorkspace(r1, user, wsid);
  }

  /** Bilateral completion: on a fresh workspace whose contract records two different parties,
      the client's mark does not complete it and the freelancer's later mark does, stamping the
      time of that second mark and completing the contract. */
  lemma {:induction false} SecondMarkCompletes(w: World, wsid: Id, client: UserId, freelancer: UserId, t1: Time, t2: Time)
    requires Valid(w) && WorkspaceJoins(w, wsid)
    requires ContractOf(w, wsid).client == Some(client) && ContractOf(w, wsid).freelancer == Some(freelancer) && client != freelancer
    requires w.workspaces[wsid] == NewWorkspace(w.workspaces[wsid].contract)
    ensures var (r1, s1) := MarkComplete(w, client, wsid, t1);
      var (r2, s2) := MarkComplete(r1, freelancer, wsid, t2);
      s1 == Ok && r1.workspaces[wsid].completedAt.None? && r1.contracts == w.contracts &&
      s2 == Ok && r2.workspaces[wsid].completedAt == Some(t2) &&
      r2.contracts[w.workspaces[wsid].contract].status == ContractStatus.Completed
  {
    var (r1, s1) := MarkComplete(w, client, wsid, t1);
    assert MarkedBy(w, r1, client, wsid, t1);
    assert ContractOf(r1, wsid) == ContractOf(w, wsid);
    var (r2, s2) := MarkComplete(r1, freelancer, wsid, t2);
    assert MarkedBy(r1, r2, freelancer, wsid, t2);
  }

  // ---------------------------------------------------------------------------------------------
  // Tasks

  /** The task queryset: the task's workspace is visible to the user. */
  predicate VisibleTask(w: World, user: UserId, tid: Id) {
    tid in w.tasks && VisibleWorkspace(w, user, w.tasks[tid].workspace)
  }

  /** Task creation (`WorkspaceTaskCreateSerializer` and `perform_create`): the workspace must
      exist and the user must be a party, the title must fit the model's `CharField`, a status
      or priority sent must be one of the choices and a deadline sent must parse, else 400. The
      task is stored with its title trimmed, created by the user, always assigned to the
      contract's freelancer (none when the contract records none), with the requested status
      or todo and the requested priority or medium, and saved under the task rule. The
      freelancer is told when it is not the user who created the task. */
  function CreateTask(w: World, user: UserId, wsid: Id, title: string, status: Option<string>,
                      priority: Option<string>, deadline: DeadlineField, now: Time): (r: (World, Status))
    requires Valid(w)
    ensures r.1 == Ok || r.1 == BadRequest
    ensures r.1 == BadRequest <==>
      !VisibleWorkspace(w, user, wsid) || !TitleFits(title) || !ChoicesRead(status, priority) || deadline.BadDeadline?
    ensures r.1 == BadRequest ==> r.0 == w
    ensures r.1 == Ok ==> Valid(r.0) && r.0.nextId == w.nextId + 1 && r.0.tasks.Keys == w.tasks.Keys + {w.nextId}
    ensures r.1 == Ok ==> var t := r.0.tasks[w.nextId];
      t.workspace == wsid && t.title == Text.Trim(title) && t.createdBy == user &&
      t.assignedTo == ContractOf(w, wsid).freelancer &&
      t.deadline == (if deadline.Deadline? then Some(deadline.at) else None) &&
      (priority.None? ==> t.priority == Medium) &&
      (priority.Some? ==> PriorityName(t.priority) == priority.value) &&
      t == SaveTask(t.(status := StatusSent(status), completedAt := None), now)
    ensures r.1 == Ok ==> forall k :: k in w.tasks ==> r.0.tasks[k] == w.tasks[k]
    ensures r.1 == Ok ==> var f := ContractOf(w, wsid).freelancer;
      r.0.notes == w.notes + (if f.Some? && f.value != user then [Notification(f.value, WorkspaceKind, "New Task Assigned", Text.Trim(title))] else [])
    ensures r.0.workspaces == w.workspaces && r.0.contracts == w.contracts && r.0.payments == w.payments && r.0.requests == w.requests
  {
    if !VisibleWorkspace(w, user, wsid) || !TitleFits(title) || !ChoicesRead(status, priority) || deadline.BadDeadline? then
      (w, BadRequest)
    else
      var f := ContractOf(w, wsid).freelancer;
      var t := SaveTask(Task(wsid, Text.Trim(title), user, f, StatusSent(status), PrioritySent(priority),
                             if deadline.Deadline? then Some(deadline.at) else None, None), now);
      var w1 := InsertTask(w, t);
      if f.Some? && f.value != user then (Notify(w1, f.value, WorkspaceKind, "New Task Assigned", t.title), Ok)
      else (w1, Ok)
  }

  /** A stored task belongs to a workspace whose contract exists, is assigned to that
      contract's freelancer, and has a title the serializer would take again as it is. */
  ghost predicate TaskSound(w: World, tid: Id)
    requires tid in w.tasks
  {
    var t := w.tasks[tid];
    WorkspaceJoins(w, t.workspace) && t.assignedTo == ContractOf(w, t.workspace).freelancer &&
    TitleFits(t.title) && Text.Trim(t.title) == t.title
  }

  ghost predicate TasksSound(w: World) {
    forall tid :: tid in w.tasks ==> TaskSound(w, tid)
  }

  /** Creating a task keeps every task sound: the new one is assigned to the freelancer and its
      stored title is already trimmed and fits. */
  lemma CreateTaskKeepsSound(w: World, user: UserId, wsid: Id, title: string, status: Option<string>,
                             priority: Option<string>, deadline: DeadlineField, now: Time)
    requires Valid(w) && TasksSound(w)
    ensures TasksSound(CreateTask(w, user, wsid, title, status, priority, deadline, now).0)
  {
    var (r, st) := CreateTask(w, user, wsid, title, status, priority, deadline, now);
    if st == Ok {
      var t := r.tasks[w.nextId];
      Text.TrimIdempotent(title);
      assert t.title == Text.Trim(title);
      assert ContractOf(r, wsid) == ContractOf(w, wsid);
      assert TaskSound(r, w.nextId);
      forall tid | tid in r.tasks
        ensures TaskSound(r, tid)
      {
        if tid in w.tasks {
          assert r.tasks[tid] == w.tasks[tid] && TaskSound(w, tid);
        }
      }
    }
  }

  /** `update_status`: only the contract's freelancer may change a task's status (403 for the
      client); the requested status must be one of the four choices (400); the task is then
      saved under the task rule. A requested `completed` notifies the client, and a contract
      without a client makes that notification fail after the task was saved. */
  function UpdateTaskStatus(w: World, user: UserId, tid: Id, requested: string, now: Time): (r: (World, Status))
    requires Valid(w)
    ensures r.1 == NotFound <==> !VisibleTask(w, user, tid)
    ensures r.1 == Forbidden <==> VisibleTask(w, user, tid) && ContractOf(w, w.tasks[tid].workspace).freelancer != Some(user)
    ensures r.1 == BadRequest <==> (VisibleTask(w, user, tid) && ContractOf(w, w.tasks[tid].workspace).freelancer == Some(user) &&
      ParseStatus(requested).None?)
    ensures r.1 == NotFound || r.1 == Forbidden || r.1 == BadRequest ==> r.0 == w
    ensures r.1 == Ok || r.1 == ServerError ==> Valid(r.0) && r.0.tasks == w.tasks[tid := SaveTask(w.tasks[tid].(status := ParseStatus(requested).value), now)]
    ensures r.1 == ServerError ==> requested == "completed" && ContractOf(w, w.tasks[tid].workspace).client.None? && r.0.notes == w.notes
    ensures r.1 == Ok && requested != "completed" ==> r.0.notes == w.notes
    ensures r.1 == Ok && requested == "completed" ==> (ContractOf(w, w.tasks[tid].workspace).client.Some? &&
      r.0.notes == w.notes + [Notification(ContractOf(w, w.tasks[tid].workspace).client.value, WorkspaceKind, "Task Completed", w.tasks[tid].title)])
    ensures r.0.workspaces == w.workspaces && r.0.contracts == w.contracts && r.0.nextId == w.nextId
  {
    if !VisibleTask(w, user, tid) then (w, NotFound)
    else
      var t := w.tasks[tid];
      var c := ContractOf(w, t.workspace);
      if c.freelancer != Some(user) then (w, Forbidden)
      else match ParseStatus(requested)
        case None => (w, BadRequest)
        case Some(s) =>
          var w1 := w.(tasks := w.tasks[tid := SaveTask(t.(status := s), now)]);
          if s != TaskStatus.Completed then (w1, Ok)
          else
            var (w2, sent) := NotifyNullable(w1, c.client, WorkspaceKind, "Task Completed", t.title);
            (w2, if sent then Ok else ServerError)
  }

  /** `add_comment`: a missing or empty comment is a 400. The comment is stored; the other party
      (the client when the freelancer comments, else the freelancer) is told, unless that is the
      commenter; a party the contract does not record makes the notification fail after the
      comment was stored. */
  function AddComment(w: World, user: UserId, tid: Id, text: Option<string>): (r: (World, Status))
    requires Valid(w)
    ensures r.1 == NotFound <==> !VisibleTask(w, user, tid)
    ensures r.1 == BadRequest <==> VisibleTask(w, user, tid) && (text.None? || text.value == "")
    ensures r.1 == NotFound || r.1 == BadRequest ==> r.0 == w
    ensures r.1 == Ok || r.1 == ServerError ==> (Valid(r.0) && r.0.nextId == w.nextId + 1 &&
      r.0.comments == w.comments[w.nextId := Comment(tid, user, text.value)] && r.0.tasks == w.tasks)
    ensures r.1 == Ok ==> var c := ContractOf(w, w.tasks[tid].workspace);
      var other := if c.freelancer == Some(user) then c.client else c.freelancer;
      other.Some? &&
      r.0.notes == w.notes + (if other.value != user then [Notification(other.value, WorkspaceKind, "New Comment on Task", w.tasks[tid].title)] else [])
    ensures r.1 == ServerError ==> r.0.notes == w.notes
    ensures r.0.workspaces == w.workspaces && r.0.contracts == w.contracts
  {
    if !VisibleTask(w, user, tid) then (w, NotFound)
    else if text.None? || text.value == "" then (w, BadRequest)
    else
      var t := w.tasks[tid];
      var c := ContractOf(w, t.workspace);
      var w1 := InsertComment(w, Comment(tid, user, text.value));
      var other := if c.freelancer == Some(user) then c.client else c.freelancer;
      if other == Some(user) then (w1, Ok)
      else
        var (w2, sent) := NotifyNullable(w1, other, WorkspaceKind, "New Comment on Task", t.title);
        (w2, if sent then Ok else ServerError)
  }

  /** Changing a task's status keeps every task sound: the save rule touches only the status
      and the completion time. */
  lemma UpdateTaskStatusKeepsSound(w: World, user: UserId, tid: Id, requested: string, now: Time)
    requires Valid(w) && TasksSound(w)
    ensures TasksSound(UpdateTaskStatus(w, user, tid, requested, now).0)
  {
    var r := UpdateTaskStatus(w, user, tid, requested, now).0;
    forall k | k in r.tasks
      ensures TaskSound(r, k)
    {
      assert TaskSound(w, k);
    }
  }

  /** Every stored comment is on an existing task, by a party of that task's contract. */
  ghost predicate CommentsSound(w: World) {
    forall k :: k in w.comments ==> VisibleTask(w, w.comments[k].user, w.comments[k].task)
  }

  /** Commenting keeps every comment with the parties: only a user who sees the task can add
      one, and tasks, workspaces and contracts are left as they were. */
  lemma AddCommentKeepsSound(w: World, user: UserId, tid: Id, text: Option<string>)
    requires Valid(w) && CommentsSound(w)
    ensures CommentsSound(AddComment(w, user, tid, text).0)
  {
    var r := AddComment(w, user, tid, text).0;
    forall k | k in r.comments
      ensures VisibleTask(r, r.comments[k].user, r.comments[k].task)
    {
      if k in w.comments {
        assert r.comments[k] == w.comments[k];
      }
    }
  }

  // ---------------------------------------------------------------------------------------------
  // Payments

  /** The payment queryset: the payment's workspace is visible to the user. */
  predicate VisiblePayment(w: World, user: UserId, pid: Id) {
    pid in w.payments && VisibleWorkspace(w, user, w.payments[pid].workspace)
  }

  /** Logging a payment (`PaymentTransactionCreateSerializer.validate_workspace`, the amount's
      decimal field, `perform_create`): only the contract's client may log one, and the amount
      must be one the decimal column takes (both 400). The payment is paid by the client,
      received by the contract's freelancer, pending and unconfirmed; a contract without a
      freelancer makes the insert fail on the non-null `received_by` column, and nothing is
      stored. */
  function CreatePayment(w: World, user: UserId, wsid: Id, amount: Option<real>, now: Time): (r: (World, Status))
    requires Valid(w)
    ensures r.1 == Ok || r.1 == BadRequest || r.1 == ServerError
    ensures r.1 == BadRequest <==> !WorkspaceJoins(w, wsid) || ContractOf(w, wsid).client != Some(user) || !AmountTaken(amount)
    ensures r.1 == ServerError <==> r.1 != BadRequest && ContractOf(w, wsid).freelancer.None?
    ensures r.1 != Ok ==> r.0 == w
    ensures r.1 == Ok ==> (Valid(r.0) && r.0.nextId == w.nextId + 1 &&
      r.0.payments == w.payments[w.nextId := Payment(wsid, amount.value, user, ContractOf(w, wsid).freelancer.value, PaymentPending, false, None, now)] &&
      r.0.notes == w.notes + [Notification(ContractOf(w, wsid).freelancer.value, PaymentKind, "Payment Logged", "")])
    ensures r.0.workspaces == w.workspaces && r.0.contracts == w.contracts && r.0.tasks == w.tasks && r.0.requests == w.requests
  {
    if !WorkspaceJoins(w, wsid) || ContractOf(w, wsid).client != Some(user) || !AmountTaken(amount) then (w, BadRequest)
    else
      var f := ContractOf(w, wsid).freelancer;
      if f.None? then (w, ServerError)
      else
        var w1 := InsertPayment(w, Payment(wsid, amount.value, user, f.value, PaymentPending, false, None, now));
        (Notify(w1, f.value, PaymentKind, "Payment Logged", ""), Ok)
  }

  /** Every stored payment is paid by its contract's client to its contract's freelancer, for
      an amount the decimal column takes. */
  ghost predicate PaymentsSound(w: World) {
    forall pid :: pid in w.payments ==>
      WorkspaceJoins(w, w.payments[pid].workspace) && ValidAmount(w.payments[pid].amount) &&
      ContractOf(w, w.payments[pid].workspace).client == Some(w.payments[pid].paidBy) &&
      ContractOf(w, w.payments[pid].workspace).freelancer == Some(w.payments[pid].receivedBy)
  }

  /** Logging a payment keeps every payment sound. */
  lemma CreatePaymentKeepsSound(w: World, user: UserId, wsid: Id, amount: Option<real>, now: Time)
    requires Valid(w) && PaymentsSound(w)
    ensures PaymentsSound(CreatePayment(w, user, wsid, amount, now).0)
  {
    var r := CreatePayment(w, user, wsid, amount, now).0;
    forall pid | pid in r.payments
      ensures WorkspaceJoins(r, r.payments[pid].workspace) && ValidAmount(r.payments[pid].amount) &&
        ContractOf(r, r.payments[pid].workspace).client == Some(r.payments[pid].paidBy) &&
        ContractOf(r, r.payments[pid].workspace).freelancer == Some(r.payments[pid].receivedBy)
    {
      if pid in w.payments {
        assert r.payments[pid] == w.payments[pid];
      }
    }
  }

  /** `confirm`: only the payment's recipient may confirm it (403) and only once (400); the
      payment is confirmed and the payer is told. */
  function ConfirmReceipt(w: World, user: UserId, pid: Id, now: Time): (r: (World, Status))
    requires Valid(w)
    ensures r.1 == NotFound <==> !VisiblePayment(w, user, pid)
    ensures r.1 == Forbidden <==> VisiblePayment(w, user, pid) && w.payments[pid].receivedBy != user
    ensures r.1 == BadRequest <==> VisiblePayment(w, user, pid) && w.payments[pid].receivedBy == user && w.payments[pid].freelancerConfirmed
    ensures r.1 != Ok ==> r.0 == w
    ensures r.1 == Ok ==> (Valid(r.0) && r.0.payments == w.payments[pid := ConfirmPayment(w.payments[pid], now)] &&
      r.0.payments[pid].status == PaymentConfirmed && r.0.payments[pid].confirmedAt == Some(now) &&
      r.0.notes == w.notes + [Notification(w.payments[pid].paidBy, PaymentKind, "Payment Confirmed", "")])
    ensures r.0.workspaces == w.workspaces && r.0.contracts == w.contracts && r.0.nextId == w.nextId
  {
    if !VisiblePayment(w, user, pid) then (w, NotFound)
    else
      var p := w.payments[pid];
      if p.receivedBy != user then (w, Forbidden)
      else if p.freelancerConfirmed then (w, BadRequest)
      else
        var w1 := w.(payments := w.payments[pid := ConfirmPayment(p, now)]);
        (Notify(w1, p.paidBy, PaymentKind, "Payment Confirmed", ""), Ok)
  }

  /** Confirming keeps every payment sound: amount, parties and workspace never change. */
  lemma ConfirmReceiptKeepsSound(w: World, user: UserId, pid: Id, now: Time)
    requires Valid(w) && PaymentsSound(w)
    ensures PaymentsSound(ConfirmReceipt(w, user, pid, now).0)
  {
  }

  /** A confirmed payment stays confirmed: a second confirmation is refused and changes nothing. */
  lemma {:induction false} ConfirmOnce(w: World, user: UserId, pid: Id, t1: Time, t2: Time)
    requires Valid(w) && ConfirmReceipt(w, user, pid, t1).1 == Ok
    ensures var r1 := ConfirmReceipt(w, user, pid, t1).0;
      ConfirmReceipt(r1, user, pid, t2) == (r1, BadRequest)
  {
  }

  // ---------------------------------------------------------------------------------------------
  // Payment requests

  /** The payment-request queryset: the request's workspace is visible to the user. */
  predicate VisibleRequest(w: World, user: UserId, rid: Id) {
    rid in w.requests && VisibleWorkspace(w, user, w.requests[rid].workspace)
  }

  /** Creating a payment request as the view is written: the serializer's checks (the workspace
      exists, the amount fits the decimal column) give 400. `perform_create` then returns a 403
      response for a user who is not the contract's freelancer, but the framework discards what
      `perform_create` returns and goes on to render the serializer, which was never saved: its
      `freelancer_name` method then reads `freelancer` off the validated data, a plain mapping,
      and the request fails with a server error, nothing stored. */
  function CreateRequestAsWritten(w: World, user: UserId, wsid: Id, amount: Option<real>): (r: (World, Status))
    requires Valid(w)
    ensures r.1 == Ok || r.1 == BadRequest || r.1 == ServerError
    ensures r.1 == BadRequest <==> !WorkspaceJoins(w, wsid) || !AmountTaken(amount)
    ensures r.1 != BadRequest && ContractOf(w, wsid).freelancer != Some(user) ==> r == (w, ServerError)
    ensures r.1 != BadRequest && ContractOf(w, wsid).freelancer == Some(user) ==> r == CreateRequest(w, user, wsid, amount)
  {
    if !WorkspaceJoins(w, wsid) || !AmountTaken(amount) then (w, BadRequest)
    else if ContractOf(w, wsid).freelancer != Some(user) then (w, ServerError)
    else CreateRequest(w, user, wsid, amount)
  }

  /** Creating a payment request with the refusal the view evidently intends: a user who is not
      the contract's freelancer gets 403 and nothing is stored. The request is pending, from the
      freelancer; the client is told, and a contract without a client makes that notification
      fail after the request was stored. */
  function CreateRequest(w: World, user: UserId, wsid: Id, amount: Option<real>): (r: (World, Status))
    requires Valid(w)
    ensures r.1 == BadRequest <==> !WorkspaceJoins(w, wsid) || !AmountTaken(amount)
    ensures r.1 == Forbidden <==> WorkspaceJoins(w, wsid) && AmountTaken(amount) && ContractOf(w, wsid).freelancer != Some(user)
    ensures r.1 == BadRequest || r.1 == Forbidden ==> r.0 == w
    ensures r.1 == Ok || r.1 == ServerError ==> (Valid(r.0) && r.0.nextId == w.nextId + 1 &&
      r.0.requests == w.requests[w.nextId := PaymentRequest(wsid, user, amount.value, RequestPending)])
    ensures r.1 == Ok ==> (ContractOf(w, wsid).client.Some? &&
      r.0.notes == w.notes + [Notification(ContractOf(w, wsid).client.value, PaymentKind, "Payment Request", "")])
    ensures r.1 == ServerError ==> ContractOf(w, wsid).client.None? && r.0.notes == w.notes
    ensures r.0.workspaces == w.workspaces && r.0.contracts == w.contracts && r.0.payments == w.payments
  {
    if !WorkspaceJoins(w, wsid) || !AmountTaken(amount) then (w, BadRequest)
    else if ContractOf(w, wsid).freelancer != Some(user) then (w, Forbidden)
    else
      var w1 := InsertRequest(w, PaymentRequest(wsid, user, amount.value, RequestPending));
      var (w2, sent) := NotifyNullable(w1, ContractOf(w, wsid).client, PaymentKind, "Payment Request", "");
      (w2, if sent then Ok else ServerError)
  }

  /** The refusal is lost: a client asking for a payment on their own workspace gets a server
      error instead of the 403 the intended endpoint answers; neither stores anything. */
  lemma {:induction false} RequestRefusalLost(w: World, client: UserId, wsid: Id, amount: real)
    requires Valid(w) && WorkspaceJoins(w, wsid) && ValidAmount(amount)
    requires ContractOf(w, wsid).client == Some(client) && ContractOf(w, wsid).freelancer != Some(client)
    ensures CreateRequestAsWritten(w, client, wsid, Some(amount)) == (w, ServerError)
    ensures CreateRequest(w, client, wsid, Some(amount)) == (w, Forbidden)
  {
  }

  /** Every stored payment request comes from its contract's freelancer, for an amount the
      decimal column takes. */
  ghost predicate RequestsSound(w: World) {
    forall rid :: rid in w.requests ==>
      WorkspaceJoins(w, w.requests[rid].workspace) && ValidAmount(w.requests[rid].amount) &&
      ContractOf(w, w.requests[rid].workspace).freelancer == Some(w.requests[rid].freelancer)
  }

  /** The corrected endpoint keeps every request sound: only the freelancer's requests are
      stored. The endpoint as written keeps it too, since its lost refusal stores nothing. */
  lemma CreateRequestKeepsSound(w: World, user: UserId, wsid: Id, amount: Option<real>)
    requires Valid(w) && RequestsSound(w)
    ensures RequestsSound(CreateRequest(w, user, wsid, amount).0)
    ensures RequestsSound(CreateRequestAsWritten(w, user, wsid, amount).0)
  {
    var r := CreateRequest(w, user, wsid, amount).0;
    forall rid | rid in r.requests
      ensures WorkspaceJoins(r, r.requests[rid].workspace) && ValidAmount(r.requests[rid].amount) &&
        ContractOf(r, r.requests[rid].workspace).freelancer == Some(r.requests[rid].freelancer)
    {
      if rid in w.requests {
        assert r.requests[rid] == w.requests[rid];
      }
    }
  }

  /** `approve` and `reject`: only the contract's client may decide (403), only a pending request
      can be decided (400); the request takes the decision and its freelancer is told. */
  function Decide(w: World, user: UserId, rid: Id, approve: bool): (r: (World, Status))
    requires Valid(w)
    ensures r.1 == NotFound <==> !VisibleRequest(w, user, rid)
    ensures r.1 == Forbidden <==> VisibleRequest(w, user, rid) && ContractOf(w, w.requests[rid].workspace).client != Some(user)
    ensures r.1 == BadRequest <==> (VisibleRequest(w, user, rid) && ContractOf(w, w.requests[rid].workspace).client == Some(user) &&
      w.requests[rid].status != RequestPending)
    ensures r.1 != Ok ==> r.0 == w
    ensures r.1 == Ok ==> (Valid(r.0) &&
      r.0.requests == w.requests[rid := w.requests[rid].(status := if approve then RequestApproved else RequestRejected)] &&
      r.0.notes == w.notes + [Notification(w.requests[rid].freelancer, PaymentKind,
                                           if approve then "Payment Request Approved" else "Payment Request Rejected", "")])
    ensures r.0.payments == w.payments && r.0.workspaces == w.workspaces && r.0.contracts == w.contracts && r.0.nextId == w.nextId
  {
    if !VisibleRequest(w, user, rid) then (w, NotFound)
    else
      var q := w.requests[rid];
      if ContractOf(w, q.workspace).client != Some(user) then (w, Forbidden)
      else if q.status != RequestPending then (w, BadRequest)
      else
        var w1 := w.(requests := w.requests[rid := q.(status := if approve then RequestApproved else RequestRejected)]);
        (Notify(w1, q.freelancer, PaymentKind, if approve then "Payment Request Approved" else "Payment Request Rejected", ""), Ok)
  }

  /** A request is decided at most once: after an approval or a rejection, neither decision is
      accepted again, and a decided request never returns to pending. */
  lemma {:induction false} DecideOnce(w: World, user: UserId, rid: Id, first: bool, second: bool)
    requires Valid(w) && Decide(w, user, rid, first).1 == Ok
    ensures var r1 := Decide(w, user, rid, first).0;
      r1.requests[rid].status != RequestPending && Decide(r1, user, rid, second) == (r1, BadRequest)
  {
  }
}

=== FILE: workspaces.dfy ===
/** The workspace of a signed contract (workspaces/models.py `Workspace`): each party marks the
    engagement complete, and the workspace records when both have. */
module Workspaces {
  import opened Wrappers

  datatype Workspace = Workspace(contract: Id, clientMarked: bool, freelancerMarked: bool, completedAt: Option<Time>)

  /** The row `Workspace.objects.create(contract=...)` writes: nobody has marked it complete. */
  function NewWorkspace(contract: Id): (ws: Workspace)
    ensures ws.contract == contract && !ws.clientMarked && !ws.freelancerMarked && ws.completedAt.None?
  {
    Workspace(contract, false, false, None)
  }

  /** `is_fully_completed`: both parties have marked the workspace complete. */
  predicate IsFullyCompleted(ws: Workspace) {
    ws.clientMarked && ws.freelancerMarked
  }

  /** The workspace half of `check_and_complete`: the first time both parties have marked it,
      the completion time is recorded; a recorded time is never replaced. */
  function StampCompletion(ws: Workspace, now: Time): (r: Workspace)
    ensures r == ws.(completedAt := r.completedAt)
    ensures ws.completedAt.Some? ==> r.completedAt == ws.completedAt
    ensures ws.completedAt.None? ==> (r.completedAt == Some(now) <==> IsFullyCompleted(ws)) && (r.completedAt.None? <==> !IsFullyCompleted(ws))
  {
    if IsFullyCompleted(ws) && ws.completedAt.None? then ws.(completedAt := Some(now)) else ws
  }
}

=== FILE: wrappers.dfy ===
/** Failure-carrying wrappers shared by every module of the model. */
module Wrappers {

  /** A nullable value: a nullable foreign key, an absent form field, a failed parse. */
  datatype Option<+T> = None | Some(value: T)

  /** A computation that either produces a value or fails with an error. */
  datatype Result<+R, +E> = Success(value: R) | Failure(error: E)

  /** Primary key of a database row. */
  type Id = nat

  /** A point in time, as a count of seconds; `now` is always a parameter. */
  type Time = int

  /** The outcome of a REST view. `Ok` covers 200 and 201; `ServerError` is the 500 a
      violated database constraint produces when a view does not catch it. */
  datatype Status = Ok | BadRequest | Forbidden | NotFound | ServerError
}
